=== FILE: README.md ===
# Advent of Code 2023 solutions, modelled in Dafny

This project models the Rust solutions in the `aoc-2023` repository: the shared
two-dimensional `Grid`, the `SymbolTable` that interns names into dense ids, and the
puzzle logic of days 1, 3, 5, 7, 10–16 and 18–23. Each day is one Dafny module
(`Day1` … `Day23`; day 19's parsing lives in `Day19Input`), built on three shared
modules:

- `Text`: the `Option` type that stands for the program's panics and parse failures,
  `str::lines`, splitting and joining, and the small number and tag recognisers the
  `nom` parsers are built from, each written directly over `seq<char>`;
- `Grids`: `Grid::new`, `at`, `at_mut`, `parse`, `iter` and the `Display` rendering;
- `Symbols`: `SymbolTable::new`, `get` and `len`.

Every operation is a pure function over immutable values, or a method whose loop is
related to a functional reference definition (the day 16 beam worklist, the day 20
pulse queue, the day 21 breadth-first search, the day 22 settling, the day 23 depth
first search). A panic in the program (an `unwrap` on `None`, an index out of range,
an arithmetic overflow in a fixed-width integer) is `None` in the model; where a
member excludes such input by a precondition instead, `## Left out` names it. Fixed-width integers are
unbounded `nat`/`int` with their limits (`U8_MAX`, `U16_MAX`, `U32_MAX`, `U64_MAX`)
written out where the program relies on them. Walks that end only on well-formed
puzzle input take a `fuel` bound.

## Model

| member | source | states |
|---|---|---|
| Grids.New | src/grid.rs:9-16 | every cell of a new `w` by `h` grid holds the default element, and the grid is rectangular |
| Grids.Set | src/grid.rs:22-24 | writing through `at_mut` changes exactly the addressed cell and keeps the shape |
| Grids.Parse | src/grid.rs:26-33 | a parsed grid has one row per input line, and its width is the first line's length |
| Grids.ParseValid | src/grid.rs:26-33 | a parsed grid is rectangular exactly when every line is as long as the first |
| Grids.IterRowMajor | src/grid.rs:35-37 | iteration yields `w * h` cells, and the cell at `(x, y)` comes at position `y * w + x` |
| Grids.IterIndex | src/grid.rs:35-37 | the `i`-th iterated cell is the one at `(i % w, i / w)` |
| Grids.CountIter | src/grid.rs:35-37 | counting the iterated cells that pass a filter counts the coordinates whose cell passes |
| Grids.Display | src/grid.rs:55-65 | displaying a character grid writes each row's characters followed by a newline |
| Grids.ParseDisplay | src/grid.rs:26-65 | a rectangular grid without newline cells parses back from its own display |
| Symbols.New | src/symbol_table.rs:8-14 | a new table is empty, valid, and has length 0 |
| Symbols.Get | src/symbol_table.rs:16-25 | a known symbol keeps its id and leaves the table unchanged; a new one gets the next id; validity is kept |
| Symbols.GetIdempotent | src/symbol_table.rs:16-25 | asking for the same symbol twice returns the same id and changes nothing the second time |
| Symbols.GetAllFromNew | src/symbol_table.rs:16-29 | interning a list into a new table gives exactly its distinct symbols the ids `0 .. n - 1` |
| Symbols.GetAllKeys | src/symbol_table.rs:16-25 | interning adds exactly the given symbols to the table's keys |
| Symbols.GetAllValid | src/symbol_table.rs:16-25 | interning any list keeps the table valid |
| Text.Lines | src/grid.rs:27-30 | empty text has no lines, any other text has at least one, and no line holds a newline (a `\r` before a newline is dropped) |
| Text.LinesUnlines | src/grid.rs:27-30 | joining lines without newlines, each followed by a newline, and splitting them again gives back the lines |
| Day1.Digits | src/day1.rs:11 | the decimal digits of a line are all at most 9, and there is one exactly when the line holds a digit character |
| Day1.DigitsFirst | src/day1.rs:11-12 | the first digit of a line is the value of its leftmost digit character |
| Day1.DigitsLast | src/day1.rs:11-13 | the last digit of a line is the value of its rightmost digit character |
| Day1.LeadingDigit | src/day1.rs:36-50 | a leading ASCII digit is read as its value; otherwise a spelled-out word `one` .. `nine` the text starts with, and `None` exactly when no word matches |
| Day1.WordAt | src/day1.rs:44-48 | the search over the words from index `k` on returns the first word the text starts with, or `None` when none does |
| Day1.WordsPrefixFree | src/day1.rs:1-3 | no two of the words `one` .. `nine` can both start the same text, so the search order does not matter |
| Day1.LeadingWord | src/day1.rs:36-50 | a text that starts with a spelled-out word yields that word's digit |
| Day1.SpelledDigits | src/day1.rs:22-29 | the digits `part2` collects are all at most 9, and there is one exactly when a digit or a word starts at some position of the line |
| Day1.FoundUpToShift | src/day1.rs:22-29 | what is found at the positions of a line is what is found at its first position followed by what is found at the positions of the rest |
| Day1.SpelledFound | src/day1.rs:22-29 | the digits `part2` collects are, in position order, what `leading_digit` finds at each position of the line where it finds something |
| Day1.SpelledFirst | src/day1.rs:22-30 | the first digit used is the one at the leftmost position where a digit or a word starts |
| Day1.SpelledLast | src/day1.rs:22-30 | the last digit used is the one at the rightmost position where a digit or a word starts |
| Day1.SpelledIsDigits | src/day1.rs:9-34 | on a line without spelled-out words, `part2` finds exactly the digits of `part1` |
| Day1.DigitsInSpelled | src/day1.rs:9-34 | `part2` finds at least as many digits as `part1`, and at least one whenever the line holds a digit character |
| Day1.PartsAgree | src/day1.rs:9-34 | without spelled-out words, the two parts give the same sum |
| Day1.Overlapping | src/day1.rs:20-50 | overlapping words both count: `twone` yields 2 and then 1, so its value is 21 |
| Day3.NumbersExact | src/day3.rs:8-35 | the numbers the column scan of a row collects are exactly its maximal digit runs with their decimal values, each once, left to right |
| Day3.ScanExact | src/day3.rs:13-35 | from any scanner state, the rest of the scan yields exactly the maximal runs from the open number (or the current column) on, in order |
| Day3.ScanExtend | src/day3.rs:22-25 | a digit inside an open number extends its value by one decimal place |
| Day3.ScanOpen | src/day3.rs:16-21 | a digit outside a number opens one with that digit's value at that column |
| Day3.ScanOther | src/day3.rs:15-30 | a non-digit closes the open number at that column, or is skipped outside one |
| Day3.ScanAtEnd | src/day3.rs:33-35 | a number still open at the end of the row ends at the row's length |
| Day3.RunUnique | src/day3.rs:13-35 | two maximal digit runs that start in the same column are the same number |
| Day3.RowWindow | src/day3.rs:59-65 | a symbol in the column window `st .. ed` of a neighbouring row is a symbol in columns `start - 1 .. end` of that row |
| Day3.HasAdjacentTouches | src/day3.rs:47-73 | with the bound `end < len`, the check holds exactly when some cell around the number holds a symbol |
| Day3.AdjacentTouches | src/day3.rs:47-73 | what the corrected check accepts is touched by a symbol |
| Day3.TouchesAdjacent | src/day3.rs:47-73 | a number touched by a symbol is accepted by the corrected check |
| Day3.RowSumTouched | src/day3.rs:37-41 | with the corrected check, a row contributes exactly the sum of its touched numbers |
| Day3.Part1Touched | src/day3.rs:5-45 | with the corrected check, `part1` is the sum, over all rows, of the maximal digit runs a symbol touches |
| Day3.DiagonalExample | src/day3.rs:103-108 | the input `*...` above `.123` sums to 123, with either version of the check |
| Day3.SameRowMissed | src/day3.rs:56 | as written, the symbol directly after the number in `12*` is missed, though it touches the number |
| Day3.DiagonalMissed | src/day3.rs:60-64 | as written, the symbol diagonally after the number in `...*` above `123.` is missed, though it touches the number |
| Day5.Shift | src/day5.rs:32 | a covered value moves by `dst - src`, cast back to 32 bits; when the destination fits in 32 bits it lands at the same offset inside it |
| Day5.Apply | src/day5.rs:29-36 | the first covering range shifts the value; an uncovered value stays; the only failure is the `u32` addition `src + len` overflowing on a range with `src <= n` tried before the match, since the test short-circuits when `n < src` |
| Day5.ApplyBelowOverflow | src/day5.rs:31 | a value below the `src` of a range whose `src + len` would overflow passes through unchanged |
| Day5.ApplyMatched | src/day5.rs:29-36 | a value matched by a non-overflowing range lands inside that range's destination at the same offset |
| Day5.LocationDefined | src/day5.rs:16-19 | without an overflowing range, every value has a location through the mappings |
| Day5.LocationSnoc | src/day5.rs:17-19 | the mappings are applied in order: an extra mapping at the end is applied last |
| Day5.LocationsSpec | src/day5.rs:16-19 | the mapped list holds each seed's location in order, and is missing exactly when some seed's location is |
| Day5.Min | src/day5.rs:20 | the minimum of a non-empty list is one of its elements and at most every element |
| Day5.Lowest | src/day5.rs:16-20 | the result is the location of some seed and at most the location of every seed, and exists exactly when every seed has one |
| Day5.Seeds | src/day5.rs:53 | the seeds line reads at least one number |
| Day5.SeedTailFormat | src/day5.rs:53 | numbers written with single spaces read back, and the reading stops before a newline |
| Day5.TripleFormat | src/day5.rs:45-46 | a written range line `dst src len` reads back as that range |
| Day5.TripleTailFormat | src/day5.rs:42-48 | written range lines read back, and the list stops at a blank line or the end |
| Day5.ParseMapping | src/day5.rs:39-50 | a parsed mapping has at least one range and consumes input |
| Day5.MappingFormat | src/day5.rs:39-50 | a written mapping with its header reads back as that mapping, the header dropped |
| Day5.MappingTailFormat | src/day5.rs:55 | mappings separated by blank lines read back, all of them |
| Day5.Parse | src/day5.rs:52-57 | a parsed almanac has at least one seed |
| Day5.ParseFormat | src/day5.rs:52-57 | reading back a written almanac gives its seeds and mappings |
| Day5.Part1 | src/day5.rs:14-21 | the answer is the location of some seed and at most the location of every seed of the parsed almanac |
| Day7.CardValue | src/day7.rs:107-123 | a card is worth at most 14, and 0 exactly for `0`, for a wild `J`, and for an unknown character |
| Day7.CardsRanked | src/day7.rs:108-122 | the card characters `2` .. `A` are worth 2 .. 14 in ranking order, so no two share a value |
| Day7.JokerLowest | src/day7.rs:111-117 | with jokers wild, `J` is worth 0, below every other card, whose values are unchanged |
| Day7.Cards | src/day7.rs:105-124 | the hand is the first five characters' values, and a short line leaves the remaining cards 0 |
| Day7.WildThenEleven | src/day7.rs:111-117 | reading a hand with jokers wild and then making every joker 11 gives part 1's cards |
| Day7.Rank | src/day7.rs:40-49 | the hand types are ranked in declaration order, high card lowest and five of a kind highest |
| Day7.RankInjective | src/day7.rs:40-49 | distinct hand types have distinct ranks |
| Day7.Tally | src/day7.rs:55 | the counts map gives each non-joker value its number of occurrences, and jokers none |
| Day7.Top2Spec | src/day7.rs:60-61 | the pair taken from the counts is a largest count and a largest of the others |
| Day7.SortedTop2 | src/day7.rs:60-61 | the last two entries of any sorted arrangement of the counts are that same pair |
| Day7.HandTypeOf | src/day7.rs:52-59 | fewer than two distinct non-joker values is five of a kind |
| Day7.TypeOfSpread | src/day7.rs:60-69 | otherwise the type is the match on the largest count plus the jokers, and the next count |
| Day7.ClassifyMonotone | src/day7.rs:62-69 | the match table never ranks a lexicographically smaller (largest, next) pair above a larger one |
| Day7.JokersNoWorse | src/day7.rs:52-70 | turning every joker into any one real card value never gives a better type |
| Day7.JokersBest | src/day7.rs:52-70 | some real card value for the jokers gives exactly the type computed with jokers wild |
| Day7.WildNoWeaker | src/day7.rs:105-132 | a line read with jokers wild never has a weaker type than the same line read without |
| Day7.CompareNat | src/day7.rs:21-26 | comparing two card values gives `Less` or `Equal` exactly when the first is smaller or the values are equal |
| Day7.CompareCardsFlip | src/day7.rs:20-28 | comparing the cards the other way round flips the result |
| Day7.CompareCardsEqual | src/day7.rs:20-28 | card lists of one length compare `Equal` exactly when they are identical |
| Day7.CompareCardsTrans | src/day7.rs:20-28 | the card comparison is transitive |
| Day7.CmpFlip | src/day7.rs:13-30 | comparing hands the other way round flips the result |
| Day7.CmpEqual | src/day7.rs:13-30 | hands compare `Equal` exactly when type and cards agree |
| Day7.CmpTrans | src/day7.rs:13-30 | the hand order is transitive |
| Day7.LeqTotal | src/day7.rs:82 | any two entries are ordered one way or the other |
| Day7.LeqAntisymmetric | src/day7.rs:82 | two entries each at most the other are equal |
| Day7.LeqTransitive | src/day7.rs:82 | the order on (hand, bid) entries is transitive |
| Day7.Insert | src/day7.rs:82 | inserting adds exactly the one entry |
| Day7.InsertSorted | src/day7.rs:82 | inserting into a sorted list keeps it sorted |
| Day7.Sort | src/day7.rs:82 | sorting is a permutation of the entries |
| Day7.SortSorted | src/day7.rs:82 | the sorted entries are in ascending order |
| Day7.SortedUnique | src/day7.rs:82 | two sorted arrangements of the same entries are identical |
| Day7.WinningsOrderFree | src/day7.rs:82-88 | the total of bids times ranks does not depend on the order the entries came in |
| Day7.WinningsLast | src/day7.rs:83-87 | the strongest entry is paid its bid times the top rank |
| Day7.Skip | src/day7.rs:125 | skipping `n` characters leaves exactly the text after them, or nothing |
| Day7.ParseHand | src/day7.rs:105-132 | a parsed line has the line's five cards, their type, and a `u32` bid; a line of at most six characters fails |
| Day7.ParseFormatHand | src/day7.rs:105-132 | five cards, a space and a decimal bid read back as those cards, their type and that bid |
| Day7.ParseAll | src/day7.rs:78-81 | the lines' entries in order, or a failure exactly when some line fails |
| Day7.Solve | src/day7.rs:77-103 | either part fails exactly when some line fails to parse |
| Day7.SolveOrderFree | src/day7.rs:77-103 | reordering the input lines changes neither part's answer |
| Day10.DropNewlines | src/day10.rs:25-27 | the kept characters hold no newline |
| Day10.LastIndex | src/day10.rs:28-34 | the start index is the last `S`, or 0 when there is none |
| Day10.FromInput | src/day10.rs:22-44 | building the grid fails exactly when there is no first line or it is empty |
| Day10.Get | src/day10.rs:11-13 | a cell is read at flat index `y * w + x`, and reading fails exactly when that index is past the cells |
| Day10.StartIsLastS | src/day10.rs:24-37 | the start position holds an `S` and no later cell does |
| Day10.FlatLayout | src/day10.rs:11-13 | for a rectangular map written one row per line, the flat index reads row `y`, column `x` |
| Day10.Move | src/day10.rs:105-118 | a move changes the position by its direction's step, and fails exactly when a `usize` coordinate would go below zero |
| Day10.FollowPipeShapes | src/day10.rs:105-118 | the match table of `follow_pipe` is the pipe shapes: entering through one opening leaves through the other, and only those moves are accepted |
| Day10.EntryExit | src/day10.rs:105-118 | an accepted move enters through one opening of the pipe and leaves through the other |
| Day10.FollowPipeMoves | src/day10.rs:105-118 | the next position is a neighbour other than the one the walker came from |
| Day10.AcceptsOpensBack | src/day10.rs:60-66 | a neighbour of the start is accepted exactly when its pipe opens back towards the start |
| Day10.StartPipes | src/day10.rs:51-72 | each walker starts at the start and stands on an in-bounds neighbour whose pipe connects back |
| Day10.Advance | src/day10.rs:87-90 | a walker's new previous position is its old current one |
| Day10.TraceStep | src/day10.rs:87-90 | `n + 1` steps of a walker are one step and then `n` |
| Day10.WalkMeets | src/day10.rs:74-101 | the loop stops at the first round after which the walkers stand together or have just crossed, with the count raised by the rounds, one less after a crossing |
| Day10.MetShift | src/day10.rs:74-101 | meeting after `n + 1` rounds is meeting after `n` rounds of the advanced walkers |
| Day10.WalkEnoughFuel | src/day10.rs:74-101 | with enough rounds of fuel, the loop reaches the walkers' meeting |
| Day10.RunMeets | src/day10.rs:46-103 | the answer is the number of steps from the start at which the two walkers first meet, one less if they crossed between two cells |
| Day11.RowGalaxies | src/day11.rs:67-71 | the galaxies found in a row are exactly its `#` cells |
| Day11.Parse | src/day11.rs:63-77 | the universe's size is the first line's length by the line count, and its galaxies are exactly the `#` cells |
| Day11.Mark | src/day11.rs:13-17 | a row (column) is marked exactly when some galaxy lies on it |
| Day11.RemapAt | src/day11.rs:19-24 | the renumbering loop moves line `x` to `x` plus the empty lines up to and including it |
| Day11.Renumbering | src/day11.rs:19-32 | every line moves down by the number of empty lines at or before it |
| Day11.Expand | src/day11.rs:12-44 | expansion keeps one position per galaxy |
| Day11.MarksMeanOccupied | src/day11.rs:13-17 | the marks of a universe are exactly its occupied rows and columns |
| Day11.RenumberingIncreasing | src/day11.rs:19-32 | the renumbering is strictly increasing and stays within the expanded size |
| Day11.RenumberingGap | src/day11.rs:19-32 | between two lines the gap grows by the number of empty lines between them |
| Day11.ExpandShape | src/day11.rs:40-43 | the expanded map grows by the number of empty rows and columns, and still contains its galaxies |
| Day11.ExpandOrder | src/day11.rs:34-38 | expansion keeps the order of any two galaxies on both axes |
| Day11.ExpandGap | src/day11.rs:34-38 | each empty row between two galaxies adds one to their row distance |
| Day11.ManhattanMetric | src/day11.rs:59-61 | the distance is symmetric, zero exactly between equal points, and obeys the triangle inequality |
| Day11.OrderedSnoc | src/day11.rs:51-55 | the double loop over one more galaxy adds that galaxy's distances to all the others |
| Day11.OrderedTwice | src/day11.rs:51-56 | the sum over ordered pairs is twice the sum over unordered pairs |
| Day11.RowSymmetric | src/day11.rs:51-55 | the distances from one galaxy to a list sum to those from the list to it |
| Day11.Part1Unordered | src/day11.rs:47-57 | the answer is the sum of the distances over the unordered pairs of expanded galaxies |
| Day12.CountIsWays | src/day12.rs:64-115 | `count_combinations` is the number of ways to complete the unknown springs so that the damaged runs are exactly the groups, when every group is at least 1 |
| Day12.NoGroupsWays | src/day12.rs:73-80 | with no groups left, there is one completion if no spring is known damaged, and none otherwise |
| Day12.TooLongWays | src/day12.rs:81-83 | a first group longer than the row fits nowhere |
| Day12.GoodWays | src/day12.rs:101-114 | an operational first spring leaves the groups to the rest of the row |
| Day12.DamagedWays | src/day12.rs:85-100 | a damaged first spring must start the first group, which must fit the next `g` springs and be followed by one that is not damaged |
| Day12.BlockCompatible | src/day12.rs:86-90 | the group and its separator fit the known springs exactly when the program's two tests on the first group succeed |
| Day12.RunsFirstGroup | src/day12.rs:85-100 | a row starting damaged has runs equal to the groups exactly when it starts with exactly the first group and the rest after the separator has the remaining groups |
| Day12.PrefixWays | src/day12.rs:85-100 | fixing a prefix of the completion counts the rest when the prefix fits the known springs, and nothing otherwise |
| Day12.WaysNone | src/day12.rs:64-115 | a condition no completion meets is counted zero times |
| Day12.RunsEmpty | src/day12.rs:73-80 | a row has no damaged runs exactly when no spring in it is damaged |
| Day12.RunsBound | src/day12.rs:81-83 | no run is longer than the row |
| Day12.LeadRun | src/day12.rs:86-90 | the leading run of damaged springs is maximal |
| Day12.SmallCases | src/day12.rs:146-182 | the small cases: `#` with groups 1,3 has 0 arrangements; no springs and no groups 1; `#` with no groups 0; `.` with no groups 1; `##` with group 1 0 |
| Day12.Copies | src/day12.rs:30-39 | five copies joined by four unknown springs are `5 * n + 4` springs long |
| Day12.CopiesAt | src/day12.rs:30-39 | position `j` of the copied row is position `j mod (n + 1)` of the row, or a joining unknown spring |
| Day12.RepeatAt | src/day12.rs:40 | position `j` of the repeated groups is position `j mod |groups|` of the groups |
| Day12.UnfoldShape | src/day12.rs:28-43 | the unfolded record is five copies of the row joined by unknown springs, with the groups repeated five times |
| Day12.SpringChar | src/day12.rs:124-132 | writing a spring and reading the character back gives the spring |
| Day12.GroupList | src/day12.rs:122 | the group list reads at least one `u8` number, and reads exactly when the text starts with one |
| Day12.GroupListFormat | src/day12.rs:122 | a written comma-separated list of `u8` numbers reads back entirely |
| Day12.ParseLine | src/day12.rs:118-134 | a parsed line has at least one spring and at least one group |
| Day12.ParseFormat | src/day12.rs:118-134 | a record written in its textual form parses back to itself, with nothing left over |
| Day12.Records | src/day12.rs:21-25 | one record per input line |
| Day12.RunCounts | src/day12.rs:20-49 | each term of both sums counts the completions of its record, plain and unfolded, whose damaged runs are the groups |
| Day13.RowMask | src/day13.rs:14-20 | the mask of a line is below `2^len` |
| Day13.RowMaskBit | src/day13.rs:14-20 | bit `i` of a line's mask is set exactly when the line has a rock at index `i` |
| Day13.BitsEqual | src/day13.rs:47 | numbers with the same bits are equal |
| Day13.MaskEqual | src/day13.rs:47 | two lines have equal masks exactly when their rocks are in the same places |
| Day13.MaskBelow | src/day13.rs:17-18 | rocks only below index 64 keep a mask within `u64` |
| Day13.Column | src/day13.rs:12-19 | column `i` of a block has a rock in line `l` exactly when line `l` has one at index `i` |
| Day13.FromBlock | src/day13.rs:9-25 | a block builds a pattern only when it has lines and every rock is storable, and then the rows and columns are their masks |
| Day13.FromBlockBits | src/day13.rs:13-22 | bit `i` of row `l` and bit `l` of column `i` are set exactly for a rock at column `i` of line `l` |
| Day13.FromBlockFits | src/day13.rs:5-6 | every row and column mask fits in a `u64` |
| Day13.FirstMirror | src/day13.rs:41-53 | the search from `i` returns 0 or a line at or after `i` |
| Day13.Symmetry | src/day13.rs:40-54 | the mirror line is 0 or between 1 and the length |
| Day13.SymmetrySpec | src/day13.rs:40-54 | `find_symmetry` returns the first line across which the rows reflect as far as both sides reach, or 0 when there is none |
| Day13.SymmetryUnique | src/day13.rs:40-54 | there is only one first mirror line |
| Day13.FindSymmetry | src/day13.rs:40-54 | the nested loop with its labelled `continue` finds exactly that first mirror line |
| Day13.MirrorOfMasks | src/day13.rs:47 | comparing masks is comparing lines: the masks reflect exactly when the rocks do |
| Day13.ScoreDecodes | src/day13.rs:32-34 | in a block at most 100 wide the score holds both mirror lines separately |
| Day13.Blocks | src/day13.rs:56-67 | grouping lines always gives at least one block |
| Day13.BlocksCount | src/day13.rs:59-67 | there is one block more than there are empty lines |
| Day13.FoldGroup | src/day13.rs:62-65 | a run of non-empty lines adds its text, each line followed by a newline, to the newest block |
| Day13.BlocksOfGroups | src/day13.rs:56-67 | splitting groups of lines written with blank lines between them gives back one block per group |
| Day13.FromBlocks | src/day13.rs:69 | one pattern per block, or a failure exactly when some block fails |
| Day13.TrailingBlankFails | src/day13.rs:12 | an input whose last line is blank leaves an empty last block, on which building a pattern panics |
| Day13.Run | src/day13.rs:27-38 | the run fails exactly when parsing fails |
| Day14.Load | src/day14.rs:10-16 | a stack without round rocks has load 0 |
| Day14.ClosedIsSum | src/day14.rs:15 | the closed form `rows * n - n * start - n(n-1)/2` is the sum of the loads of rocks resting at rows `start` .. `start + n - 1` |
| Day14.LoadIsSum | src/day14.rs:10-16 | a stack that fits below its start has a load defined in `u32`, equal to the sum of its rocks' loads |
| Day14.StepStacks | src/day14.rs:31-39 | a column always has a newest stack for `O` to join |
| Day14.BlockStart | src/day14.rs:31-36 | the newest stack starts just below the last `#`, within the column |
| Day14.RocksInBlock | src/day14.rs:37-39 | the round rocks after the last `#` fit between it and the end of the column |
| Day14.ColumnLoad | src/day14.rs:21-42 | a column's stacks track the reference: the newest stack is the current block with its rocks, and together they carry the load of the column tilted north |
| Day14.ScanLineAt | src/day14.rs:30-40 | row `i` updates exactly the columns it has characters for |
| Day14.ScanRowsColumn | src/day14.rs:29-42 | scanning row by row builds each column's stacks |
| Day14.StackLoadsAreSums | src/day14.rs:45 | with fewer than 256 rows, every stack of a column has a defined load and their sum is the tilted load |
| Day14.FinalStacks | src/day14.rs:43-46 | after the whole scan, every stack fits the platform |
| Day14.ColumnTilt | src/day14.rs:43-46 | one column of the scan carries that column's tilted load |
| Day14.ColumnsTilt | src/day14.rs:43-46 | column by column, the loads summed by `run` are the tilted loads |
| Day14.Part1IsTiltLoad | src/day14.rs:19-49 | the answer is the total load on the north edge after tilting the platform north |
| Day15.Ascii | src/day15.rs:10 | the cast `c as u8` keeps a value below 256 |
| Day15.Step | src/day15.rs:10-13 | one round of the hash ends below 256 |
| Day15.Hash | src/day15.rs:8-16 | the hash of a non-empty text is below 256, and the hash of the empty text is the starting value |
| Day15.HashIsPolyMod | src/day15.rs:8-16 | reducing mod 256 after every round gives the same remainder as reducing once at the end |
| Day15.HashAppend | src/day15.rs:8-16 | hashing a concatenation continues from the hash of the first part |
| Day15.Part1 | src/day15.rs:3-6 | the total is at most 255 per comma-separated step |
| Day15.Part1Concat | src/day15.rs:3-6 | joining two step lists with a comma adds their totals |
| Day15.HashExample | src/day15.rs:27-30 | the hash of `HASH` is 52 |
| Text.Split | src/day15.rs:4 | splitting at a separator gives at least one piece, and no piece holds the separator |
| Text.JoinSplit | src/day15.rs:4 | joining the pieces with the separator gives back the text |
| Text.SplitJoin | src/day15.rs:4 | splitting pieces joined by the separator gives back the pieces, when none holds it |
| Text.SplitConcat | src/day15.rs:4 | splitting two texts joined by the separator gives the pieces of each in turn |
| Day16.Emit | src/day16.rs:80-110 | a tile emits at most two beams, and every emitted beam lies inside the grid |
| Day16.EmitOuts | src/day16.rs:80-110 | the guarded match arms, fall-through included, are the same as turning the beam by the tile's table and dropping beams that would leave the grid |
| Day16.OutsKinds | src/day16.rs:81-100 | empty space and a splitter met end-on pass the beam through; a splitter met side-on splits it both ways; any other character absorbs it |
| Day16.MirrorsReflect | src/day16.rs:101-108 | each mirror turns every direction into exactly one other direction, the two mirrors never agree, and each is its own inverse |
| Day16.BitsMark | src/day16.rs:75-78 | setting a direction bit sets exactly that bit and keeps the upper four bits clear |
| Day16.LowNonZero | src/day16.rs:112 | a bitset holding only direction bits is non-empty exactly when some direction was recorded |
| Day16.UnseenMark | src/day16.rs:73-78 | recording an unrecorded (tile, direction) pair strictly shrinks the set of pending pairs, so the worklist terminates |
| Day16.MarksMark | src/day16.rs:78 | after recording a beam, exactly that beam and those recorded before are recorded |
| Day16.ClosedComplete | src/day16.rs:69-111 | once the stack is empty and every successor of a recorded beam is recorded or stacked, every beam reachable from the start is recorded |
| Day16.PopSkip | src/day16.rs:70-77 | dropping an off-grid or already-recorded beam keeps every recorded beam's successors covered |
| Day16.PopMark | src/day16.rs:78-110 | recording the popped beam and pushing its successors keeps every recorded beam's successors covered |
| Day16.SoundMark | src/day16.rs:78-110 | recording the popped beam and pushing its successors records and stacks only beams reachable from the start |
| Day16.Visit | src/day16.rs:69-111 | one worklist round keeps the invariant and either records a new pair or shortens the stack |
| Day16.CountEnergized | src/day16.rs:65-113 | the recorded beams are exactly those reachable from the start, the non-empty bitsets are exactly the energized tiles, and the count is their number, at most width times height |
| Day16.BestOf | src/day16.rs:26-30 | the maximum energy over a non-empty list of starts, attained by one of them |
| Day16.Part2 | src/day16.rs:24-61 | the largest energy over every inward start on the four edges, attained by one of them |
| Day16.Run | src/day16.rs:16-63 | part 1 is the energy from the top-left corner heading East, part 2 the best energy over every edge start |
| Day18.ParseDir | src/day18.rs:84 | the direction letter is accepted exactly when the line starts with one of `U`, `D`, `L`, `R`, and only that letter is consumed |
| Day18.ParseDirLetter | src/day18.rs:84-98 | each direction's letter reads back as that direction, leaving the rest of the line |
| Day18.ParseHex | src/day18.rs:101 | a parsed colour fits in `u32` |
| Day18.TakeUntilParen | src/day18.rs:88 | the text splits at the first `)`, which stays in the rest; it fails exactly when there is no `)` |
| Day18.ParseLine | src/day18.rs:83-104 | a parsed line has a length that fits in `u8` and a colour that fits in `u32`; a colour whose first character is wider than one byte fails, as slicing it panics |
| Day18.HexValueHex | src/day18.rs:101 | hexadecimal digits written for a number read back as that number |
| Day18.ParenTail | src/day18.rs:87-89 | after the length, ` (#<hex>)` yields the colour text `#<hex>` and consumes the closing parenthesis, leaving what follows |
| Day18.ColourHex | src/day18.rs:101 | the colour text of a `u32` colour, without its `#`, parses back as that colour |
| Day18.ParseShow | src/day18.rs:83-104 | a line written as `D 6 (#5713f0)` with a `u8` length and a `u32` colour parses back as the same line, whatever text follows it |
| Day18.ParseExample | src/day18.rs:114-121 | `U 4 (#38ce32)` parses to Up, 4, `0x38ce32` |
| Day18.WideColourFails | src/day18.rs:101 | `U 4 (é1)` does not parse: dropping its first byte would cut `é` in half |
| Day18.Move | src/day18.rs:25-30 | a move changes one coordinate, on the line's axis, by exactly the line's length |
| Day18.MoveBack | src/day18.rs:25-30 | a trench dug back the opposite way with the same length returns to its start, and y grows exactly on `D` (y points down) |
| Day18.Walk | src/day18.rs:19-31 | the corners start at the origin, and each one is the previous corner moved by the next line |
| Day18.WalkIsDisplacement | src/day18.rs:19-31 | every corner is the sum of the displacements of the lines before it |
| Day18.WalkBound | src/day18.rs:24-31 | with lines of at most 255 cells, the corner after k lines lies within 255·k of the origin on both axes |
| Day18.Turns | src/day18.rs:33-44 | the two counters together count at most one turn per pair of consecutive lines |
| Day18.TurnKinds | src/day18.rs:35-42 | the first counter's four cases are exactly the left quarter turns; the second counts the right quarter turns and the reversals |
| Day18.TurnsCount | src/day18.rs:33-44 | the counters are the number of consecutive pairs making a left quarter turn, and the number making any other change of direction |
| Day18.ShoelaceFromAppend | src/day18.rs:46-51 | the loop's sum over two stretches of corners is the sum over the first plus the sum over the second, continuing from the first's last corner |
| Day18.ShoelaceRotate | src/day18.rs:46-51 | starting the loop at a different corner does not change the sum, because it closes the polygon |
| Day18.RectangleArea | src/day18.rs:46-52 | a clockwise w by h rectangle gives a sum of 2wh and an enclosed area of wh |
| Day18.ShoelaceFromBound | src/day18.rs:48-51 | after k corners within b of the origin, the partial sum is within k·2b² of zero |
| Day18.Run | src/day18.rs:10-52 | parsing fails exactly when some line does not parse; otherwise the corners start at the origin and each one is the previous corner moved by the next parsed line (`Walk`), the counters are the turn counts of the parsed lines (`Turns`), the sum is the shoelace sum of those corners, and the enclosed area is half its absolute value, rounded down |
| Day18.RunInRange | src/day18.rs:19-51 | with at most 30000 lines, every corner fits in `i32` and every partial sum fits in `i64`, so the bounded arithmetic agrees with the unbounded one |
| Day19.FirstApplying | src/day19.rs:59-85 | the first instruction at or after a position that applies to the part: every one before it does not apply |
| Day19.FollowFromDecides | src/day19.rs:52-87 | following a part from a workflow continues at the target of its first applying instruction, and fails (the panic) when none applies |
| Day19.FollowMoreFuel | src/day19.rs:52-87 | once following a part has decided it, more workflow visits decide it the same way: the visit bound cuts off only walks that never end |
| Day19.FollowFromMoreFuel | src/day19.rs:59-85 | the same for the instruction loop of a workflow |
| Day19.Len | src/day19.rs:95 | a range has length 0 exactly when it is empty |
| Day19.Product4 | src/day19.rs:95 | the product of four ranges is the product of their four lengths |
| Day19.InBox | src/day19.rs:89-95 | a rating vector lies in a box exactly when each rating lies in the matching range |
| Day19.ConsImageCard | src/day19.rs:95 | putting one value in front of every vector of a set keeps its size |
| Day19.LayerCard | src/day19.rs:95 | the vectors with a first value in `lo..hi` and a tail from a set number `(hi - lo)` times the set's size |
| Day19.LayerSplit | src/day19.rs:95 | a layer splits into its top value and the rest, disjointly |
| Day19.BoxCard | src/day19.rs:95 | a box holds as many rating vectors as the product of its range lengths |
| Day19.EmptyBox | src/day19.rs:100-102 | a box with an empty range holds no vector, so counting 0 for it is right |
| Day19.SplitClipped | src/day19.rs:116-131 | the part sent to the target holds exactly the values of the range that satisfy the comparison, and the part that stays exactly those that do not |
| Day19.SplitAsWritten | src/day19.rs:116-131 | inside the current range, the program's split sends on exactly the values that satisfy the comparison and keeps exactly the others |
| Day19.Split | src/day19.rs:116-131 | either split classifies the values of the current range by the comparison; only the clipped one keeps both halves inside the range |
| Day19.SplitInside | src/day19.rs:116-131 | when the operand lies inside the range, the program's split and the clipped split agree |
| Day19.BoxReplace | src/day19.rs:120-123 | narrowing one range of a box keeps exactly the vectors of the box whose rating there passes the filter |
| Day19.AcceptedFromSplit | src/day19.rs:110-131 | at a comparison, the accepted vectors of the box are those of the part sent away plus those of the part that stays, and the two are disjoint |
| Day19.CountSound | src/day19.rs:89-137 | with the split clipped, the count is the number of rating vectors in the box that following the workflows accepts |
| Day19.CountFromSound | src/day19.rs:103-137 | with the split clipped, the instruction loop counts the vectors of the box that the rest of the workflow accepts |
| Day19.CountBounded | src/day19.rs:89-137 | with the split clipped, a box never counts more parts than it holds |
| Day19.CountMoreFuel | src/day19.rs:89-137 | once a box is counted, more fuel counts it the same, with either split |
| Day19.CountFromMoreFuel | src/day19.rs:103-137 | the same for the instruction loop of a workflow |
| Day19.AsWrittenOvercounts | src/day19.rs:116-131 | on `in{x>3000:R,x<3500:A,R}` the program's split counts 3499·4000³ parts while 3000·4000³ are accepted; the clipped split counts 3000·4000³ |
| Day19.SumOverflows | src/day19.rs:108-131 | on `in{x>65533:R,m>65533:R,a>65533:R,s>65533:R,x>40000:A,x<65535:A,R}` the program's split widens every range to `1..65534` and the `u64` running sum overflows, so the count fails |
| Day19.ClippedSumFits | src/day19.rs:108-131 | on the same workflows the clipped split keeps every range inside `1..4001` and counts 4000⁴ parts |
| Day19Input.NewTable | src/day19.rs:276-281 | the fresh table maps `A` to the accept id 0 and `R` to the reject id 1, and the next new name gets id 2 |
| Day19Input.SymbolId | src/day19.rs:205-212 | a known name keeps its id and a new one gets the next id, as interning does; it fails exactly when a new name finds every `u16` id taken |
| Day19Input.Alpha1Streaming | src/day19.rs:170 | the name is a non-empty run of letters followed by a non-letter, and the text is the name followed by the rest |
| Day19Input.CategoryOf | src/day19.rs:242-253 | `x`, `m`, `a`, `s` name the categories 0 to 3, and any other name is rejected |
| Day19Input.OpTag | src/day19.rs:238 | an operator consumes exactly one character |
| Day19Input.ParseInstruction | src/day19.rs:231-274 | a parsed instruction consumes input, and a comparison has a category below 4 and a `u16` operand |
| Day19Input.InstructionList | src/day19.rs:172-176 | the comma-separated list never grows the input, and every comparison in it has a category below 4 |
| Day19Input.Resolve | src/day19.rs:177-201 | resolving names to ids keeps one instruction per parsed instruction with a category below 4, never lowers the next id, and keeps the table valid |
| Day19Input.Resolved | src/day19.rs:180-199 | a resolved instruction jumps to the id given for its target |
| Day19Input.ResolveInterned | src/day19.rs:177-201 | resolving keeps the id of every name already interned, and each instruction jumps to the id its target name holds |
| Day19Input.ParseInstructionLine | src/day19.rs:165-203 | a parsed workflow line never lowers the next id, keeps the table valid, and yields an id and categories within range |
| Day19Input.Field | src/day19.rs:151-161 | a rating read after its tag fits in `u16` |
| Day19Input.Fields | src/day19.rs:151-161 | one rating is read per tag, each fitting in `u16` |
| Day19Input.ParsePartLine | src/day19.rs:150-163 | a part line yields four ratings, each fitting in `u16` |
| Day19Input.FieldFormat | src/day19.rs:151-161 | a tag and a `u16` written out read back as that number, leaving what follows |
| Day19Input.FieldsFormat | src/day19.rs:151-161 | ratings written after their tags read back as those ratings |
| Day19Input.ParseFormatPart | src/day19.rs:150-163 | a part with `u16` ratings written as `{x=..,m=..,a=..,s=..}` parses back as itself with nothing left |
| Day19Input.AddWorkflow | src/day19.rs:26-29 | adding a parsed workflow keeps the reading state consistent |
| Day19Input.AddPart | src/day19.rs:30-33 | adding a parsed part keeps the reading state consistent |
| Day19Input.ReadLines | src/day19.rs:20-34 | reading the lines keeps the state consistent: every id defined is below the next id, and every part has four ratings |
| Day19Input.BuildWorkflows | src/day19.rs:36-39 | there is one workflow per id, and every comparison names a category below 4 |
| Day19Input.BuildWorkflowsAt | src/day19.rs:36-39 | each workflow holds the instructions of its last definition, or none |
| Day19Input.AcceptedRatings | src/day19.rs:40-45 | part 1 fails exactly when following some part fails; otherwise it is at most the total rating of all parts, equals it when every part is accepted, and is 0 when every part is rejected; `AcceptedRatingsSum` states its value exactly |
| Day19Input.AcceptedRatingsSum | src/day19.rs:40-45 | part 1's answer is the sum, over the parts, of each part's rating when the workflows accept it and 0 when they reject it |
| Day19Input.Run | src/day19.rs:14-50 | an answer comes only from lines that all parse and define a workflow named `in` |
| Day19Input.RunCountsAccepted | src/day19.rs:40-49 | with the split clipped, part 2 is the number of rating vectors in `1..4001` to the fourth that the parsed workflows accept from `in` |
| Day19InputExamples.ParseJumpLine | src/day19.rs:308-322 | `in{A}` and `in{R}` parse as workflow 2 with one jump to the accept or reject id |
| Day19InputExamples.RunJumps | src/day19.rs:308-322 | `in{A}` accepts all 4000⁴ rating vectors and `in{R}` none |
| Day19InputExamples.HalfSplits | src/day19.rs:324-339 | each of the four one-comparison workflows sends 2000·4000³ rating vectors to the accept workflow |
| Day20.ParseHead | src/day20.rs:190-194 | reading a module head always consumes input |
| Day20.Alpha1Name | src/day20.rs:192-196 | a name followed by a non-letter reads as exactly that name |
| Day20.MoreNamesShow | src/day20.rs:196 | the names after the first, each written behind `, `, read back completely |
| Day20.Names1Show | src/day20.rs:196 | a non-empty list of names written with `, ` between them reads back as that list with nothing left |
| Day20.ParseHeadShow | src/day20.rs:190-194 | a written head reads back as its kind and name, whatever follows it |
| Day20.ParseMarked | src/day20.rs:192-193 | a name behind `%` reads as a flip-flop, and behind `&` as a conjunction |
| Day20.ParseShow | src/day20.rs:189-206 | a well-formed declaration written as `<head> -> a, b` parses back as itself |
| Day20.ParseExample | src/day20.rs:186-188 | `%rf -> lq, tj` parses as flip-flop `rf` with outputs `lq`, `tj` |
| Day20.NamesHold | src/day20.rs:110-124 | the first pass interns every declared name and every output name |
| Day20.Intern | src/day20.rs:114-120 | interning names in order keeps the table valid, adds exactly those names, and keeps every earlier id |
| Day20.TableOf | src/day20.rs:108-124 | the first pass's table holds exactly the names of the lines, at most 256 of them |
| Day20.AddInputs | src/day20.rs:147-151 | each output module remembers the declaring module as `Low`; nothing else changes |
| Day20.BroadcasterId | src/day20.rs:109-117 | the broadcaster id is 0 or the id of a line that declares a broadcaster |
| Day20.TableIds | src/day20.rs:125-136 | every name of the lines has an id below the number of modules |
| Day20.Build | src/day20.rs:107-154 | there is one module per distinct name |
| Day20.DeclareSpec | src/day20.rs:134-151 | one line of the second pass sets the declared module's kind, appends its outputs, and registers it as a `Low` input of each output; nothing else changes |
| Day20.WireOutputs | src/day20.rs:134-152 | after the second pass, each module holds the outputs of every line declaring it, in line order, and is off |
| Day20.WireKinds | src/day20.rs:125-137 | a name no line declares stays a broadcaster; a declared one takes the kind of the last line declaring it |
| Day20.WireInputs | src/day20.rs:147-151 | each module's memory holds exactly the modules that list it as an output, each as `Low` |
| Day20.UndeclaredSilent | src/day20.rs:125-133 | a module no line declares has no outputs |
| Day20.BuildWired | src/day20.rs:107-154 | every output of every built module is a module id, and so is the broadcaster id |
| Day20.Receive | src/day20.rs:49-101 | a module sends nothing or one pulse to each output in order, all of one type, and never changes kind or outputs; a broadcaster keeps its state and forwards the pulse; a flip-flop is unchanged by a high pulse and sends nothing, and a low pulse toggles it and it sends high exactly when now on; a conjunction remembers the sender's latest pulse and sends low exactly when every remembered input is high |
| Day20.FlipFlopTwoLows | src/day20.rs:60-77 | two low pulses in a row leave a flip-flop as it began, and its two replies are of opposite types |
| Day20.ConjunctionLowSendsHigh | src/day20.rs:78-100 | a low pulse into a conjunction always makes it send high |
| Day20.ConjunctionAllHighSendsLow | src/day20.rs:78-100 | a high pulse from the last input not yet remembered as high makes a conjunction send low |
| Day20.ReceiveKeeps | src/day20.rs:41-101 | every pulse still queued after one delivery goes to a module |
| Day20.Deliver | src/day20.rs:41-102 | the queue is delivered first in, first out: the first pulse delivered is the head of the queue, at least the queued pulses are delivered, and no module changes kind or outputs |
| Day20.DeliverStep | src/day20.rs:41-102 | delivering the head of the queue and then the rest is the same as delivering the whole queue |
| Day20.CountPulsesTotal | src/day20.rs:44-47 | every delivered pulse is counted as exactly one of low or high |
| Day20.PushButton | src/day20.rs:32-104 | the press ends in the state of the delivery loop and counts its low and high pulses |
| Day20.PressCounts | src/day20.rs:35-47 | each press first delivers the low pulse to the broadcaster, so it counts at least one low pulse, and the two counts add up to the pulses delivered |
| Day20.Press | src/day20.rs:23 | a press leaves every output naming a module |
| Day20.Presses | src/day20.rs:22-26 | `n` presses count at least `n` low pulses and leave every output naming a module |
| Day20.Run | src/day20.rs:18-30 | a line that does not parse is an error, and the answer fits in `u64` |
| Day20.RunCounts | src/day20.rs:18-30 | the answer is the product of the low and high totals of 1000 presses of the built network, with at least 1000 low pulses |
| Day21.Plant | src/day21.rs:8 | `S` becomes an occupied tile `O`, every other character is kept, and rocks stay rocks |
| Day21.Garden | src/day21.rs:8 | the parsed garden has the input's shape, with `S` read as `O` in every cell |
| Day21.Probe | src/day21.rs:26-31 | a neighbour is kept only when its signed coordinates fall inside the grid |
| Day21.NeighboursSpec | src/day21.rs:25-31 | the probed neighbours are exactly the orthogonally adjacent tiles inside the grid |
| Day21.ReachOpen | src/day21.rs:21-23 | a tile reached by a walk is an open tile |
| Day21.ShortestUnique | src/day21.rs:16-36 | a tile has at most one shortest distance |
| Day21.Before | src/day21.rs:25-34 | a walk of k > 0 moves arrives from an open adjacent tile reached in k − 1 moves |
| Day21.ReachNext | src/day21.rs:25-34 | a walk extends by one move to an adjacent open tile |
| Day21.AllCellsCard | src/day21.rs:10 | a w by h grid has w·h tiles |
| Day21.AllCellsSplit | src/day21.rs:10 | the tiles of a grid are those of the rows above the last plus those of the last, disjointly |
| Day21.Pushes | src/day21.rs:25-35 | the entries pushed are exactly the in-bounds neighbours that are open and have no distance yet, each at one more move |
| Day21.MinDistances | src/day21.rs:10-36 | breadth-first search from the centre: a tile keeps −1 exactly when no walk reaches it, every rock keeps −1, and every other entry is the length of a shortest walk |
| Day21.Visit | src/day21.rs:17-35 | one round of the loop keeps the invariant and either gives a new tile a distance or shortens the queue |
| Day21.DistanceFits | src/day21.rs:24 | a distance written is below the number of tiles, so `dist as i16` is exact for at most 32768 tiles |
| Day21.Complete | src/day21.rs:16-36 | with the queue empty and every open neighbour of a visited tile visited, every tile reachable from the start has a distance |
| Day21.Finish | src/day21.rs:16-36 | when the queue empties, the distances are exactly the shortest-walk lengths and −1 exactly on the unreachable tiles |
| Day21.FrontierAdvance | src/day21.rs:16-36 | the queue is a frontier: as the head's distance grows, every tile reachable in fewer moves already has its distance |
| Day21.SkipKeeps | src/day21.rs:18-23 | skipping a head that already has a distance or is a rock keeps the invariant |
| Day21.SetKeeps | src/day21.rs:24-35 | recording the head's distance and pushing its neighbours keeps the invariant and leaves one tile fewer without a distance |
| Day21.SetChanged | src/day21.rs:24 | writing the head's distance changes only the head's tile |
| Day21.SetSeen | src/day21.rs:24 | writing the head's distance adds exactly one tile to those with a distance |
| Day21.CountByDistance | src/day21.rs:37-40 | counting the distance grid through a filter that rejects −1 counts the tiles whose shortest distance passes the filter |
| Day21.DistanceMeans | src/day21.rs:37-40 | a tile's entry passes such a filter exactly when its shortest distance exists and passes it |
| Day21.Rem | src/day21.rs:63-79 | Rust's signed `%` agrees with the mathematical remainder for non-negative operands and is never positive for negative ones |
| Day21.Formula | src/day21.rs:84-105 | when the `u64` evaluation does not panic, part 2 is (wt+1)²·odd + wt²·even − (wt+1)·odd corners + wt·even corners − wt, within `u64` |
| Day21.FormulaDefined | src/day21.rs:84-105 | the formula does not panic whenever its positive terms fit in `u64` and the counts are as a real garden gives them |
| Day21.Run | src/day21.rs:7-108 | part 1 counts the tiles at an even shortest distance of at most 64 from the centre; part 2 is the formula over the full and corner tile counts by parity |
| Day21.Occupied | src/day21.rs:120-133 | the inner scan finds an `O` exactly when some in-bounds neighbour is occupied |
| Day21.Step | src/day21.rs:111-138 | one step keeps rocks, and makes every other tile `O` exactly when a neighbour was `O`, `.` otherwise |
| Day21.StepReach | src/day21.rs:111-138 | if the `O` tiles are those reached by walks of n moves, after one step they are exactly those reached by walks of n + 1 moves |
| Day21.StepBack | src/day21.rs:111-138 | every tile reached by a walk of n + 1 moves is occupied after one step |
| Day22.HasBlockCubes | src/day22.rs:175-182 | `has_block` holds exactly for the cubes of the brick |
| Day22.ParseCorner | src/day22.rs:189-190 | each coordinate of a parsed corner fits in `u16` |
| Day22.ParseBrick | src/day22.rs:187-200 | a parsed brick has `u16` coordinates and its first corner is low on every axis |
| Day22.ReadField | src/day22.rs:189-190 | a written `u16` followed by a separator reads back as that number, and the separator is then consumed |
| Day22.ParseShowCorner | src/day22.rs:189-191 | a written corner `x,y,z` reads back as itself |
| Day22.ParseShow | src/day22.rs:187-200 | a written brick `a,b,c~d,e,f` reads back as itself when its corners are in order, and is rejected otherwise |
| Day22.AnyIn | src/day22.rs:154-159 | the short-circuiting loop finds a value exactly when some value of the range satisfies the test |
| Day22.SupportingMeans | src/day22.rs:142-173 | a brick supports another exactly when it starts lower, is one of the three placeable shapes, and the other holds a cube just above its top over its shadow |
| Day22.FootprintCovers | src/day22.rs:48-76 | the columns a horizontal brick visits are exactly its shadow |
| Day22.Highest | src/day22.rs:48-54 | the first loop fails exactly when a stack under the brick rises above its bottom; otherwise it gives the highest stack under it, or 0 |
| Day22.Fill | src/day22.rs:57-59 | the second loop sets every visited column to the new level and changes nothing else |
| Day22.SettleColumn | src/day22.rs:31-43 | a vertical brick is refused exactly when its column's stack is above its bottom; otherwise it lands on that stack, which rises by the brick's height |
| Day22.SettleRow | src/day22.rs:45-80 | a horizontal brick is refused exactly when a stack under it is above its bottom; otherwise it lands one above the highest stack, which its whole shadow is raised to |
| Day22.RowBlocked | src/day22.rs:48-54 | the first footprint loop fails exactly when the brick would have to be lifted |
| Day22.RowRests | src/day22.rs:55-56 | the brick comes to rest one above the highest stack under it |
| Day22.RowFill | src/day22.rs:57-59 | the second loop raises exactly the columns under the brick |
| Day22.Settle | src/day22.rs:26-83 | placing fails exactly when the brick is not one of the three shapes or would have to be lifted; otherwise the brick moves straight down to rest and the height map records its top |
| Day22.SettleAll | src/day22.rs:26-83 | settling keeps one brick per input brick, each the same brick moved vertically, and the height map's shape |
| Day22.PlacedRecords | src/day22.rs:26-83 | after placing a brick, the height map still records the top of the highest placed brick in every column |
| Day22.SettleAllRecords | src/day22.rs:26-83 | after the loop, the height map records the top of the highest settled brick in every column |
| Day22.SettleAllRests | src/day22.rs:26-83 | every settled brick rests on the highest brick settled before it under its shadow, or on the floor |
| Day22.InsertByZ | src/day22.rs:24 | inserting adds exactly the one brick |
| Day22.InsertByZSorted | src/day22.rs:24 | inserting into bricks ordered by bottom level keeps them ordered |
| Day22.SortByZ | src/day22.rs:24 | sorting keeps exactly the same bricks |
| Day22.SortByZSorted | src/day22.rs:24 | sorting orders the bricks by bottom level and keeps the same bricks |
| Day22.Supporters | src/day22.rs:88-93 | a brick's list holds, in increasing order, exactly the earlier bricks that support it |
| Day22.SupportTable | src/day22.rs:87-94 | the table has one list per brick, and an earlier brick is in brick i's list exactly when it supports brick i |
| Day22.CountRemovable | src/day22.rs:96-107 | part 1 is the number of bricks that are no brick's sole supporter |
| Day22.SoleSupporterMeans | src/day22.rs:98-106 | a brick is no brick's sole supporter exactly when every list naming it names another brick too |
| Day22.RemovableMeans | src/day22.rs:87-107 | a brick can be removed exactly when every brick it supports has another supporter |
| Day22.Falls | src/day22.rs:112-124 | the falling set holds the removed brick, and the other bricks in it come from the part already scanned |
| Day22.FallsGrow | src/day22.rs:115-124 | the scan only ever adds the brick it is looking at |
| Day22.FallsClosed | src/day22.rs:111-126 | a brick falls exactly when it is the removed one, or it has supporters and all of them fall |
| Day22.FallsTopples | src/day22.rs:109-126 | the scan's falling set for a removed brick is that brick together with exactly the bricks that topple, where a brick topples when it has supporters and all of them topple |
| Day22.FallsAgree | src/day22.rs:109-126 | a brick is in the falling set exactly when it topples, by induction over the supporters, which come earlier |
| Day22.FallTotal | src/day22.rs:109-126 | part 2 is the sum, over the bricks, of the number of other bricks that topple when it goes |
| Day22.Extent | src/day22.rs:13-23 | the extent is the largest far x and far y over the bricks, or 0 |
| Day22.ParsedInside | src/day22.rs:13-25 | every parsed brick's shadow lies inside the height map `run` makes |
| Day22.SortedInside | src/day22.rs:24-25 | sorting keeps every brick inside the height map |
| Day22.Run | src/day22.rs:12-129 | an answer means every line parsed as a brick |
| Day23.Step | src/day23.rs:40-44 | the tile one step away when its signed coordinates fall inside the grid, adjacent to the start; nothing exactly when they fall outside |
| Day23.Neighbour | src/day23.rs:40-47 | the adjacent tile in the direction when it is inside the grid and not forest; nothing otherwise |
| Day23.SlopeOkDownhill | src/day23.rs:48-58 | the slope match on offsets is the rule that a slope is entered only in its arrow's direction |
| Day23.FirstDot | src/day23.rs:207-223 | the first column of the row holding `.`, with none before it; 0 when the row has none |
| Day23.OpenCount | src/day23.rs:229-239 | the count is the number of directions whose neighbour is an open tile |
| Day23.OpenDirsSnoc | src/day23.rs:229-239 | one more direction adds one to the open count exactly when its neighbour is open |
| Day23.RowJunctions | src/day23.rs:225-243 | the tiles of one row with more than two open neighbours, left to right |
| Day23.JunctionsUpTo | src/day23.rs:225-243 | the junctions of the rows so far, in row-major order |
| Day23.Nodes | src/day23.rs:203-245 | node 0 is the start tile in the top row, node 1 the end tile in the bottom row, and the rest are exactly the junctions, in row-major order |
| Day23.IdsOf | src/day23.rs:26-30 | every node tile gets an id naming a position where it is listed, and a tile listed twice keeps its later index |
| Day23.FirstExit | src/day23.rs:163-173 | the exit found is an open neighbour other than the tile just left, reached by one of the directions; nothing exactly when every direction leads nowhere or back |
| Day23.FirstExitEarliest | src/day23.rs:163-173 | the exit is the first such direction in the program's order: every direction before it leads nowhere or back |
| Day23.WalkPath | src/day23.rs:155-201 | a walk that reaches a node reports a node id and a distance of at least one move, within the fuel |
| Day23.TrailCons | src/day23.rs:163-198 | a trail extends backwards by the tile just left when the move forward enters an open, non-node tile downhill |
| Day23.WalkReachedStep | src/day23.rs:163-198 | a walk that reaches a node stops at a node tile next to it with distance 1, or continues from the first exit downhill and adds one move |
| Day23.WalkTrail | src/day23.rs:155-201 | a walk that reaches a node followed a trail of open tiles, each entered downhill when slopes count, from the tile left through the start to that node's tile |
| Day23.NodeEdges | src/day23.rs:39-78 | each node has at most four edges, each to a node and at least two moves long |
| Day23.NodeEdgesRoutes | src/day23.rs:39-78 | every edge found from a node follows a trail of its length from that node's tile to its target's tile |
| Day23.NeighbourRoute | src/day23.rs:41-76 | the edge through one open neighbour (entered downhill when slopes count) follows a trail of its length to the node the corridor walk reaches |
| Day23.AllEdges | src/day23.rs:39-78 | there is one edge list per node, each found by walking out from that node |
| Day23.MaxEdge | src/day23.rs:85-89 | the longest edge of a list, 0 for none |
| Day23.UnvisitedMark | src/day23.rs:123 | marking an unvisited node visited leaves one node fewer unvisited |
| Day23.BudgetMark | src/day23.rs:139 | marking a node visited takes exactly its longest edge off the budget |
| Day23.BudgetAll | src/day23.rs:91 | with nothing visited the budget is the sum of every node's longest edge |
| Day23.FindMax | src/day23.rs:108-153 | the search never answers more than its budget, so no `u16` sum overflows, and answers 0 exactly when it stands on the end and the pruning test passes |
| Day23.Extend | src/day23.rs:128-146 | the loop's longest extension never shrinks and never exceeds the budget |
| Day23.FindMaxSound | src/day23.rs:108-153 | every answer of the search is the length of a simple path to the end through unvisited nodes |
| Day23.ExtendSound | src/day23.rs:128-146 | the loop's longest extension is the starting one, or an edge to an unvisited neighbour followed by a simple path from it to the end |
| Day23.ExtendStep | src/day23.rs:129-145 | one loop turn over an unvisited neighbour extends by that neighbour's search result plus the edge, and raises the best by it |
| Day23.ExtendSkip | src/day23.rs:130-132 | the loop skips a neighbour already on the path |
| Day23.FindMaxUnfold | src/day23.rs:119-153 | past the pruning and end tests, the search marks the node, runs the loop, and answers the longest extension when it is positive |
| Day23.Search | src/day23.rs:108-153 | the search on a mutable visited list computes the pure search and restores the list |
| Day23.EdgesOf | src/day23.rs:31-91 | the edge lists and longest edges form a graph over the nodes |
| Day23.Contract | src/day23.rs:20-91 | the contracted maze is a graph over the nodes `find_nodes` lists |
| Day23.ContractRoutes | src/day23.rs:20-91 | every edge of the contracted maze stands for a trail of its length between the tiles of its two nodes |
| Day23.Longest | src/day23.rs:91-105 | an answer of the search from node 0 to node 1 fits in `u16` |
| Day23.LongestSound | src/day23.rs:95-105 | an answer of the search is the length of a simple path from node 0 to node 1 |
| Day23.Solve | src/day23.rs:19-106 | an answer needs the maze to contract and fits in `u16` |
| Day23.SolveSound | src/day23.rs:19-106 | an answer of `solve` is the length of a simple path from the start to the end of the contracted maze |
| Day23.Run | src/day23.rs:12-17 | each answer is the length of a simple path from the start to the end of the maze contracted with slopes (part 1) or without (part 2) |

## Left out

- Reading input files, printing answers and the test-harness macros (`src/runner.rs`, `src/main.rs`) are I/O; `main.rs` only repeats day 1's `leading_digit`.
- Day 6 works in floating point (`sqrt`, `floor`, `f64`) and is not modelled.
- Day 25 hands the work to the `petgraph` and `rustworkx_core` libraries (a minimum cut), which are not part of this model.
- Days 2, 4, 8, 9, 17 and 24 hold no puzzle logic.
- Day18.Run: stops at the shoelace area and the turn counts; the floating-point border area added to them (`src/day18.rs:55-63`) is not modelled, and input of more than `MAX_LINES` lines is excluded because the `i32` walk or the `i64` sum could overflow. Empty input is excluded too: the program indexes the first parsed line (`lines[0].dir`).
- The `rayon` parallel iterators of days 12 and 16 are modelled as sequential sums and maximums, which give the same value.
- The `#[cached]` memoisation of day 12's `count_combinations` is left out; the model is the plain recursion, which computes the same counts.
- Debug output is left out: the `Debug` impls, day 21's printed distance grid and day 23's labelled grid. The labelled grid is still the reason for day 23's limit of 208 nodes.
- Day10.Run: the walk of the two walkers is bounded by `fuel`, and the `usize` to `i32` casts are taken to be exact (grid indices below 2^31).
- Day19Input.Run: each part may visit at most `fuel` workflows, and the box count is bounded by `fuel` in the same way. With `clipped` false it splits ranges as the program does; the count is proved to be the number of accepted rating vectors only for `clipped` true (Day19Input.RunCountsAccepted), since the unclipped split overcounts (see Findings). A `u64` overflow of the running sum makes the count fail; only the unclipped split can reach it (Day19.SumOverflows).
- Day20.Run: each button press may deliver at most `fuel` pulses; module ids are `u8`, so inputs with more than 256 names are excluded, and so is empty input, which the program does not handle.
- Day23.Solve: each corridor walk is bounded by `fuel` steps; the contract proves that the answer is the length of a real simple path from start to end within the `u16` range, but not that it is the longest one.
- Day23.Longest: states that an answer is the length of a simple path of the contracted graph within `u16`, not that no longer simple path exists; the pruning against the best length so far is modelled but its optimality is not proved.
- Day23.FindMax: proves that the returned distance is reached by a simple path and stays within the pruning budget, not that it is the maximum.
- Day21.Run: the garden holds at most 32768 tiles so that `i16` distances are exact; the part 2 formula is stated only for gardens whose width leaves 65 extra steps, as the program asserts.
- Day22.Run: its own contract says only that every line parses; the meaning of the two answers is stated by the lemmas about `CountRemovable`, `FallTotal` and the settling. It requires `LowEnough` (no brick reaches `u16::MAX` in height, so the `end.2 + 1` of a lifted brick cannot overflow) and at most 65536 lines, because the program numbers bricks with a truncating `i as u16`; taller stacks or more bricks are not modelled.
- Day23.Run: the maze is taken as an already parsed `Grid<char>`, because the program calls a two-argument `Grid::parse` and an `iter_pts` that `src/grid.rs` does not define; junctions are numbered in row-major order.
- Day21.Run: the garden is likewise `Parse` of the input with `S` read as an occupied plot, for the same missing two-argument `Grid::parse`.
- Day1.Part1: the `u32` sum is not bounded, so its overflow is not modelled; likewise Day1.Part2. Part 1 requires a digit on every line, because the program unwraps the first and last digit; part 2 requires (`LineOk`) a digit or digit word on every line, for `digits[0]`, and ASCII text, because the program's `&s[1..]` steps one byte and panics when a line holds a character wider than one byte.
- Day3.Part1: the `u32` sum of part numbers is not bounded, and neither is each number itself: the `n * 10 + d` of `src/day3.rs:24` overflows `u32` in the program for a run above 4294967295, while `Day3.Numbers` reads a digit run of any length exactly. It also requires `Rectangular`: on ragged rows the program bounds the window it scans on the neighbouring rows by the first row's width rather than the number's own row, and panics when a neighbouring row is shorter than that window; ragged input is not modelled.
- Day3.Part1Touched: stated for rectangular grids only, like `Day3.Part1`.
- Day7.Solve: the `u64` winnings sum (src/day7.rs:83-87) is not bounded.
- Day11.Part1: the `u64` sum over ordered pairs is not bounded (the `i32` coordinates are, by precondition). Empty input is excluded (as in Day11.Parse), because the program takes the width from the first line. It also requires `Inside`: a `#` on a later line past the first line's width makes the program's `cols[*c] = 1` (`src/day11.rs:13-16`) index out of bounds, and such input is not modelled; likewise Day11.Part1Unordered.
- Day12.Run: the `u64` counts and their sum are not bounded. It requires `Parses`, since the program unwraps the parse of every line and panics on one that does not parse.
- Day13.Run: the `u64` score sum is not bounded.
- Day14.Part1: the `u32` sum of the stack loads is not bounded (each single load is). Both it and Day14.Part1IsTiltLoad require `Platform`: a non-empty input of at most 255 rows, none longer than the first.
- Day14.Part1IsTiltLoad: from row index 255 on, the program's `i as u8` (`src/day14.rs:33`) truncates, so rocks would stack from the wrong row, and a `#` on a row index of 255 modulo 256 overflows `+ 1`; taller platforms are not modelled. A line longer than the first, and empty input, make the program panic and are excluded as well.
- Day15.Part1: the `u64` sum of the hashes is not bounded.
- Day16.Run: requires a non-empty, rectangular grid (`Valid`). The program's `Grid::parse` (`src/grid.rs:26-33`) keeps ragged rows and takes the first row's width for all of them, so it ignores the extra cells of a longer row and panics on a shorter one; ragged input is not modelled.
- Day10.Run: widths and columns are counted in characters, while the program's `str::len` counts bytes; the two agree on ASCII input, which is what the puzzles use. The same holds for Day11.Parse, Day13.Run and Day14.Part1.
- Grids.Parse: requires non-empty input, because `Grid::parse` indexes the first line (`src/grid.rs:31`) and panics on none.
- Grids.At: requires the cell to exist (`Has`); the program's `grid[y][x]` panics otherwise (`src/grid.rs:18-20`), and no caller in the model reaches that case. Likewise Grids.Set for `at_mut`.
- Symbols.Get: requires a free `u16` id for a new symbol; the program's `next_id += 1` (`src/symbol_table.rs:21`) overflows once 65535 ids are taken, which the model does not reproduce (day 19's `SymbolId` turns that case into `None`).
- Day19Input.ParseInstructionLine: the example line `grc{…}` of `src/day19.rs:294-306` is not evaluated in the model; the half-split examples of lines 308-339 are.
- Day5.Part1: the sample-parse example of `src/day5.rs:68-78` is not evaluated.
- Day12.Run: the three long examples of `src/day12.rs:153-158` and `185-196` are not evaluated; the general statement that the count equals the number of completions is proved instead.
- Symbols.Len: has no contract of its own; its meaning is stated through `Symbols.Valid` (ids are exactly `0 .. Len - 1`).

## Findings

| source | as written | input that shows it | evidently intended | confidence | as-written member | corrected member |
|---|---|---|---|---|---|---|
| src/day3.rs:56-64 | the cell right after a part number, on its own row and diagonally, is examined only when `end < len - 1`, so a symbol in the last column is missed | `12*` (the `*` right after `12`), and `...*` above `123.` (the `*` diagonal to `123`) | examine the cell after the number whenever it exists, `end < len` | high, not executed | Day3.HasAdjacentAsWritten, Day3.SameRowMissed, Day3.DiagonalMissed | Day3.HasAdjacent, Day3.HasAdjacentTouches |
| src/day19.rs:116-131 | a comparison gives its child range `operand + 1 .. end` (or `start .. operand`) without clipping it to the current range, so when the operand lies outside the range the child and the rest overlap and parts are counted twice; ranges widened this way can also overflow the `u64` sum | `in{x>3000:R,x<3500:A,R}`: 3000·4000³ parts are accepted, the count as written is 3499·4000³; `in{x>65533:R,m>65533:R,a>65533:R,s>65533:R,x>40000:A,x<65535:A,R}`: 4000⁴ accepted, the sum as written passes `u64::MAX` | clip both halves to the current range, so they partition it | high, not executed | Day19.SplitAsWritten, Day19.AsWrittenOvercounts, Day19.SumOverflows | Day19.SplitClipped, Day19.CountSound, Day19.ClippedSumFits, Day19Input.RunCountsAccepted |

=== FILE: day1.dfy ===
/** Day 1: each line's calibration value is ten times its first digit plus its last; in
    part 2 the words `one` .. `nine` count as digits too, overlapping ones included. */
module Day1 {
  import opened Text

  /** The spelled-out digits; `zero` is listed but never recognised. */
  const WORDS: seq<string> := ["zero", "one", "two", "three", "four", "five", "six", "seven", "eight", "nine"]

  // ---------------------------------------------------------------------------
  // Part 1.

  predicate HasDigit(l: string)
  {
    exists i :: 0 <= i < |l| && IsDigit(l[i])
  }

  /** The digits of a line, left to right. */
  function Digits(l: string): (ds: seq<nat>)
    ensures forall k :: 0 <= k < |ds| ==> ds[k] <= 9
    ensures |ds| > 0 <==> HasDigit(l)
  {
    if l == [] then []
    else
      var rest := Digits(l[1..]);
      assert HasDigit(l) <==> IsDigit(l[0]) || HasDigit(l[1..]) by {
        if HasDigit(l) && !IsDigit(l[0]) {
          var i :| 0 <= i < |l| && IsDigit(l[i]);
          assert l[1..][i - 1] == l[i];
        }
        if HasDigit(l[1..]) {
          var i :| 0 <= i < |l[1..]| && IsDigit(l[1..][i]);
          assert l[i + 1] == l[1..][i];
        }
      }
      if IsDigit(l[0]) then [DigitValue(l[0])] + rest else rest
  }

  /** The value of a line: first and last digit; one digit counts as both. */
  function Calibration(ds: seq<nat>): nat
    requires |ds| > 0
  {
    ds[0] * 10 + ds[|ds| - 1]
  }

  lemma {:induction false} DigitsAppend(a: string, b: string)
    ensures Digits(a + b) == Digits(a) + Digits(b)
    decreases |a|
  {
    if a != [] {
      assert (a + b)[1..] == a[1..] + b;
      DigitsAppend(a[1..], b);
    } else {
      assert a + b == b;
    }
  }

  /** The first digit of a line is the value of its leftmost digit character. */
  lemma DigitsFirst(l: string, i: nat)
    requires i < |l| && IsDigit(l[i]) && forall j :: 0 <= j < i ==> !IsDigit(l[j])
    ensures |Digits(l)| > 0 && Digits(l)[0] == DigitValue(l[i])
  {
    assert l == l[..i] + l[i..];
    DigitsAppend(l[..i], l[i..]);
    assert !HasDigit(l[..i]);
  }

  /** The last digit of a line is the value of its rightmost digit character. */
  lemma DigitsLast(l: string, i: nat)
    requires i < |l| && IsDigit(l[i]) && forall j :: i < j < |l| ==> !IsDigit(l[j])
    ensures |Digits(l)| > 0 && Digits(l)[|Digits(l)| - 1] == DigitValue(l[i])
  {
    assert l == l[..i + 1] + l[i + 1..];
    DigitsAppend(l[..i + 1], l[i + 1..]);
    var tail := l[i + 1..];
    assert !HasDigit(tail) by {
      forall k | 0 <= k < |tail| ensures !IsDigit(tail[k]) {
        assert tail[k] == l[i + 1 + k];
      }
    }
    assert l[..i + 1] == l[..i] + [l[i]];
    DigitsAppend(l[..i], [l[i]]);
  }

  function SumValues(ls: seq<string>, spelled: bool): nat
    requires forall k :: 0 <= k < |ls| ==> LineOk(ls[k], spelled)
  {
    if ls == [] then 0
    else
      var l := ls[|ls| - 1];
      assert LineOk(l, spelled);
      var ds := if spelled then SpelledDigits(l) else Digits(l);
      SumValues(ls[..|ls| - 1], spelled) + Calibration(ds)
  }

  /** `part1` and `part2` unwrap the first digit, so a line without one panics; `part2`
      also steps through the line by bytes, which fails on a non-ASCII character. */
  predicate LineOk(l: string, spelled: bool)
  {
    if spelled then Ascii(l) && |SpelledDigits(l)| > 0 else HasDigit(l)
  }

  predicate Ascii(l: string)
  {
    forall i :: 0 <= i < |l| ==> l[i] as int < 128
  }

  /** `part1`: the sum of the lines' values. */
  function Part1(input: string): nat
    requires forall k :: 0 <= k < |Lines(input)| ==> HasDigit(Lines(input)[k])
  {
    SumValues(Lines(input), false)
  }

  // ---------------------------------------------------------------------------
  // Part 2.

  /** `leading_digit`: a leading ASCII digit, else the first of `one` .. `nine` the text
      starts with. */
  function LeadingDigit(s: string): (r: Option<nat>)
    ensures s == [] ==> r.None?
    ensures s != [] && IsDigit(s[0]) ==> r == Some(DigitValue(s[0]))
    ensures s != [] && !IsDigit(s[0]) && r.Some? ==> 1 <= r.value <= 9 && WORDS[r.value] <= s
    ensures s != [] && !IsDigit(s[0]) && r.None? ==> forall k :: 1 <= k <= 9 ==> !(WORDS[k] <= s)
  {
    if s == [] then None
    else if IsDigit(s[0]) then Some(DigitValue(s[0]))
    else WordAt(s, 1)
  }

  /** The first word from `WORDS[k]` on that `s` starts with. */
  function WordAt(s: string, k: nat): (r: Option<nat>)
    requires 1 <= k <= 10
    ensures r.Some? ==> k <= r.value <= 9 && WORDS[r.value] <= s
    ensures r.Some? ==> forall j :: k <= j < r.value ==> !(WORDS[j] <= s)
    ensures r.None? ==> forall j :: k <= j <= 9 ==> !(WORDS[j] <= s)
    decreases 10 - k
  {
    if k == 10 then None
    else if WORDS[k] <= s then Some(k)
    else WordAt(s, k + 1)
  }

  /** The first two letters of the words differ, so no word starts another and which
      word matches does not depend on the search order. */
  lemma WordsPrefixFree(s: string, a: nat, b: nat)
    requires 1 <= a <= 9 && 1 <= b <= 9
    requires WORDS[a] <= s && WORDS[b] <= s
    ensures a == b
  {
    assert WORDS[a][..2] == s[..2] == WORDS[b][..2];
    assert WORDS[1][..2] == "on" && WORDS[2][..2] == "tw" && WORDS[3][..2] == "th";
    assert WORDS[4][..2] == "fo" && WORDS[5][..2] == "fi" && WORDS[6][..2] == "si";
    assert WORDS[7][..2] == "se" && WORDS[8][..2] == "ei" && WORDS[9][..2] == "ni";
  }

  /** A text starting with a word has that word's digit. */
  lemma LeadingWord(s: string, d: nat)
    requires 1 <= d <= 9 && WORDS[d] <= s
    ensures LeadingDigit(s) == Some(d)
  {
    assert s[0] == WORDS[d][0];
    assert !IsDigit(WORDS[d][0]);
    var r := LeadingDigit(s);
    if r.Some? {
      WordsPrefixFree(s, r.value, d);
    }
  }

  /** The loop of `part2`: `leading_digit` of every suffix, advancing one character at a
      time. */
  function SpelledDigits(l: string): (ds: seq<nat>)
    ensures forall k :: 0 <= k < |ds| ==> ds[k] <= 9
    ensures |ds| > 0 <==> exists i :: 0 <= i < |l| && LeadingDigit(l[i..]).Some?
    decreases |l|
  {
    if l == [] then []
    else
      var rest := SpelledDigits(l[1..]);
      assert (exists i :: 0 <= i < |l| && LeadingDigit(l[i..]).Some?) <==>
             LeadingDigit(l).Some? || exists i :: 0 <= i < |l[1..]| && LeadingDigit(l[1..][i..]).Some? by {
        assert l[0..] == l;
        assert forall i :: 1 <= i < |l| ==> l[1..][i - 1..] == l[i..];
      }
      match LeadingDigit(l)
      case Some(d) => [d] + rest
      case None => rest
  }

  /** What `leading_digit` finds at the start of `s`, as a list of zero or one digit. */
  function Found(s: string): seq<nat>
  {
    match LeadingDigit(s)
    case Some(d) => [d]
    case None => []
  }

  /** The digits found at the first `n` positions of `l`, in position order: a
      reference for `part2`'s loop that indexes the line instead of shortening it. */
  function FoundUpTo(l: string, n: nat): seq<nat>
    requires n <= |l|
  {
    if n == 0 then [] else FoundUpTo(l, n - 1) + Found(l[n - 1..])
  }

  lemma {:induction false} FoundUpToShift(l: string, n: nat)
    requires l != [] && n < |l|
    ensures FoundUpTo(l, n + 1) == Found(l) + FoundUpTo(l[1..], n)
  {
    if n == 0 {
      assert l[0..] == l;
    } else {
      FoundUpToShift(l, n - 1);
      assert l[n..] == l[1..][n - 1..];
      assert Found(l) + FoundUpTo(l[1..], n - 1) + Found(l[n..]) == Found(l) + (FoundUpTo(l[1..], n - 1) + Found(l[n..]));
    }
  }

  /** `part2`'s digits are, in order, what `leading_digit` finds at each position of
      the line. */
  lemma {:induction false} SpelledFound(l: string)
    ensures SpelledDigits(l) == FoundUpTo(l, |l|)
    decreases |l|
  {
    if l != [] {
      SpelledFound(l[1..]);
      FoundUpToShift(l, |l| - 1);
    }
  }

  /** The first digit `part2` uses is the one at the leftmost position where a digit
      or a word starts. */
  lemma {:induction false} SpelledFirst(l: string, i: nat)
    requires i < |l| && LeadingDigit(l[i..]).Some?
    requires forall j :: 0 <= j < i ==> LeadingDigit(l[j..]).None?
    ensures |SpelledDigits(l)| > 0 && SpelledDigits(l)[0] == LeadingDigit(l[i..]).value
    decreases i
  {
    assert l[0..] == l;
    if i > 0 {
      assert forall j :: 0 <= j < i - 1 ==> l[1..][j..] == l[j + 1..];
      assert l[1..][i - 1..] == l[i..];
      SpelledFirst(l[1..], i - 1);
    }
  }

  /** The last digit `part2` uses is the one at the rightmost position where a digit
      or a word starts. */
  lemma {:induction false} SpelledLast(l: string, i: nat)
    requires i < |l| && LeadingDigit(l[i..]).Some?
    requires forall j :: i < j < |l| ==> LeadingDigit(l[j..]).None?
    ensures |SpelledDigits(l)| > 0 && SpelledDigits(l)[|SpelledDigits(l)| - 1] == LeadingDigit(l[i..]).value
    decreases i
  {
    var t := l[1..];
    if i > 0 {
      assert t[i - 1..] == l[i..];
      forall j | i - 1 < j < |t| ensures LeadingDigit(t[j..]).None? {
        assert t[j..] == l[j + 1..];
      }
      SpelledLast(t, i - 1);
      var rest := SpelledDigits(t);
      assert SpelledDigits(l) == Found(l) + rest;
    } else {
      assert l[0..] == l;
      assert SpelledDigits(t) == [] by {
        forall j | 0 <= j < |t| ensures LeadingDigit(t[j..]).None? {
          assert t[j..] == l[j + 1..];
        }
      }
    }
  }

  /** The text `l` contains none of the words. */
  predicate NoWords(l: string)
  {
    forall i, k :: 0 <= i < |l| && 1 <= k <= 9 ==> !(WORDS[k] <= l[i..])
  }

  /** Without spelled-out digits, part 2 finds exactly part 1's digits. */
  lemma {:induction false} SpelledIsDigits(l: string)
    requires NoWords(l)
    ensures SpelledDigits(l) == Digits(l)
    decreases |l|
  {
    if l != [] {
      assert l[0..] == l;
      assert NoWords(l[1..]) by {
        forall i, k | 0 <= i < |l[1..]| && 1 <= k <= 9 ensures !(WORDS[k] <= l[1..][i..]) {
          assert l[1..][i..] == l[i + 1..];
        }
      }
      SpelledIsDigits(l[1..]);
    }
  }

  /** The part 1 digits of a line occur in part 2's, in order: every digit character
      yields its value in both scans. */
  lemma {:induction false} DigitsInSpelled(l: string)
    ensures |Digits(l)| <= |SpelledDigits(l)|
    ensures HasDigit(l) ==> |SpelledDigits(l)| > 0
    decreases |l|
  {
    if l != [] {
      DigitsInSpelled(l[1..]);
      if HasDigit(l) && !IsDigit(l[0]) {
        var i :| 0 <= i < |l| && IsDigit(l[i]);
        assert IsDigit(l[1..][i - 1]);
      }
    }
  }

  /** `part2`. */
  function Part2(input: string): nat
    requires forall k :: 0 <= k < |Lines(input)| ==> LineOk(Lines(input)[k], true)
  {
    SumValues(Lines(input), true)
  }

  /** Without spelled-out digits the two parts agree. */
  lemma {:induction false} PartsAgree(ls: seq<string>)
    requires forall k :: 0 <= k < |ls| ==> LineOk(ls[k], true) && LineOk(ls[k], false) && NoWords(ls[k])
    ensures SumValues(ls, true) == SumValues(ls, false)
  {
    if ls != [] {
      SpelledIsDigits(ls[|ls| - 1]);
      PartsAgree(ls[..|ls| - 1]);
    }
  }

  /** Overlapping words each count: `twone` reads as 2 then 1. */
  lemma Overlapping()
    ensures SpelledDigits("twone") == [2, 1]
    ensures Calibration(SpelledDigits("twone")) == 21
  {
    var s := "twone";
    OneSuffix();
    assert WORDS[2] <= s;
    LeadingWord(s, 2);
    assert s[1..] == "wone";
    NoWordAt("wone");
    assert "wone"[1..] == "one";
  }

  lemma OneSuffix()
    ensures SpelledDigits("one") == [1]
  {
    assert WORDS[1] <= "one";
    LeadingWord("one", 1);
    assert "one"[1..] == "ne" && "ne"[1..] == "e" && "e"[1..] == [];
    NoWordAt("ne");
    NoWordAt("e");
  }

  /** These suffixes start with no digit and no word. */
  lemma NoWordAt(s: string)
    requires s == "wone" || s == "ne" || s == "e"
    ensures LeadingDigit(s) == None
  {
    assert !IsDigit(s[0]);
    forall k | 1 <= k <= 9 ensures !(WORDS[k] <= s) {
      if |s| < 3 {
        assert |WORDS[k]| >= 3;
      } else {
        assert WORDS[k][0] != 'w';
      }
    }
  }
}

=== FILE: day10.dfy ===
/** Day 10: a loop of pipes. The map is stored flat, row after row; two walkers leave
    the start `S` in opposite directions along the loop and the answer is the distance
    at which they meet. */
module Day10 {
  import opened Text
  import Grids

  type Pos = (nat, nat)

  /** The local grid: the characters with every `'\n'` removed, the dimensions
      `(first line length, line count)` and the start position. */
  datatype PipeGrid = PipeGrid(cells: seq<char>, dimensions: (nat, nat), start: Pos)

  /** `input.chars().filter(|c| *c != '\n')`. */
  function DropNewlines(s: string): (r: string)
    ensures '\n' !in r && |r| <= |s|
  {
    if s == [] then []
    else if s[0] == '\n' then DropNewlines(s[1..])
    else [s[0]] + DropNewlines(s[1..])
  }

  /** The index of the last `c` in `s`, or 0 when there is none: the value the closure
      leaves in `start_pos`. */
  function LastIndex(s: string, c: char): (i: nat)
    ensures c in s ==> i < |s| && s[i] == c && forall k :: i < k < |s| ==> s[k] != c
    ensures c !in s ==> i == 0
  {
    if s == [] then 0
    else if s[|s| - 1] == c then |s| - 1
    else LastIndex(s[..|s| - 1], c)
  }

  /** `Grid::from`; `None` where it panics: no first line to unwrap, or an empty first
      line, by whose length `start_pos` is divided. */
  function FromInput(input: string): (r: Option<PipeGrid>)
    ensures r.Some? <==> Lines(input) != [] && Lines(input)[0] != []
  {
    var lines := Lines(input);
    if lines == [] || lines[0] == [] then None
    else
      var cells := DropNewlines(input);
      var w := |lines[0]|;
      var s := LastIndex(cells, 'S');
      Some(PipeGrid(cells, (w, |lines|), (s % w, s / w)))
  }

  /** `get`: the cell at flat index `y * w + x`; `None` where indexing panics. */
  function Get(g: PipeGrid, p: Pos): (r: Option<char>)
    ensures r.Some? <==> p.1 * g.dimensions.0 + p.0 < |g.cells|
    ensures r.Some? ==> r.value == g.cells[p.1 * g.dimensions.0 + p.0]
  {
    var i := p.1 * g.dimensions.0 + p.0;
    if i < |g.cells| then Some(g.cells[i]) else None
  }

  predicate InBounds(g: PipeGrid, p: Pos)
  {
    p.0 < g.dimensions.0 && p.1 < g.dimensions.1
  }

  /** The start found by `From` holds an `S`, and no later cell does. */
  lemma StartIsLastS(input: string)
    requires FromInput(input).Some? && 'S' in DropNewlines(input)
    ensures var g := FromInput(input).value;
            Get(g, g.start) == Some('S')
            && forall k :: g.start.1 * g.dimensions.0 + g.start.0 < k < |g.cells| ==> g.cells[k] != 'S'
  {
    var g := FromInput(input).value;
    var s := LastIndex(g.cells, 'S');
    var w := g.dimensions.0;
    assert g.start.1 * w + g.start.0 == s by {
      assert g.start == (s % w, s / w);
      DivModSplit(s, w);
    }
  }

  lemma DivModSplit(s: nat, w: nat)
    requires w > 0
    ensures (s / w) * w + s % w == s
  {
  }

  lemma {:induction false} DropNewlinesUnlines(rows: seq<string>)
    requires forall y :: 0 <= y < |rows| ==> '\n' !in rows[y]
    ensures DropNewlines(Unlines(rows)) == Grids.Flatten(rows)
  {
    if rows != [] {
      DropNewlinesUnlines(rows[1..]);
      DropNewlinesConcat(rows[0], "\n" + Unlines(rows[1..]));
      DropNewlinesNone(rows[0]);
      assert ("\n" + Unlines(rows[1..]))[1..] == Unlines(rows[1..]);
      assert rows[0] + "\n" + Unlines(rows[1..]) == rows[0] + ("\n" + Unlines(rows[1..]));
    }
  }

  lemma {:induction false} DropNewlinesConcat(a: string, b: string)
    ensures DropNewlines(a + b) == DropNewlines(a) + DropNewlines(b)
  {
    if a != [] {
      assert (a + b)[1..] == a[1..] + b;
      DropNewlinesConcat(a[1..], b);
    } else {
      assert a + b == b;
    }
  }

  lemma {:induction false} DropNewlinesNone(a: string)
    requires '\n' !in a
    ensures DropNewlines(a) == a
  {
    if a != [] {
      assert '\n' !in a[1..] by {
        assert forall c :: c in a[1..] ==> c in a;
      }
      DropNewlinesNone(a[1..]);
      assert a == [a[0]] + a[1..];
    }
  }

  /** For a rectangular map written one row per line, the flat index `y * w + x` reads
      row `y`, column `x`, for every position in bounds. */
  lemma FlatLayout(rows: seq<string>, x: nat, y: nat)
    requires |rows| > 0 && |rows[0]| > 0
    requires forall j :: 0 <= j < |rows| ==> |rows[j]| == |rows[0]| && '\n' !in rows[j] && !EndsWithCR(rows[j])
    requires x < |rows[0]| && y < |rows|
    ensures var g := FromInput(Unlines(rows));
            g.Some? && g.value.dimensions == (|rows[0]|, |rows|) && InBounds(g.value, (x, y))
            && Get(g.value, (x, y)) == Some(rows[y][x])
  {
    LinesUnlines(rows);
    DropNewlinesUnlines(rows);
    Grids.FlattenAt(rows, |rows[0]|, x, y);
  }

  // ---------------------------------------------------------------------------
  // Pipes.

  datatype Dir = North | East | South | West

  function Opposite(d: Dir): Dir
  {
    match d
    case North => South
    case East => West
    case South => North
    case West => East
  }

  /** The step of a direction; `y` grows downwards. */
  function Delta(d: Dir): (int, int)
  {
    match d
    case North => (0, -1)
    case East => (1, 0)
    case South => (0, 1)
    case West => (-1, 0)
  }

  /** One cell in direction `d`; `None` where the `usize` would go below zero. */
  function Move(p: Pos, d: Dir): (r: Option<Pos>)
    ensures r.Some? ==> r.value.0 == p.0 + Delta(d).0 && r.value.1 == p.1 + Delta(d).1
    ensures r.None? <==> (d == North && p.1 == 0) || (d == West && p.0 == 0)
  {
    match d
    case North => if p.1 == 0 then None else Some((p.0, p.1 - 1))
    case East => Some((p.0 + 1, p.1))
    case South => Some((p.0, p.1 + 1))
    case West => if p.0 == 0 then None else Some((p.0 - 1, p.1))
  }

  /** The two sides each pipe shape connects. */
  function Openings(c: char): set<Dir>
  {
    match c
    case '|' => {North, South}
    case '-' => {East, West}
    case 'L' => {North, East}
    case 'J' => {North, West}
    case '7' => {South, West}
    case 'F' => {South, East}
    case _ => {}
  }

  /** `follow_pipe`: the next position along the pipe at `pos`, entered from `prev`;
      `None` where it panics (the shape does not fit the incoming move) or where the
      `usize` coordinate would go below zero. */
  function FollowPipe(pos: Pos, prev: Pos, c: char): (r: Option<Pos>)
  {
    var dx := pos.0 as int - prev.0 as int;
    var dy := pos.1 as int - prev.1 as int;
    if (c == '|' && dx == 0 && dy == 1) || (c == '7' && dx == 1 && dy == 0) || (c == 'F' && dx == -1 && dy == 0) then
      Some((pos.0, pos.1 + 1))
    else if (c == '|' && dx == 0 && dy == -1) || (c == 'L' && dx == -1 && dy == 0) || (c == 'J' && dx == 1 && dy == 0) then
      if pos.1 == 0 then None else Some((pos.0, pos.1 - 1))
    else if (c == '-' && dx == 1 && dy == 0) || (c == 'L' && dx == 0 && dy == 1) || (c == 'F' && dx == 0 && dy == -1) then
      Some((pos.0 + 1, pos.1))
    else if (c == '-' && dx == -1 && dy == 0) || (c == 'J' && dx == 0 && dy == 1) || (c == '7' && dx == 0 && dy == -1) then
      if pos.0 == 0 then None else Some((pos.0 - 1, pos.1))
    else None
  }

  /** `prev` lies through opening `d` of `pos`. */
  predicate CameFrom(pos: Pos, prev: Pos, d: Dir)
  {
    prev.0 as int == pos.0 + Delta(d).0 && prev.1 as int == pos.1 + Delta(d).1
  }

  /** The match table of `follow_pipe` is the pipe shapes: entering through one opening,
      the walker leaves through the other, and only those moves are accepted. */
  lemma FollowPipeShapes(pos: Pos, prev: Pos, c: char)
    ensures FollowPipe(pos, prev, c).Some? <==>
            exists d, e :: d in Openings(c) && e in Openings(c) && d != e && CameFrom(pos, prev, d) && Move(pos, e).Some?
    ensures forall d, e :: d in Openings(c) && e in Openings(c) && d != e && CameFrom(pos, prev, d) ==>
              FollowPipe(pos, prev, c) == Move(pos, e)
  {
    if FollowPipe(pos, prev, c).Some? {
      var d, e := EntryExit(pos, prev, c);
    }
  }

  /** The openings an accepted move uses. */
  lemma EntryExit(pos: Pos, prev: Pos, c: char) returns (d: Dir, e: Dir)
    requires FollowPipe(pos, prev, c).Some?
    ensures d in Openings(c) && e in Openings(c) && d != e && CameFrom(pos, prev, d)
    ensures FollowPipe(pos, prev, c) == Move(pos, e)
  {
    var dx := pos.0 as int - prev.0 as int;
    var dy := pos.1 as int - prev.1 as int;
    d := if dx == 1 then West else if dx == -1 then East else if dy == 1 then North else South;
    e := if c == '|' then (if d == North then South else North)
         else if c == '-' then (if d == West then East else West)
         else if c == 'L' then (if d == North then East else North)
         else if c == 'J' then (if d == North then West else North)
         else if c == '7' then (if d == South then West else South)
         else (if d == South then East else South);
  }

  /** The next position is a neighbour of `pos` other than `prev`. */
  lemma FollowPipeMoves(pos: Pos, prev: Pos, c: char)
    requires FollowPipe(pos, prev, c).Some?
    ensures var q := FollowPipe(pos, prev, c).value;
            q != prev && exists e :: Move(pos, e) == Some(q)
  {
    var d, e := EntryExit(pos, prev, c);
  }

  // ---------------------------------------------------------------------------
  // The walk.

  /** The neighbour checks of `run`, in its order: down, right, up, left. */
  const StartDirs: seq<Dir> := [South, East, North, West]

  /** `run`'s table of shapes that connect back to a start cell reached by moving
      `d`. */
  predicate Accepts(d: Dir, c: char)
  {
    match d
    case South => c == '|' || c == 'J' || c == 'L'
    case East => c == '-' || c == 'J' || c == '7'
    case North => c == '|' || c == '7' || c == 'F'
    case West => c == '-' || c == 'F' || c == 'L'
  }

  /** The table is the pipe shapes: a neighbour is accepted iff it opens back towards
      the start. */
  lemma AcceptsOpensBack(d: Dir, c: char)
    ensures Accepts(d, c) <==> Opposite(d) in Openings(c)
  {
  }

  /** A walker: its previous position and its current one. */
  type Walker = (Pos, Pos)

  /** The start's neighbours in order whose shape connects back; `None` where reading an
      in-bounds neighbour panics. */
  function StartPipes(g: PipeGrid, dirs: seq<Dir>): (r: Option<seq<Walker>>)
    ensures r.Some? ==> |r.value| <= |dirs|
    ensures r.Some? ==> forall i :: 0 <= i < |r.value| ==>
              r.value[i].0 == g.start && InBounds(g, r.value[i].1)
              && exists d :: Move(g.start, d) == Some(r.value[i].1) && Get(g, r.value[i].1).Some?
                             && Accepts(d, Get(g, r.value[i].1).value)
  {
    if dirs == [] then Some([])
    else
      var rest :- StartPipes(g, dirs[1..]);
      var n := Move(g.start, dirs[0]);
      if n.None? || !InBounds(g, n.value) then Some(rest)
      else
        var c :- Get(g, n.value);
        if Accepts(dirs[0], c) then Some([(g.start, n.value)] + rest) else Some(rest)
  }

  /** One step of a walker along its pipe. */
  function Advance(g: PipeGrid, w: Walker): (r: Option<Walker>)
    ensures r.Some? ==> r.value.0 == w.1
  {
    var c :- Get(g, w.1);
    var next :- FollowPipe(w.1, w.0, c);
    Some((w.1, next))
  }

  /** `n` steps of a walker. */
  function Trace(g: PipeGrid, w: Walker, n: nat): Option<Walker>
    decreases n
  {
    if n == 0 then Some(w)
    else
      var w' :- Advance(g, w);
      Trace(g, w', n - 1)
  }

  /** `run`'s loop: both walkers step; it stops when they stand on the same cell, or
      when the first has stepped onto the cell the second just left (they crossed, and
      the count goes back by one). The loop is unbounded; `fuel` caps its rounds. */
  function Walk(g: PipeGrid, a: Walker, b: Walker, count: nat, fuel: nat): (r: Option<nat>)
    decreases fuel
  {
    if fuel == 0 then None
    else
      var a' :- Advance(g, a);
      var b' :- Advance(g, b);
      if a'.1 == b'.1 then Some(count + 1)
      else if a'.1 == b'.0 then Some(count)
      else Walk(g, a', b', count + 1, fuel - 1)
  }

  /** After `n` steps each the walkers stand together or have just crossed. */
  predicate Met(g: PipeGrid, a: Walker, b: Walker, n: nat)
  {
    var ta, tb := Trace(g, a, n), Trace(g, b, n);
    ta.Some? && tb.Some? && (ta.value.1 == tb.value.1 || ta.value.1 == tb.value.0)
  }

  lemma {:induction false} TraceStep(g: PipeGrid, w: Walker, n: nat)
    requires Advance(g, w).Some?
    ensures Trace(g, w, n + 1) == Trace(g, Advance(g, w).value, n)
  {
  }

  /** `n` is the first round after which the walkers have met. */
  predicate FirstMet(g: PipeGrid, a: Walker, b: Walker, n: nat)
  {
    1 <= n && Met(g, a, b, n) && forall m :: 1 <= m < n ==> !Met(g, a, b, m)
  }

  /** What the count gains by a meeting after `n` rounds: `n`, less one if the walkers
      crossed instead of landing on the same cell. */
  function Gain(g: PipeGrid, a: Walker, b: Walker, n: nat): nat
    requires 1 <= n && Met(g, a, b, n)
  {
    if Trace(g, a, n).value.1 == Trace(g, b, n).value.1 then n else n - 1
  }

  /** The loop stops at the first round after which the walkers have met, with the
      count raised accordingly. */
  lemma {:induction false} WalkMeets(g: PipeGrid, a: Walker, b: Walker, count: nat, fuel: nat) returns (n: nat)
    requires Walk(g, a, b, count, fuel).Some?
    ensures n <= fuel && FirstMet(g, a, b, n)
    ensures Walk(g, a, b, count, fuel).value == count + Gain(g, a, b, n)
    decreases fuel
  {
    var a', b' := Advance(g, a).value, Advance(g, b).value;
    TraceStep(g, a, 0);
    TraceStep(g, b, 0);
    if a'.1 == b'.1 || a'.1 == b'.0 {
      n := 1;
      assert Met(g, a, b, 1);
    } else {
      var k := WalkMeets(g, a', b', count + 1, fuel - 1);
      n := k + 1;
      MetShift(g, a, b, k);
      forall m | 1 <= m < n ensures !Met(g, a, b, m) {
        if m > 1 {
          MetShift(g, a, b, m - 1);
        }
      }
    }
  }

  /** Meeting after `n + 1` steps is meeting after `n` steps of the advanced walkers. */
  lemma MetShift(g: PipeGrid, a: Walker, b: Walker, n: nat)
    requires Advance(g, a).Some? && Advance(g, b).Some?
    ensures var a', b' := Advance(g, a).value, Advance(g, b).value;
            Trace(g, a, n + 1) == Trace(g, a', n) && Trace(g, b, n + 1) == Trace(g, b', n)
            && (Met(g, a, b, n + 1) <==> Met(g, a', b', n))
  {
    TraceStep(g, a, n);
    TraceStep(g, b, n);
  }

  /** Enough rounds always reach the meeting: the fuel bound is the only way the model's
      loop can fail where the program's would not. */
  lemma {:induction false} WalkEnoughFuel(g: PipeGrid, a: Walker, b: Walker, count: nat, fuel: nat, n: nat)
    requires 1 <= n <= fuel && Met(g, a, b, n)
    requires forall m :: 1 <= m < n ==> Trace(g, a, m).Some? && Trace(g, b, m).Some?
    ensures Walk(g, a, b, count, fuel).Some?
    decreases n
  {
    TraceSome(g, a, 1, n);
    TraceSome(g, b, 1, n);
    var a', b' := Advance(g, a).value, Advance(g, b).value;
    TraceStep(g, a, 0);
    TraceStep(g, b, 0);
    if !(a'.1 == b'.1 || a'.1 == b'.0) {
      assert n > 1;
      TraceStep(g, a, n - 1);
      TraceStep(g, b, n - 1);
      forall m | 1 <= m < n - 1 ensures Trace(g, a', m).Some? && Trace(g, b', m).Some? {
        TraceStep(g, a, m);
        TraceStep(g, b, m);
      }
      WalkEnoughFuel(g, a', b', count + 1, fuel - 1, n - 1);
    }
  }

  /** A trace that reaches `n` steps has reached every earlier one. */
  lemma {:induction false} TraceSome(g: PipeGrid, w: Walker, m: nat, n: nat)
    requires m <= n && Trace(g, w, n).Some?
    ensures Trace(g, w, m).Some?
    decreases n
  {
    if m > 0 {
      TraceSome(g, Advance(g, w).value, m - 1, n - 1);
    }
  }

  /** `run`, part 1: `None` where the program panics, on a start without exactly two
      connecting neighbours, or when the walk outlasts `fuel` rounds. */
  function Run(input: string, fuel: nat): Option<nat>
  {
    var g :- FromInput(input);
    var ps :- StartPipes(g, StartDirs);
    if |ps| != 2 then None else Walk(g, ps[0], ps[1], 1, fuel)
  }

  /** The answer is the number of steps from the start at which the two walkers first
      meet, one less if they crossed between two cells. */
  lemma RunMeets(input: string, fuel: nat) returns (n: nat)
    requires Run(input, fuel).Some?
    ensures var g := FromInput(input).value;
            var ps := StartPipes(g, StartDirs).value;
            |ps| == 2 && n <= fuel && FirstMet(g, ps[0], ps[1], n)
            && Run(input, fuel).value == 1 + Gain(g, ps[0], ps[1], n)
  {
    var g := FromInput(input).value;
    var ps := StartPipes(g, StartDirs).value;
    n := WalkMeets(g, ps[0], ps[1], 1, fuel);
  }
}

=== FILE: day11.dfy ===
/** Day 11: galaxies `#` on a sky map; every row and every column without a galaxy is
    doubled, and the answer is the sum of the Manhattan distances over all pairs of
    galaxies. */
module Day11 {
  import opened Text

  /** A galaxy position, column first. */
  datatype Point = Point(col: nat, row: nat)

  datatype Universe = Universe(galaxies: seq<Point>, width: nat, height: nat)

  predicate Inside(u: Universe)
  {
    forall k :: 0 <= k < |u.galaxies| ==> u.galaxies[k].col < u.width && u.galaxies[k].row < u.height
  }

  // ---------------------------------------------------------------------------
  // Parsing.

  /** The galaxies of row `i` from column `j` on, left to right. */
  function RowGalaxies(l: string, i: nat, j: nat): (r: seq<Point>)
    requires j <= |l|
    ensures forall p :: p in r <==> p.row == i && j <= p.col < |l| && l[p.col] == '#'
    decreases |l| - j
  {
    if j == |l| then []
    else
      var rest := RowGalaxies(l, i, j + 1);
      if l[j] == '#' then [Point(j, i)] + rest else rest
  }

  /** The galaxies of the rows `ls[i..]`, row by row. */
  function AllGalaxies(ls: seq<string>, i: nat): (r: seq<Point>)
    requires i <= |ls|
    ensures forall p :: p in r <==> i <= p.row < |ls| && p.col < |ls[p.row]| && ls[p.row][p.col] == '#'
    decreases |ls| - i
  {
    if i == |ls| then [] else RowGalaxies(ls[i], i, 0) + AllGalaxies(ls, i + 1)
  }

  /** `parse`: the size is the first line's length by the number of lines; the first
      line is unwrapped, so the input must not be empty. */
  function Parse(input: string): (u: Universe)
    requires Lines(input) != []
    ensures u.width == |Lines(input)[0]| && u.height == |Lines(input)|
    ensures forall p :: p in u.galaxies <==>
              p.row < |Lines(input)| && p.col < |Lines(input)[p.row]| && Lines(input)[p.row][p.col] == '#'
  {
    var ls := Lines(input);
    Universe(AllGalaxies(ls, 0), |ls[0]|, |ls|)
  }

  // ---------------------------------------------------------------------------
  // Expansion.

  /** Marking the rows (or columns) that hold a galaxy. */
  function Mark(marks: seq<bool>, gs: seq<Point>, rows: bool): (r: seq<bool>)
    requires forall k :: 0 <= k < |gs| ==> (if rows then gs[k].row else gs[k].col) < |marks|
    ensures |r| == |marks|
    ensures forall x :: 0 <= x < |r| ==>
              (r[x] <==> marks[x] || exists k :: 0 <= k < |gs| && (if rows then gs[k].row else gs[k].col) == x)
  {
    if gs == [] then marks
    else
      var g := gs[|gs| - 1];
      var r := Mark(marks, gs[..|gs| - 1], rows)[if rows then g.row else g.col := true];
      assert forall k :: 0 <= k < |gs| - 1 ==> gs[..|gs| - 1][k] == gs[k];
      r
  }

  /** The renumbering loop: index `i` moves down by the number of empty lines up to and
      including itself. */
  function Remap(marks: seq<bool>, i: nat, expanded: nat): (r: seq<nat>)
    requires i <= |marks|
    ensures |r| == |marks| - i
    decreases |marks| - i
  {
    if i == |marks| then []
    else
      var e := if !marks[i] then expanded + 1 else expanded;
      [i + e] + Remap(marks, i + 1, e)
  }

  /** The empty lines among the first `n`. */
  function Empties(marks: seq<bool>, n: nat): nat
    requires n <= |marks|
  {
    if n == 0 then 0 else Empties(marks, n - 1) + if marks[n - 1] then 0 else 1
  }

  /** Line `i` moves to `i` plus the empty lines at or before it. */
  lemma {:induction false} RemapAt(marks: seq<bool>, i: nat, expanded: nat, x: nat)
    requires i <= x < |marks| && (i == 0 ==> expanded == 0) && (i > 0 ==> expanded == Empties(marks, i))
    ensures Remap(marks, i, expanded)[x - i] == x + Empties(marks, x + 1)
    decreases |marks| - i
  {
    if x > i {
      var e := if !marks[i] then expanded + 1 else expanded;
      RemapAt(marks, i + 1, e, x);
    }
  }

  function Renumbering(marks: seq<bool>): (r: seq<nat>)
    ensures |r| == |marks|
    ensures forall x :: 0 <= x < |marks| ==> r[x] == x + Empties(marks, x + 1)
  {
    var r := Remap(marks, 0, 0);
    forall x | 0 <= x < |marks| ensures r[x] == x + Empties(marks, x + 1) {
      RemapAt(marks, 0, 0, x);
    }
    r
  }

  /** `expand`: galaxies outside the map would index past the marks, so the universe must
      contain its galaxies. */
  function Expand(u: Universe): (v: Universe)
    requires Inside(u)
    ensures |v.galaxies| == |u.galaxies|
  {
    var rowMarks := Mark(seq(u.height, _ => false), u.galaxies, true);
    var colMarks := Mark(seq(u.width, _ => false), u.galaxies, false);
    var rows := Renumbering(rowMarks);
    var cols := Renumbering(colMarks);
    Universe(
      seq(|u.galaxies|, k requires 0 <= k < |u.galaxies| => Point(cols[u.galaxies[k].col], rows[u.galaxies[k].row])),
      u.width + Empties(colMarks, u.width),
      u.height + Empties(rowMarks, u.height))
  }

  function RowMarks(u: Universe): (m: seq<bool>)
    requires Inside(u)
  {
    Mark(seq(u.height, _ => false), u.galaxies, true)
  }

  function ColMarks(u: Universe): (m: seq<bool>)
    requires Inside(u)
  {
    Mark(seq(u.width, _ => false), u.galaxies, false)
  }

  /** A line is marked exactly when some galaxy lies on it. */
  lemma MarksMeanOccupied(u: Universe)
    requires Inside(u)
    ensures forall r :: 0 <= r < u.height ==> (RowMarks(u)[r] <==> exists k :: 0 <= k < |u.galaxies| && u.galaxies[k].row == r)
    ensures forall c :: 0 <= c < u.width ==> (ColMarks(u)[c] <==> exists k :: 0 <= k < |u.galaxies| && u.galaxies[k].col == c)
  {
  }

  lemma {:induction false} EmptiesMono(marks: seq<bool>, a: nat, b: nat)
    requires a <= b <= |marks|
    ensures Empties(marks, a) <= Empties(marks, b) <= Empties(marks, a) + (b - a)
    decreases b - a
  {
    if a < b {
      EmptiesMono(marks, a, b - 1);
    }
  }

  /** The renumbering is strictly increasing, so galaxies keep their order on both
      axes, and it stays within the expanded size. */
  lemma RenumberingIncreasing(marks: seq<bool>, a: nat, b: nat)
    requires a < b < |marks|
    ensures Renumbering(marks)[a] < Renumbering(marks)[b]
    ensures Renumbering(marks)[b] < |marks| + Empties(marks, |marks|)
  {
    var r := Renumbering(marks);
    assert r[a] == a + Empties(marks, a + 1) && r[b] == b + Empties(marks, b + 1);
    assert Empties(marks, a + 1) <= Empties(marks, b + 1) by {
      EmptiesMono(marks, a + 1, b + 1);
    }
    assert Empties(marks, b + 1) <= Empties(marks, |marks|) by {
      EmptiesMono(marks, b + 1, |marks|);
    }
  }

  lemma RenumberingBound(marks: seq<bool>, a: nat)
    requires a < |marks|
    ensures Renumbering(marks)[a] < |marks| + Empties(marks, |marks|)
  {
    EmptiesMono(marks, a + 1, |marks|);
  }

  /** Between two occupied lines `a < b` the gap grows by the empty lines between them. */
  lemma RenumberingGap(marks: seq<bool>, a: nat, b: nat)
    requires a < b < |marks| && marks[b]
    ensures Renumbering(marks)[b] == Renumbering(marks)[a] + (b - a) + Count(marks[a + 1..b], false)
  {
    EmptiesMono(marks, a + 1, b);
    EmptiesCount(marks, a + 1, b);
  }

  lemma {:induction false} EmptiesCount(marks: seq<bool>, a: nat, b: nat)
    requires a <= b <= |marks|
    ensures Empties(marks, a) <= Empties(marks, b)
    ensures Empties(marks, b) - Empties(marks, a) == Count(marks[a..b], false)
    decreases b - a
  {
    EmptiesMono(marks, a, b);
    if a < b {
      EmptiesCount(marks, a + 1, b);
      assert marks[a..b] == [marks[a]] + marks[a + 1..b];
      assert Empties(marks, a + 1) == Empties(marks, a) + if marks[a] then 0 else 1;
      EmptiesSplit(marks, a);
    }
  }

  lemma EmptiesSplit(marks: seq<bool>, a: nat)
    requires a < |marks|
    ensures Empties(marks, a + 1) == Empties(marks, a) + if marks[a] then 0 else 1
  {
  }

  /** Expansion keeps the galaxies inside the grown map, which grows by the empty rows
      and columns. */
  lemma ExpandShape(u: Universe)
    requires Inside(u)
    ensures var v := Expand(u);
            && Inside(v)
            && v.width == u.width + Count(ColMarks(u), false)
            && v.height == u.height + Count(RowMarks(u), false)
  {
    var v := Expand(u);
    var gs := u.galaxies;
    EmptiesCount(RowMarks(u), 0, u.height);
    EmptiesCount(ColMarks(u), 0, u.width);
    assert RowMarks(u)[0..u.height] == RowMarks(u);
    assert ColMarks(u)[0..u.width] == ColMarks(u);
    forall k | 0 <= k < |gs| ensures v.galaxies[k].col < v.width && v.galaxies[k].row < v.height {
      RenumberingBound(RowMarks(u), gs[k].row);
      RenumberingBound(ColMarks(u), gs[k].col);
    }
  }

  /** Expansion preserves the order of any two galaxies on both axes. */
  lemma ExpandOrder(u: Universe, a: nat, b: nat)
    requires Inside(u) && a < |u.galaxies| && b < |u.galaxies|
    ensures var v := Expand(u);
            && (u.galaxies[a].row < u.galaxies[b].row <==> v.galaxies[a].row < v.galaxies[b].row)
            && (u.galaxies[a].col < u.galaxies[b].col <==> v.galaxies[a].col < v.galaxies[b].col)
  {
    var gs := u.galaxies;
    if gs[a].row < gs[b].row {
      RenumberingIncreasing(RowMarks(u), gs[a].row, gs[b].row);
    } else if gs[b].row < gs[a].row {
      RenumberingIncreasing(RowMarks(u), gs[b].row, gs[a].row);
    }
    if gs[a].col < gs[b].col {
      RenumberingIncreasing(ColMarks(u), gs[a].col, gs[b].col);
    } else if gs[b].col < gs[a].col {
      RenumberingIncreasing(ColMarks(u), gs[b].col, gs[a].col);
    }
  }

  /** Each empty row or column between two galaxies adds one to their distance on that
      axis. */
  lemma ExpandGap(u: Universe, a: nat, b: nat)
    requires Inside(u) && a < |u.galaxies| && b < |u.galaxies|
    requires u.galaxies[a].row < u.galaxies[b].row
    ensures var ra, rb := u.galaxies[a].row, u.galaxies[b].row;
            Expand(u).galaxies[b].row == Expand(u).galaxies[a].row + (rb - ra) + Count(RowMarks(u)[ra + 1..rb], false)
  {
    var rb := u.galaxies[b].row;
    assert RowMarks(u)[rb] by {
      MarksMeanOccupied(u);
    }
    RenumberingGap(RowMarks(u), u.galaxies[a].row, rb);
  }

  // ---------------------------------------------------------------------------
  // Distances.

  /** Coordinates are cast to `i32` before subtracting. */
  const I32_MAX: nat := 0x7FFF_FFFF

  predicate Fits(p: Point)
  {
    p.col <= I32_MAX && p.row <= I32_MAX
  }

  function Dist(a: nat, b: nat): nat
  {
    if a < b then b - a else a - b
  }

  /** `manhattan`. */
  function Manhattan(p: Point, q: Point): nat
    requires Fits(p) && Fits(q)
  {
    Dist(p.col, q.col) + Dist(p.row, q.row)
  }

  /** The distance is symmetric, zero exactly between equal points, and bounded by the
      sum of the two legs through any third point. */
  lemma ManhattanMetric(p: Point, q: Point, s: Point)
    requires Fits(p) && Fits(q) && Fits(s)
    ensures Manhattan(p, q) == Manhattan(q, p)
    ensures Manhattan(p, q) == 0 <==> p == q
    ensures Manhattan(p, q) <= Manhattan(p, s) + Manhattan(s, q)
  {
  }

  predicate AllFit(gs: seq<Point>)
  {
    forall k :: 0 <= k < |gs| ==> Fits(gs[k])
  }

  /** The distances from `p` to each of `gs`. */
  function Row(p: Point, gs: seq<Point>): nat
    requires Fits(p) && AllFit(gs)
  {
    if gs == [] then 0 else Row(p, gs[..|gs| - 1]) + Manhattan(p, gs[|gs| - 1])
  }

  /** The double loop of `run`: every ordered pair `(a, b)` with `a` from `xs`. */
  function Ordered(xs: seq<Point>, bs: seq<Point>): nat
    requires AllFit(xs) && AllFit(bs)
  {
    if xs == [] then 0 else Ordered(xs[..|xs| - 1], bs) + Row(xs[|xs| - 1], bs)
  }

  /** Each unordered pair once: every galaxy with the galaxies before it. */
  function Unordered(gs: seq<Point>): nat
    requires AllFit(gs)
  {
    if gs == [] then 0 else Unordered(gs[..|gs| - 1]) + Row(gs[|gs| - 1], gs[..|gs| - 1])
  }

  lemma {:induction false} OrderedSnoc(xs: seq<Point>, bs: seq<Point>, x: Point)
    requires AllFit(xs) && AllFit(bs) && Fits(x)
    ensures AllFit(bs + [x])
    ensures Ordered(xs, bs + [x]) == Ordered(xs, bs) + Row(x, xs)
  {
    assert (bs + [x])[..|bs|] == bs;
    if xs != [] {
      var front := xs[..|xs| - 1];
      OrderedSnoc(front, bs, x);
    }
  }

  /** Summing over ordered pairs counts every unordered pair twice, since the distance is
      symmetric and zero from a galaxy to itself. */
  lemma {:induction false} OrderedTwice(gs: seq<Point>)
    requires AllFit(gs)
    ensures Ordered(gs, gs) == 2 * Unordered(gs)
  {
    if gs != [] {
      var front := gs[..|gs| - 1];
      var x := gs[|gs| - 1];
      assert gs == front + [x];
      OrderedTwice(front);
      OrderedSnoc(front, front, x);
      OrderedSnoc([x], front, x);
      assert Ordered(gs, gs) == Ordered(front, gs) + Row(x, gs);
      assert Row(x, gs) == Row(x, front) + Manhattan(x, x);
      assert Ordered([x], front) == Row(x, front) by {
        assert [x][..0] == [];
      }
      RowSymmetric(x, front);
    }
  }

  /** The distances from `x` to `gs` sum to those from `gs` to `x`. */
  lemma {:induction false} RowSymmetric(x: Point, gs: seq<Point>)
    requires Fits(x) && AllFit(gs)
    ensures Ordered(gs, [x]) == Row(x, gs)
  {
    if gs != [] {
      var front, last := gs[..|gs| - 1], gs[|gs| - 1];
      RowSymmetric(x, front);
      assert [x][..0] == [];
      assert Ordered(gs, [x]) == Ordered(front, [x]) + Row(last, [x]);
      assert Row(last, [x]) == Manhattan(last, x);
      assert Row(x, gs) == Row(x, front) + Manhattan(x, last);
    }
  }

  /** `run`: the ordered-pair total halved. Distances are taken in `i32`, so the expanded
      coordinates must fit. */
  function Part1(input: string): nat
    requires Lines(input) != []
    requires Inside(Parse(input))
    requires AllFit(Expand(Parse(input)).galaxies)
  {
    var gs := Expand(Parse(input)).galaxies;
    Ordered(gs, gs) / 2
  }

  /** The answer is the sum over unordered pairs of galaxies. */
  lemma Part1Unordered(input: string)
    requires Lines(input) != []
    requires Inside(Parse(input))
    requires AllFit(Expand(Parse(input)).galaxies)
    ensures Part1(input) == Unordered(Expand(Parse(input)).galaxies)
  {
    OrderedTwice(Expand(Parse(input)).galaxies);
  }
}

=== FILE: day12.dfy ===
/** Day 12: counting the arrangements of damaged springs. A row of springs, some of them
    of unknown condition, must be completed so that its runs of damaged springs have
    exactly the listed lengths, in order. */
module Day12 {
  import opened Text

  datatype Spring = Good | Bad | Unknown

  // ---------------------------------------------------------------------------
  // The program's recursive count.

  /** `count_combinations`: place the first group at the very start when it fits there
      (and continue after the separating spring), and add the arrangements in which the
      first spring is operational. The memoisation does not change the value. */
  function CountCombinations(springs: seq<Spring>, groups: seq<nat>): nat
    decreases |springs|
  {
    if springs == [] && groups == [] then 1
    else if springs == [] then 0
    else if groups == [] then (if Bad in springs then 0 else 1)
    else if groups[0] > |springs| then 0
    else
      var g := groups[0];
      var firstGroupMatches := forall i :: 0 <= i < g ==> springs[i] != Good;
      var trailingNotBad := g == |springs| || springs[g] != Bad;
      if firstGroupMatches && trailingNotBad then
        var a := if g == |springs| then (if |groups| == 1 then 1 else 0)
                 else CountCombinations(springs[g + 1..], groups[1..]);
        var b := if springs[0] == Bad then 0 else CountCombinations(springs[1..], groups);
        a + b
      else if springs[0] == Bad then 0
      else CountCombinations(springs[1..], groups)
  }

  // ---------------------------------------------------------------------------
  // The reference count: enumerate every completion of the row.

  /** A completed row is a sequence of conditions, `true` meaning damaged. A known
      spring admits only its own condition. */
  predicate Fits(s: Spring, damaged: bool)
  {
    (s == Good ==> !damaged) && (s == Bad ==> damaged)
  }

  predicate Compatible(s: seq<Spring>, c: seq<bool>)
  {
    |s| == |c| && forall i :: 0 <= i < |s| ==> Fits(s[i], c[i])
  }

  /** The predicate `P` on completions whose first condition has been fixed to `b`. */
  function Shift(P: seq<bool> -> bool, b: bool): seq<bool> -> bool
  {
    c => P([b] + c)
  }

  /** The number of completions of `s` that satisfy `P`, choosing each unknown spring's
      condition in turn. */
  function Ways(s: seq<Spring>, P: seq<bool> -> bool): nat
    decreases |s|
  {
    if s == [] then (if P([]) then 1 else 0)
    else
      (if Fits(s[0], false) then Ways(s[1..], Shift(P, false)) else 0)
      + (if Fits(s[0], true) then Ways(s[1..], Shift(P, true)) else 0)
  }

  /** The length of the leading run of damaged springs. */
  function LeadRun(c: seq<bool>): (n: nat)
    ensures n <= |c|
    ensures forall i :: 0 <= i < n ==> c[i]
    ensures n < |c| ==> !c[n]
  {
    if c == [] || !c[0] then 0 else 1 + LeadRun(c[1..])
  }

  /** The lengths of the maximal runs of damaged springs, left to right. */
  function Runs(c: seq<bool>): seq<nat>
    decreases |c|
  {
    if c == [] then []
    else if !c[0] then Runs(c[1..])
    else
      var n := LeadRun(c);
      [n] + Runs(c[n..])
  }

  /** The completions whose damaged runs are exactly `groups`. */
  function Matches(groups: seq<nat>): seq<bool> -> bool
  {
    c => Runs(c) == groups
  }

  /** The completions that start with `p` and whose remainder satisfies `Q`. */
  function Prefixed(p: seq<bool>, Q: seq<bool> -> bool): seq<bool> -> bool
  {
    c => |c| >= |p| && c[..|p|] == p && Q(c[|p|..])
  }

  // ---------------------------------------------------------------------------
  // Facts about the reference count.

  /** Only the values of `P` on completions of the right length matter. */
  lemma {:induction false} WaysExt(s: seq<Spring>, P: seq<bool> -> bool, Q: seq<bool> -> bool)
    requires forall c :: |c| == |s| ==> P(c) == Q(c)
    ensures Ways(s, P) == Ways(s, Q)
    decreases |s|
  {
    if s != [] {
      ShiftAgrees(s, P, Q, false);
      WaysExt(s[1..], Shift(P, false), Shift(Q, false));
      ShiftAgrees(s, P, Q, true);
      WaysExt(s[1..], Shift(P, true), Shift(Q, true));
    }
  }

  /** A predicate no completion of the right length satisfies is counted zero times. */
  lemma {:induction false} WaysNone(s: seq<Spring>, P: seq<bool> -> bool)
    requires forall c :: |c| == |s| ==> !P(c)
    ensures Ways(s, P) == 0
    decreases |s|
  {
    if s != [] {
      ShiftAgrees(s, P, c => false, false);
      WaysNone(s[1..], Shift(P, false));
      ShiftAgrees(s, P, c => false, true);
      WaysNone(s[1..], Shift(P, true));
    }
  }

  lemma ShiftAgrees(s: seq<Spring>, P: seq<bool> -> bool, Q: seq<bool> -> bool, b: bool)
    requires s != []
    requires forall c :: |c| == |s| ==> P(c) == Q(c)
    ensures forall c :: |c| == |s| - 1 ==> Shift(P, b)(c) == Shift(Q, b)(c)
  {
    forall c | |c| == |s| - 1 ensures Shift(P, b)(c) == Shift(Q, b)(c) {
      assert |[b] + c| == |s|;
    }
  }

  /** Fixing a prefix of the completion: either the prefix fits the known springs and the
      rest is counted, or nothing is counted. */
  lemma {:induction false} PrefixWays(s: seq<Spring>, p: seq<bool>, Q: seq<bool> -> bool)
    requires |p| <= |s|
    ensures Ways(s, Prefixed(p, Q)) ==
            if Compatible(s[..|p|], p) then Ways(s[|p|..], Q) else 0
    decreases |p|
  {
    if p == [] {
      forall c | |c| == |s| ensures Prefixed(p, Q)(c) == Q(c) {
        assert c[..0] == [] && c[0..] == c;
      }
      WaysExt(s, Prefixed(p, Q), Q);
      assert s[0..] == s;
    } else {
      var R := Prefixed(p, Q);
      var R' := Prefixed(p[1..], Q);
      forall c | |c| == |s| - 1 ensures Shift(R, p[0])(c) == R'(c) {
        ShiftPrefixed(p, Q, c);
      }
      WaysExt(s[1..], Shift(R, p[0]), R');
      forall c | |c| == |s| - 1 ensures !Shift(R, !p[0])(c) {
        ShiftPrefixedOther(p, Q, c);
      }
      WaysNone(s[1..], Shift(R, !p[0]));
      PrefixWays(s[1..], p[1..], Q);
      assert s[1..][|p| - 1..] == s[|p|..];
      CompatibleCons(s[..|p|], p);
      assert s[..|p|][1..] == s[1..][..|p| - 1];
    }
  }

  lemma ShiftPrefixed(p: seq<bool>, Q: seq<bool> -> bool, c: seq<bool>)
    requires p != []
    ensures Shift(Prefixed(p, Q), p[0])(c) == Prefixed(p[1..], Q)(c)
  {
    var x := [p[0]] + c;
    assert Shift(Prefixed(p, Q), p[0])(c) == Prefixed(p, Q)(x);
    if |x| >= |p| {
      assert x[..|p|] == [p[0]] + c[..|p| - 1];
      assert x[|p|..] == c[|p| - 1..];
      assert p == [p[0]] + p[1..];
    }
  }

  lemma ShiftPrefixedOther(p: seq<bool>, Q: seq<bool> -> bool, c: seq<bool>)
    requires p != []
    ensures !Shift(Prefixed(p, Q), !p[0])(c)
  {
    var x := [!p[0]] + c;
    assert Shift(Prefixed(p, Q), !p[0])(c) == Prefixed(p, Q)(x);
    if |x| >= |p| {
      assert x[..|p|][0] != p[0];
    }
  }

  lemma CompatibleCons(s: seq<Spring>, c: seq<bool>)
    requires |s| == |c| > 0
    ensures Compatible(s, c) <==> Fits(s[0], c[0]) && Compatible(s[1..], c[1..])
  {
    if Fits(s[0], c[0]) && Compatible(s[1..], c[1..]) {
      forall i | 1 <= i < |s| ensures Fits(s[i], c[i]) {
        assert s[i] == s[1..][i - 1] && c[i] == c[1..][i - 1];
      }
    }
  }

  lemma {:induction false} RunsEmpty(c: seq<bool>)
    ensures Runs(c) == [] <==> true !in c
    decreases |c|
  {
    if c != [] {
      RunsEmpty(c[1..]);
      assert c == [c[0]] + c[1..];
    }
  }

  /** Fixing an operational spring first does not change which completions have no runs. */
  lemma NoGroupsGood(s: seq<Spring>)
    ensures Ways(s, Shift(Matches([]), false)) == Ways(s, Matches([]))
  {
    forall c | |c| == |s| ensures Shift(Matches([]), false)(c) == Matches([])(c) {
      RunsEmpty([false] + c);
      RunsEmpty(c);
      assert true in [false] + c <==> true in c;
    }
    WaysExt(s, Shift(Matches([]), false), Matches([]));
  }

  /** A completion that starts damaged has a run. */
  lemma NoGroupsBad(s: seq<Spring>)
    ensures Ways(s, Shift(Matches([]), true)) == 0
  {
    forall c | |c| == |s| ensures !Shift(Matches([]), true)(c) {
      RunsEmpty([true] + c);
      assert ([true] + c)[0] == true;
    }
    WaysNone(s, Shift(Matches([]), true));
  }

  /** With no groups left, the only admissible completion marks every spring
      operational, which is possible exactly when no spring is known to be damaged. */
  lemma {:induction false} NoGroupsWays(s: seq<Spring>)
    ensures Ways(s, Matches([])) == if Bad in s then 0 else 1
    decreases |s|
  {
    if s == [] {
      assert Runs([]) == [];
    } else {
      NoGroupsGood(s[1..]);
      NoGroupsBad(s[1..]);
      NoGroupsWays(s[1..]);
      assert Bad in s <==> s[0] == Bad || Bad in s[1..] by {
        assert s == [s[0]] + s[1..];
      }
    }
  }

  /** No run is longer than the row. */
  lemma {:induction false} RunsBound(c: seq<bool>)
    ensures forall i :: 0 <= i < |Runs(c)| ==> Runs(c)[i] <= |c|
    decreases |c|
  {
    if c != [] {
      if !c[0] {
        RunsBound(c[1..]);
      } else {
        RunsBound(c[LeadRun(c)..]);
      }
    }
  }

  lemma RunsFalseCons(c: seq<bool>)
    ensures Runs([false] + c) == Runs(c)
  {
    assert ([false] + c)[1..] == c;
  }

  /** The completion prefix that places a first group of length `g` at the start of a
      row of `n` springs: the group's remaining `g - 1` damaged springs and, unless the
      group ends the row, one operational separator. */
  function Block(g: nat, n: nat): (p: seq<bool>)
    requires 1 <= g <= n
    ensures |p| == if g < n then g else g - 1
  {
    seq(g - 1, _ => true) + (if g < n then [false] else [])
  }

  /** A row that starts with exactly `g` damaged springs has `g` as its first run,
      followed by the runs after the separating spring. */
  lemma RunsOfLead(x: seq<bool>, g: nat)
    requires 1 <= g <= |x|
    requires forall i :: 0 <= i < g ==> x[i]
    requires g < |x| ==> !x[g]
    ensures LeadRun(x) == g
    ensures Runs(x) == [g] + Runs(x[if g < |x| then g + 1 else g..])
  {
    LeadRunExact(x, g);
    assert x[0];
    assert Runs(x) == [g] + Runs(x[g..]);
    if g < |x| {
      assert x[g..] == [false] + x[g + 1..];
      RunsFalseCons(x[g + 1..]);
    }
  }

  lemma LeadRunExact(x: seq<bool>, g: nat)
    requires g <= |x|
    requires forall i :: 0 <= i < g ==> x[i]
    requires g < |x| ==> !x[g]
    ensures LeadRun(x) == g
  {
  }

  /** A completion starting with a damaged spring has runs `groups` exactly when it
      continues with the rest of the first group, then a separator unless the row ends,
      and the remainder has the remaining groups as its runs. */
  lemma RunsTrueCons(c: seq<bool>, groups: seq<nat>)
    requires |groups| > 0 && 1 <= groups[0] <= |c| + 1
    ensures Runs([true] + c) == groups <==> Prefixed(Block(groups[0], |c| + 1), Matches(groups[1..]))(c)
  {
    var p := Block(groups[0], |c| + 1);
    assert Prefixed(p, Matches(groups[1..]))(c) <==> |c| >= |p| && c[..|p|] == p && Runs(c[|p|..]) == groups[1..] by {
      PrefixedMatches(p, groups[1..], c);
    }
    RunsAfterLead(c, groups);
  }

  /** Membership in `Prefixed` and `Matches`, spelled out. */
  lemma PrefixedMatches(p: seq<bool>, groups: seq<nat>, c: seq<bool>)
    ensures Prefixed(p, Matches(groups))(c) <==> |c| >= |p| && c[..|p|] == p && Runs(c[|p|..]) == groups
  {
  }

  /** `RunsTrueCons` without the predicates. */
  lemma RunsAfterLead(c: seq<bool>, groups: seq<nat>)
    requires |groups| > 0 && 1 <= groups[0] <= |c| + 1
    ensures var p := Block(groups[0], |c| + 1);
            Runs([true] + c) == groups <==> |c| >= |p| && c[..|p|] == p && Runs(c[|p|..]) == groups[1..]
  {
    var g := groups[0];
    var x := [true] + c;
    var p := Block(g, |x|);
    var next := if g < |x| then g + 1 else g;
    assert Runs(x) == groups <==> LeadsWith(x, g) && Runs(x[next..]) == groups[1..] by {
      RunsFirstGroup(x, groups);
    }
    assert (|c| >= |p| && c[..|p|] == p) <==> LeadsWith(x, g) by {
      BlockPrefixLead(c, g);
    }
    assert x[next..] == c[|p|..];
  }

  /** The row starts with exactly `g` damaged springs. */
  predicate LeadsWith(x: seq<bool>, g: nat)
  {
    g <= |x| && (forall i :: 0 <= i < g ==> x[i]) && (g < |x| ==> !x[g])
  }

  /** A row starting with a damaged spring has runs `groups` exactly when it starts with
      `groups[0]` damaged springs not followed by another, and the rest after the
      separator has the remaining groups as its runs. */
  lemma RunsFirstGroup(x: seq<bool>, groups: seq<nat>)
    requires |x| > 0 && x[0]
    requires |groups| > 0 && 1 <= groups[0] <= |x|
    ensures Runs(x) == groups <==>
            LeadsWith(x, groups[0]) && Runs(x[if groups[0] < |x| then groups[0] + 1 else groups[0]..]) == groups[1..]
  {
    var g := groups[0];
    assert groups == [g] + groups[1..];
    if (forall i :: 0 <= i < g ==> x[i]) && (g < |x| ==> !x[g]) {
      RunsOfLead(x, g);
    }
    if Runs(x) == groups {
      LeadOfRuns(x);
      RunsOfLead(x, g);
    }
  }

  lemma LeadOfRuns(x: seq<bool>)
    requires |x| > 0 && x[0]
    ensures |Runs(x)| > 0 && Runs(x)[0] == LeadRun(x) >= 1
  {
  }

  /** The block prefix is present exactly when the row, read with its leading damaged
      spring, starts with `g` damaged springs that are not followed by another. */
  lemma BlockPrefixLead(c: seq<bool>, g: nat)
    requires 1 <= g <= |c| + 1
    ensures (|c| >= |Block(g, |c| + 1)| && c[..|Block(g, |c| + 1)|] == Block(g, |c| + 1)) <==>
            LeadsWith([true] + c, g)
  {
    var x := [true] + c;
    var p := Block(g, |x|);
    var prefix := |c| >= |p| && c[..|p|] == p;
    if prefix {
      forall i | 0 <= i < g ensures x[i] {
        if i > 0 {
          assert x[i] == c[..|p|][i - 1] == p[i - 1];
        }
      }
      if g < |x| {
        assert x[g] == c[..|p|][g - 1] == p[g - 1];
      }
    }
    if (forall i :: 0 <= i < g ==> x[i]) && (g < |x| ==> !x[g]) {
      forall i | 0 <= i < |p| ensures c[i] == p[i] {
        assert c[i] == x[i + 1];
      }
      assert c[..|p|] == p;
    }
  }

  /** The separator-and-group prefix fits the known springs exactly when the program's
      two tests on the first group succeed. */
  lemma BlockCompatible(s: seq<Spring>, g: nat)
    requires 1 <= g <= |s| && s[0] != Good
    ensures Compatible(s[1..][..|Block(g, |s|)|], Block(g, |s|)) <==>
            (forall i :: 0 <= i < g ==> s[i] != Good) && (g == |s| || s[g] != Bad)
  {
    var p := Block(g, |s|);
    var t := s[1..][..|p|];
    assert forall i :: 0 <= i < g - 1 ==> p[i] && t[i] == s[i + 1];
    if g < |s| {
      assert !p[g - 1] && t[g - 1] == s[g];
    }
    if (forall i :: 0 <= i < g ==> s[i] != Good) && (g == |s| || s[g] != Bad) {
      forall i | 0 <= i < |t| ensures Fits(t[i], p[i]) {
        if i < g - 1 {
          assert s[i + 1] != Good;
        }
      }
    }
    if Compatible(t, p) {
      forall i | 0 <= i < g ensures s[i] != Good {
        if i > 0 {
          assert Fits(t[i - 1], p[i - 1]);
        }
      }
      if g < |s| {
        assert Fits(t[g - 1], p[g - 1]);
      }
    }
  }

  /** The program's count is the number of completions whose damaged runs are exactly
      the groups, provided every group is at least one spring long. */
  lemma {:induction false} CountIsWays(s: seq<Spring>, groups: seq<nat>)
    requires forall i :: 0 <= i < |groups| ==> groups[i] >= 1
    ensures CountCombinations(s, groups) == Ways(s, Matches(groups))
    decreases |s|, 1
  {
    if s == [] {
      assert Runs([]) == [];
    } else if groups == [] {
      NoGroupsWays(s);
    } else if groups[0] > |s| {
      TooLongWays(s, groups);
    } else {
      GoodWays(s[1..], groups);
      CountIsWays(s[1..], groups);
      if s[0] != Good {
        DamagedWays(s, groups);
      }
    }
  }

  /** A first group longer than the row fits nowhere. */
  lemma TooLongWays(s: seq<Spring>, groups: seq<nat>)
    requires |groups| > 0 && groups[0] > |s|
    ensures Ways(s, Matches(groups)) == 0
  {
    forall c | |c| == |s| ensures !Matches(groups)(c) {
      RunsBound(c);
      assert Runs(c) != groups by {
        if |Runs(c)| > 0 {
          assert Runs(c)[0] <= |c|;
        }
      }
    }
    WaysNone(s, Matches(groups));
  }

  /** An operational first spring leaves the groups to the rest of the row. */
  lemma GoodWays(s: seq<Spring>, groups: seq<nat>)
    ensures Ways(s, Shift(Matches(groups), false)) == Ways(s, Matches(groups))
  {
    forall c | |c| == |s| ensures Shift(Matches(groups), false)(c) == Matches(groups)(c) {
      RunsFalseCons(c);
    }
    WaysExt(s, Shift(Matches(groups), false), Matches(groups));
  }

  /** The program's two tests on the first group of length `g`. */
  predicate FirstGroupFits(s: seq<Spring>, g: nat)
    requires g <= |s|
  {
    (forall i :: 0 <= i < g ==> s[i] != Good) && (g == |s| || s[g] != Bad)
  }

  /** A damaged first spring must start the first group: the count of the program's
      first branch. */
  lemma {:induction false} DamagedWays(s: seq<Spring>, groups: seq<nat>)
    requires forall i :: 0 <= i < |groups| ==> groups[i] >= 1
    requires |groups| > 0 && groups[0] <= |s| && s[0] != Good
    ensures var g := groups[0];
            Ways(s[1..], Shift(Matches(groups), true)) ==
            if FirstGroupFits(s, g) then
              (if g == |s| then (if |groups| == 1 then 1 else 0) else CountCombinations(s[g + 1..], groups[1..]))
            else 0
    decreases |s|, 0
  {
    var g := groups[0];
    var p := Block(g, |s|);
    var t := s[1..];
    var M := Matches(groups[1..]);
    assert Ways(t, Shift(Matches(groups), true)) == Ways(t, Prefixed(p, M)) by {
      DamagedShift(t, groups);
    }
    assert Ways(t, Prefixed(p, M)) == if Compatible(t[..|p|], p) then Ways(t[|p|..], M) else 0 by {
      PrefixWays(t, p, M);
    }
    assert Compatible(t[..|p|], p) <==> FirstGroupFits(s, g) by {
      BlockCompatible(s, g);
    }
    if g < |s| {
      assert t[|p|..] == s[g + 1..];
      CountIsWays(s[g + 1..], groups[1..]);
    } else {
      assert t[|p|..] == [];
      assert Ways([], M) == if |groups| == 1 then 1 else 0 by {
        assert Runs([]) == [];
        assert |groups| == 1 <==> groups[1..] == [];
      }
    }
  }

  /** After a damaged first spring, the completions with runs `groups` are those that
      continue with the block of the first group. */
  lemma DamagedShift(t: seq<Spring>, groups: seq<nat>)
    requires |groups| > 0 && 1 <= groups[0] <= |t| + 1
    ensures Ways(t, Shift(Matches(groups), true)) == Ways(t, Prefixed(Block(groups[0], |t| + 1), Matches(groups[1..])))
  {
    var p := Block(groups[0], |t| + 1);
    forall c | |c| == |t|
      ensures Shift(Matches(groups), true)(c) == Prefixed(p, Matches(groups[1..]))(c)
    {
      RunsTrueCons(c, groups);
    }
    WaysExt(t, Shift(Matches(groups), true), Prefixed(p, Matches(groups[1..])));
  }



  // ---------------------------------------------------------------------------
  // The examples the program's own tests check.

  lemma SmallCases()
    ensures CountCombinations([Bad], [1, 3]) == 0
    ensures CountCombinations([], []) == 1
    ensures CountCombinations([Bad], []) == 0
    ensures CountCombinations([Good], []) == 1
    ensures CountCombinations([Bad, Bad], [1]) == 0
  {
    assert Bad in [Bad];
    assert Bad in [Bad, Bad];
    assert Bad !in [Good];
    assert CountCombinations([Bad], [3]) == 0;
    assert CountCombinations([Bad][1..], [1]) == 0;
  }

  // ---------------------------------------------------------------------------
  // Unfolding for part 2.

  /** `n` copies of the row, consecutive copies joined by one unknown spring. */
  function Copies(s: seq<Spring>, n: nat): (r: seq<Spring>)
    requires n >= 1
    ensures |r| == n * (|s| + 1) - 1
  {
    if n == 1 then s else Copies(s, n - 1) + [Unknown] + s
  }

  /** `n` copies of the group list, one after another. */
  function Repeat(groups: seq<nat>, n: nat): (r: seq<nat>)
    ensures |r| == n * |groups|
  {
    if n == 0 then [] else Repeat(groups, n - 1) + groups
  }

  /** Part 2 unfolds a record: five copies of the row joined by unknown springs, and the
      group list repeated five times. */
  function Unfold(s: seq<Spring>, groups: seq<nat>): (seq<Spring>, seq<nat>)
  {
    (Copies(s, 5), Repeat(groups, 5))
  }

  /** Position `j` of the copied row is position `j mod (|s| + 1)` of the row, or the
      joining unknown spring when that remainder is `|s|`. */
  lemma {:induction false} CopiesAt(s: seq<Spring>, n: nat, j: nat)
    requires n >= 1 && j < |Copies(s, n)|
    ensures Copies(s, n)[j] == if j % (|s| + 1) == |s| then Unknown else s[j % (|s| + 1)]
  {
    var m := |s| + 1;
    if n > 1 {
      var front := Copies(s, n - 1);
      if j < |front| {
        CopiesAt(s, n - 1, j);
      } else if j == |front| {
        DivModUnique(j, m, n - 2, |s|);
        assert j == (n - 1) * m - 1 == (n - 2) * m + |s|;
      } else {
        var i := j - |front| - 1;
        assert j == (n - 1) * m + i;
        DivModUnique(j, m, n - 1, i);
      }
    } else {
      DivModUnique(j, m, 0, j);
    }
  }

  /** Position `j` of the repeated list is position `j mod |groups|` of the list. */
  lemma {:induction false} RepeatAt(groups: seq<nat>, n: nat, j: nat)
    requires j < |Repeat(groups, n)|
    ensures |groups| > 0 && Repeat(groups, n)[j] == groups[j % |groups|]
  {
    var front := Repeat(groups, n - 1);
    if j < |front| {
      RepeatAt(groups, n - 1, j);
    } else {
      var i := j - |front|;
      assert j == (n - 1) * |groups| + i;
      DivModUnique(j, |groups|, n - 1, i);
    }
  }

  /** The unfolded record: the row is five copies joined by unknown springs, the groups
      are the list five times over. */
  lemma UnfoldShape(s: seq<Spring>, groups: seq<nat>)
    ensures |Unfold(s, groups).0| == 5 * |s| + 4 && |Unfold(s, groups).1| == 5 * |groups|
    ensures forall j :: 0 <= j < |Unfold(s, groups).0| ==>
              Unfold(s, groups).0[j] == if j % (|s| + 1) == |s| then Unknown else s[j % (|s| + 1)]
    ensures forall j :: 0 <= j < |Unfold(s, groups).1| ==>
              Unfold(s, groups).1[j] == groups[j % |groups|]
  {
    forall j | 0 <= j < |Unfold(s, groups).0|
      ensures Unfold(s, groups).0[j] == if j % (|s| + 1) == |s| then Unknown else s[j % (|s| + 1)]
    {
      CopiesAt(s, 5, j);
    }
    forall j | 0 <= j < |Unfold(s, groups).1|
      ensures Unfold(s, groups).1[j] == groups[j % |groups|]
    {
      RepeatAt(groups, 5, j);
    }
  }

  // ---------------------------------------------------------------------------
  // Parsing.

  predicate IsSpringChar(c: char) { c == '#' || c == '.' || c == '?' }

  function SpringOf(c: char): Spring
    requires IsSpringChar(c)
  {
    if c == '#' then Bad else if c == '.' then Good else Unknown
  }

  function SpringChar(s: Spring): (c: char)
    ensures IsSpringChar(c) && SpringOf(c) == s
  {
    match s
    case Bad => '#'
    case Good => '.'
    case Unknown => '?'
  }

  /** `separated_list1(tag(","), u8)`: one number, then further numbers each preceded by
      a comma. A comma not followed by a number is left unconsumed. */
  function GroupList(s: string): (r: Option<(seq<nat>, string)>)
    ensures r.Some? ==> |r.value.0| > 0 && |r.value.1| < |s|
    ensures r.Some? ==> forall i :: 0 <= i < |r.value.0| ==> r.value.0[i] <= U8_MAX
    ensures r.Some? <==> UInt(s, U8_MAX).Some?
    ensures r.Some? ==> r.value.0[0] == UInt(s, U8_MAX).value.0
    decreases |s|
  {
    var first :- UInt(s, U8_MAX);
    var (n, rest) := first;
    if |rest| > 0 && rest[0] == ',' && UInt(rest[1..], U8_MAX).Some? then
      var more := GroupList(rest[1..]);
      if more.Some? then Some(([n] + more.value.0, more.value.1))
      else Some(([n], rest))
    else Some(([n], rest))
  }

  /** `parse_line`: one or more spring characters, a space, then the group list. */
  function ParseLine(line: string): (r: Option<(seq<Spring>, seq<nat>, string)>)
    ensures r.Some? ==> |r.value.0| > 0 && |r.value.1| > 0
  {
    var k := RunLength(line, IsSpringChar);
    if k == 0 then None
    else
      var springs := seq(k, i requires 0 <= i < k => SpringOf(line[i]));
      var rest :- Tag(line[k..], " ");
      var groups :- GroupList(rest);
      Some((springs, groups.0, groups.1))
  }

  /** The textual form of a record. */
  function FormatLine(s: seq<Spring>, groups: seq<nat>): string
  {
    seq(|s|, i requires 0 <= i < |s| => SpringChar(s[i])) + " " + FormatGroups(groups)
  }

  function FormatGroups(groups: seq<nat>): string
  {
    if groups == [] then ""
    else if |groups| == 1 then Decimal(groups[0])
    else Decimal(groups[0]) + "," + FormatGroups(groups[1..])
  }

  lemma {:induction false} GroupListFormat(groups: seq<nat>)
    requires |groups| > 0
    requires forall i :: 0 <= i < |groups| ==> groups[i] <= U8_MAX
    ensures GroupList(FormatGroups(groups)) == Some((groups, ""))
    decreases |groups|
  {
    if |groups| == 1 {
      UIntDecimal(groups[0], "", U8_MAX);
      assert Decimal(groups[0]) + "" == Decimal(groups[0]) == FormatGroups(groups);
      assert groups == [groups[0]];
    } else {
      var t := FormatGroups(groups[1..]);
      GroupListFormat(groups[1..]);
      GroupListStep(groups[0], t);
      assert [groups[0]] + groups[1..] == groups;
    }
  }

  lemma GroupListStep(n: nat, t: string)
    requires n <= U8_MAX && GroupList(t).Some?
    ensures GroupList(Decimal(n) + "," + t) == Some(([n] + GroupList(t).value.0, GroupList(t).value.1))
  {
    UIntDecimal(n, "," + t, U8_MAX);
    assert Decimal(n) + "," + t == Decimal(n) + ("," + t);
    assert ("," + t)[1..] == t;
  }

  /** A record written in its textual form parses back to itself, with nothing left. */
  lemma ParseFormat(s: seq<Spring>, groups: seq<nat>)
    requires |s| > 0 && |groups| > 0
    requires forall i :: 0 <= i < |groups| ==> groups[i] <= U8_MAX
    ensures ParseLine(FormatLine(s, groups)) == Some((s, groups, ""))
  {
    var chars := seq(|s|, i requires 0 <= i < |s| => SpringChar(s[i]));
    var tail := " " + FormatGroups(groups);
    var line := FormatLine(s, groups);
    assert line == chars + tail;
    RunLengthPrefix(chars, tail, IsSpringChar);
    assert line[|s|..] == tail;
    assert line[..|s|] == chars;
    GroupListFormat(groups);
    assert tail[1..] == FormatGroups(groups);
    var springs := seq(|s|, i requires 0 <= i < |s| => SpringOf(line[i]));
    assert springs == s;
  }

  // ---------------------------------------------------------------------------
  // Both parts.

  predicate Parses(input: string)
  {
    forall i :: 0 <= i < |Lines(input)| ==> ParseLine(Lines(input)[i]).Some?
  }

  /** The parsed records; every line must parse, since the program unwraps each. */
  function Records(input: string): (rs: seq<(seq<Spring>, seq<nat>)>)
    requires Parses(input)
    ensures |rs| == |Lines(input)|
  {
    var ls := Lines(input);
    seq(|ls|, i requires 0 <= i < |ls| && ParseLine(ls[i]).Some? =>
      (ParseLine(ls[i]).value.0, ParseLine(ls[i]).value.1))
  }

  /** `run`: the arrangement counts of the records summed, then the same for the
      unfolded records. */
  function Run(input: string): (r: (nat, nat))
    requires Parses(input)
  {
    var rs := Records(input);
    (Sum(seq(|rs|, i requires 0 <= i < |rs| => CountCombinations(rs[i].0, rs[i].1))),
     Sum(seq(|rs|, i requires 0 <= i < |rs| => CountCombinations(Unfold(rs[i].0, rs[i].1).0, Unfold(rs[i].0, rs[i].1).1))))
  }

  /** Each term of both sums counts the completions of its record with the right runs. */
  lemma RunCounts(input: string, i: nat)
    requires Parses(input) && i < |Records(input)|
    requires forall j :: 0 <= j < |Records(input)[i].1| ==> Records(input)[i].1[j] >= 1
    ensures CountCombinations(Records(input)[i].0, Records(input)[i].1) ==
            Ways(Records(input)[i].0, Matches(Records(input)[i].1))
    ensures var u := Unfold(Records(input)[i].0, Records(input)[i].1);
            CountCombinations(u.0, u.1) == Ways(u.0, Matches(u.1))
  {
    var r := Records(input)[i];
    CountIsWays(r.0, r.1);
    var u := Unfold(r.0, r.1);
    UnfoldShape(r.0, r.1);
    CountIsWays(u.0, u.1);
  }
}

=== FILE: day13.dfy ===
/** Day 13: mirror lines in blocks of ash (`.`) and rock (`#`). Each block becomes one
    `u64` bit mask per row and one per column; a mirror line is found by comparing
    masks outwards from a candidate split. */
module Day13 {
  import opened Text

  // ---------------------------------------------------------------------------
  // Bit masks.

  function Pow2(n: nat): (p: nat)
    ensures p >= 1
  {
    if n == 0 then 1 else 2 * Pow2(n - 1)
  }

  /** Bit `i` of `n`: `(n >> i) & 1 == 1`. */
  function Bit(n: nat, i: nat): bool
  {
    if i == 0 then n % 2 == 1 else Bit(n / 2, i - 1)
  }

  /** The mask of a line: bit `i` is set for a `'#'` at index `i`. */
  function RowMask(line: string): (m: nat)
    ensures m < Pow2(|line|)
  {
    if line == [] then 0
    else (if line[0] == '#' then 1 else 0) + 2 * RowMask(line[1..])
  }

  /** Where `line` has a rock. */
  predicate RockAt(line: string, i: nat)
  {
    i < |line| && line[i] == '#'
  }

  lemma {:induction false} RowMaskBit(line: string, i: nat)
    ensures Bit(RowMask(line), i) == RockAt(line, i)
    decreases i
  {
    if line == [] {
      ZeroBits(i);
    } else if i > 0 {
      RowMaskBit(line[1..], i - 1);
      assert RockAt(line, i) == RockAt(line[1..], i - 1);
    }
  }

  lemma {:induction false} ZeroBits(i: nat)
    ensures !Bit(0, i)
  {
    if i > 0 {
      ZeroBits(i - 1);
    }
  }

  /** Numbers with the same bits are equal. */
  lemma {:induction false} BitsEqual(n: nat, m: nat)
    requires forall i: nat :: Bit(n, i) == Bit(m, i)
    ensures n == m
    decreases n + m
  {
    if n != 0 || m != 0 {
      assert Bit(n, 0) == Bit(m, 0);
      forall i: nat ensures Bit(n / 2, i) == Bit(m / 2, i) {
        assert Bit(n, i + 1) == Bit(m, i + 1);
      }
      BitsEqual(n / 2, m / 2);
    }
  }

  /** Two lines have equal masks exactly when they have rocks in the same places. */
  lemma MaskEqual(a: string, b: string)
    ensures RowMask(a) == RowMask(b) <==> forall i: nat :: RockAt(a, i) == RockAt(b, i)
  {
    if forall i: nat :: RockAt(a, i) == RockAt(b, i) {
      forall i: nat ensures Bit(RowMask(a), i) == Bit(RowMask(b), i) {
        RowMaskBit(a, i);
        RowMaskBit(b, i);
      }
      BitsEqual(RowMask(a), RowMask(b));
    }
    if RowMask(a) == RowMask(b) {
      forall i: nat ensures RockAt(a, i) == RockAt(b, i) {
        RowMaskBit(a, i);
        RowMaskBit(b, i);
      }
    }
  }

  /** Rocks only below index `n` keep the mask below `2^n`: with `n == 64` it is a `u64`. */
  lemma {:induction false} MaskBelow(line: string, n: nat)
    requires forall i: nat :: RockAt(line, i) ==> i < n
    ensures RowMask(line) < Pow2(n)
    decreases n
  {
    if line != [] {
      if n == 0 {
        assert !RockAt(line, 0);
        assert RowMask(line) == 2 * RowMask(line[1..]);
        assert RowMask(line[1..]) == 0 by {
          forall i: nat ensures !RockAt(line[1..], i) {
            assert RockAt(line[1..], i) == RockAt(line, i + 1);
          }
          ZeroMask(line[1..]);
        }
      } else {
        forall i: nat | RockAt(line[1..], i) ensures i < n - 1 {
          assert RockAt(line, i + 1);
        }
        MaskBelow(line[1..], n - 1);
      }
    }
  }

  lemma {:induction false} ZeroMask(line: string)
    requires forall i: nat :: !RockAt(line, i)
    ensures RowMask(line) == 0
  {
    if line != [] {
      assert !RockAt(line, 0);
      forall i: nat ensures !RockAt(line[1..], i) {
        assert RockAt(line[1..], i) == RockAt(line, i + 1);
      }
      ZeroMask(line[1..]);
    }
  }

  // ---------------------------------------------------------------------------
  // A block as masks.

  datatype Pattern = Pattern(rows: seq<nat>, cols: seq<nat>)

  /** Column `i` of the lines, read top to bottom; a line too short to reach it reads
      as ash. */
  function Column(lines: seq<string>, i: nat): (c: string)
    ensures |c| == |lines|
    ensures forall l :: 0 <= l < |lines| ==> (c[l] == '#' <==> RockAt(lines[l], i))
  {
    seq(|lines|, l requires 0 <= l < |lines| => if i < |lines[l]| then lines[l][i] else '.')
  }

  function Masks(strs: seq<string>): (ms: seq<nat>)
    ensures |ms| == |strs|
    ensures forall k :: 0 <= k < |strs| ==> ms[k] == RowMask(strs[k])
  {
    seq(|strs|, k requires 0 <= k < |strs| => RowMask(strs[k]))
  }

  function Columns(lines: seq<string>, w: nat): (cs: seq<string>)
    ensures |cs| == w
    ensures forall i :: 0 <= i < w ==> cs[i] == Column(lines, i)
  {
    seq(w, i requires 0 <= i < w => Column(lines, i))
  }

  /** A rock that `From` cannot store: its shift `1 << i` or `1 << l` leaves the `u64`,
      or it lies beyond the first line, past the end of `cols`. */
  predicate Unstorable(lines: seq<string>)
    requires lines != []
  {
    exists l, i | 0 <= l < |lines| && 0 <= i < |lines[l]| ::
      lines[l][i] == '#' && (i >= 64 || l >= 64 || i >= |lines[0]|)
  }

  /** `Grid::from`: `None` where it panics, on a block without lines or with an
      unstorable rock. */
  function FromBlock(block: string): (r: Option<Pattern>)
    ensures r.Some? ==> Lines(block) != [] && !Unstorable(Lines(block))
    ensures r.Some? ==> r.value.rows == Masks(Lines(block))
    ensures r.Some? ==> r.value.cols == Masks(Columns(Lines(block), |Lines(block)[0]|))
  {
    var lines := Lines(block);
    if lines == [] || Unstorable(lines) then None
    else Some(Pattern(Masks(lines), Masks(Columns(lines, |lines[0]|))))
  }

  /** The bits `From` sets: bit `i` of row `l` and bit `l` of column `i` are both set
      exactly for a rock at column `i` of line `l`; every mask fits a `u64`. */
  lemma FromBlockBits(block: string, l: nat, i: nat)
    requires FromBlock(block).Some?
    ensures var p, lines := FromBlock(block).value, Lines(block);
            |p.rows| == |lines| && |p.cols| == |lines[0]|
            && (l < |lines| ==> Bit(p.rows[l], i) == RockAt(lines[l], i))
            && (i < |lines[0]| ==> Bit(p.cols[i], l) == (l < |lines| && RockAt(lines[l], i)))
  {
    var lines := Lines(block);
    if l < |lines| {
      RowMaskBit(lines[l], i);
    }
    if i < |lines[0]| {
      RowMaskBit(Column(lines, i), l);
    }
  }

  /** Every mask `From` builds is below `2^64`. */
  lemma FromBlockFits(block: string)
    requires FromBlock(block).Some?
    ensures var p := FromBlock(block).value;
            (forall l :: 0 <= l < |p.rows| ==> p.rows[l] < Pow2(64))
            && (forall i :: 0 <= i < |p.cols| ==> p.cols[i] < Pow2(64))
  {
    var lines := Lines(block);
    forall l | 0 <= l < |lines| ensures RowMask(lines[l]) < Pow2(64) {
      forall i: nat | RockAt(lines[l], i) ensures i < 64 {
        assert lines[l][i] == '#';
      }
      MaskBelow(lines[l], 64);
    }
    forall i | 0 <= i < |lines[0]| ensures RowMask(Column(lines, i)) < Pow2(64) {
      forall l: nat | RockAt(Column(lines, i), l) ensures l < 64 {
        assert lines[l][i] == '#';
      }
      MaskBelow(Column(lines, i), 64);
    }
  }

  // ---------------------------------------------------------------------------
  // Mirror lines.

  /** A mirror between `nums[i - 1]` and `nums[i]`: every entry `nums[u]` at or after
      `i` with a partner `nums[2i - 1 - u]` at equal distance before the line equals
      it, as far as both sides reach. */
  predicate MirrorsAt(nums: seq<nat>, i: nat)
  {
    1 <= i < |nums| && forall u :: i <= u < |nums| && u < 2 * i ==> nums[2 * i - 1 - u] == nums[u]
  }

  /** `r` is the first mirror line, or 0 when there is none. */
  predicate IsSymmetry(nums: seq<nat>, r: nat)
  {
    (r == 0 && forall i :: 1 <= i < |nums| ==> !MirrorsAt(nums, i))
    || (MirrorsAt(nums, r) && forall i :: 1 <= i < r ==> !MirrorsAt(nums, i))
  }

  function FirstMirror(nums: seq<nat>, i: nat): (r: nat)
    ensures r == 0 || i <= r < |nums|
    decreases |nums| - i
  {
    if i >= |nums| then 0
    else if MirrorsAt(nums, i) then i
    else FirstMirror(nums, i + 1)
  }

  /** The first mirror line, searched from 1 upwards. */
  function Symmetry(nums: seq<nat>): (r: nat)
    ensures r == 0 || 1 <= r < |nums|
  {
    FirstMirror(nums, 1)
  }

  lemma {:induction false} FirstMirrorSpec(nums: seq<nat>, i: nat)
    requires 1 <= i && forall i' :: 1 <= i' < i ==> !MirrorsAt(nums, i')
    ensures IsSymmetry(nums, FirstMirror(nums, i))
    decreases |nums| - i
  {
    if i < |nums| && !MirrorsAt(nums, i) {
      FirstMirrorSpec(nums, i + 1);
    }
  }

  lemma SymmetrySpec(nums: seq<nat>)
    ensures IsSymmetry(nums, Symmetry(nums))
  {
    FirstMirrorSpec(nums, 1);
  }

  /** There is one first mirror line. */
  lemma SymmetryUnique(nums: seq<nat>, r: nat, r': nat)
    requires IsSymmetry(nums, r) && IsSymmetry(nums, r')
    ensures r == r'
  {
  }

  /** `find_symmetry`: for each candidate `i`, compare `nums[i + j - 1]` with
      `nums[i - j]` for `j` from 0, accepting once the upper index would leave the
      slice or `j` passes `i`. */
  method FindSymmetry(nums: seq<nat>) returns (r: nat)
    ensures IsSymmetry(nums, r) && r == Symmetry(nums)
  {
    SymmetrySpec(nums);
    var i := 1;
    while i < |nums|
      invariant 1 <= i
      invariant forall i' :: 1 <= i' < i ==> !MirrorsAt(nums, i')
    {
      var j := 0;
      var ok := true;
      while j <= i && ok
        invariant 0 <= j <= i + 1 && i + j <= |nums| + 1
        invariant ok ==> forall u :: i - 1 <= u < i + j - 1 ==> nums[u] == nums[2 * i - 1 - u]
        decreases i + 1 - j + (if ok then 1 else 0)
        invariant !ok ==> !MirrorsAt(nums, i)
      {
        if i + j > |nums| {
          assert MirrorsAt(nums, i) by {
            forall u | i <= u < |nums| && u < 2 * i ensures nums[2 * i - 1 - u] == nums[u] {
              assert i - 1 <= u < i + j - 1;
            }
          }
          r := i;
          SymmetryUnique(nums, r, Symmetry(nums));
          return;
        }
        if nums[i + j - 1] != nums[i - j] {
          ok := false;
        } else {
          j := j + 1;
        }
      }
      if ok {
        assert MirrorsAt(nums, i) by {
          forall u | i <= u < |nums| && u < 2 * i ensures nums[2 * i - 1 - u] == nums[u] {
            assert i - 1 <= u < i + j - 1;
          }
        }
        r := i;
        SymmetryUnique(nums, r, Symmetry(nums));
        return;
      }
      i := i + 1;
    }
    r := 0;
    SymmetryUnique(nums, r, Symmetry(nums));
  }

  /** Rocks in the same places. */
  ghost predicate SameRocks(a: string, b: string)
  {
    forall c: nat :: RockAt(a, c) == RockAt(b, c)
  }

  /** The lines reflect across the gap before line `i`. */
  ghost predicate LinesMirror(strs: seq<string>, i: nat)
  {
    1 <= i < |strs| && forall u :: i <= u < |strs| && u < 2 * i ==> SameRocks(strs[2 * i - 1 - u], strs[u])
  }

  /** Comparing masks is comparing lines: a mirror of the masks is a mirror of the
      rocks. */
  lemma MirrorOfMasks(strs: seq<string>, i: nat)
    ensures MirrorsAt(Masks(strs), i) <==> LinesMirror(strs, i)
  {
    var ms := Masks(strs);
    forall u | i <= u < |strs| && u < 2 * i
      ensures ms[2 * i - 1 - u] == ms[u] <==> SameRocks(strs[2 * i - 1 - u], strs[u])
    {
      MaskEqual(strs[2 * i - 1 - u], strs[u]);
    }
  }

  /** A block's score: its column mirror plus 100 times its row mirror. */
  function Score(p: Pattern): nat
  {
    Symmetry(p.cols) + 100 * Symmetry(p.rows)
  }

  /** In a block at most 100 wide the score holds both mirror lines separately. */
  lemma {:induction false} ScoreDecodes(block: string)
    requires FromBlock(block).Some? && |Lines(block)[0]| <= 100
    ensures var p := FromBlock(block).value;
            Score(p) % 100 == Symmetry(p.cols) && Score(p) / 100 == Symmetry(p.rows)
  {
    var p := FromBlock(block).value;
    assert Symmetry(p.cols) < 100;
  }

  // ---------------------------------------------------------------------------
  // Blocks.

  /** `parse`'s vector of blocks while it reads lines: the finished blocks and the
      newest one, still being extended. */
  datatype Acc = Acc(done: seq<string>, current: string)

  function All(a: Acc): seq<string>
  {
    a.done + [a.current]
  }

  /** One line of `parse`'s loop: an empty line opens a new block, any other line is
      appended to the newest block followed by a `'\n'`. */
  function Step(a: Acc, l: string): Acc
  {
    if l == "" then Acc(a.done + [a.current], "") else Acc(a.done, a.current + l + "\n")
  }

  function Fold(a: Acc, lines: seq<string>): Acc
    decreases |lines|
  {
    if lines == [] then a else Fold(Step(a, lines[0]), lines[1..])
  }

  /** `parse`'s grouping, starting from one empty block. */
  function Blocks(lines: seq<string>): (bs: seq<string>)
    ensures |bs| >= 1
  {
    All(Fold(Acc([], ""), lines))
  }

  lemma {:induction false} FoldCount(a: Acc, lines: seq<string>)
    ensures |Fold(a, lines).done| == |a.done| + Count(lines, "")
    decreases |lines|
  {
    if lines != [] {
      FoldCount(Step(a, lines[0]), lines[1..]);
    }
  }

  /** One block more than there are empty lines. */
  lemma BlocksCount(lines: seq<string>)
    ensures |Blocks(lines)| == 1 + Count(lines, "")
  {
    FoldCount(Acc([], ""), lines);
  }

  predicate NonEmptyLines(ls: seq<string>)
  {
    forall i :: 0 <= i < |ls| ==> ls[i] != ""
  }

  /** A run of non-empty lines adds its text to the newest block. */
  lemma {:induction false} FoldGroup(a: Acc, group: seq<string>, rest: seq<string>)
    requires NonEmptyLines(group)
    ensures Fold(a, group + rest) == Fold(Acc(a.done, a.current + Unlines(group)), rest)
    decreases |group|
  {
    if group == [] {
      assert group + rest == rest;
      assert a.current + "" == a.current;
    } else {
      var l := group[0];
      assert (group + rest)[0] == l && (group + rest)[1..] == group[1..] + rest;
      assert NonEmptyLines(group[1..]);
      FoldGroup(Acc(a.done, a.current + l + "\n"), group[1..], rest);
      assert a.current + l + "\n" + Unlines(group[1..]) == a.current + Unlines(group);
    }
  }

  /** Groups of non-empty lines, written with one empty line between groups. */
  function JoinGroups(groups: seq<seq<string>>): seq<string>
    requires |groups| >= 1
  {
    if |groups| == 1 then groups[0]
    else groups[0] + ([""] + JoinGroups(groups[1..]))
  }

  /** The text of each group, one line after another. */
  function Texts(groups: seq<seq<string>>): (ts: seq<string>)
    ensures |ts| == |groups|
  {
    if groups == [] then [] else [Unlines(groups[0])] + Texts(groups[1..])
  }

  lemma {:induction false} FoldGroups(a: Acc, groups: seq<seq<string>>)
    requires |groups| >= 1
    requires forall g :: 0 <= g < |groups| ==> NonEmptyLines(groups[g])
    ensures All(Fold(a, JoinGroups(groups))) == a.done + [a.current + Unlines(groups[0])] + Texts(groups[1..])
    decreases |groups|
  {
    var a' := Acc(a.done, a.current + Unlines(groups[0]));
    if |groups| == 1 {
      assert Fold(a, JoinGroups(groups)) == a' by {
        assert groups[0] + [] == groups[0];
        FoldGroup(a, groups[0], []);
      }
      assert Texts(groups[1..]) == [];
    } else {
      var tail := JoinGroups(groups[1..]);
      var b := Acc(a'.done + [a'.current], "");
      assert Fold(a, JoinGroups(groups)) == Fold(b, tail) by {
        assert JoinGroups(groups) == groups[0] + ([""] + tail);
        FoldGroup(a, groups[0], [""] + tail);
        assert ([""] + tail)[0] == "" && ([""] + tail)[1..] == tail;
      }
      var u := Unlines(groups[1]);
      assert All(Fold(b, tail)) == b.done + [u] + Texts(groups[2..]) by {
        FoldGroups(b, groups[1..]);
        assert "" + u == u;
        assert groups[1..][1..] == groups[2..];
      }
      assert Texts(groups[1..]) == [u] + Texts(groups[2..]);
    }
  }

  /** Splitting groups written with blank lines between them gives back one block
      per group: the inverse of writing them out. */
  lemma {:induction false} BlocksOfGroups(groups: seq<seq<string>>)
    requires |groups| >= 1 && forall g :: 0 <= g < |groups| ==> NonEmptyLines(groups[g])
    ensures Blocks(JoinGroups(groups)) == Texts(groups)
  {
    var u, rest := Unlines(groups[0]), Texts(groups[1..]);
    FoldGroups(Acc([], ""), groups);
    assert [] + ["" + u] + rest == Texts(groups) by {
      assert "" + u == u;
    }
  }

  /** A blank last line leaves the newest block empty. */
  lemma {:induction false} FoldBlankLast(a: Acc, lines: seq<string>)
    requires lines != [] && lines[|lines| - 1] == ""
    ensures Fold(a, lines).current == ""
    decreases |lines|
  {
    if |lines| > 1 {
      FoldBlankLast(Step(a, lines[0]), lines[1..]);
    }
  }

  /** One pattern per block, or `None` when `From` panics on one. */
  function FromBlocks(bs: seq<string>): (r: Option<seq<Pattern>>)
    ensures r.Some? ==> |r.value| == |bs| && forall b :: 0 <= b < |bs| ==> FromBlock(bs[b]) == Some(r.value[b])
    ensures r.None? <==> exists b :: 0 <= b < |bs| && FromBlock(bs[b]).None?
  {
    CollectAll(bs, b => FromBlock(b))
  }

  /** `parse`. */
  function Parse(input: string): (r: Option<seq<Pattern>>)
    ensures r == FromBlocks(Blocks(Lines(input)))
  {
    FromBlocks(Blocks(Lines(input)))
  }

  /** A blank last line leaves an empty last block, on which `From` panics. */
  lemma TrailingBlankFails(input: string)
    requires Lines(input) != [] && Lines(input)[|Lines(input)| - 1] == ""
    ensures Parse(input).None?
  {
    var bs := Blocks(Lines(input));
    FoldBlankLast(Acc([], ""), Lines(input));
    assert FromBlock(bs[|bs| - 1]).None?;
  }

  /** Part 1: the sum of the scores. */
  function Run(input: string): (r: Option<nat>)
    ensures r.None? <==> Parse(input).None?
  {
    var ps :- Parse(input);
    Some(Sum(seq(|ps|, k requires 0 <= k < |ps| => Score(ps[k]))))
  }
}

=== FILE: day14.dfy ===
/** Day 14: round rocks `O` roll north until they meet a cube rock `#`, the north edge or
    another round rock; each rock's load is the number of rows from its resting row to the
    south edge. The program never moves a rock: per column it keeps stacks, one opened
    below each `#`, counting the round rocks that will pile up there. */
module Day14 {
  import opened Text

  /** Round rocks that come to rest from row `start` down. */
  datatype Stack = Stack(start: nat, rocks: nat)

  // ---------------------------------------------------------------------------
  // The load of one stack.

  /** `Stack::load` in `u32`: the multiplications must not overflow and the subtractions
      must not go below zero. */
  predicate LoadDefined(s: Stack, rows: nat)
  {
    s.rocks == 0 ||
      (rows * s.rocks <= U32_MAX && s.rocks * s.start + s.rocks * (s.rocks - 1) / 2 <= rows * s.rocks)
  }

  /** The closed form `rows·n − n·start − n(n−1)/2`. */
  function Load(s: Stack, rows: nat): (r: nat)
    requires LoadDefined(s, rows)
    ensures s.rocks == 0 ==> r == 0
  {
    var n := s.rocks;
    if n == 0 then 0 else rows * n - n * s.start - n * (n - 1) / 2
  }

  /** The loads of rocks resting at rows `start`, `start + 1`, …, `start + n − 1`. */
  function LoadSum(rows: nat, start: nat, n: nat): nat
    requires start + n <= rows
  {
    if n == 0 then 0 else LoadSum(rows, start, n - 1) + (rows - start - (n - 1))
  }

  /** Two consecutive numbers have an even product. */
  lemma {:induction false} EvenProduct(m: nat)
    ensures m * (m + 1) % 2 == 0
  {
    if m > 0 {
      EvenProduct(m - 1);
      assert m * (m + 1) == (m - 1) * m + 2 * m;
    }
  }

  lemma TriangleStep(n: nat)
    requires n >= 1
    ensures n * (n - 1) / 2 == (n - 1) * (n - 2) / 2 + (n - 1)
  {
    if n >= 2 {
      var m := n - 2;
      var a := m * (m + 1);
      EvenProduct(m);
      assert n * (n - 1) == a + 2 * (n - 1);
      assert a == 2 * (a / 2);
    }
  }

  /** The closed form counted as integers. */
  lemma {:induction false} ClosedIsSum(rows: nat, start: nat, n: nat)
    requires start + n <= rows
    ensures rows * n - n * start - n * (n - 1) / 2 == LoadSum(rows, start, n)
  {
    if n > 0 {
      ClosedIsSum(rows, start, n - 1);
      TriangleStep(n);
      assert rows * n == rows * (n - 1) + rows;
      assert n * start == (n - 1) * start + start;
    }
  }

  /** A stack that fits below its start has a defined load: the sum of its rocks' loads. */
  lemma LoadIsSum(s: Stack, rows: nat)
    requires s.start + s.rocks <= rows && rows * s.rocks <= U32_MAX
    ensures LoadDefined(s, rows)
    ensures Load(s, rows) == LoadSum(rows, s.start, s.rocks)
  {
    ClosedIsSum(rows, s.start, s.rocks);
    assert s.rocks * s.start == s.start * s.rocks;
  }

  // ---------------------------------------------------------------------------
  // One column.

  /** Row `i` of a column holding `c`: `#` opens a stack below it, `O` joins the newest. */
  function StepStacks(st: seq<Stack>, i: nat, c: char): (r: seq<Stack>)
    requires |st| > 0
    ensures |r| > 0
  {
    if c == '#' then st + [Stack(i + 1, 0)]
    else if c == 'O' then st[|st| - 1 := st[|st| - 1].(rocks := st[|st| - 1].rocks + 1)]
    else st
  }

  /** The stacks of a column, scanned from the north edge. */
  function ColumnStacks(col: string): (r: seq<Stack>)
    ensures |r| > 0
  {
    if col == [] then [Stack(0, 0)]
    else StepStacks(ColumnStacks(col[..|col| - 1]), |col| - 1, col[|col| - 1])
  }

  /** The row just below the last `#` of `p`, or 0. */
  function BlockStart(p: string): (s: nat)
    ensures s <= |p|
  {
    if p == [] then 0 else if p[|p| - 1] == '#' then |p| else BlockStart(p[..|p| - 1])
  }

  /** The round rocks of `p` after its last `#`. */
  function RocksInBlock(p: string): (n: nat)
    ensures BlockStart(p) + n <= |p|
  {
    if p == [] then 0
    else if p[|p| - 1] == '#' then 0
    else RocksInBlock(p[..|p| - 1]) + if p[|p| - 1] == 'O' then 1 else 0
  }

  /** The reference: after tilting north, the rock below `p` rests right under the rocks
      already piled below the last `#`. Its load counts rows from there to the south
      edge. */
  function TiltLoad(col: string, rows: nat): nat
    requires |col| <= rows
  {
    if col == [] then 0
    else
      var p := col[..|col| - 1];
      TiltLoad(p, rows) + if col[|col| - 1] == 'O' then rows - (BlockStart(p) + RocksInBlock(p)) else 0
  }

  function StacksLoad(st: seq<Stack>, rows: nat): nat
    requires forall k :: 0 <= k < |st| ==> st[k].start + st[k].rocks <= rows
  {
    if st == [] then 0 else StacksLoad(st[..|st| - 1], rows) + LoadSum(rows, st[|st| - 1].start, st[|st| - 1].rocks)
  }

  predicate StacksFit(st: seq<Stack>, bound: nat)
  {
    forall k :: 0 <= k < |st| ==> st[k].start + st[k].rocks <= bound
  }

  /** The stacks of a column track the reference: the newest stack is the current block
      and its rocks, and together the stacks carry the tilted column's load. */
  lemma {:induction false} ColumnLoad(col: string, rows: nat)
    requires |col| <= rows
    ensures StacksFit(ColumnStacks(col), |col|)
    ensures var st := ColumnStacks(col);
            st[|st| - 1] == Stack(BlockStart(col), RocksInBlock(col))
    ensures StacksFit(ColumnStacks(col), rows) && StacksLoad(ColumnStacks(col), rows) == TiltLoad(col, rows)
  {
    if col != [] {
      var p := col[..|col| - 1];
      var c := col[|col| - 1];
      ColumnLoad(p, rows);
      var st := ColumnStacks(p);
      var r := ColumnStacks(col);
      assert r == StepStacks(st, |p|, c);
      if c == '#' {
        assert r[..|r| - 1] == st;
      } else if c == 'O' {
        var last := st[|st| - 1];
        assert r[..|r| - 1] == st[..|st| - 1];
        assert forall k :: 0 <= k < |r| - 1 ==> r[k] == st[k];
      }
    }
  }

  // ---------------------------------------------------------------------------
  // The platform, scanned row by row as the program does.

  predicate StacksReady(stacks: seq<seq<Stack>>)
  {
    forall j :: 0 <= j < |stacks| ==> |stacks[j]| > 0
  }

  /** The inner loop of `run` over the characters `l[j..]` of row `i`. */
  function ScanLine(stacks: seq<seq<Stack>>, i: nat, l: string, j: nat): (r: seq<seq<Stack>>)
    requires |l| <= |stacks| && j <= |l| && StacksReady(stacks)
    ensures |r| == |stacks| && StacksReady(r)
    decreases |l| - j
  {
    if j == |l| then stacks
    else ScanLine(stacks[j := StepStacks(stacks[j], i, l[j])], i, l, j + 1)
  }

  /** Row `i` updates exactly the columns it has characters for. */
  lemma {:induction false} ScanLineAt(stacks: seq<seq<Stack>>, i: nat, l: string, j: nat, c: nat)
    requires |l| <= |stacks| && j <= |l| && StacksReady(stacks) && c < |stacks|
    ensures ScanLine(stacks, i, l, j)[c] == if j <= c < |l| then StepStacks(stacks[c], i, l[c]) else stacks[c]
    decreases |l| - j
  {
    if j < |l| {
      ScanLineAt(stacks[j := StepStacks(stacks[j], i, l[j])], i, l, j + 1, c);
    }
  }

  /** The column `j` of the rows, with `.` where a row is too short. */
  function Column(g: seq<string>, j: nat): (col: string)
    ensures |col| == |g|
  {
    if g == [] then [] else Column(g[..|g| - 1], j) + [if j < |g[|g| - 1]| then g[|g| - 1][j] else '.']
  }

  /** The stacks after the first `m` rows. */
  function ScanRows(g: seq<string>, cols: nat, m: nat): (r: seq<seq<Stack>>)
    requires m <= |g| && forall i :: 0 <= i < |g| ==> |g[i]| <= cols
    ensures |r| == cols && StacksReady(r)
  {
    if m == 0 then seq(cols, _ => [Stack(0, 0)])
    else ScanLine(ScanRows(g, cols, m - 1), m - 1, g[m - 1], 0)
  }

  /** Scanning by rows builds each column's stacks. */
  lemma {:induction false} ScanRowsColumn(g: seq<string>, cols: nat, m: nat, j: nat)
    requires m <= |g| && forall i :: 0 <= i < |g| ==> |g[i]| <= cols
    requires j < cols
    ensures ScanRows(g, cols, m)[j] == ColumnStacks(Column(g[..m], j))
  {
    if m > 0 {
      ScanRowsColumn(g, cols, m - 1, j);
      ScanLineAt(ScanRows(g, cols, m - 1), m - 1, g[m - 1], 0, j);
      assert g[..m][..m - 1] == g[..m - 1];
      var col := Column(g[..m], j);
      assert col[..|col| - 1] == Column(g[..m - 1], j);
    }
  }

  /** `run` panics on empty input (the first line is unwrapped) and on a line longer than
      the first (no stack for its column). The row after a `#` is kept as `i as u8 + 1`:
      from row index 255 on, `i as u8` drops the high bits, which misplaces the stacks,
      and a `#` on a row whose index is 255 modulo 256 overflows the addition. With at
      most 255 rows neither happens, and a rock count stays within `u8`. */
  predicate Platform(g: seq<string>)
  {
    0 < |g| <= 255 && forall i :: 0 <= i < |g| ==> |g[i]| <= |g[0]|
  }

  function StackLoads(st: seq<Stack>, rows: nat): nat
    requires forall k :: 0 <= k < |st| ==> LoadDefined(st[k], rows)
  {
    if st == [] then 0 else StackLoads(st[..|st| - 1], rows) + Load(st[|st| - 1], rows)
  }

  /** The stacks of a column have defined loads and their sum is the tilted load. */
  lemma {:induction false} StackLoadsAreSums(st: seq<Stack>, rows: nat)
    requires StacksFit(st, rows) && rows <= 255
    ensures forall k :: 0 <= k < |st| ==> LoadDefined(st[k], rows)
    ensures StackLoads(st, rows) == StacksLoad(st, rows)
  {
    forall k | 0 <= k < |st| ensures LoadDefined(st[k], rows) && Load(st[k], rows) == LoadSum(rows, st[k].start, st[k].rocks) {
      MulMono(rows, st[k].rocks, 255, 255);
      LoadIsSum(st[k], rows);
    }
    if st != [] {
      StackLoadsAreSums(st[..|st| - 1], rows);
    }
  }

  /** The per-column sums of `run`, over the first `c` columns. */
  function ColumnsLoad(stacks: seq<seq<Stack>>, rows: nat, c: nat): nat
    requires c <= |stacks| && LoadsDefined(stacks, rows)
  {
    if c == 0 then 0 else ColumnsLoad(stacks, rows, c - 1) + StackLoads(stacks[c - 1], rows)
  }

  function TiltTotal(g: seq<string>, c: nat): nat
  {
    if c == 0 then 0 else TiltTotal(g, c - 1) + TiltLoad(Column(g, c - 1), |g|)
  }

  /** Every stack after the whole scan has a defined load. */
  predicate LoadsDefined(stacks: seq<seq<Stack>>, rows: nat)
  {
    forall j, k :: 0 <= j < |stacks| && 0 <= k < |stacks[j]| ==> LoadDefined(stacks[j][k], rows)
  }

  /** The stacks of every column after the whole scan fit the platform. */
  lemma FinalStacks(g: seq<string>)
    requires Platform(g)
    ensures LoadsDefined(ScanRows(g, |g[0]|, |g|), |g|)
  {
    var stacks := ScanRows(g, |g[0]|, |g|);
    forall j | 0 <= j < |g[0]| ensures forall k :: 0 <= k < |stacks[j]| ==> LoadDefined(stacks[j][k], |g|) {
      ScanRowsColumn(g, |g[0]|, |g|, j);
      assert g[..|g|] == g;
      ColumnLoad(Column(g, j), |g|);
      StackLoadsAreSums(stacks[j], |g|);
    }
  }

  /** `run`'s answer: the sum of all stack loads. */
  function Part1(input: string): nat
    requires Platform(Lines(input))
  {
    var g := Lines(input);
    FinalStacks(g);
    ColumnsLoad(ScanRows(g, |g[0]|, |g|), |g|, |g[0]|)
  }

  /** The answer is the total load of the platform tilted north. */
  lemma Part1IsTiltLoad(input: string)
    requires Platform(Lines(input))
    ensures Part1(input) == TiltTotal(Lines(input), |Lines(input)[0]|)
  {
    var g := Lines(input);
    FinalStacks(g);
    ColumnsTilt(g, |g[0]|);
  }

  /** One column of the scan carries that column's tilted load. */
  lemma ColumnTilt(g: seq<string>, j: nat)
    requires Platform(g) && j < |g[0]|
    ensures var st := ScanRows(g, |g[0]|, |g|)[j];
            (forall k :: 0 <= k < |st| ==> LoadDefined(st[k], |g|)) && StackLoads(st, |g|) == TiltLoad(Column(g, j), |g|)
  {
    var st := ScanRows(g, |g[0]|, |g|)[j];
    assert st == ColumnStacks(Column(g, j)) by {
      ScanRowsColumn(g, |g[0]|, |g|, j);
      assert g[..|g|] == g;
    }
    ColumnLoad(Column(g, j), |g|);
    StackLoadsAreSums(st, |g|);
  }

  /** Column loads that agree one by one have agreeing totals. */
  lemma {:induction false} SumsAgree(stacks: seq<seq<Stack>>, g: seq<string>, c: nat)
    requires c <= |stacks| && LoadsDefined(stacks, |g|)
    requires forall j :: 0 <= j < c ==> StackLoads(stacks[j], |g|) == TiltLoad(Column(g, j), |g|)
    ensures ColumnsLoad(stacks, |g|, c) == TiltTotal(g, c)
  {
    if c > 0 {
      SumsAgree(stacks, g, c - 1);
    }
  }

  /** Column by column, the loads of `run` are the tilted loads. */
  lemma ColumnsTilt(g: seq<string>, c: nat)
    requires Platform(g) && c <= |g[0]| && LoadsDefined(ScanRows(g, |g[0]|, |g|), |g|)
    ensures ColumnsLoad(ScanRows(g, |g[0]|, |g|), |g|, c) == TiltTotal(g, c)
  {
    var stacks := ScanRows(g, |g[0]|, |g|);
    forall j | 0 <= j < c ensures StackLoads(stacks[j], |g|) == TiltLoad(Column(g, j), |g|) {
      ColumnTilt(g, j);
    }
    SumsAgree(stacks, g, c);
  }
}

=== FILE: day15.dfy ===
/** Day 15: the HASH algorithm and the sum of the hashes of the comma-separated steps. */
module Day15 {
  import opened Text

  /** `c as u8`: the low eight bits of the character's code point. */
  function Ascii(c: char): (a: nat)
    ensures a < 256
  {
    c as nat % 256
  }

  /** One round of HASH: add the character, multiply by 17, keep the remainder mod 256. */
  function Step(current: nat, c: char): (r: nat)
    ensures r < 256
  {
    (current + Ascii(c)) * 17 % 256
  }

  /** `hash`: the rounds applied left to right. Only the first round can overflow a
      `u64`, since every later one starts below 256. */
  function Hash(current: nat, s: string): (r: nat)
    requires s == [] || (current + Ascii(s[0])) * 17 <= U64_MAX
    ensures s != [] ==> r < 256
    ensures s == [] ==> r == current
    decreases |s|
  {
    if s == [] then current else Hash(Step(current, s[0]), s[1..])
  }

  /** The same rounds with no reduction at all: the polynomial whose remainder HASH is. */
  function Poly(current: nat, s: string): nat
    decreases |s|
  {
    if s == [] then current else Poly((current + Ascii(s[0])) * 17, s[1..])
  }

  lemma ModAddMultiple(y: int, k: int)
    ensures (y + k * 256) % 256 == y % 256
  {
    var r := y % 256;
    var q := y / 256;
    assert y == q * 256 + r;
    assert y + k * 256 == (q + k) * 256 + r;
  }

  lemma StepCongruent(a: nat, b: nat, x: nat)
    requires a % 256 == b % 256
    ensures (a + x) * 17 % 256 == (b + x) * 17 % 256
  {
    var q := a / 256 - b / 256;
    assert a == b + q * 256;
    assert (a + x) * 17 == (b + x) * 17 + (q * 17) * 256;
    ModAddMultiple((b + x) * 17, q * 17);
  }

  lemma {:induction false} PolyCongruent(a: nat, b: nat, s: string)
    requires a % 256 == b % 256
    ensures Poly(a, s) % 256 == Poly(b, s) % 256
    decreases |s|
  {
    if s != [] {
      StepCongruent(a, b, Ascii(s[0]));
      PolyCongruent((a + Ascii(s[0])) * 17, (b + Ascii(s[0])) * 17, s[1..]);
    }
  }

  /** Reducing modulo 256 after every round gives the same remainder as reducing once at
      the end: HASH is the unreduced polynomial taken mod 256. */
  lemma {:induction false} HashIsPolyMod(current: nat, s: string)
    requires s == [] || (current + Ascii(s[0])) * 17 <= U64_MAX
    ensures Hash(current, s) % 256 == Poly(current, s) % 256
    decreases |s|
  {
    if s != [] {
      var h' := Step(current, s[0]);
      var p' := (current + Ascii(s[0])) * 17;
      assert h' % 256 == p' % 256;
      HashIsPolyMod(h', s[1..]);
      PolyCongruent(h', p', s[1..]);
    }
  }

  /** Hashing a concatenation continues from the hash of the first part. */
  lemma {:induction false} HashAppend(current: nat, a: string, b: string)
    requires current < 256
    ensures Hash(current, a + b) == Hash(Hash(current, a), b)
    decreases |a|
  {
    if a != [] {
      assert (a + b)[1..] == a[1..] + b;
      HashAppend(Step(current, a[0]), a[1..], b);
    } else {
      assert a + b == b;
    }
  }

  /** Part 1: the hashes of the pieces between commas, summed. The input is not trimmed,
      so a final newline is hashed into the last piece. */
  function Part1(input: string): (r: nat)
    ensures r <= 255 * |Split(input, ',')|
  {
    SumHashes(Split(input, ','))
  }

  function SumHashes(steps: seq<string>): (r: nat)
    ensures r <= 255 * |steps|
  {
    if steps == [] then 0 else SumHashes(steps[..|steps| - 1]) + Hash(0, steps[|steps| - 1])
  }

  lemma {:induction false} SumHashesAppend(xs: seq<string>, ys: seq<string>)
    ensures SumHashes(xs + ys) == SumHashes(xs) + SumHashes(ys)
    decreases |ys|
  {
    if ys == [] {
      assert xs + ys == xs;
    } else {
      assert (xs + ys)[..|xs + ys| - 1] == xs + ys[..|ys| - 1];
      SumHashesAppend(xs, ys[..|ys| - 1]);
    }
  }

  /** Joining two step lists with a comma adds their totals. */
  lemma Part1Concat(a: string, b: string)
    ensures Part1(a + "," + b) == Part1(a) + Part1(b)
  {
    SplitConcat(a, b, ',');
    SumHashesAppend(Split(a, ','), Split(b, ','));
  }

  lemma HashExample()
    ensures Hash(0, "HASH") == 52
  {
    var s := "HASH";
    assert Step(0, 'H') == 200;
    assert Step(200, 'A') == 153;
    assert Step(153, 'S') == 172;
    assert Step(172, 'H') == 52;
    assert Hash(172, s[3..]) == 52;
    assert Hash(153, s[2..]) == 52;
    assert Hash(200, s[1..]) == 52;
  }
}

=== FILE: day16.dfy ===
/** Day 16: a beam enters a grid of mirrors `/` `\`, splitters `|` `-` and empty tiles `.`.
    The program follows every beam with a worklist, marking each (tile, direction) pair
    in a per-tile bitset so that no pair is processed twice, and reports how many tiles
    ended up with a non-empty bitset (the energized tiles). */
module Day16 {
  import opened Text
  import opened Grids

  datatype Dir = North | East | South | West

  /** A beam on tile `(x, y)` travelling in `dir`. */
  datatype Beam = Beam(x: nat, y: nat, dir: Dir)

  /** `1 << dir as u8`, with the directions numbered in declaration order. */
  function Bit(d: Dir): bv8
  {
    match d
    case North => 1
    case East => 2
    case South => 4
    case West => 8
  }

  predicate InGrid(g: Grid<char>, b: Beam)
  {
    b.x < g.Width() && b.y < g.Height()
  }

  // ---------------------------------------------------------------------------
  // What a tile does to a beam.

  /** The beams pushed after tile `c` is entered by `b`, in the order of the program's
      match arms, each guard keeping the new tile inside a `w` by `h` grid. */
  function Emit(c: char, b: Beam, w: nat, h: nat): (r: seq<Beam>)
    requires b.x < w && b.y < h
    ensures |r| <= 2
    ensures forall e | e in r :: e.x < w && e.y < h
  {
    var x, y, d := b.x, b.y, b.dir;
    if (c == '-' || c == '.') && d == East && x < w - 1 then [Beam(x + 1, y, East)]
    else if (c == '|' || c == '.') && d == South && y < h - 1 then [Beam(x, y + 1, South)]
    else if (c == '-' || c == '.') && d == West && x > 0 then [Beam(x - 1, y, West)]
    else if (c == '|' || c == '.') && d == North && y > 0 then [Beam(x, y - 1, North)]
    else if c == '|' && (d == East || d == West) then
      (if y > 0 then [Beam(x, y - 1, North)] else []) +
      (if y < h - 1 then [Beam(x, y + 1, South)] else [])
    else if c == '-' && (d == North || d == South) then
      (if x > 0 then [Beam(x - 1, y, West)] else []) +
      (if x < w - 1 then [Beam(x + 1, y, East)] else [])
    else if c == '/' && d == North && x < w - 1 then [Beam(x + 1, y, East)]
    else if c == '/' && d == West && y < h - 1 then [Beam(x, y + 1, South)]
    else if c == '/' && d == South && x > 0 then [Beam(x - 1, y, West)]
    else if c == '/' && d == East && y > 0 then [Beam(x, y - 1, North)]
    else if c == '\\' && d == North && x > 0 then [Beam(x - 1, y, West)]
    else if c == '\\' && d == West && y > 0 then [Beam(x, y - 1, North)]
    else if c == '\\' && d == South && x < w - 1 then [Beam(x + 1, y, East)]
    else if c == '\\' && d == East && y < h - 1 then [Beam(x, y + 1, South)]
    else []
  }

  /** The directions a beam leaves tile `c` in, having entered it moving `d`: empty tiles
      and splitters met edge-on pass it straight, splitters met flat split it both ways,
      mirrors turn it, and any other character absorbs it. */
  function Outs(c: char, d: Dir): seq<Dir>
  {
    match c
    case '.' => [d]
    case '-' => if d == East || d == West then [d] else [West, East]
    case '|' => if d == North || d == South then [d] else [North, South]
    case '/' => [match d case North => East case West => South case South => West case East => North]
    case '\\' => [match d case North => West case West => North case South => East case East => South]
    case _ => []
  }

  /** One tile further in direction `d`, if that tile is inside the grid. */
  function Move(b: Beam, d: Dir, w: nat, h: nat): Option<Beam>
  {
    match d
    case North => if b.y > 0 then Some(Beam(b.x, b.y - 1, North)) else None
    case South => if b.y + 1 < h then Some(Beam(b.x, b.y + 1, South)) else None
    case West => if b.x > 0 then Some(Beam(b.x - 1, b.y, West)) else None
    case East => if b.x + 1 < w then Some(Beam(b.x + 1, b.y, East)) else None
  }

  /** The beams leaving `b`'s tile in the directions `ds`, those that would leave the
      grid dropped. */
  function Targets(ds: seq<Dir>, b: Beam, w: nat, h: nat): seq<Beam>
  {
    if ds == [] then [] else Moved(b, ds[0], w, h) + Targets(ds[1..], b, w, h)
  }

  function Moved(b: Beam, d: Dir, w: nat, h: nat): seq<Beam>
  {
    match Move(b, d, w, h) case Some(e) => [e] case None => []
  }

  /** The program's guarded match arms, fall-through included, amount to: turn the beam
      as the tile says, then discard every beam that would leave the grid. */
  lemma EmitOuts(c: char, b: Beam, w: nat, h: nat)
    requires b.x < w && b.y < h
    ensures Emit(c, b, w, h) == Targets(Outs(c, b.dir), b, w, h)
  {
    if c == '|' && (b.dir == East || b.dir == West) {
      TargetsTwo(North, South, b, w, h);
    } else if c == '-' && (b.dir == North || b.dir == South) {
      TargetsTwo(West, East, b, w, h);
    } else if c in ".-|/\\" {
      assert |Outs(c, b.dir)| == 1;
      TargetsOne(Outs(c, b.dir)[0], b, w, h);
      assert Outs(c, b.dir) == [Outs(c, b.dir)[0]];
    }
  }

  lemma TargetsOne(d: Dir, b: Beam, w: nat, h: nat)
    ensures Targets([d], b, w, h) == Moved(b, d, w, h)
  {
    assert [d][1..] == [];
  }

  lemma TargetsTwo(d: Dir, e: Dir, b: Beam, w: nat, h: nat)
    ensures Targets([d, e], b, w, h) == Moved(b, d, w, h) + Moved(b, e, w, h)
  {
    assert [d, e][1..] == [e];
    TargetsOne(e, b, w, h);
  }

  /** A beam always keeps moving when it can: every tile it is allowed to leave through
      a grid-side edge produces a beam, in the direction it left in. */
  lemma OutsKinds(c: char, d: Dir)
    ensures c == '.' ==> Outs(c, d) == [d]
    ensures c == '-' && (d == East || d == West) ==> Outs(c, d) == [d]
    ensures c == '|' && (d == North || d == South) ==> Outs(c, d) == [d]
    ensures c == '|' && (d == East || d == West) ==> Outs(c, d) == [North, South]
    ensures c == '-' && (d == North || d == South) ==> Outs(c, d) == [West, East]
    ensures c !in ".-|/\\" ==> Outs(c, d) == []
  {
  }

  /** The mirror tables: `/` swaps North with East and South with West, `\` swaps North
      with West and South with East; each mirror is its own inverse. */
  lemma MirrorsReflect(d: Dir)
    ensures |Outs('/', d)| == 1 && |Outs('\\', d)| == 1
    ensures Outs('/', Outs('/', d)[0]) == [d]
    ensures Outs('\\', Outs('\\', d)[0]) == [d]
    ensures Outs('/', d)[0] != d && Outs('\\', d)[0] != d
    ensures Outs('/', d)[0] != Outs('\\', d)[0]
  {
  }

  // ---------------------------------------------------------------------------
  // Reachability: the reference meaning of a run.

  /** The beams pushed from beam `b` of grid `g`. */
  function Next(g: Grid<char>, b: Beam): seq<Beam>
    requires g.Valid() && InGrid(g, b)
  {
    Emit(At(g, b.x, b.y), b, g.Width(), g.Height())
  }

  /** `Next` as a successor function, with no successors off the grid. */
  function Succ(g: Grid<char>): Beam -> seq<Beam>
  {
    b => if g.Valid() && InGrid(g, b) then Next(g, b) else []
  }

  /** Beam `t` is reached from `s` in exactly `k` steps of `next`. */
  ghost predicate ReachIn(next: Beam -> seq<Beam>, s: Beam, t: Beam, k: nat)
    decreases k
  {
    if k == 0 then s == t else exists u: Beam :: ReachIn(next, s, u, k - 1) && t in next(u)
  }

  /** Beam `t` is on the path of a beam that starts inside the grid as `s`. */
  ghost predicate Reaches(g: Grid<char>, s: Beam, t: Beam)
  {
    InGrid(g, s) && exists k: nat :: ReachIn(Succ(g), s, t, k)
  }

  /** Tile `(x, y)` is crossed by some beam reachable from `s`. */
  ghost predicate Energized(g: Grid<char>, s: Beam, x: nat, y: nat)
  {
    || Reaches(g, s, Beam(x, y, North)) || Reaches(g, s, Beam(x, y, East))
    || Reaches(g, s, Beam(x, y, South)) || Reaches(g, s, Beam(x, y, West))
  }

  /** The number of energized tiles when the beam starts as `s`. */
  ghost function Energy(g: Grid<char>, s: Beam): nat
  {
    CountCells(g.Width(), g.Height(), (x: nat, y: nat) => Energized(g, s, x, y))
  }

  /** `bitset > 0`. */
  predicate NonEmpty(c: bv8)
  {
    c != 0
  }

  /** The beam one step before `t` on a path of length `k`. */
  lemma Before(next: Beam -> seq<Beam>, s: Beam, t: Beam, k: nat) returns (u: Beam)
    requires k > 0 && ReachIn(next, s, t, k)
    ensures ReachIn(next, s, u, k - 1) && t in next(u)
  {
    u :| ReachIn(next, s, u, k - 1) && t in next(u);
  }

  lemma ReachStart(g: Grid<char>, s: Beam)
    requires InGrid(g, s)
    ensures Reaches(g, s, s)
  {
    assert ReachIn(Succ(g), s, s, 0);
  }

  lemma ReachStep(g: Grid<char>, s: Beam, u: Beam, t: Beam)
    requires g.Valid() && InGrid(g, u) && Reaches(g, s, u) && t in Next(g, u)
    ensures Reaches(g, s, t)
  {
    var k: nat :| ReachIn(Succ(g), s, u, k);
    assert t in Succ(g)(u);
    assert ReachIn(Succ(g), s, t, k + 1);
  }

  // ---------------------------------------------------------------------------
  // The visited bitsets.

  /** Beam `b`'s bit is set in its tile's bitset. */
  predicate Marked(vis: Grid<bv8>, b: Beam)
    requires vis.Has(b.x, b.y)
  {
    At(vis, b.x, b.y) & Bit(b.dir) != 0
  }

  /** Only the four direction bits are ever set. */
  predicate LowBits(vis: Grid<bv8>)
  {
    forall y, x | 0 <= y < |vis.rows| && 0 <= x < |vis.rows[y]| :: vis.rows[y][x] & 0xF0 == 0
  }

  /** Every beam of a `w` by `h` grid. */
  ghost function AllBeams(w: nat, h: nat): set<Beam>
  {
    set x: nat, y: nat, d: Dir | x < w && y < h :: Beam(x, y, d)
  }

  /** The (tile, direction) pairs not yet processed: the set shrinks with each one
      processed. */
  ghost function Unseen(vis: Grid<bv8>): set<Beam>
  {
    set b | b in AllBeams(vis.Width(), vis.Height()) && vis.Has(b.x, b.y) && !Marked(vis, b)
  }

  /** Setting a bit that was clear: the bit is now set, no other bit changed. */
  lemma BitsMark(c: bv8, d: Dir, e: Dir)
    ensures (c | Bit(d)) & Bit(e) != 0 <==> c & Bit(e) != 0 || d == e
    ensures c & 0xF0 == 0 ==> (c | Bit(d)) & 0xF0 == 0
  {
  }

  /** A bitset with only direction bits is non-empty exactly when one of them is set. */
  lemma LowNonZero(c: bv8)
    requires c & 0xF0 == 0
    ensures c != 0 <==> c & Bit(North) != 0 || c & Bit(East) != 0 || c & Bit(South) != 0 || c & Bit(West) != 0
  {
  }

  /** The bitsets after marking beam `b`. */
  function Mark(vis: Grid<bv8>, b: Beam): Grid<bv8>
    requires vis.Has(b.x, b.y)
  {
    Set(vis, b.x, b.y, At(vis, b.x, b.y) | Bit(b.dir))
  }

  /** Marking a beam not yet marked removes it from the unseen pairs. */
  lemma UnseenMark(vis: Grid<bv8>, b: Beam)
    requires vis.Valid() && vis.Has(b.x, b.y) && !Marked(vis, b)
    ensures Unseen(Mark(vis, b)) < Unseen(vis)
  {
    var vis' := Mark(vis, b);
    assert b in AllBeams(vis.Width(), vis.Height());
    assert b in Unseen(vis);
    assert Marked(vis', b) by { MarkedAfter(vis, b, b); }
    forall e | e in Unseen(vis')
      ensures e in Unseen(vis)
    {
      MarkedAfter(vis, b, e);
    }
  }

  /** Marking keeps the shape and sets only direction bits. */
  lemma ShapeMark(vis: Grid<bv8>, b: Beam)
    requires vis.Valid() && vis.Has(b.x, b.y) && LowBits(vis)
    ensures Mark(vis, b).Valid() && Mark(vis, b).dimensions == vis.dimensions
    ensures LowBits(Mark(vis, b)) && SameShape(vis, Mark(vis, b))
  {
    BitsMark(At(vis, b.x, b.y), b.dir, b.dir);
  }

  /** After marking `b`, exactly `b` and the beams marked before are marked. */
  lemma MarksMark(vis: Grid<bv8>, b: Beam)
    requires vis.Has(b.x, b.y)
    ensures SameShape(vis, Mark(vis, b))
    ensures forall e: Beam | vis.Has(e.x, e.y) :: Marked(Mark(vis, b), e) <==> Marked(vis, e) || e == b
  {
    forall e: Beam | vis.Has(e.x, e.y)
      ensures Marked(Mark(vis, b), e) <==> Marked(vis, e) || e == b
    {
      MarkedAfter(vis, b, e);
    }
  }

  lemma MarkedAfter(vis: Grid<bv8>, b: Beam, e: Beam)
    requires vis.Has(b.x, b.y) && vis.Has(e.x, e.y)
    ensures Marked(Mark(vis, b), e) <==> Marked(vis, e) || e == b
  {
    var c := At(vis, b.x, b.y);
    if (e.x, e.y) == (b.x, b.y) {
      assert At(Mark(vis, b), e.x, e.y) == c | Bit(b.dir);
      BitsMark(c, b.dir, e.dir);
    } else {
      assert At(Mark(vis, b), e.x, e.y) == At(vis, e.x, e.y);
    }
  }

  /** Two bitset grids with the same rows of the same lengths. */
  predicate SameShape(vis: Grid<bv8>, vis': Grid<bv8>)
  {
    && |vis'.rows| == |vis.rows|
    && forall j :: 0 <= j < |vis.rows| ==> |vis'.rows[j]| == |vis.rows[j]|
  }

  // ---------------------------------------------------------------------------
  // The worklist, for any successor function.

  /** Every successor of a marked beam is marked or still waiting on the stack. */
  ghost predicate Closed(next: Beam -> seq<Beam>, vis: Grid<bv8>, stack: seq<Beam>)
  {
    forall b: Beam | vis.Has(b.x, b.y) && Marked(vis, b) ::
      forall e | e in next(b) :: e in stack || (vis.Has(e.x, e.y) && Marked(vis, e))
  }

  /** Once nothing waits, the marks include every beam reachable from a marked start. */
  lemma {:induction false} ClosedComplete(next: Beam -> seq<Beam>, s: Beam, vis: Grid<bv8>, t: Beam, k: nat)
    requires Closed(next, vis, []) && vis.Has(s.x, s.y) && Marked(vis, s)
    requires ReachIn(next, s, t, k)
    ensures vis.Has(t.x, t.y) && Marked(vis, t)
    decreases k
  {
    if k > 0 {
      var u := Before(next, s, t, k);
      ClosedComplete(next, s, vis, u, k - 1);
      assert t in next(u);
    }
  }

  /** Popping a beam that is already marked or has no tile keeps the closure. */
  lemma PopSkip(next: Beam -> seq<Beam>, vis: Grid<bv8>, stack: seq<Beam>)
    requires stack != [] && Closed(next, vis, stack) && Inside(next, vis)
    requires var b := stack[|stack| - 1]; vis.Has(b.x, b.y) ==> Marked(vis, b)
    ensures Closed(next, vis, stack[..|stack| - 1])
  {
    var b := stack[|stack| - 1];
    var rest := stack[..|stack| - 1];
    assert stack == rest + [b];
    forall u: Beam | vis.Has(u.x, u.y) && Marked(vis, u)
      ensures forall e | e in next(u) :: e in rest || (vis.Has(e.x, e.y) && Marked(vis, e))
    {
      forall e | e in next(u)
        ensures e in rest || (vis.Has(e.x, e.y) && Marked(vis, e))
      {
        assert e in stack || (vis.Has(e.x, e.y) && Marked(vis, e));
        assert vis.Has(e.x, e.y);
      }
    }
  }

  /** Successors always have a tile. */
  ghost predicate Inside(next: Beam -> seq<Beam>, vis: Grid<bv8>)
  {
    forall u: Beam, e | e in next(u) :: vis.Has(e.x, e.y)
  }

  lemma SuccInside(g: Grid<char>, vis: Grid<bv8>)
    requires vis.Valid() && vis.dimensions == g.dimensions
    ensures Inside(Succ(g), vis)
  {
    forall u: Beam, e | e in Succ(g)(u)
      ensures vis.Has(e.x, e.y)
    {
      assert InGrid(g, e);
    }
  }

  /** Popping an unmarked beam, marking it and pushing its successors keeps the
      closure. */
  lemma PopMark(next: Beam -> seq<Beam>, vis: Grid<bv8>, stack: seq<Beam>, vis': Grid<bv8>)
    requires stack != [] && Closed(next, vis, stack) && SameShape(vis, vis')
    requires vis.Has(stack[|stack| - 1].x, stack[|stack| - 1].y)
    requires forall e: Beam | vis.Has(e.x, e.y) ::
      Marked(vis', e) <==> Marked(vis, e) || e == stack[|stack| - 1]
    ensures Closed(next, vis', stack[..|stack| - 1] + next(stack[|stack| - 1]))
  {
    var b := stack[|stack| - 1];
    var rest := stack[..|stack| - 1];
    var stack' := rest + next(b);
    assert stack == rest + [b];
    assert forall e: Beam :: vis'.Has(e.x, e.y) == vis.Has(e.x, e.y);
    forall u: Beam | vis'.Has(u.x, u.y) && Marked(vis', u)
      ensures forall e | e in next(u) :: e in stack' || (vis'.Has(e.x, e.y) && Marked(vis', e))
    {
      forall e | e in next(u)
        ensures e in stack' || (vis'.Has(e.x, e.y) && Marked(vis', e))
      {
        if u != b {
          assert Marked(vis, u);
          assert e in stack || (vis.Has(e.x, e.y) && Marked(vis, e));
        }
      }
    }
  }

  // ---------------------------------------------------------------------------
  // The worklist of the program.

  /** Every marked beam and every stacked beam inside the grid is reachable from `s`. */
  ghost predicate Sound(g: Grid<char>, s: Beam, vis: Grid<bv8>, stack: seq<Beam>)
    requires vis.Valid() && vis.dimensions == g.dimensions
  {
    && (forall b: Beam | InGrid(g, b) && Marked(vis, b) :: Reaches(g, s, b))
    && (forall i | 0 <= i < |stack| && InGrid(g, stack[i]) :: Reaches(g, s, stack[i]))
  }

  /** Marking the popped beam and pushing its successors keeps every mark and every
      stacked beam reachable. */
  lemma SoundMark(g: Grid<char>, s: Beam, vis: Grid<bv8>, stack: seq<Beam>, vis': Grid<bv8>)
    requires g.Valid() && vis.Valid() && vis.dimensions == g.dimensions && stack != []
    requires vis'.Valid() && vis'.dimensions == g.dimensions
    requires Sound(g, s, vis, stack) && InGrid(g, stack[|stack| - 1])
    requires forall e: Beam | InGrid(g, e) ::
      Marked(vis', e) <==> Marked(vis, e) || e == stack[|stack| - 1]
    ensures Sound(g, s, vis', stack[..|stack| - 1] + Next(g, stack[|stack| - 1]))
  {
    var b := stack[|stack| - 1];
    var rest := stack[..|stack| - 1];
    var stack' := rest + Next(g, b);
    assert Reaches(g, s, b);
    forall i | 0 <= i < |stack'| && InGrid(g, stack'[i])
      ensures Reaches(g, s, stack'[i])
    {
      if i < |rest| {
        assert stack'[i] == stack[i];
      } else {
        assert stack'[i] in Next(g, b);
        ReachStep(g, s, b, stack'[i]);
      }
    }
  }

  /** The loop invariant of the worklist. */
  ghost predicate Inv(g: Grid<char>, start: Beam, vis: Grid<bv8>, stack: seq<Beam>)
  {
    && g.Valid() && vis.Valid() && vis.dimensions == g.dimensions && LowBits(vis)
    && Sound(g, start, vis, stack) && Closed(Succ(g), vis, stack)
    && (InGrid(g, start) ==> Marked(vis, start) || start in stack)
  }

  /** `count_energized_tiles`: the tiles whose bitset ends non-empty are exactly those
      crossed by a beam reachable from `start`, and the count is their number. */
  method CountEnergized(g: Grid<char>, start: Beam) returns (n: nat, vis: Grid<bv8>)
    requires g.Valid()
    ensures vis.Valid() && vis.dimensions == g.dimensions
    ensures forall b: Beam | InGrid(g, b) :: Marked(vis, b) <==> Reaches(g, start, b)
    ensures forall x: nat, y: nat | x < g.Width() && y < g.Height() ::
      NonEmpty(At(vis, x, y)) <==> Energized(g, start, x, y)
    ensures n == CountIf(Iter(vis), NonEmpty) && n == Energy(g, start)
    ensures n <= g.Width() * g.Height()
  {
    var w, h := g.Width(), g.Height();
    vis := New(0 as bv8, w, h);
    var stack := [start];
    Init(g, start, vis);
    while stack != []
      invariant Inv(g, start, vis, stack)
      decreases Unseen(vis), |stack|
    {
      vis, stack := Visit(g, start, vis, stack);
    }
    n := CountIf(Iter(vis), NonEmpty);
    Finish(g, start, vis);
    CountIter(vis, NonEmpty, (x: nat, y: nat) => Energized(g, start, x, y));
    IterRowMajor(vis);
  }

  /** One round of the worklist loop: pop a beam, drop it if it is off the grid or its
      bit is already set, otherwise set its bit and push the beams its tile emits. */
  method Visit(g: Grid<char>, start: Beam, vis: Grid<bv8>, stack: seq<Beam>)
    returns (vis': Grid<bv8>, stack': seq<Beam>)
    requires Inv(g, start, vis, stack) && stack != []
    ensures Inv(g, start, vis', stack')
    ensures Unseen(vis') < Unseen(vis) || (Unseen(vis') == Unseen(vis) && |stack'| < |stack|)
  {
    var b := stack[|stack| - 1];
    if b.x >= g.Width() || b.y >= g.Height() || At(vis, b.x, b.y) & Bit(b.dir) > 0 {
      vis', stack' := vis, stack[..|stack| - 1];
      SkipKeeps(g, start, vis, stack, stack');
    } else {
      vis' := Mark(vis, b);
      stack' := stack[..|stack| - 1] + Next(g, b);
      MarkKeeps(g, start, vis, stack, vis', stack');
    }
  }

  /** Dropping the popped beam keeps the invariant. */
  lemma SkipKeeps(g: Grid<char>, start: Beam, vis: Grid<bv8>, stack: seq<Beam>, stack': seq<Beam>)
    requires Inv(g, start, vis, stack) && stack != [] && stack' == stack[..|stack| - 1]
    requires var b := stack[|stack| - 1]; InGrid(g, b) ==> Marked(vis, b)
    ensures Inv(g, start, vis, stack') && |stack'| < |stack|
  {
    var b := stack[|stack| - 1];
    var rest := stack[..|stack| - 1];
    assert stack == rest + [b];
    assert Closed(Succ(g), vis, rest) by {
      SuccInside(g, vis);
      PopSkip(Succ(g), vis, stack);
    }
    assert Sound(g, start, vis, rest) by {
      assert forall i | 0 <= i < |rest| :: rest[i] == stack[i];
    }
  }

  /** Marking the popped beam and pushing what its tile emits keeps the invariant and
      leaves one fewer pair pending. */
  lemma MarkKeeps(g: Grid<char>, start: Beam, vis: Grid<bv8>, stack: seq<Beam>,
                   vis': Grid<bv8>, stack': seq<Beam>)
    requires Inv(g, start, vis, stack) && stack != []
    requires var b := stack[|stack| - 1]; InGrid(g, b) && !Marked(vis, b)
    requires var b := stack[|stack| - 1];
      vis' == Mark(vis, b) && stack' == stack[..|stack| - 1] + Next(g, b)
    ensures Inv(g, start, vis', stack') && Unseen(vis') < Unseen(vis)
  {
    var b := stack[|stack| - 1];
    var rest := stack[..|stack| - 1];
    assert Unseen(vis') < Unseen(vis) by { UnseenMark(vis, b); }
    assert vis'.Valid() && vis'.dimensions == vis.dimensions && LowBits(vis') && SameShape(vis, vis') by {
      ShapeMark(vis, b);
    }
    assert Closed(Succ(g), vis', stack') by {
      MarksMark(vis, b);
      PopMark(Succ(g), vis, stack, vis');
      assert Succ(g)(b) == Next(g, b);
    }
    assert Sound(g, start, vis', stack') by {
      MarksMark(vis, b);
      SoundMark(g, start, vis, stack, vis');
    }
    assert InGrid(g, start) ==> Marked(vis', start) || start in stack' by {
      MarksMark(vis, b);
      LastSplit(stack);
    }
  }

  lemma LastSplit<T>(s: seq<T>)
    requires s != []
    ensures s == s[..|s| - 1] + [s[|s| - 1]]
  {
  }

  /** The fresh bitsets hold no mark, and the start is reachable from itself. */
  lemma Init(g: Grid<char>, start: Beam, vis: Grid<bv8>)
    requires g.Valid() && vis == New(0 as bv8, g.Width(), g.Height())
    ensures Inv(g, start, vis, [start])
  {
    if InGrid(g, start) {
      ReachStart(g, start);
    }
    forall b: Beam | vis.Has(b.x, b.y)
      ensures !Marked(vis, b)
    {
      assert At(vis, b.x, b.y) == 0;
    }
  }

  /** With the stack empty, the marks are exactly the reachable beams, so the non-empty
      bitsets are exactly the energized tiles. */
  lemma Finish(g: Grid<char>, start: Beam, vis: Grid<bv8>)
    requires Inv(g, start, vis, [])
    ensures forall b: Beam | InGrid(g, b) :: Marked(vis, b) <==> Reaches(g, start, b)
    ensures forall x: nat, y: nat | x < g.Width() && y < g.Height() ::
      NonEmpty(At(vis, x, y)) <==> Energized(g, start, x, y)
  {
    forall t: Beam | InGrid(g, t)
      ensures Marked(vis, t) <==> Reaches(g, start, t)
    {
      if Reaches(g, start, t) {
        var k: nat :| ReachIn(Succ(g), start, t, k);
        ClosedComplete(Succ(g), start, vis, t, k);
      }
    }
    forall x: nat, y: nat | x < g.Width() && y < g.Height()
      ensures NonEmpty(At(vis, x, y)) <==> Energized(g, start, x, y)
    {
      LowNonZero(At(vis, x, y));
      assert Marked(vis, Beam(x, y, North)) == Reaches(g, start, Beam(x, y, North));
      assert Marked(vis, Beam(x, y, East)) == Reaches(g, start, Beam(x, y, East));
      assert Marked(vis, Beam(x, y, South)) == Reaches(g, start, Beam(x, y, South));
      assert Marked(vis, Beam(x, y, West)) == Reaches(g, start, Beam(x, y, West));
    }
  }

  // ---------------------------------------------------------------------------
  // Part 2: every edge start pointing inward.

  /** The starts of part 2: top row heading South, bottom row North, left column East,
      right column West. */
  ghost predicate EdgeStart(g: Grid<char>, b: Beam)
  {
    && InGrid(g, b)
    && ((b.y == 0 && b.dir == South) || (b.y == g.Height() - 1 && b.dir == North)
     || (b.x == 0 && b.dir == East) || (b.x == g.Width() - 1 && b.dir == West))
  }

  /** The maximum energy over `starts`, with a start attaining it. */
  method BestOf(g: Grid<char>, starts: seq<Beam>) returns (best: nat, from: Beam)
    requires g.Valid() && starts != []
    ensures from in starts && best == Energy(g, from)
    ensures forall i | 0 <= i < |starts| :: Energy(g, starts[i]) <= best
  {
    var vis;
    best, vis := CountEnergized(g, starts[0]);
    from := starts[0];
    var i := 1;
    while i < |starts|
      invariant 1 <= i <= |starts|
      invariant from in starts && best == Energy(g, from)
      invariant forall j | 0 <= j < i :: Energy(g, starts[j]) <= best
    {
      var n, vis' := CountEnergized(g, starts[i]);
      if n > best {
        best, from := n, starts[i];
      }
      i := i + 1;
    }
  }

  /** Part 2: the largest energy over all inward edge starts. An empty range of starts
      panics on `unwrap`, so both dimensions must be positive. */
  method Part2(g: Grid<char>) returns (best: nat, from: Beam)
    requires g.Valid() && g.Width() > 0 && g.Height() > 0
    ensures EdgeStart(g, from) && best == Energy(g, from)
    ensures forall b: Beam | EdgeStart(g, b) :: Energy(g, b) <= best
  {
    var w, h := g.Width(), g.Height();
    var top := seq(w, x requires 0 <= x => Beam(x, 0, South));
    var bottom := seq(w, x requires 0 <= x => Beam(x, h - 1, North));
    var left := seq(h, y requires 0 <= y => Beam(0, y, East));
    var right := seq(h, y requires 0 <= y => Beam(w - 1, y, West));
    var bestTop, fromTop := BestOf(g, top);
    var bestBottom, fromBottom := BestOf(g, bottom);
    var bestLeft, fromLeft := BestOf(g, left);
    var bestRight, fromRight := BestOf(g, right);
    best, from := bestTop, fromTop;
    if bestBottom > best { best, from := bestBottom, fromBottom; }
    if bestLeft > best { best, from := bestLeft, fromLeft; }
    if bestRight > best { best, from := bestRight, fromRight; }
    forall b: Beam | EdgeStart(g, b)
      ensures Energy(g, b) <= best
    {
      if b.y == 0 && b.dir == South {
        assert top[b.x] == b;
      } else if b.y == h - 1 && b.dir == North {
        assert bottom[b.x] == b;
      } else if b.x == 0 && b.dir == East {
        assert left[b.y] == b;
      } else {
        assert right[b.y] == b;
      }
    }
  }

  /** `run`: part 1 starts in the top-left corner heading East. */
  method Run(input: string) returns (p1: nat, p2: nat)
    requires input != [] && Parse(input).Valid()
    requires Parse(input).Width() > 0 && Parse(input).Height() > 0
    ensures p1 == Energy(Parse(input), Beam(0, 0, East))
    ensures exists b: Beam :: EdgeStart(Parse(input), b) && p2 == Energy(Parse(input), b)
    ensures forall b: Beam | EdgeStart(Parse(input), b) :: Energy(Parse(input), b) <= p2
  {
    var g := Parse(input);
    var vis;
    p1, vis := CountEnergized(g, Beam(0, 0, East));
    var from;
    p2, from := Part2(g);
  }
}

=== FILE: day18.dfy ===
/** Day 18: a dig plan of straight trenches is walked from (0, 0) into a list of
    corner coordinates; the shoelace formula gives the area enclosed by the corners,
    and the turns are counted left and right. The final answer also adds a
    floating-point border area, which is not modelled. */
module Day18 {
  import opened Text

  // ---------------------------------------------------------------------------
  // Plan lines.

  datatype Dir = Up | Down | Left | Right

  /** One line of the plan: a direction, a length (`u8`) and an RGB colour (`u32`). */
  datatype Line = Line(dir: Dir, len: nat, color: nat)

  /** The letter a plan writes for a direction. */
  function Letter(d: Dir): char
  {
    match d
    case Up => 'U'
    case Down => 'D'
    case Left => 'L'
    case Right => 'R'
  }

  /** The direction letter at the start of a line. */
  function ParseDir(s: string): (r: Option<(Dir, string)>)
    ensures r.Some? ==> |s| > 0 && Letter(r.value.0) == s[0] && r.value.1 == s[1..]
    ensures r.None? <==> s == [] || s[0] !in "UDLR"
  {
    if s == [] then None
    else if s[0] == 'U' then Some((Up, s[1..]))
    else if s[0] == 'D' then Some((Down, s[1..]))
    else if s[0] == 'L' then Some((Left, s[1..]))
    else if s[0] == 'R' then Some((Right, s[1..]))
    else None
  }

  /** Each direction's letter reads back as that direction. */
  lemma ParseDirLetter(d: Dir, rest: string)
    ensures ParseDir([Letter(d)] + rest) == Some((d, rest))
  {
    assert ([Letter(d)] + rest)[1..] == rest;
  }

  predicate IsHexDigit(c: char)
  {
    IsDigit(c) || 'a' <= c <= 'f' || 'A' <= c <= 'F'
  }

  function HexDigitValue(c: char): (v: nat)
    requires IsHexDigit(c)
    ensures v < 16
  {
    if IsDigit(c) then DigitValue(c)
    else if 'a' <= c <= 'f' then c as nat - 'a' as nat + 10
    else c as nat - 'A' as nat + 10
  }

  /** Value of a hexadecimal digit string, most significant digit first. */
  function HexValue(ds: string): nat
    requires forall i :: 0 <= i < |ds| ==> IsHexDigit(ds[i])
  {
    if ds == [] then 0 else 16 * HexValue(ds[..|ds| - 1]) + HexDigitValue(ds[|ds| - 1])
  }

  /** `u32::from_str_radix(s, 16)`: an optional `'+'`, then at least one hex digit
      of either case, and a value that fits a `u32`. */
  function ParseHex(s: string): (r: Option<nat>)
    ensures r.Some? ==> r.value <= U32_MAX
  {
    var ds := if |s| > 0 && s[0] == '+' then s[1..] else s;
    if ds == [] || exists i :: 0 <= i < |ds| && !IsHexDigit(ds[i]) then None
    else
      var v := HexValue(ds);
      if v > U32_MAX then None else Some(v)
  }

  /** `take_until(")")`: the text before the first `')'`; it fails without one. */
  function TakeUntilParen(s: string): (r: Option<(string, string)>)
    ensures r.Some? ==> s == r.value.0 + r.value.1 && ')' !in r.value.0
    ensures r.Some? ==> |r.value.1| > 0 && r.value.1[0] == ')'
    ensures r.None? <==> ')' !in s
  {
    var k := IndexOf(s, ')');
    if k == |s| then None else Some((s[..k], s[k..]))
  }

  /** `parse_line`: `D 6 (#5713f0)`. The length is `digit1` parsed as a `u8` and the
      colour is the text between the parentheses without its first byte, parsed as
      hexadecimal. A parse failure, a length above 255, an empty colour or one whose
      first character takes more than one byte in UTF-8 (slicing it panics) or a colour
      that is not hexadecimal gives `None`. Text after the
      closing parenthesis is not read. */
  function ParseLine(s: string): (r: Option<Line>)
    ensures r.Some? ==> r.value.len <= U8_MAX && r.value.color <= U32_MAX
  {
    var (dir, s1) :- ParseDir(s);
    var s2 :- Tag(s1, " ");
    var (len, s3) :- UInt(s2, U8_MAX);
    var s4 :- Tag(s3, " (");
    var (color, s5) :- TakeUntilParen(s4);
    var _ :- Tag(s5, ")");
    if color == [] || color[0] as int >= 0x80 then None
    else
      var c :- ParseHex(color[1..]);
      Some(Line(dir, len, c))
  }

  /** The example line of the tests. */
  lemma ParseExample()
    ensures ParseLine("U 4 (#38ce32)") == Some(Line(Up, 4, 0x38ce32))
  {
    var s := "U 4 (#38ce32)";
    assert ParseDir(s) == Some((Up, " 4 (#38ce32)"));
    assert Tag(" 4 (#38ce32)", " ") == Some("4 (#38ce32)");
    ExampleLength();
    assert Tag(" (#38ce32)", " (") == Some("#38ce32)");
    ExampleParen();
    assert Tag(")", ")") == Some("");
    ExampleColour();
    ParseLineSteps(s, Up, " 4 (#38ce32)", "4 (#38ce32)", 4, " (#38ce32)", "#38ce32)", "#38ce32", ")", 0x38ce32);
  }

  /** A colour starting with a character wider than one byte fails, where the
      program's byte slice would panic. */
  lemma WideColourFails()
    ensures ParseLine("U 4 (\U{e9}1)") == None
  {
    var s := "U 4 (\U{e9}1)";
    assert ParseDir(s) == Some((Up, " 4 (\U{e9}1)"));
    assert Tag(" 4 (\U{e9}1)", " ") == Some("4 (\U{e9}1)");
    assert UInt("4 (\U{e9}1)", U8_MAX) == Some((4, " (\U{e9}1)")) by {
      UIntDecimal(4, " (\U{e9}1)", U8_MAX);
      assert Decimal(4) == "4";
      assert "4" + " (\U{e9}1)" == "4 (\U{e9}1)";
    }
    assert Tag(" (\U{e9}1)", " (") == Some("\U{e9}1)");
    assert TakeUntilParen("\U{e9}1)") == Some(("\U{e9}1", ")")) by {
      var t := "\U{e9}1)";
      IndexOfFirst(t, ')', 2);
      assert t[..2] == "\U{e9}1" && t[2..] == ")";
    }
    ParseLineWide(s, Up, " 4 (\U{e9}1)", "4 (\U{e9}1)", 4, " (\U{e9}1)", "\U{e9}1)", "\U{e9}1", ")");
  }

  /** The hexadecimal digit of a value below 16, in lower case. */
  function HexChar(v: nat): (c: char)
    requires v < 16
    ensures IsHexDigit(c) && HexDigitValue(c) == v
  {
    if v < 10 then '0' + v as char else 'a' + (v - 10) as char
  }

  /** The hexadecimal digits of `n`, most significant first, without leading zeros. */
  function Hex(n: nat): (ds: string)
    ensures |ds| > 0
    ensures forall i :: 0 <= i < |ds| ==> IsHexDigit(ds[i])
  {
    if n < 16 then [HexChar(n)] else Hex(n / 16) + [HexChar(n % 16)]
  }

  /** Hexadecimal digits read back as the number they were written from. */
  lemma {:induction false} HexValueHex(n: nat)
    ensures HexValue(Hex(n)) == n
  {
    var ds := Hex(n);
    if n < 16 {
      assert ds[..0] == [];
    } else {
      assert ds[..|ds| - 1] == Hex(n / 16);
      HexValueHex(n / 16);
    }
  }

  /** A line as a dig plan writes it: `D 6 (#5713f0)`. */
  function Show(l: Line): string
  {
    [Letter(l.dir)] + " " + Decimal(l.len) + " (#" + Hex(l.color) + ")"
  }

  /** The part of a written line after the length, ` (#<hex>)`, yields the colour
      text `#<hex>` and leaves only what follows the closing parenthesis. */
  lemma ParenTail(hex: string, rest: string)
    requires forall i :: 0 <= i < |hex| ==> IsHexDigit(hex[i])
    ensures Tag(" (" + ("#" + hex + (")" + rest)), " (") == Some("#" + hex + (")" + rest))
    ensures TakeUntilParen("#" + hex + (")" + rest)) == Some(("#" + hex, ")" + rest))
    ensures Tag(")" + rest, ")") == Some(rest)
  {
    var t5 := ")" + rest;
    var color := "#" + hex;
    var t4 := color + t5;
    var t3 := " (" + t4;
    assert " (" <= t3 && t3[2..] == t4;
    assert ')' !in color by {
      forall i | 0 <= i < |hex| ensures hex[i] != ')' { assert IsHexDigit(hex[i]); }
      assert forall i :: 1 <= i < |color| ==> color[i] == hex[i - 1];
    }
    IndexOfFirst(t4, ')', |color|);
    assert t4[..|color|] == color && t4[|color|..] == t5;
    assert ")" <= t5 && t5[1..] == rest;
  }

  /** The colour text `#<hex>` of a `u32` colour parses back as that colour. */
  lemma ColourHex(n: nat)
    requires n <= U32_MAX
    ensures ParseHex(("#" + Hex(n))[1..]) == Some(n)
  {
    var hex := Hex(n);
    assert ("#" + hex)[1..] == hex;
    HexValueHex(n);
    assert IsHexDigit(hex[0]);
  }

  /** `ParseLine` succeeds when each of its steps does. */
  lemma ParseLineSteps(s: string, d: Dir, s1: string, s2: string, len: nat, s3: string,
                       s4: string, color: string, s5: string, c: nat)
    requires ParseDir(s) == Some((d, s1)) && Tag(s1, " ") == Some(s2)
    requires UInt(s2, U8_MAX) == Some((len, s3)) && Tag(s3, " (") == Some(s4)
    requires TakeUntilParen(s4) == Some((color, s5)) && Tag(s5, ")").Some?
    requires color != [] && color[0] as int < 0x80 && ParseHex(color[1..]) == Some(c)
    ensures ParseLine(s) == Some(Line(d, len, c))
  {
  }

  /** `ParseLine` fails when its steps succeed up to a colour whose first character
      is wider than one byte. */
  lemma ParseLineWide(s: string, d: Dir, s1: string, s2: string, len: nat, s3: string,
                      s4: string, color: string, s5: string)
    requires ParseDir(s) == Some((d, s1)) && Tag(s1, " ") == Some(s2)
    requires UInt(s2, U8_MAX) == Some((len, s3)) && Tag(s3, " (") == Some(s4)
    requires TakeUntilParen(s4) == Some((color, s5)) && Tag(s5, ")").Some?
    requires color != [] && color[0] as int >= 0x80
    ensures ParseLine(s) == None
  {
  }

  /** A written line with a `u8` length and a `u32` colour reads back as itself,
      whatever follows it. */
  lemma ParseShow(l: Line, rest: string)
    requires l.len <= U8_MAX && l.color <= U32_MAX
    ensures ParseLine(Show(l) + rest) == Some(l)
  {
    var hex := Hex(l.color);
    var t5 := ")" + rest;
    var t4 := "#" + hex + t5;
    var t3 := " (" + t4;
    var t2 := Decimal(l.len) + t3;
    var t1 := " " + t2;
    assert Show(l) + rest == [Letter(l.dir)] + t1;
    ParseDirLetter(l.dir, t1);
    assert Tag(t1, " ") == Some(t2) by { assert " " <= t1; assert t1[1..] == t2; }
    UIntDecimal(l.len, t3, U8_MAX);
    ColourHex(l.color);
    ParenTail(hex, rest);
    ParseLineSteps(Show(l) + rest, l.dir, t1, t2, l.len, t3, t4, "#" + hex, t5, l.color);
  }

  lemma ExampleLength()
    ensures UInt("4 (#38ce32)", U8_MAX) == Some((4, " (#38ce32)"))
  {
    UIntDecimal(4, " (#38ce32)", U8_MAX);
    assert Decimal(4) == "4";
    assert "4" + " (#38ce32)" == "4 (#38ce32)";
  }

  lemma ExampleParen()
    ensures TakeUntilParen("#38ce32)") == Some(("#38ce32", ")"))
  {
    var s := "#38ce32)";
    IndexOfFirst(s, ')', 7);
    assert s[..7] == "#38ce32" && s[7..] == ")";
  }

  lemma ExampleColour()
    ensures ParseHex("#38ce32"[1..]) == Some(0x38ce32)
  {
    var hex := "38ce32";
    assert "#38ce32"[1..] == hex;
    assert hex[..5] == "38ce3" && hex[..4] == "38ce" && hex[..3] == "38c";
    assert hex[..2] == "38" && hex[..1] == "3" && hex[..0] == "";
    assert HexValue("3") == 3;
    assert HexValue("38") == 0x38;
    assert HexValue("38c") == 0x38c;
    assert "38ce"[..3] == "38c";
    assert HexValue("38ce") == 0x38ce;
    assert "38ce3"[..4] == "38ce";
    assert HexValue("38ce3") == 0x38ce3;
    assert hex[..5] == "38ce3";
    assert HexValue(hex) == 0x38ce32;
  }

  // ---------------------------------------------------------------------------
  // The walk.

  type Point = (int, int)

  function Abs(x: int): nat
  {
    if x < 0 then -x else x
  }

  /** One trench: `len` cells in the line's direction, y growing downwards. */
  function Move(p: Point, l: Line): (q: Point)
    ensures (l.dir == Up || l.dir == Down) ==> q.0 == p.0 && Abs(q.1 - p.1) == l.len
    ensures (l.dir == Left || l.dir == Right) ==> q.1 == p.1 && Abs(q.0 - p.0) == l.len
  {
    match l.dir
    case Up => (p.0, p.1 - l.len)
    case Down => (p.0, p.1 + l.len)
    case Left => (p.0 - l.len, p.1)
    case Right => (p.0 + l.len, p.1)
  }

  function Opposite(d: Dir): Dir
  {
    match d
    case Up => Down
    case Down => Up
    case Left => Right
    case Right => Left
  }

  /** A trench dug back the opposite way returns to where it started, and `y` grows
      exactly on `Down`. */
  lemma MoveBack(p: Point, l: Line, color: nat)
    ensures Move(Move(p, l), Line(Opposite(l.dir), l.len, color)) == p
    ensures l.len > 0 ==> (Move(p, l).1 > p.1 <==> l.dir == Down)
  {
  }

  /** `coords`: (0, 0), then the position after each line. */
  function Walk(lines: seq<Line>): (cs: seq<Point>)
    ensures |cs| == |lines| + 1 && cs[0] == (0, 0)
    ensures forall k :: 0 <= k < |lines| ==> cs[k + 1] == Move(cs[k], lines[k])
  {
    if lines == [] then [(0, 0)]
    else
      var n := |lines| - 1;
      var prev := Walk(lines[..n]);
      assert forall k :: 0 <= k < n ==> lines[..n][k] == lines[k];
      prev + [Move(prev[n], lines[n])]
  }

  /** The displacement a line makes, as a vector. */
  function Delta(l: Line): Point
  {
    match l.dir
    case Up => (0, -(l.len as int))
    case Down => (0, l.len as int)
    case Left => (-(l.len as int), 0)
    case Right => (l.len as int, 0)
  }

  /** The total displacement of a list of lines. */
  function Displacement(lines: seq<Line>): Point
  {
    if lines == [] then (0, 0)
    else
      var d := Displacement(lines[..|lines| - 1]);
      var e := Delta(lines[|lines| - 1]);
      (d.0 + e.0, d.1 + e.1)
  }

  /** Every coordinate of the walk is the total displacement of the lines before it. */
  lemma {:induction false} WalkIsDisplacement(lines: seq<Line>, k: nat)
    requires k <= |lines|
    ensures Walk(lines)[k] == Displacement(lines[..k])
  {
    if k > 0 {
      WalkIsDisplacement(lines, k - 1);
      assert lines[..k][..k - 1] == lines[..k - 1];
    }
  }

  /** Lines of at most 255 cells keep the walk within 255 cells per line of the
      origin. */
  lemma {:induction false} WalkBound(lines: seq<Line>)
    requires forall k :: 0 <= k < |lines| ==> lines[k].len <= U8_MAX
    ensures forall k :: 0 <= k <= |lines| ==>
              -(U8_MAX * k) <= Walk(lines)[k].0 <= U8_MAX * k && -(U8_MAX * k) <= Walk(lines)[k].1 <= U8_MAX * k
    decreases |lines|
  {
    if lines != [] {
      var n := |lines| - 1;
      WalkBound(lines[..n]);
      assert forall k :: 0 <= k <= n ==> Walk(lines)[k] == Walk(lines[..n])[k];
    }
  }

  // ---------------------------------------------------------------------------
  // Turns.

  /** The counter `l_r_counts.0` counts: Up to Left, Down to Right, Left to Down and
      Right to Up. */
  predicate FirstTurn(a: Dir, b: Dir)
  {
    (a, b) == (Up, Left) || (a, b) == (Down, Right) || (a, b) == (Left, Down) || (a, b) == (Right, Up)
  }

  /** `l_r_counts` over consecutive lines; `last_dir` starts as the first line's
      direction, so the first line counts nothing. */
  function Turns(lines: seq<Line>): (c: (nat, nat))
    ensures c.0 + c.1 <= if lines == [] then 0 else |lines| - 1
  {
    if |lines| <= 1 then (0, 0)
    else
      var n := |lines| - 1;
      var c := Turns(lines[..n]);
      var a, b := lines[n - 1].dir, lines[n].dir;
      if FirstTurn(a, b) then (c.0 + 1, c.1)
      else if a == b then c
      else (c.0, c.1 + 1)
  }

  /** A direction as a unit vector, y growing downwards. */
  function Unit(d: Dir): Point
  {
    match d
    case Up => (0, -1)
    case Down => (0, 1)
    case Left => (-1, 0)
    case Right => (1, 0)
  }

  function Cross(p: Point, q: Point): int
  {
    p.0 * q.1 - p.1 * q.0
  }

  /** In screen coordinates the first counter's turns are the anticlockwise (left)
      quarter turns; the second counter takes the clockwise quarter turns and also
      every reversal. */
  lemma TurnKinds(a: Dir, b: Dir)
    ensures FirstTurn(a, b) <==> Cross(Unit(a), Unit(b)) == -1
    ensures !FirstTurn(a, b) && a != b <==> Cross(Unit(a), Unit(b)) == 1 || Unit(b) == (-Unit(a).0, -Unit(a).1)
  {
  }

  /** How many consecutive pairs of lines satisfy `p`. */
  function CountPairs(lines: seq<Line>, p: (Dir, Dir) -> bool): nat
  {
    if |lines| <= 1 then 0
    else
      var n := |lines| - 1;
      CountPairs(lines[..n], p) + if p(lines[n - 1].dir, lines[n].dir) then 1 else 0
  }

  /** The two counters count the left quarter turns and all other direction changes. */
  lemma {:induction false} TurnsCount(lines: seq<Line>)
    ensures Turns(lines).0 == CountPairs(lines, (a, b) => Cross(Unit(a), Unit(b)) == -1)
    ensures Turns(lines).1 == CountPairs(lines, (a, b) => a != b && Cross(Unit(a), Unit(b)) != -1)
    decreases |lines|
  {
    if |lines| > 1 {
      var n := |lines| - 1;
      TurnsCount(lines[..n]);
      TurnKinds(lines[n - 1].dir, lines[n].dir);
      assert lines[..n][n - 1] == lines[n - 1];
    }
  }

  // ---------------------------------------------------------------------------
  // The shoelace sum.

  /** The loop body: the cross products of consecutive points, starting from `prev`. */
  function ShoelaceFrom(prev: Point, cs: seq<Point>): int
    decreases |cs|
  {
    if cs == [] then 0 else Cross(prev, cs[0]) + ShoelaceFrom(cs[0], cs[1..])
  }

  /** `shoelace_sum`: the loop starts from the last coordinate, so the sum closes the
      polygon from the last point back to the first. */
  function Shoelace(cs: seq<Point>): int
    requires |cs| > 0
  {
    ShoelaceFrom(cs[|cs| - 1], cs)
  }

  /** `shoelace_sum.unsigned_abs() / 2`. */
  function EnclosedArea(cs: seq<Point>): nat
    requires |cs| > 0
  {
    Abs(Shoelace(cs)) / 2
  }

  lemma {:induction false} ShoelaceFromAppend(prev: Point, a: seq<Point>, b: seq<Point>)
    requires a != []
    ensures ShoelaceFrom(prev, a + b) == ShoelaceFrom(prev, a) + ShoelaceFrom(a[|a| - 1], b)
    decreases |a|
  {
    assert (a + b)[0] == a[0];
    if |a| == 1 {
      assert (a + b)[1..] == b;
    } else {
      assert (a + b)[1..] == a[1..] + b;
      ShoelaceFromAppend(a[0], a[1..], b);
    }
  }

  /** Because the sum wraps around, starting the walk at another corner does not
      change it: rotating the coordinates by one leaves the sum alone. */
  lemma ShoelaceRotate(cs: seq<Point>)
    requires |cs| > 1
    ensures Shoelace(cs[1..] + [cs[0]]) == Shoelace(cs)
  {
    var n := |cs| - 1;
    var rot := cs[1..] + [cs[0]];
    assert rot[|rot| - 1] == cs[0];
    ShoelaceFromAppend(cs[0], cs[1..], [cs[0]]);
    assert cs == [cs[0]] + cs[1..];
    ShoelaceFromAppend(cs[n], [cs[0]], cs[1..]);
    assert ShoelaceFrom(cs[n], cs) == Cross(cs[n], cs[0]) + ShoelaceFrom(cs[0], cs[1..]);
    assert ShoelaceFrom(cs[n], [cs[0]]) == Cross(cs[n], cs[0]);
  }

  /** A rectangle dug clockwise, `w` right, `h` down, `w` left and `h` up, encloses
      exactly `w * h`. */
  lemma RectangleArea(w: nat, h: nat, c: nat)
    ensures var cs := Walk([Line(Right, w, c), Line(Down, h, c), Line(Left, w, c), Line(Up, h, c)]);
            Shoelace(cs) == 2 * w * h && EnclosedArea(cs) == w * h
  {
    var ls := [Line(Right, w, c), Line(Down, h, c), Line(Left, w, c), Line(Up, h, c)];
    var cs := Walk(ls);
    var w', h' := w as int, h as int;
    assert cs[1] == (w', 0) && cs[2] == (w', h') && cs[3] == (0, h') && cs[4] == (0, 0);
    var o: Point := (0, 0);
    assert ShoelaceFrom(o, [o]) == 0;
    assert ShoelaceFrom((0, h'), [o]) == 0;
    assert ShoelaceFrom((w', h'), [(0, h'), o]) == w' * h';
    assert ShoelaceFrom((w', 0), [(w', h'), (0, h'), o]) == 2 * w' * h';
    assert ShoelaceFrom(o, [(w', 0), (w', h'), (0, h'), o]) == 2 * w' * h';
    assert cs == [o, (w', 0), (w', h'), (0, h'), o];
  }

  /** Every partial sum of the loop stays within `k` times the largest possible cross
      product after `k` points. */
  lemma {:induction false} ShoelaceFromBound(prev: Point, cs: seq<Point>, b: int)
    requires 0 <= b && -b <= prev.0 <= b && -b <= prev.1 <= b
    requires forall k :: 0 <= k < |cs| ==> -b <= cs[k].0 <= b && -b <= cs[k].1 <= b
    ensures -(|cs| * (2 * b * b)) <= ShoelaceFrom(prev, cs) <= |cs| * (2 * b * b)
    decreases |cs|
  {
    if cs != [] {
      var m := 2 * b * b;
      var c := Cross(prev, cs[0]);
      var x := ShoelaceFrom(cs[0], cs[1..]);
      assert -m <= c <= m by { CrossBound(prev, cs[0], b); }
      assert -(|cs[1..]| * m) <= x <= |cs[1..]| * m by { ShoelaceFromBound(cs[0], cs[1..], b); }
      AddBound(c, x, |cs[1..]|, m);
    }
  }

  lemma AddBound(c: int, x: int, n: nat, m: int)
    requires -m <= c <= m && -(n * m) <= x <= n * m
    ensures -((n + 1) * m) <= c + x <= (n + 1) * m
  {
    assert (n + 1) * m == n * m + m;
  }

  lemma CrossBound(p: Point, q: Point, b: int)
    requires 0 <= b && -b <= p.0 <= b && -b <= p.1 <= b && -b <= q.0 <= b && -b <= q.1 <= b
    ensures -(2 * b * b) <= Cross(p, q) <= 2 * b * b
  {
    ProductBound(p.0, q.1, b);
    ProductBound(p.1, q.0, b);
  }

  lemma ProductBound(x: int, y: int, b: int)
    requires 0 <= b && -b <= x <= b && -b <= y <= b
    ensures -(b * b) <= x * y <= b * b
  {
    var ax, ay := if x < 0 then -x else x, if y < 0 then -y else y;
    MulMono(ax, ay, b, b);
    assert x * y == ax * ay || x * y == -(ax * ay);
  }

  // ---------------------------------------------------------------------------
  // The run.

  const I32_MAX: int := 0x7FFF_FFFF
  const I64_MAX: int := 0x7FFF_FFFF_FFFF_FFFF

  /** The most lines for which every `i32` coordinate and every partial `i64`
      shoelace sum stays in range. */
  const MAX_LINES: nat := 30000

  /** What `run` computes before the floating-point border area: the corners, the
      turn counters, the shoelace sum and the enclosed area. */
  datatype Trace = Trace(coords: seq<Point>, turns: (nat, nat), shoelace: int, enclosed: nat)

  /** `run` up to the enclosed area: `None` when a line fails to parse. Indexing the
      first line panics on empty input; more than `MAX_LINES` lines could overflow
      the `i32` walk or the `i64` sum. */
  function Run(input: string): (r: Option<Trace>)
    requires 0 < |Lines(input)| <= MAX_LINES
    ensures r.None? <==> exists k :: 0 <= k < |Lines(input)| && ParseLine(Lines(input)[k]).None?
    ensures r.Some? ==> |r.value.coords| == |Lines(input)| + 1 && r.value.coords[0] == (0, 0)
    ensures r.Some? ==> r.value.enclosed * 2 <= if r.value.shoelace < 0 then -r.value.shoelace else r.value.shoelace
    ensures r.Some? ==> forall k :: 0 <= k < |Lines(input)| ==>
              ParseLine(Lines(input)[k]).Some? && r.value.coords[k + 1] == Move(r.value.coords[k], ParseLine(Lines(input)[k]).value)
    ensures r.Some? ==>
              && CollectAll(Lines(input), ParseLine).Some?
              && r.value.coords == Walk(CollectAll(Lines(input), ParseLine).value)
              && r.value.turns == Turns(CollectAll(Lines(input), ParseLine).value)
              && r.value.shoelace == Shoelace(r.value.coords)
              && r.value.enclosed == Abs(r.value.shoelace) / 2
  {
    match CollectAll(Lines(input), ParseLine)
    case None =>
      assert exists k :: 0 <= k < |Lines(input)| && ParseLine(Lines(input)[k]).None?;
      None
    case Some(lines) =>
      var cs := Walk(lines);
      Some(Trace(cs, Turns(lines), Shoelace(cs), EnclosedArea(cs)))
  }

  /** Within `MAX_LINES` lines no coordinate leaves the `i32` range and no partial
      shoelace sum leaves the `i64` range, so the program's fixed-width arithmetic
      agrees with the unbounded one. */
  lemma RunInRange(input: string)
    requires 0 < |Lines(input)| <= MAX_LINES && Run(input).Some?
    ensures var cs := Run(input).value.coords;
            && (forall k :: 0 <= k < |cs| ==> -I32_MAX <= cs[k].0 <= I32_MAX && -I32_MAX <= cs[k].1 <= I32_MAX)
            && (forall k :: 0 <= k <= |cs| ==> -I64_MAX <= ShoelaceFrom(cs[|cs| - 1], cs[..k]) <= I64_MAX)
  {
    var lines := CollectAll(Lines(input), ParseLine).value;
    var cs := Walk(lines);
    var n := |lines|;
    var b: int := U8_MAX * MAX_LINES;
    assert forall k :: 0 <= k < n ==> ParseLine(Lines(input)[k]) == Some(lines[k]);
    assert forall k :: 0 <= k < n ==> lines[k].len <= U8_MAX;
    WalkBound(lines);
    forall k | 0 <= k < |cs| ensures -b <= cs[k].0 <= b && -b <= cs[k].1 <= b {
      MulMono(U8_MAX, k, U8_MAX, MAX_LINES);
    }
    forall k | 0 <= k <= |cs| ensures -I64_MAX <= ShoelaceFrom(cs[|cs| - 1], cs[..k]) <= I64_MAX {
      PartialInRange(cs[|cs| - 1], cs[..k], b);
    }
  }

  /** A partial shoelace sum over at most `MAX_LINES + 1` points within the `i32`
      bound reached after `MAX_LINES` moves stays in the `i64` range. */
  lemma PartialInRange(prev: Point, part: seq<Point>, b: int)
    requires b == U8_MAX * MAX_LINES && |part| <= MAX_LINES + 1
    requires -b <= prev.0 <= b && -b <= prev.1 <= b
    requires forall k :: 0 <= k < |part| ==> -b <= part[k].0 <= b && -b <= part[k].1 <= b
    ensures -I64_MAX <= ShoelaceFrom(prev, part) <= I64_MAX
  {
    ShoelaceFromBound(prev, part, b);
    MulMono(|part|, 2 * b * b, MAX_LINES + 1, 2 * b * b);
  }
}

=== FILE: day19.dfy ===
/** Day 19: a rule engine over machine parts. A part has four ratings (x, m, a, s); each
    workflow is a list of instructions, and the first instruction that applies names the
    next workflow. Workflow 0 accepts and workflow 1 rejects. Part 2 counts the accepted
    parts in a box of ratings by splitting the box at each comparison. */
module Day19 {
  import opened Text

  datatype Op = Gt | Lt

  datatype Instruction =
    | Goto(to: nat)
    | Comparison(category: nat, op: Op, operand: nat, target: nat)

  type Workflows = seq<seq<Instruction>>

  const ACCEPT: nat := 0
  const REJECT: nat := 1

  /** Every comparison names one of the four rating categories, as the parser ensures. */
  predicate WellFormed(wfs: Workflows)
  {
    forall w, i :: 0 <= w < |wfs| && 0 <= i < |wfs[w]| && wfs[w][i].Comparison? ==>
      wfs[w][i].category < 4
  }

  predicate Holds(val: nat, op: Op, operand: nat)
  {
    match op
    case Gt => val > operand
    case Lt => val < operand
  }

  /** An instruction applies to a part when it is a jump, or a comparison the part's
      rating satisfies strictly. */
  predicate Applies(part: seq<nat>, ins: Instruction)
    requires |part| == 4 && (ins.Comparison? ==> ins.category < 4)
  {
    match ins
    case Goto(_) => true
    case Comparison(c, op, v, _) => Holds(part[c], op, v)
  }

  function Next(ins: Instruction): nat
  {
    match ins
    case Goto(to) => to
    case Comparison(_, _, _, t) => t
  }

  // ---------------------------------------------------------------------------
  // Following one part through the workflows.

  /** `follow_workflow`: `Some(true)` when the part is accepted, `Some(false)` when it is
      rejected, `None` when a workflow runs out of instructions (a panic), the id names
      no workflow, or `fuel` workflow visits do not suffice. */
  function Follow(part: seq<nat>, wfs: Workflows, from: nat, fuel: nat): Option<bool>
    requires |part| == 4 && WellFormed(wfs)
    decreases fuel, 0, 0
  {
    if from == ACCEPT then Some(true)
    else if from == REJECT then Some(false)
    else if fuel == 0 || from >= |wfs| then None
    else FollowFrom(part, wfs, from, 0, fuel - 1)
  }

  /** The instruction loop of `follow_workflow`, from instruction `i` on. */
  function FollowFrom(part: seq<nat>, wfs: Workflows, from: nat, i: nat, fuel: nat): Option<bool>
    requires |part| == 4 && WellFormed(wfs) && from < |wfs| && i <= |wfs[from]|
    decreases fuel, 1, |wfs[from]| - i
  {
    if i == |wfs[from]| then None
    else if Applies(part, wfs[from][i]) then Follow(part, wfs, Next(wfs[from][i]), fuel)
    else FollowFrom(part, wfs, from, i + 1, fuel)
  }

  /** The index of the first instruction at or after `i` that applies, or the length of
      the workflow when none does. */
  function FirstApplying(part: seq<nat>, wfs: Workflows, from: nat, i: nat): (j: nat)
    requires |part| == 4 && WellFormed(wfs) && from < |wfs| && i <= |wfs[from]|
    ensures i <= j <= |wfs[from]|
    ensures forall k :: i <= k < j ==> !Applies(part, wfs[from][k])
    ensures j < |wfs[from]| ==> Applies(part, wfs[from][j])
    decreases |wfs[from]| - i
  {
    if i == |wfs[from]| || Applies(part, wfs[from][i]) then i
    else FirstApplying(part, wfs, from, i + 1)
  }

  /** The first applying instruction decides where the part goes next; if none applies
      the program panics. */
  lemma {:induction false} FollowFromDecides(part: seq<nat>, wfs: Workflows, from: nat, i: nat, fuel: nat)
    requires |part| == 4 && WellFormed(wfs) && from < |wfs| && i <= |wfs[from]|
    ensures var j := FirstApplying(part, wfs, from, i);
            FollowFrom(part, wfs, from, i, fuel) ==
              if j == |wfs[from]| then None else Follow(part, wfs, Next(wfs[from][j]), fuel)
    decreases |wfs[from]| - i
  {
    if i < |wfs[from]| && !Applies(part, wfs[from][i]) {
      FollowFromDecides(part, wfs, from, i + 1, fuel);
    }
  }

  /** Fuel only bounds the walk: once a part's fate is decided, more fuel decides it
      the same way. */
  lemma {:induction false} FollowMoreFuel(part: seq<nat>, wfs: Workflows, from: nat, fuel: nat, more: nat)
    requires |part| == 4 && WellFormed(wfs) && fuel <= more
    requires Follow(part, wfs, from, fuel).Some?
    ensures Follow(part, wfs, from, more) == Follow(part, wfs, from, fuel)
    decreases fuel, 0, 0
  {
    if from != ACCEPT && from != REJECT {
      FollowFromMoreFuel(part, wfs, from, 0, fuel - 1, more - 1);
    }
  }

  lemma {:induction false} FollowFromMoreFuel(part: seq<nat>, wfs: Workflows, from: nat, i: nat, fuel: nat, more: nat)
    requires |part| == 4 && WellFormed(wfs) && from < |wfs| && i <= |wfs[from]| && fuel <= more
    requires FollowFrom(part, wfs, from, i, fuel).Some?
    ensures FollowFrom(part, wfs, from, i, more) == FollowFrom(part, wfs, from, i, fuel)
    decreases fuel, 1, |wfs[from]| - i
  {
    if i < |wfs[from]| {
      if Applies(part, wfs[from][i]) {
        FollowMoreFuel(part, wfs, Next(wfs[from][i]), fuel, more);
      } else {
        FollowFromMoreFuel(part, wfs, from, i + 1, fuel, more);
      }
    }
  }

  // ---------------------------------------------------------------------------
  // Ranges and boxes of ratings.

  /** A half-open `Range<u16>`; `start >= end` is an empty range. */
  datatype Range = Range(start: nat, end: nat)

  predicate InRange(v: nat, r: Range) { r.start <= v < r.end }

  predicate IsEmpty(r: Range) { !(r.start < r.end) }

  /** `Range::len`. */
  function Len(r: Range): (n: nat)
    ensures n == 0 <==> IsEmpty(r)
  {
    if r.start < r.end then r.end - r.start else 0
  }

  /** The product of the lengths of the ranges. */
  function Product(rs: seq<Range>): nat
  {
    if rs == [] then 1 else Len(rs[0]) * Product(rs[1..])
  }

  lemma Product4(rs: seq<Range>)
    requires |rs| == 4
    ensures Product(rs) == Len(rs[0]) * Len(rs[1]) * Len(rs[2]) * Len(rs[3])
  {
    var r1, r2, r3 := rs[1..], rs[2..], rs[3..];
    assert r1[1..] == r2 && r2[1..] == r3 && r3[1..] == [];
    assert Product(r3) == Len(rs[3]);
    assert Product(r2) == Len(rs[2]) * Len(rs[3]);
    assert Product(r1) == Len(rs[1]) * (Len(rs[2]) * Len(rs[3]));
  }

  /** All rating vectors whose k-th rating lies in the k-th range. */
  function Box(rs: seq<Range>): set<seq<nat>>
    decreases |rs|
  {
    if rs == [] then {[]}
    else Layer(rs[0].start, rs[0].end, Box(rs[1..]))
  }

  /** The vectors `[v] + p` with `lo <= v < hi` and `p` in `b`. */
  function Layer(lo: nat, hi: nat, b: set<seq<nat>>): set<seq<nat>>
  {
    set v: nat, p | lo <= v < hi && p in b :: [v] + p
  }

  lemma {:induction false} InBox(p: seq<nat>, rs: seq<Range>)
    ensures p in Box(rs) <==> |p| == |rs| && forall k :: 0 <= k < |rs| ==> InRange(p[k], rs[k])
    decreases |rs|
  {
    if rs != [] {
      if p in Box(rs) {
        var v: nat, q :| rs[0].start <= v < rs[0].end && q in Box(rs[1..]) && p == [v] + q;
        InBox(q, rs[1..]);
        forall k | 1 <= k < |rs| ensures InRange(p[k], rs[k]) {
          assert p[k] == q[k - 1] && rs[k] == rs[1..][k - 1];
        }
      }
      if |p| == |rs| && forall k :: 0 <= k < |rs| ==> InRange(p[k], rs[k]) {
        var q := p[1..];
        forall k | 0 <= k < |rs[1..]| ensures InRange(q[k], rs[1..][k]) {
          assert q[k] == p[k + 1];
        }
        InBox(q, rs[1..]);
        assert InRange(p[0], rs[0]);
        assert p == [p[0]] + q;
      }
    }
  }

  /** The vectors of `b`, each with `v` put in front. */
  function Cons(v: nat, b: set<seq<nat>>): set<seq<nat>>
  {
    set p | p in b :: [v] + p
  }

  /** Prefixing one value is injective, so it keeps the size of a set. */
  lemma {:induction false} ConsImageCard(v: nat, b: set<seq<nat>>)
    ensures |Cons(v, b)| == |b|
    decreases |b|
  {
    if b != {} {
      var x :| x in b;
      var b' := b - {x};
      ConsImageCard(v, b');
      assert Cons(v, b) == Cons(v, b') + {[v] + x};
      forall y | y in b' ensures [v] + y != [v] + x {
        assert ([v] + y)[1..] == y;
        assert ([v] + x)[1..] == x;
      }
    }
  }

  lemma {:induction false} LayerCard(lo: nat, hi: nat, b: set<seq<nat>>)
    ensures |Layer(lo, hi, b)| == if lo < hi then (hi - lo) * |b| else 0
    decreases hi
  {
    if hi <= lo {
      assert Layer(lo, hi, b) == {};
    } else {
      LayerSplit(lo, hi, b);
      LayerCard(lo, hi - 1, b);
      ConsImageCard(hi - 1, b);
      assert |Layer(lo, hi, b)| == |Layer(lo, hi - 1, b)| + |b|;
      if lo < hi - 1 {
        assert (hi - lo) * |b| == (hi - 1 - lo) * |b| + |b|;
      }
    }
  }

  /** The topmost value of a layer splits off as a disjoint copy of `b`. */
  lemma LayerSplit(lo: nat, hi: nat, b: set<seq<nat>>)
    requires lo < hi
    ensures Layer(lo, hi, b) == Layer(lo, hi - 1, b) + Cons(hi - 1, b)
    ensures Layer(lo, hi - 1, b) * Cons(hi - 1, b) == {}
  {
    var top := Cons(hi - 1, b);
    forall q | q in Layer(lo, hi, b) ensures q in Layer(lo, hi - 1, b) + top {
      var v: nat, p :| lo <= v < hi && p in b && q == [v] + p;
      if v == hi - 1 {
        assert q in top;
      } else {
        assert q in Layer(lo, hi - 1, b);
      }
    }
    forall q | q in Layer(lo, hi - 1, b) ensures q !in top {
      var v: nat, p :| lo <= v < hi - 1 && p in b && q == [v] + p;
      assert q[0] == v;
    }
  }

  /** The number of rating vectors in a box is the product of the range lengths. */
  lemma {:induction false} BoxCard(rs: seq<Range>)
    ensures |Box(rs)| == Product(rs)
    decreases |rs|
  {
    if rs != [] {
      BoxCard(rs[1..]);
      LayerCard(rs[0].start, rs[0].end, Box(rs[1..]));
    }
  }

  /** A box with an empty range holds no vector. */
  lemma EmptyBox(rs: seq<Range>, k: nat)
    requires k < |rs| && IsEmpty(rs[k])
    ensures Box(rs) == {}
  {
    forall p | p in Box(rs) ensures false {
      InBox(p, rs);
    }
  }

  // ---------------------------------------------------------------------------
  // Splitting a range at a comparison.

  function Max(a: nat, b: nat): nat { if a < b then b else a }
  function Min(a: nat, b: nat): nat { if a < b then a else b }

  /** The program's split of the range `r` at a comparison: the part sent to the
      target, then the part that stays. Neither is intersected with `r`. */
  function SplitAsWritten(r: Range, op: Op, operand: nat): (s: (Range, Range))
    ensures forall v :: InRange(v, r) ==>
              (InRange(v, s.0) <==> Holds(v, op, operand)) && (InRange(v, s.1) <==> !Holds(v, op, operand))
  {
    match op
    case Gt => (Range(operand + 1, r.end), Range(r.start, operand + 1))
    case Lt => (Range(r.start, operand), Range(operand, r.end))
  }

  /** The split clipped to `r`. */
  function SplitClipped(r: Range, op: Op, operand: nat): (s: (Range, Range))
    ensures forall v :: InRange(v, s.0) <==> InRange(v, r) && Holds(v, op, operand)
    ensures forall v :: InRange(v, s.1) <==> InRange(v, r) && !Holds(v, op, operand)
  {
    match op
    case Gt => (Range(Max(r.start, operand + 1), r.end), Range(r.start, Min(r.end, operand + 1)))
    case Lt => (Range(r.start, Min(r.end, operand)), Range(Max(r.start, operand), r.end))
  }

  /** The two splits agree when the operand lies inside the range. */
  lemma SplitInside(r: Range, op: Op, operand: nat)
    requires r.start <= operand < r.end
    ensures SplitAsWritten(r, op, operand) == SplitClipped(r, op, operand)
  {
  }

  /** Either split sends on exactly the values of `r` that satisfy the comparison and
      keeps the others; only the clipped one stays inside `r`. */
  function Split(r: Range, op: Op, operand: nat, clipped: bool): (s: (Range, Range))
    ensures forall v :: InRange(v, r) ==>
              (InRange(v, s.0) <==> Holds(v, op, operand)) && (InRange(v, s.1) <==> !Holds(v, op, operand))
    ensures clipped ==> forall v :: (InRange(v, s.0) || InRange(v, s.1)) ==> InRange(v, r)
  {
    if clipped then SplitClipped(r, op, operand) else SplitAsWritten(r, op, operand)
  }

  // ---------------------------------------------------------------------------
  // Counting the accepted parts of a box.

  /** `count_accepted_combinantions`, with the range split as the program writes it
      (`clipped == false`) or clipped to the current range (`clipped == true`). `None`
      stands for a panic (a workflow without a final jump, an unknown id, a `u16`
      overflow of `operand + 1`, or a `u64` overflow of the running sum) or for running
      out of `fuel`. */
  function Count(rs: seq<Range>, wfs: Workflows, from: nat, fuel: nat, clipped: bool): Option<nat>
    requires |rs| == 4 && WellFormed(wfs)
    decreases fuel, 0, 0
  {
    if from == ACCEPT then Some(Product(rs))
    else if from == REJECT then Some(0)
    else if exists k :: 0 <= k < |rs| && IsEmpty(rs[k]) then Some(0)
    else if fuel == 0 || from >= |wfs| then None
    else CountFrom(rs, wfs, from, 0, fuel - 1, clipped)
  }

  /** The instruction loop: the part of the box each comparison sends away is counted at
      its target, and the loop continues with the part that stays. */
  function CountFrom(rs: seq<Range>, wfs: Workflows, from: nat, i: nat, fuel: nat, clipped: bool): Option<nat>
    requires |rs| == 4 && WellFormed(wfs) && from < |wfs| && i <= |wfs[from]|
    decreases fuel, 1, |wfs[from]| - i
  {
    if i == |wfs[from]| then None
    else
      match wfs[from][i]
      case Goto(to) => Count(rs, wfs, to, fuel, clipped)
      case Comparison(c, op, v, t) =>
        if op == Gt && v + 1 > U16_MAX then None
        else
          var (child, rest) := Split(rs[c], op, v, clipped);
          var a :- Count(rs[c := child], wfs, t, fuel, clipped);
          var b :- CountFrom(rs[c := rest], wfs, from, i + 1, fuel, clipped);
          if a + b > U64_MAX then None else Some(a + b)
  }

  /** Fuel only bounds the recursion: once a box is counted, more fuel counts it the
      same. */
  lemma {:induction false} CountMoreFuel(rs: seq<Range>, wfs: Workflows, from: nat, fuel: nat, more: nat, clipped: bool)
    requires |rs| == 4 && WellFormed(wfs) && fuel <= more
    requires Count(rs, wfs, from, fuel, clipped).Some?
    ensures Count(rs, wfs, from, more, clipped) == Count(rs, wfs, from, fuel, clipped)
    decreases fuel, 0, 0
  {
    if from != ACCEPT && from != REJECT && !exists k :: 0 <= k < |rs| && IsEmpty(rs[k]) {
      CountFromMoreFuel(rs, wfs, from, 0, fuel - 1, more - 1, clipped);
    }
  }

  lemma {:induction false} CountFromMoreFuel(rs: seq<Range>, wfs: Workflows, from: nat, i: nat, fuel: nat, more: nat, clipped: bool)
    requires |rs| == 4 && WellFormed(wfs) && from < |wfs| && i <= |wfs[from]| && fuel <= more
    requires CountFrom(rs, wfs, from, i, fuel, clipped).Some?
    ensures CountFrom(rs, wfs, from, i, more, clipped) == CountFrom(rs, wfs, from, i, fuel, clipped)
    decreases fuel, 1, |wfs[from]| - i
  {
    var ins := wfs[from][i];
    if ins.Goto? {
      CountMoreFuel(rs, wfs, ins.to, fuel, more, clipped);
    } else {
      var (child, rest) := Split(rs[ins.category], ins.op, ins.operand, clipped);
      CountMoreFuel(rs[ins.category := child], wfs, ins.target, fuel, more, clipped);
      CountFromMoreFuel(rs[ins.category := rest], wfs, from, i + 1, fuel, more, clipped);
    }
  }

  /** The parts of the box that the workflows accept. */
  function Accepted(rs: seq<Range>, wfs: Workflows, from: nat, fuel: nat): set<seq<nat>>
    requires WellFormed(wfs)
  {
    set p | p in Box(rs) && |p| == 4 && Follow(p, wfs, from, fuel) == Some(true)
  }

  function AcceptedFrom(rs: seq<Range>, wfs: Workflows, from: nat, i: nat, fuel: nat): set<seq<nat>>
    requires WellFormed(wfs) && from < |wfs| && i <= |wfs[from]|
  {
    set p | p in Box(rs) && |p| == 4 && FollowFrom(p, wfs, from, i, fuel) == Some(true)
  }

  /** The box with range `c` replaced by `r'` holds exactly the vectors of the box whose
      rating `c` lies in `r'`, when every value of `r'` lies in the old range. */
  lemma BoxReplace(rs: seq<Range>, c: nat, r': Range, keep: nat -> bool)
    requires c < |rs|
    requires forall v :: InRange(v, r') <==> InRange(v, rs[c]) && keep(v)
    ensures forall p :: p in Box(rs[c := r']) <==> p in Box(rs) && |p| == |rs| && keep(p[c])
  {
    forall p ensures p in Box(rs[c := r']) <==> p in Box(rs) && |p| == |rs| && keep(p[c]) {
      InBox(p, rs[c := r']);
      InBox(p, rs);
      if p in Box(rs) && |p| == |rs| && keep(p[c]) {
        forall k | 0 <= k < |rs| ensures InRange(p[k], rs[c := r'][k]) {
        }
      }
      if p in Box(rs[c := r']) {
        forall k | 0 <= k < |rs| ensures InRange(p[k], rs[k]) {
          assert InRange(p[k], rs[c := r'][k]);
        }
      }
    }
  }

  /** With the split clipped, the count is the number of accepted parts in the box. */
  lemma {:induction false} CountSound(rs: seq<Range>, wfs: Workflows, from: nat, fuel: nat)
    requires |rs| == 4 && WellFormed(wfs)
    ensures Count(rs, wfs, from, fuel, true).Some? ==>
              Count(rs, wfs, from, fuel, true).value == |Accepted(rs, wfs, from, fuel)|
    decreases fuel, 0, 0
  {
    if from == ACCEPT {
      assert Accepted(rs, wfs, from, fuel) == Box(rs) by {
        forall p | p in Box(rs) ensures |p| == 4 {
          InBox(p, rs);
        }
      }
      BoxCard(rs);
    } else if from == REJECT {
      assert Accepted(rs, wfs, from, fuel) == {};
    } else if exists k :: 0 <= k < |rs| && IsEmpty(rs[k]) {
      var k :| 0 <= k < |rs| && IsEmpty(rs[k]);
      EmptyBox(rs, k);
      assert Accepted(rs, wfs, from, fuel) == {};
    } else if fuel > 0 && from < |wfs| {
      CountFromSound(rs, wfs, from, 0, fuel - 1);
      assert Accepted(rs, wfs, from, fuel) == AcceptedFrom(rs, wfs, from, 0, fuel - 1);
    }
  }

  lemma {:induction false} CountFromSound(rs: seq<Range>, wfs: Workflows, from: nat, i: nat, fuel: nat)
    requires |rs| == 4 && WellFormed(wfs) && from < |wfs| && i <= |wfs[from]|
    ensures CountFrom(rs, wfs, from, i, fuel, true).Some? ==>
              CountFrom(rs, wfs, from, i, fuel, true).value == |AcceptedFrom(rs, wfs, from, i, fuel)|
    decreases fuel, 1, |wfs[from]| - i
  {
    if i < |wfs[from]| && CountFrom(rs, wfs, from, i, fuel, true).Some? {
      var ins := wfs[from][i];
      if ins.Goto? {
        CountSound(rs, wfs, ins.to, fuel);
        assert AcceptedFrom(rs, wfs, from, i, fuel) == Accepted(rs, wfs, ins.to, fuel);
      } else {
        var (child, rest) := SplitClipped(rs[ins.category], ins.op, ins.operand);
        CountSound(rs[ins.category := child], wfs, ins.target, fuel);
        CountFromSound(rs[ins.category := rest], wfs, from, i + 1, fuel);
        AcceptedFromSplit(rs, wfs, from, i, fuel);
      }
    }
  }

  /** With the split clipped, a box never counts more parts than it holds. */
  lemma CountBounded(rs: seq<Range>, wfs: Workflows, from: nat, fuel: nat)
    requires |rs| == 4 && WellFormed(wfs)
    requires Count(rs, wfs, from, fuel, true).Some?
    ensures Count(rs, wfs, from, fuel, true).value <= Product(rs)
  {
    CountSound(rs, wfs, from, fuel);
    BoxCard(rs);
    SubsetCard(Accepted(rs, wfs, from, fuel), Box(rs));
  }

  lemma {:induction false} SubsetCard<T>(a: set<T>, b: set<T>)
    requires a <= b
    ensures |a| <= |b|
  {
    if a != {} {
      var x :| x in a;
      SubsetCard(a - {x}, b - {x});
    }
  }

  /** At a comparison, the accepted parts of the box are those of the part sent to the
      target together with those of the part that stays, and the two are disjoint. */
  lemma AcceptedFromSplit(rs: seq<Range>, wfs: Workflows, from: nat, i: nat, fuel: nat)
    requires |rs| == 4 && WellFormed(wfs) && from < |wfs| && i < |wfs[from]|
    requires wfs[from][i].Comparison?
    ensures var ins := wfs[from][i];
            var s := SplitClipped(rs[ins.category], ins.op, ins.operand);
            var A := Accepted(rs[ins.category := s.0], wfs, ins.target, fuel);
            var B := AcceptedFrom(rs[ins.category := s.1], wfs, from, i + 1, fuel);
            AcceptedFrom(rs, wfs, from, i, fuel) == A + B && A * B == {}
  {
    var ins := wfs[from][i];
    var c, op, v, t := ins.category, ins.op, ins.operand, ins.target;
    var (child, rest) := SplitClipped(rs[c], op, v);
    BoxReplace(rs, c, child, (x: nat) => Holds(x, op, v));
    BoxReplace(rs, c, rest, (x: nat) => !Holds(x, op, v));
    var A := Accepted(rs[c := child], wfs, t, fuel);
    var B := AcceptedFrom(rs[c := rest], wfs, from, i + 1, fuel);
    forall p | p in AcceptedFrom(rs, wfs, from, i, fuel) ensures p in A + B {
      if Holds(p[c], op, v) {
        assert p in Box(rs[c := child]);
      } else {
        assert p in Box(rs[c := rest]);
      }
    }
    forall p | p in A + B ensures p in AcceptedFrom(rs, wfs, from, i, fuel) {
      if p in A {
        assert p in Box(rs[c := child]);
      } else {
        assert p in Box(rs[c := rest]);
      }
    }
    forall p | p in A ensures p !in B {
      assert p in Box(rs[c := child]);
    }
  }

  // ---------------------------------------------------------------------------
  // The unclipped split overcounts.

  /** `in{x>3000:R,x<3500:A,R}`, with `in` as workflow 2. */
  const OVERLAP: Workflows := [[], [], [Comparison(0, Gt, 3000, REJECT), Comparison(0, Lt, 3500, ACCEPT), Goto(REJECT)]]

  /** The box part 2 starts from: every rating in `1..4001`. */
  const FULL: seq<Range> := [Range(1, 4001), Range(1, 4001), Range(1, 4001), Range(1, 4001)]

  /** The second comparison receives `x` in `1..3001` and sends `1..3500` to the accept
      workflow: the program counts 3499·4000³ parts, while only the 3000·4000³ parts with
      `x <= 3000` are accepted. */
  lemma AsWrittenOvercounts()
    ensures WellFormed(OVERLAP)
    ensures Count(FULL, OVERLAP, 2, 1, false) == Some(3499 * 4000 * 4000 * 4000)
    ensures Count(FULL, OVERLAP, 2, 1, true) == Some(3000 * 4000 * 4000 * 4000)
    ensures |Accepted(FULL, OVERLAP, 2, 1)| == 3000 * 4000 * 4000 * 4000
  {
    var W := OVERLAP;
    assert !exists k :: 0 <= k < |FULL| && IsEmpty(FULL[k]);
    var low := FULL[0 := Range(1, 3001)];
    assert !exists k :: 0 <= k < |low| && IsEmpty(low[k]);
    // As written: `x < 3500` sends `1..3500` on.
    var sent := low[0 := Range(1, 3500)];
    Product4(sent);
    Product4(low);
    assert Count(sent, W, ACCEPT, 0, false) == Some(3499 * 4000 * 4000 * 4000);
    assert CountFrom(low[0 := Range(3500, 3001)], W, 2, 2, 0, false) == Some(0);
    assert CountFrom(low, W, 2, 1, 0, false) == Some(3499 * 4000 * 4000 * 4000);
    assert Count(FULL[0 := Range(3001, 4001)], W, REJECT, 0, false) == Some(0);
    assert CountFrom(FULL, W, 2, 0, 0, false) == Some(3499 * 4000 * 4000 * 4000);
    // Clipped: only `1..3001` goes on.
    assert Count(low, W, ACCEPT, 0, true) == Some(3000 * 4000 * 4000 * 4000);
    assert CountFrom(low[0 := Range(3500, 3001)], W, 2, 2, 0, true) == Some(0);
    assert CountFrom(low, W, 2, 1, 0, true) == Some(3000 * 4000 * 4000 * 4000);
    assert Count(FULL[0 := Range(3001, 4001)], W, REJECT, 0, true) == Some(0);
    assert CountFrom(FULL, W, 2, 0, 0, true) == Some(3000 * 4000 * 4000 * 4000);
    CountSound(FULL, OVERLAP, 2, 1);
  }

  /** Four rejecting comparisons on values above 4000 each widen one category's
      remaining range to `1..65534`; two accepting comparisons then send boxes of
      25533·65533³ and 65534·65533³ parts, whose sum passes `u64::MAX`. */
  const WIDE: Workflows := [[], [], [Comparison(0, Gt, 65533, REJECT), Comparison(1, Gt, 65533, REJECT),
    Comparison(2, Gt, 65533, REJECT), Comparison(3, Gt, 65533, REJECT),
    Comparison(0, Gt, 40000, ACCEPT), Comparison(0, Lt, 65535, ACCEPT), Goto(REJECT)]]

  /** As written, the running sum of part 2 overflows on WIDE: the program panics (or,
      in a release build, wraps around). */
  lemma SumOverflows()
    ensures WellFormed(WIDE)
    ensures Count(FULL, WIDE, 2, 1, false) == None
  {
    var W := WIDE;
    var wide := Range(1, 65534);
    var b1 := FULL[0 := wide];
    var b2 := b1[1 := wide];
    var b3 := b2[2 := wide];
    var b4 := b3[3 := wide];
    var b5 := b4[0 := Range(1, 40001)];
    assert !exists k :: 0 <= k < |b4| && IsEmpty(b4[k]);
    assert !exists k :: 0 <= k < |b5| && IsEmpty(b5[k]);
    Product4(b4[0 := Range(40001, 65534)]);
    Product4(b5[0 := Range(1, 65535)]);
    assert Count(b5[0 := Range(65535, 40001)], W, REJECT, 0, false) == Some(0);
    assert CountFrom(b5, W, 2, 5, 0, false) == Some(65534 * 65533 * 65533 * 65533);
    assert Count(b4[0 := Range(40001, 65534)], W, ACCEPT, 0, false) == Some(25533 * 65533 * 65533 * 65533);
    assert CountFrom(b4, W, 2, 4, 0, false) == None;
    assert CountFrom(b3, W, 2, 3, 0, false) == None;
    assert CountFrom(b2, W, 2, 2, 0, false) == None;
    assert CountFrom(b1, W, 2, 1, 0, false) == None;
    assert CountFrom(FULL, W, 2, 0, 0, false) == None;
  }

  /** With clipped splits every remaining range of WIDE stays `1..4001`, and the count
      is the whole box. */
  lemma ClippedSumFits()
    ensures WellFormed(WIDE)
    ensures Count(FULL, WIDE, 2, 1, true) == Some(4000 * 4000 * 4000 * 4000)
  {
    var W := WIDE;
    var all := Range(1, 4001);
    assert FULL[0 := all] == FULL && FULL[1 := all] == FULL && FULL[2 := all] == FULL && FULL[3 := all] == FULL;
    assert !exists k :: 0 <= k < |FULL| && IsEmpty(FULL[k]);
    Product4(FULL);
    assert Split(all, Lt, 65535, true) == (all, Range(65535, 4001));
    assert Split(all, Gt, 40000, true) == (Range(40001, 4001), all);
    assert Split(all, Gt, 65533, true) == (Range(65534, 4001), all);
    assert Count(FULL[0 := Range(65535, 4001)], W, REJECT, 0, true) == Some(0);
    assert CountFrom(FULL, W, 2, 5, 0, true) == Some(4000 * 4000 * 4000 * 4000);
    assert Count(FULL[0 := Range(40001, 4001)], W, ACCEPT, 0, true) == Some(0);
    assert CountFrom(FULL, W, 2, 4, 0, true) == Some(4000 * 4000 * 4000 * 4000);
    assert CountFrom(FULL, W, 2, 3, 0, true) == Some(4000 * 4000 * 4000 * 4000);
    assert CountFrom(FULL, W, 2, 2, 0, true) == Some(4000 * 4000 * 4000 * 4000);
    assert CountFrom(FULL, W, 2, 1, 0, true) == Some(4000 * 4000 * 4000 * 4000);
    assert CountFrom(FULL, W, 2, 0, 0, true) == Some(4000 * 4000 * 4000 * 4000);
  }
}

=== FILE: day19_input.dfy ===
/** Day 19 input: workflow lines such as `px{a<2006:qkq,m>2090:A,rfg}`, a blank line,
    then part lines such as `{x=787,m=2655,a=1222,s=2876}`. Workflow names are interned
    into ids, with `A` as 0 and `R` as 1. */
module Day19Input {
  import opened Text
  import opened Symbols
  import opened Day19

  // ---------------------------------------------------------------------------
  // Names.

  /** `new_symbol_table`: `A` is the accepting workflow 0, `R` the rejecting workflow 1,
      and the next new name gets id 2. */
  function NewTable(): (t: SymbolTable)
    ensures Valid(t) && Symbols.Len(t) == 2 && "A" in t.symbols && "R" in t.symbols
    ensures t.symbols["A"] == ACCEPT && t.symbols["R"] == REJECT
  {
    var t := SymbolTable(map["A" := ACCEPT, "R" := REJECT], 2);
    assert t == Get(Get(New(), "A").1, "R").1;
    t
  }

  /** `get_symbol_id`: the stored id of a known name, or the next id for a new one. A new
      name when all `u16` ids are taken would overflow, which is `None` here. */
  function SymbolId(t: SymbolTable, name: string): (r: Option<(nat, SymbolTable)>)
    ensures r.Some? ==> (name in t.symbols || t.nextId < U16_MAX) && r.value == Get(t, name)
    ensures r.None? <==> name !in t.symbols && t.nextId >= U16_MAX
  {
    if name in t.symbols || t.nextId < U16_MAX then Some(Get(t, name)) else None
  }

  // ---------------------------------------------------------------------------
  // Recognisers.

  /** The streaming `alpha1`: a run of letters that must be followed by some other
      character, since the end of input could still continue the run. */
  function Alpha1Streaming(s: string): (r: Option<(string, string)>)
    ensures r.Some? ==> |r.value.0| > 0 && s == r.value.0 + r.value.1
    ensures r.Some? ==> forall i :: 0 <= i < |r.value.0| ==> IsAlpha(r.value.0[i])
    ensures r.Some? ==> |r.value.1| > 0 && !IsAlpha(r.value.1[0])
  {
    var a :- Alpha1(s);
    if a.1 == [] then None else Some(a)
  }

  /** The rating categories in order: `x`, `m`, `a`, `s`. */
  const CATEGORIES: string := "xmas"

  function CategoryOf(name: string): (r: Option<nat>)
    ensures r.None? ==> forall k :: 0 <= k < 4 ==> name != [CATEGORIES[k]]
    ensures r.Some? ==> r.value < 4 && name == [CATEGORIES[r.value]]
  {
    if name == "x" then Some(0)
    else if name == "m" then Some(1)
    else if name == "a" then Some(2)
    else if name == "s" then Some(3)
    else None
  }

  function OpTag(s: string): (r: Option<(Op, string)>)
    ensures r.Some? ==> |s| > 0 && r.value.1 == s[1..]
  {
    if |s| > 0 && s[0] == '<' then Some((Lt, s[1..]))
    else if |s| > 0 && s[0] == '>' then Some((Gt, s[1..]))
    else None
  }

  /** An instruction as read, before names become ids. */
  datatype Parsed =
    | PSymbol(name: string)
    | PComparison(category: nat, op: Op, operand: nat, targetName: string)

  /** `parse_instruction`: a bare name directly followed by `,` or `}` is a jump;
      otherwise `<category><op><u16>:<name>`, with an unknown category an error. */
  function ParseInstruction(s: string): (r: Option<(Parsed, string)>)
    ensures r.Some? ==> |r.value.1| < |s|
    ensures r.Some? && r.value.0.PComparison? ==> r.value.0.category < 4 && r.value.0.operand <= U16_MAX
  {
    var first := Alpha1Streaming(s);
    if first.Some? && (first.value.1[0] == ',' || first.value.1[0] == '}') then
      Some((PSymbol(first.value.0), first.value.1))
    else
      var p1 :- Alpha1Streaming(s);
      var (name, r1) := p1;
      var p2 :- OpTag(r1);
      var (op, r2) := p2;
      var p3 :- UInt(r2, U16_MAX);
      var (operand, r3) := p3;
      var r4 :- Tag(r3, ":");
      var p4 :- Alpha1Streaming(r4);
      var (target, r5) := p4;
      var category :- CategoryOf(name);
      Some((PComparison(category, op, operand, target), r5))
  }

  /** `separated_list0(tag(","), parse_instruction)`: as many instructions as parse, each
      after the first preceded by a comma; input that does not parse is left over. */
  function InstructionList(s: string): (r: (seq<Parsed>, string))
    ensures |r.1| <= |s|
    ensures forall i :: 0 <= i < |r.0| && r.0[i].PComparison? ==> r.0[i].category < 4
  {
    match ParseInstruction(s)
    case None => ([], s)
    case Some((ins, rest)) =>
      var more := InstructionTail(rest);
      ([ins] + more.0, more.1)
  }

  function InstructionTail(s: string): (r: (seq<Parsed>, string))
    ensures |r.1| <= |s|
    ensures forall i :: 0 <= i < |r.0| && r.0[i].PComparison? ==> r.0[i].category < 4
    decreases |s|
  {
    if |s| > 0 && s[0] == ',' && ParseInstruction(s[1..]).Some? then
      var (ins, rest) := ParseInstruction(s[1..]).value;
      var more := InstructionTail(rest);
      ([ins] + more.0, more.1)
    else ([], s)
  }

  predicate InstructionOk(ins: Instruction)
  {
    ins.Comparison? ==> ins.category < 4
  }

  /** Interning the names of the parsed instructions in order. */
  function Resolve(ps: seq<Parsed>, t: SymbolTable): (r: Option<(seq<Instruction>, SymbolTable)>)
    requires forall i :: 0 <= i < |ps| && ps[i].PComparison? ==> ps[i].category < 4
    ensures r.Some? ==> |r.value.0| == |ps| && r.value.1.nextId >= t.nextId
    ensures r.Some? ==> forall i :: 0 <= i < |r.value.0| ==> InstructionOk(r.value.0[i])
    ensures r.Some? && Valid(t) ==> Valid(r.value.1)
    decreases |ps|
  {
    if ps == [] then Some(([], t))
    else
      var p5 :- SymbolId(t, TargetName(ps[0]));
      var (id, t1) := p5;
      var p6 :- Resolve(ps[1..], t1);
      var (rest, t2) := p6;
      var r := [Resolved(ps[0], id)] + rest;
      assert forall i :: 1 <= i < |r| ==> r[i] == rest[i - 1];
      Some((r, t2))
  }

  /** The jump target named by a parsed instruction. */
  function TargetName(p: Parsed): string
  {
    match p case PSymbol(n) => n case PComparison(_, _, _, n) => n
  }

  /** A parsed instruction with its target's id filled in. */
  function Resolved(p: Parsed, id: nat): (ins: Instruction)
    ensures Next(ins) == id
  {
    match p
    case PSymbol(_) => Goto(id)
    case PComparison(c, op, v, _) => Comparison(c, op, v, id)
  }

  /** Resolving keeps every symbol already interned, and each instruction jumps to the
      id its target name was given. */
  lemma {:induction false} ResolveInterned(ps: seq<Parsed>, t: SymbolTable)
    requires forall i :: 0 <= i < |ps| && ps[i].PComparison? ==> ps[i].category < 4
    requires Resolve(ps, t).Some?
    ensures var r := Resolve(ps, t).value;
            forall s :: s in t.symbols ==> s in r.1.symbols && r.1.symbols[s] == t.symbols[s]
    ensures var r := Resolve(ps, t).value;
            forall i :: 0 <= i < |ps| ==> TargetName(ps[i]) in r.1.symbols && Next(r.0[i]) == r.1.symbols[TargetName(ps[i])]
    decreases |ps|
  {
    if ps != [] {
      var (id, t1) := SymbolId(t, TargetName(ps[0])).value;
      ResolveInterned(ps[1..], t1);
      var (rest, t2) := Resolve(ps[1..], t1).value;
      var r := Resolve(ps, t).value;
      assert r.1 == t2 && r.0 == [Resolved(ps[0], id)] + rest;
      assert forall i :: 1 <= i < |ps| ==> r.0[i] == rest[i - 1] && ps[i] == ps[1..][i - 1];
    }
  }

  /** `parse_instruction_line`: a name, then the instruction list between braces.
      The workflow name is interned first, then the jump targets in order. Also returns what follows
      the closing brace. */
  function ParseInstructionLine(line: string, t: SymbolTable): (r: Option<(nat, seq<Instruction>, SymbolTable, string)>)
    ensures r.Some? ==> r.value.2.nextId >= t.nextId
    ensures r.Some? ==> forall i :: 0 <= i < |r.value.1| ==> InstructionOk(r.value.1[i])
    ensures r.Some? && Valid(t) ==> Valid(r.value.2) && DefOk((r.value.0, r.value.1), r.value.2.nextId)
  {
    var p7 :- Alpha1Streaming(line);
    var (wfName, r1) := p7;
    var p8 :- SymbolId(t, wfName);
    var (wfId, t1) := p8;
    var r2 :- Tag(r1, "{");
    var (ps, r3) := InstructionList(r2);
    var r4 :- Tag(r3, "}");
    var p9 :- Resolve(ps, t1);
    var (ins, t2) := p9;
    Some((wfId, ins, t2, r4))
  }

  /** One rating field: the tag `t` followed by a `u16`. */
  function Field(s: string, t: string): (r: Option<(nat, string)>)
    ensures r.Some? ==> r.value.0 <= U16_MAX
  {
    var rest :- Tag(s, t);
    UInt(rest, U16_MAX)
  }

  /** The tags before the four ratings of a part line. */
  const PART_TAGS: seq<string> := ["{x=", ",m=", ",a=", ",s="]

  /** Fields after each of `tags` in turn. */
  function Fields(s: string, tags: seq<string>): (r: Option<(seq<nat>, string)>)
    ensures r.Some? ==> |r.value.0| == |tags|
    ensures r.Some? ==> forall k :: 0 <= k < |r.value.0| ==> r.value.0[k] <= U16_MAX
    decreases |tags|
  {
    if tags == [] then Some(([], s))
    else
      var f :- Field(s, tags[0]);
      var more :- Fields(f.1, tags[1..]);
      Some(([f.0] + more.0, more.1))
  }

  /** `parse_part_line`: `{x=<u16>,m=<u16>,a=<u16>,s=<u16>}`, ratings in that order. */
  function ParsePartLine(line: string): (r: Option<(seq<nat>, string)>)
    ensures r.Some? ==> |r.value.0| == 4
    ensures r.Some? ==> forall k :: 0 <= k < 4 ==> r.value.0[k] <= U16_MAX
  {
    var f :- Fields(line, PART_TAGS);
    var rest :- Tag(f.1, "}");
    Some((f.0, rest))
  }

  /** A tag followed by a number, as written. */
  function FormatField(t: string, n: nat): string
  {
    t + Decimal(n)
  }

  function FormatFields(tags: seq<string>, p: seq<nat>): string
    requires |tags| == |p|
    decreases |tags|
  {
    if tags == [] then [] else FormatField(tags[0], p[0]) + FormatFields(tags[1..], p[1..])
  }

  /** The textual form of a part. */
  function FormatPart(p: seq<nat>): string
    requires |p| == 4
  {
    FormatFields(PART_TAGS, p) + "}"
  }

  /** A field written out reads back, leaving what follows it. */
  lemma FieldFormat(t: string, n: nat, rest: string)
    requires n <= U16_MAX && (rest == [] || !IsDigit(rest[0]))
    ensures Field(FormatField(t, n) + rest, t) == Some((n, rest))
  {
    assert FormatField(t, n) + rest == t + (Decimal(n) + rest);
    assert Tag(FormatField(t, n) + rest, t) == Some(Decimal(n) + rest);
    UIntDecimal(n, rest, U16_MAX);
  }

  /** One field, then the rest of the fields. */
  lemma FieldsStep(s: string, tags: seq<string>, v: nat, tail: string, vs: seq<nat>, rest: string)
    requires tags != []
    requires Field(s, tags[0]) == Some((v, tail))
    requires Fields(tail, tags[1..]) == Some((vs, rest))
    ensures Fields(s, tags) == Some(([v] + vs, rest))
  {
  }

  /** The text of fields is the first field's text followed by the rest's, and starts with
      the first tag's first character. */
  lemma FormatFieldsCons(tags: seq<string>, p: seq<nat>, rest: string)
    requires |tags| == |p| && tags != [] && |tags[0]| > 0
    ensures FormatFields(tags, p) + rest == FormatField(tags[0], p[0]) + (FormatFields(tags[1..], p[1..]) + rest)
    ensures (FormatFields(tags, p) + rest)[0] == tags[0][0]
  {
  }

  /** Values that fit in a `u16`, after tags that start with a non-digit. */
  predicate FieldsOk(tags: seq<string>, p: seq<nat>)
  {
    && |tags| == |p|
    && (forall k :: 0 <= k < |p| ==> p[k] <= U16_MAX)
    && (forall k :: 0 <= k < |tags| ==> |tags[k]| > 0 && !IsDigit(tags[k][0]))
  }

  lemma FieldsOkTail(tags: seq<string>, p: seq<nat>)
    requires FieldsOk(tags, p) && tags != []
    ensures FieldsOk(tags[1..], p[1..]) && p[0] <= U16_MAX && |tags[0]| > 0 && !IsDigit(tags[0][0])
  {
    assert forall k :: 0 <= k < |tags| - 1 ==> tags[1..][k] == tags[k + 1] && p[1..][k] == p[k + 1];
  }

  /** The text after the first field starts with the next tag, or is what follows. */
  lemma FieldsTailStart(tags: seq<string>, p: seq<nat>, rest: string)
    requires FieldsOk(tags, p) && tags != []
    requires rest == [] || !IsDigit(rest[0])
    ensures var tail := FormatFields(tags[1..], p[1..]) + rest;
            && FormatFields(tags, p) + rest == FormatField(tags[0], p[0]) + tail
            && (tail == [] || !IsDigit(tail[0]))
  {
    FieldsOkTail(tags, p);
    FormatFieldsCons(tags, p, rest);
    if tags[1..] != [] {
      FieldsOkTail(tags[1..], p[1..]);
      FormatFieldsCons(tags[1..], p[1..], rest);
    } else {
      assert FormatFields(tags[1..], p[1..]) + rest == rest;
    }
  }

  /** Fields written out read back, provided no tag starts with a digit and neither does
      what follows them. */
  lemma {:induction false} FieldsFormat(tags: seq<string>, p: seq<nat>, rest: string)
    requires FieldsOk(tags, p)
    requires rest == [] || !IsDigit(rest[0])
    ensures Fields(FormatFields(tags, p) + rest, tags) == Some((p, rest))
    decreases |tags|
  {
    if tags != [] {
      var s := FormatFields(tags, p) + rest;
      var tail := FormatFields(tags[1..], p[1..]) + rest;
      FieldsOkTail(tags, p);
      assert Field(s, tags[0]) == Some((p[0], tail)) by {
        FieldsTailStart(tags, p, rest);
        FieldFormat(tags[0], p[0], tail);
      }
      FieldsFormat(tags[1..], p[1..], rest);
      FieldsStep(s, tags, p[0], tail, p[1..], rest);
      assert [p[0]] + p[1..] == p;
    } else {
      assert FormatFields(tags, p) + rest == rest;
    }
  }

  /** A part written out reads back as itself, with nothing left. */
  lemma ParseFormatPart(p: seq<nat>)
    requires |p| == 4 && forall k :: 0 <= k < 4 ==> p[k] <= U16_MAX
    ensures ParsePartLine(FormatPart(p)) == Some((p, ""))
  {
    assert forall k :: 0 <= k < 4 ==> PART_TAGS[k][0] == ',' || PART_TAGS[k][0] == '{';
    assert FieldsOk(PART_TAGS, p);
    FieldsFormat(PART_TAGS, p, "}");
    assert Tag("}", "}") == Some("");
  }

  // ---------------------------------------------------------------------------
  // Reading the whole input.

  datatype Reading = Reading(
    seenEmpty: bool,
    table: SymbolTable,
    workflows: seq<(nat, seq<Instruction>)>,
    parts: seq<seq<nat>>)

  /** A parsed workflow line: an id below `n` and categories that index a part. */
  predicate DefOk(d: (nat, seq<Instruction>), n: nat)
  {
    d.0 < n && forall j :: 0 <= j < |d.1| ==> InstructionOk(d.1[j])
  }

  predicate ReadingOk(st: Reading)
  {
    && Valid(st.table)
    && (forall i :: 0 <= i < |st.workflows| ==> DefOk(st.workflows[i], st.table.nextId))
    && (forall i :: 0 <= i < |st.parts| ==> |st.parts[i]| == 4)
  }

  function AddWorkflow(st: Reading, id: nat, ins: seq<Instruction>, t: SymbolTable): (r: Reading)
    requires ReadingOk(st) && Valid(t) && t.nextId >= st.table.nextId && DefOk((id, ins), t.nextId)
    ensures ReadingOk(r)
  {
    var r := st.(table := t, workflows := st.workflows + [(id, ins)]);
    assert forall i :: 0 <= i < |st.workflows| ==> r.workflows[i] == st.workflows[i];
    r
  }

  function AddPart(st: Reading, part: seq<nat>): (r: Reading)
    requires ReadingOk(st) && |part| == 4
    ensures ReadingOk(r)
  {
    var r := st.(parts := st.parts + [part]);
    assert forall i :: 0 <= i < |st.parts| ==> r.parts[i] == st.parts[i];
    r
  }

  /** The loop of `run` over the lines: workflow lines until the first empty line, part
      lines after it; empty lines are skipped and a line that does not parse is an
      error. */
  function ReadLines(ls: seq<string>, st: Reading): (r: Option<Reading>)
    requires ReadingOk(st)
    ensures r.Some? ==> ReadingOk(r.value)
    decreases |ls|
  {
    if ls == [] then Some(st)
    else if ls[0] == [] then ReadLines(ls[1..], st.(seenEmpty := true))
    else if !st.seenEmpty then
      var w :- ParseInstructionLine(ls[0], st.table);
      ReadLines(ls[1..], AddWorkflow(st, w.0, w.1, w.2))
    else
      var p :- ParsePartLine(ls[0]);
      ReadLines(ls[1..], AddPart(st, p.0))
  }

  /** The instructions of workflow `w`: those of its last definition, or none. */
  function DefinedAs(defs: seq<(nat, seq<Instruction>)>, w: nat): seq<Instruction>
  {
    if defs == [] then []
    else if defs[|defs| - 1].0 == w then defs[|defs| - 1].1
    else DefinedAs(defs[..|defs| - 1], w)
  }

  /** `vec![vec![]; next_id]` overwritten by each definition in order. */
  function BuildWorkflows(n: nat, defs: seq<(nat, seq<Instruction>)>): (wfs: Workflows)
    requires forall i :: 0 <= i < |defs| ==> DefOk(defs[i], n)
    ensures |wfs| == n && WellFormed(wfs)
  {
    if defs == [] then seq(n, _ => [])
    else
      var front := defs[..|defs| - 1];
      var last := defs[|defs| - 1];
      assert forall i :: 0 <= i < |front| ==> front[i] == defs[i];
      var prev := BuildWorkflows(n, front);
      assert DefOk(last, n);
      var wfs := prev[last.0 := last.1];
      assert WellFormed(wfs) by {
        forall w, i | 0 <= w < |wfs| && 0 <= i < |wfs[w]| && wfs[w][i].Comparison?
          ensures wfs[w][i].category < 4
        {
          if w == last.0 {
            assert InstructionOk(last.1[i]);
          } else {
            assert wfs[w] == prev[w];
          }
        }
      }
      wfs
  }

  /** Overwriting in order leaves each slot holding its last definition. */
  lemma {:induction false} BuildWorkflowsAt(n: nat, defs: seq<(nat, seq<Instruction>)>, w: nat)
    requires forall i :: 0 <= i < |defs| ==> DefOk(defs[i], n)
    requires w < n
    ensures BuildWorkflows(n, defs)[w] == DefinedAs(defs, w)
    decreases |defs|
  {
    if defs != [] {
      var front := defs[..|defs| - 1];
      assert forall i :: 0 <= i < |front| ==> front[i] == defs[i];
      BuildWorkflowsAt(n, front, w);
    }
  }

  function PartRating(p: seq<nat>): nat
    requires |p| == 4
  {
    p[0] + p[1] + p[2] + p[3]
  }

  /** The total rating of a list of parts, accepted or not. */
  function TotalRating(parts: seq<seq<nat>>): nat
    requires forall i :: 0 <= i < |parts| ==> |parts[i]| == 4
  {
    if parts == [] then 0 else TotalRating(parts[..|parts| - 1]) + PartRating(parts[|parts| - 1])
  }

  /** Part 1's sum: the total rating of the accepted parts, or `None` when following
      some part fails. */
  function AcceptedRatings(parts: seq<seq<nat>>, wfs: Workflows, first: nat, fuel: nat): (r: Option<nat>)
    requires WellFormed(wfs)
    requires forall i :: 0 <= i < |parts| ==> |parts[i]| == 4
    ensures r.None? <==> exists i :: 0 <= i < |parts| && Follow(parts[i], wfs, first, fuel).None?
    ensures r.Some? ==> r.value <= TotalRating(parts)
    ensures (forall i :: 0 <= i < |parts| ==> Follow(parts[i], wfs, first, fuel) == Some(true)) ==>
              r == Some(TotalRating(parts))
    ensures (forall i :: 0 <= i < |parts| ==> Follow(parts[i], wfs, first, fuel) == Some(false)) ==> r == Some(0)
  {
    if parts == [] then Some(0)
    else
      var n := |parts| - 1;
      var p := parts[n];
      assert forall i :: 0 <= i < n ==> parts[..n][i] == parts[i];
      var front :- AcceptedRatings(parts[..n], wfs, first, fuel);
      var ok :- Follow(p, wfs, first, fuel);
      Some(front + if ok then PartRating(p) else 0)
  }

  /** Each part's share of part 1: its rating when the workflows accept it, else 0. */
  function Shares(parts: seq<seq<nat>>, wfs: Workflows, first: nat, fuel: nat): seq<nat>
    requires WellFormed(wfs)
    requires forall i :: 0 <= i < |parts| ==> |parts[i]| == 4
  {
    seq(|parts|, i requires 0 <= i < |parts| =>
      if Follow(parts[i], wfs, first, fuel) == Some(true) then PartRating(parts[i]) else 0)
  }

  /** Part 1's sum is the sum of the ratings of exactly the accepted parts. */
  lemma {:induction false} AcceptedRatingsSum(parts: seq<seq<nat>>, wfs: Workflows, first: nat, fuel: nat)
    requires WellFormed(wfs)
    requires forall i :: 0 <= i < |parts| ==> |parts[i]| == 4
    requires AcceptedRatings(parts, wfs, first, fuel).Some?
    ensures AcceptedRatings(parts, wfs, first, fuel).value == Sum(Shares(parts, wfs, first, fuel))
  {
    if parts != [] {
      var n := |parts| - 1;
      var front := parts[..n];
      assert forall i :: 0 <= i < n ==> front[i] == parts[i];
      AcceptedRatingsSum(front, wfs, first, fuel);
      var sh := Shares(parts, wfs, first, fuel);
      assert sh[..n] == Shares(front, wfs, first, fuel);
    }
  }

  /** The state `run` starts reading in. */
  const START: Reading := Reading(false, NewTable(), [], [])

  /** `run`: both answers, starting at the workflow named `in`; part 2 counts with the
      split as the program writes it (`clipped == false`) or clipped to the current
      range (`clipped == true`). `None` stands for a parse error, a missing `in`, a
      panic, or `fuel` workflow visits per part not sufficing. */
  function Run(input: string, fuel: nat, clipped: bool): (r: Option<(nat, nat)>)
    ensures r.Some? ==> ReadLines(Lines(input), START).Some? && "in" in ReadLines(Lines(input), START).value.table.symbols
  {
    var done :- ReadLines(Lines(input), START);
    var wfs := BuildWorkflows(done.table.nextId, done.workflows);
    if "in" !in done.table.symbols then None
    else
      var first := done.table.symbols["in"];
      var p1 :- AcceptedRatings(done.parts, wfs, first, fuel);
      var p2 :- Day19.Count(FULL, wfs, first, fuel, clipped);
      Some((p1, p2))
  }

  /** With the clipped split, part 2's answer is the number of rating vectors in
      `1..4001` to the fourth that the parsed workflows accept from `in`. */
  lemma RunCountsAccepted(input: string, fuel: nat)
    requires Run(input, fuel, true).Some?
    ensures var done := ReadLines(Lines(input), START).value;
            var wfs := BuildWorkflows(done.table.nextId, done.workflows);
            && WellFormed(wfs)
            && Run(input, fuel, true).value.1 == |Accepted(FULL, wfs, done.table.symbols["in"], fuel)|
  {
    var done := ReadLines(Lines(input), START).value;
    var wfs := BuildWorkflows(done.table.nextId, done.workflows);
    CountSound(FULL, wfs, done.table.symbols["in"], fuel);
  }
}

module Day19InputExamples {
  import opened Text
  import opened Symbols
  import opened Day19
  import opened Day19Input

  /** `parse_instruction_line` put together from its steps. */
  lemma InstructionLineOf(line: string, t: SymbolTable, name: string, r1: string, id: nat, t1: SymbolTable,
                          r2: string, ps: seq<Parsed>, r3: string, r4: string, ins: seq<Instruction>, t2: SymbolTable)
    requires Alpha1Streaming(line) == Some((name, r1))
    requires SymbolId(t, name) == Some((id, t1))
    requires Tag(r1, "{") == Some(r2)
    requires InstructionList(r2) == (ps, r3)
    requires Tag(r3, "}") == Some(r4)
    requires Resolve(ps, t1) == Some((ins, t2))
    ensures ParseInstructionLine(line, t) == Some((id, ins, t2, r4))
  {
  }

  /** The word `in` followed by `{`. */
  lemma NameIn(rest: string)
    requires |rest| > 0 && rest[0] == '{'
    ensures Alpha1Streaming("in" + rest) == Some(("in", rest))
  {
    var line := "in" + rest;
    assert IsAlpha('i') && IsAlpha('n') && !IsAlpha('{');
    assert line[1..][1..] == rest;
    assert RunLength(line[1..][1..], IsAlpha) == 0;
    assert RunLength(line[1..], IsAlpha) == 1;
    assert RunLength(line, IsAlpha) == 2;
    assert line[..2] == "in" && line[2..] == rest;
  }

  /** In the fresh table `in` is new and gets id 2. */
  lemma InIsNew()
    ensures SymbolId(NewTable(), "in") == Some((2, Get(NewTable(), "in").1))
    ensures var t1 := Get(NewTable(), "in").1;
            && Valid(t1) && t1.nextId == 3 && "in" in t1.symbols && t1.symbols["in"] == 2
            && "A" in t1.symbols && t1.symbols["A"] == ACCEPT && "R" in t1.symbols && t1.symbols["R"] == REJECT
  {
    var t := NewTable();
    assert "in" !in t.symbols;
  }

  lemma BraceTag(to: string)
    requires to == "A" || to == "R"
    ensures Tag("{" + to + "}", "{") == Some(to + "}")
    ensures Tag("}", "}") == Some("")
    ensures "in{" + to + "}" == "in" + ("{" + to + "}")
  {
    assert ("{" + to + "}")[1..] == to + "}";
  }

  /** The line `in{A}` or `in{R}`: workflow `in` gets id 2 and jumps to the other. */
  lemma ParseJumpLine(to: string, id: nat)
    requires to == "A" || to == "R"
    requires id == NewTable().symbols[to]
    ensures ParseInstructionLine("in{" + to + "}", NewTable()) == Some((2, [Goto(id)], Get(NewTable(), "in").1, ""))
  {
    var t1 := Get(NewTable(), "in").1;
    BraceTag(to);
    NameIn("{" + to + "}");
    InIsNew();
    InstructionsJump(to);
    ResolveJump(to, id, t1);
    InstructionLineOf("in{" + to + "}", NewTable(), "in", "{" + to + "}", 2, t1,
                      to + "}", [PSymbol(to)], "}", "", [Goto(id)], t1);
  }

  lemma InstructionsJump(to: string)
    requires to == "A" || to == "R"
    ensures InstructionList(to + "}") == ([PSymbol(to)], "}")
  {
    assert IsAlpha(to[0]) && !IsAlpha('}') && (to + "}")[1..] == "}";
    assert RunLength("}", IsAlpha) == 0;
    assert RunLength(to + "}", IsAlpha) == 1;
    assert (to + "}")[..1] == to;
    assert Alpha1Streaming(to + "}") == Some((to, "}"));
    assert ParseInstruction(to + "}") == Some((PSymbol(to), "}"));
    assert InstructionTail("}") == ([], "}");
    assert [PSymbol(to)] + [] == [PSymbol(to)];
  }

  lemma ResolveJump(to: string, id: nat, t1: SymbolTable)
    requires to == "A" || to == "R"
    requires id == NewTable().symbols[to] && t1 == Get(NewTable(), "in").1
    ensures Resolve([PSymbol(to)], t1) == Some(([Goto(id)], t1))
  {
    InIsNew();
    assert to in t1.symbols && t1.symbols[to] == id;
    assert SymbolId(t1, to) == Some((id, t1));
    assert [PSymbol(to)][1..] == [];
    assert Resolve([], t1) == Some(([], t1));
    assert [Goto(id)] + [] == [Goto(id)];
  }

  /** One workflow line, with nothing after it. */
  lemma ReadOneWorkflow(line: string, st: Reading, w: (nat, seq<Instruction>, SymbolTable, string))
    requires ReadingOk(st) && !st.seenEmpty && line != []
    requires ParseInstructionLine(line, st.table) == Some(w)
    ensures Valid(w.2) && w.2.nextId >= st.table.nextId && DefOk((w.0, w.1), w.2.nextId)
    ensures ReadLines([line], st) == Some(AddWorkflow(st, w.0, w.1, w.2))
  {
    assert [line][1..] == [];
  }

  /** A single line holding one workflow `in` whose one instruction jumps to `to`. */
  lemma ReadJump(to: string, id: nat)
    requires to == "A" || to == "R"
    requires id == NewTable().symbols[to]
    ensures ReadLines(Lines("in{" + to + "}"), START) ==
              Some(Reading(false, Get(NewTable(), "in").1, [(2, [Goto(id)])], []))
  {
    var line := "in{" + to + "}";
    JumpLines(to);
    ParseJumpLine(to, id);
    var st := START;
    var t1 := Get(NewTable(), "in").1;
    ReadOneWorkflow(line, st, (2, [Goto(id)], t1, ""));
    FirstWorkflow(st, [Goto(id)], t1);
  }

  lemma JumpLines(to: string)
    requires to == "A" || to == "R"
    ensures Lines("in{" + to + "}") == ["in{" + to + "}"]
  {
    var line := "in{" + to + "}";
    assert '\n' !in line by {
      assert forall k :: 0 <= k < |line| ==> line[k] in "in{}AR";
    }
    LinesSingle(line);
  }

  lemma FirstWorkflow(st: Reading, ins: seq<Instruction>, t1: SymbolTable)
    requires st == START
    requires Valid(t1) && t1.nextId >= 2 && DefOk((2, ins), t1.nextId)
    ensures AddWorkflow(st, 2, ins, t1) == Reading(false, t1, [(2, ins)], [])
  {
  }

  /** `counts_all_combinations` and `counts_all_rejects`: `in{A}` accepts all 4000⁴
      rating vectors and `in{R}` none. */
  lemma RunJumps()
    ensures Run("in{A}", 1, false) == Some((0, 4000 * 4000 * 4000 * 4000))
    ensures Run("in{R}", 1, false) == Some((0, 0))
  {
    assert "in{" + "A" + "}" == "in{A}" && "in{" + "R" + "}" == "in{R}";
    RunJump("A", ACCEPT);
    RunJump("R", REJECT);
    Product4(FULL);
  }

  /** `run` put together from its steps. */
  lemma RunOf(input: string, fuel: nat, done: Reading, first: nat, p1: nat, p2: nat)
    requires ReadLines(Lines(input), START) == Some(done)
    requires ReadingOk(done)
    requires "in" in done.table.symbols && done.table.symbols["in"] == first
    requires AcceptedRatings(done.parts, BuildWorkflows(done.table.nextId, done.workflows), first, fuel) == Some(p1)
    requires Day19.Count(FULL, BuildWorkflows(done.table.nextId, done.workflows), first, fuel, false) == Some(p2)
    ensures Run(input, fuel, false) == Some((p1, p2))
  {
  }

  lemma BuildJump(id: nat)
    requires id < 3
    ensures BuildWorkflows(3, [(2, [Goto(id)])]) == [[], [], [Goto(id)]]
  {
    var defs := [(2, [Goto(id)])];
    assert BuildWorkflows(3, defs[..0]) == seq(3, _ => []);
  }

  lemma CountJump(id: nat)
    requires id == ACCEPT || id == REJECT
    ensures Day19.Count(FULL, [[], [], [Goto(id)]], 2, 1, false) == Some(if id == ACCEPT then Product(FULL) else 0)
  {
    FullNonEmpty();
  }

  lemma RunJump(to: string, id: nat)
    requires to == "A" || to == "R"
    requires id == NewTable().symbols[to]
    ensures Run("in{" + to + "}", 1, false) == Some((0, if id == ACCEPT then Product(FULL) else 0))
  {
    ReadJump(to, id);
    InIsNew();
    var t1 := Get(NewTable(), "in").1;
    var done := Reading(false, t1, [(2, [Goto(id)])], []);
    BuildJump(id);
    CountJump(id);
    assert AcceptedRatings([], [[], [], [Goto(id)]], 2, 1) == Some(0);
    RunOf("in{" + to + "}", 1, done, 2, 0, if id == ACCEPT then Product(FULL) else 0);
  }

  lemma FullNonEmpty()
    ensures !exists k :: 0 <= k < |FULL| && IsEmpty(FULL[k])
  {
  }

  /** `counts_half_combinations`, on the workflows its four lines define: each sends
      2000·4000³ rating vectors to the accept workflow. */
  lemma HalfSplits()
    ensures Day19.Count(FULL, [[], [], [Comparison(0, Gt, 2000, ACCEPT), Goto(REJECT)]], 2, 1, false) == Some(2000 * 4000 * 4000 * 4000)
    ensures Day19.Count(FULL, [[], [], [Comparison(0, Lt, 2001, ACCEPT), Goto(REJECT)]], 2, 1, false) == Some(2000 * 4000 * 4000 * 4000)
    ensures Day19.Count(FULL, [[], [], [Comparison(0, Gt, 2000, REJECT), Goto(ACCEPT)]], 2, 1, false) == Some(2000 * 4000 * 4000 * 4000)
    ensures Day19.Count(FULL, [[], [], [Comparison(0, Lt, 2001, REJECT), Goto(ACCEPT)]], 2, 1, false) == Some(2000 * 4000 * 4000 * 4000)
  {
    var high := FULL[0 := Range(2001, 4001)];
    var low := FULL[0 := Range(1, 2001)];
    Product4(high);
    Product4(low);
    assert !exists k :: 0 <= k < |FULL| && IsEmpty(FULL[k]);
    assert !exists k :: 0 <= k < |low| && IsEmpty(low[k]);
    assert !exists k :: 0 <= k < |high| && IsEmpty(high[k]);
    HalfSplit(Gt, 2000, ACCEPT, REJECT, high, low);
    HalfSplit(Lt, 2001, ACCEPT, REJECT, low, high);
    HalfSplit(Gt, 2000, REJECT, ACCEPT, high, low);
    HalfSplit(Lt, 2001, REJECT, ACCEPT, low, high);
  }

  lemma HalfSplit(op: Op, v: nat, target: nat, other: nat, sent: seq<Range>, kept: seq<Range>)
    requires target <= 1 && other <= 1 && target != other
    requires |sent| == 4 && |kept| == 4
    requires (op, v) == (Gt, 2000) || (op, v) == (Lt, 2001)
    requires sent == FULL[0 := if op == Gt then Range(2001, 4001) else Range(1, 2001)]
    requires kept == FULL[0 := if op == Gt then Range(1, 2001) else Range(2001, 4001)]
    requires Product(sent) == 2000 * 4000 * 4000 * 4000 && Product(kept) == 2000 * 4000 * 4000 * 4000
    requires !exists k :: 0 <= k < |FULL| && IsEmpty(FULL[k])
    requires !exists k :: 0 <= k < |kept| && IsEmpty(kept[k])
    ensures Day19.Count(FULL, [[], [], [Comparison(0, op, v, target), Goto(other)]], 2, 1, false) == Some(2000 * 4000 * 4000 * 4000)
  {
    var W: Workflows := [[], [], [Comparison(0, op, v, target), Goto(other)]];
    assert Day19.Split(FULL[0], op, v, false) == (sent[0], kept[0]);
    assert FULL[0 := sent[0]] == sent && FULL[0 := kept[0]] == kept;
    assert Day19.Count(sent, W, target, 0, false) == Some(if target == ACCEPT then Product(sent) else 0);
    assert Day19.Count(kept, W, other, 0, false) == Some(if other == ACCEPT then Product(kept) else 0);
    assert CountFrom(kept, W, 2, 1, 0, false) == Day19.Count(kept, W, other, 0, false);
    assert CountFrom(FULL, W, 2, 0, 0, false) == Some(2000 * 4000 * 4000 * 4000);
  }
}

=== FILE: day20.dfy ===
/** Day 20: a network of pulse modules. Broadcasters forward pulses, flip-flops
    toggle on low pulses, conjunctions remember the last pulse from each input. A
    button press sends one low pulse to the broadcaster and the pulses are delivered
    in FIFO order; part 1 multiplies the low and high pulse counts of 1000 presses. */
module Day20 {
  import opened Text
  import Symbols

  // ---------------------------------------------------------------------------
  // Declarations and their text form.

  datatype Kind = Broadcaster | FlipFlop | Conjunction

  datatype Pulse = Low | High

  /** One parsed line: `%rf -> lq, tj`, `&inv -> a` or `broadcaster -> a, b`. */
  datatype Decl = Decl(kind: Kind, name: string, outputs: seq<string>)

  const BROADCASTER: string := "broadcaster"

  /** The three alternatives of the module head, tried in order. */
  function ParseHead(s: string): (r: Option<(Kind, string, string)>)
    ensures r.Some? ==> |r.value.2| < |s|
  {
    if BROADCASTER <= s then Some((Broadcaster, BROADCASTER, s[|BROADCASTER|..]))
    else if |s| > 0 && (s[0] == '%' || s[0] == '&') then
      var (name, rest) :- Alpha1(s[1..]);
      Some((if s[0] == '%' then FlipFlop else Conjunction, name, rest))
    else None
  }

  /** The repetitions of `separated_list1(tag(", "), alpha1)` after the first item:
      a separator that is not followed by a name is left unread. */
  function MoreNames(acc: seq<string>, s: string): (r: (seq<string>, string))
    decreases |s|
  {
    if ", " <= s && Alpha1(s[2..]).Some? then
      var (name, rest) := Alpha1(s[2..]).value;
      MoreNames(acc + [name], rest)
    else (acc, s)
  }

  /** `separated_list1(tag(", "), alpha1)`: at least one name. */
  function Names1(s: string): (r: Option<(seq<string>, string)>)
  {
    var (first, rest) :- Alpha1(s);
    Some(MoreNames([first], rest))
  }

  /** `parse_line`; text after the output list is left unread. */
  function ParseDecl(line: string): (r: Option<Decl>)
  {
    var (kind, name, s1) :- ParseHead(line);
    var s2 :- Tag(s1, " -> ");
    var (outputs, _) :- Names1(s2);
    Some(Decl(kind, name, outputs))
  }

  /** A module name as the grammar reads it: ASCII letters, at least one. */
  predicate IsName(s: string)
  {
    |s| > 0 && forall i :: 0 <= i < |s| ==> IsAlpha(s[i])
  }

  /** A declaration the puzzle can write: the broadcaster is called `broadcaster`,
      and every name, the output list included, is a non-empty run of letters. */
  predicate WellFormed(d: Decl)
  {
    && (d.kind == Broadcaster ==> d.name == BROADCASTER)
    && (d.kind != Broadcaster ==> IsName(d.name))
    && |d.outputs| > 0 && forall i :: 0 <= i < |d.outputs| ==> IsName(d.outputs[i])
  }

  function ShowHead(d: Decl): string
  {
    match d.kind
    case Broadcaster => BROADCASTER
    case FlipFlop => "%" + d.name
    case Conjunction => "&" + d.name
  }

  /** The names after the first, each behind its `, ` separator. */
  function ShowMore(ns: seq<string>): string
  {
    if ns == [] then "" else ", " + ns[0] + ShowMore(ns[1..])
  }

  function ShowNames(ns: seq<string>): string
    requires |ns| > 0
  {
    ns[0] + ShowMore(ns[1..])
  }

  /** The line that declares `d`. */
  function Show(d: Decl): string
    requires |d.outputs| > 0
  {
    ShowHead(d) + " -> " + ShowNames(d.outputs)
  }

  /** A name followed by text that does not start with a letter reads as that name. */
  lemma Alpha1Name(n: string, rest: string)
    requires IsName(n) && (rest == [] || !IsAlpha(rest[0]))
    ensures Alpha1(n + rest) == Some((n, rest))
  {
    RunLengthPrefix(n, rest, IsAlpha);
    assert (n + rest)[..|n|] == n && (n + rest)[|n|..] == rest;
  }

  lemma ShowMoreStart(ns: seq<string>)
    ensures ShowMore(ns) == [] || ShowMore(ns)[0] == ','
  {
  }

  lemma MoreNamesStep(acc: seq<string>, n: string, rest: string)
    requires IsName(n) && (rest == [] || rest[0] == ',')
    ensures MoreNames(acc, ", " + n + rest) == MoreNames(acc + [n], rest)
  {
    var s := ", " + n + rest;
    assert s[2..] == n + rest;
    Alpha1Name(n, rest);
  }

  lemma {:induction false} MoreNamesShow(acc: seq<string>, ns: seq<string>)
    requires forall i :: 0 <= i < |ns| ==> IsName(ns[i])
    ensures MoreNames(acc, ShowMore(ns)) == (acc + ns, "")
    decreases |ns|
  {
    if ns == [] {
      assert acc + ns == acc;
    } else {
      var more := ShowMore(ns[1..]);
      assert ShowMore(ns) == ", " + ns[0] + more;
      ShowMoreStart(ns[1..]);
      MoreNamesStep(acc, ns[0], more);
      MoreNamesShow(acc + [ns[0]], ns[1..]);
      AppendHead(acc, ns);
    }
  }

  lemma AppendHead(acc: seq<string>, ns: seq<string>)
    requires ns != []
    ensures acc + [ns[0]] + ns[1..] == acc + ns
  {
  }

  lemma Names1Show(ns: seq<string>)
    requires |ns| > 0 && forall i :: 0 <= i < |ns| ==> IsName(ns[i])
    ensures Names1(ShowNames(ns)) == Some((ns, ""))
  {
    ShowMoreStart(ns[1..]);
    Alpha1Name(ns[0], ShowMore(ns[1..]));
    MoreNamesShow([ns[0]], ns[1..]);
    AppendHead([], ns);
    assert [] + [ns[0]] == [ns[0]] && [] + ns == ns;
  }

  /** The head of a declaration reads back, whatever follows the ` -> `. */
  lemma ParseHeadShow(d: Decl, body: string)
    requires WellFormed(d) && |body| > 0 && body[0] == ' '
    ensures ParseHead(ShowHead(d) + body) == Some((d.kind, d.name, body))
  {
    match d.kind
    case Broadcaster =>
      assert (BROADCASTER + body)[|BROADCASTER|..] == body;
    case FlipFlop => ParseMarked('%', d.name, body);
    case Conjunction => ParseMarked('&', d.name, body);
  }

  /** A head behind a `%` or `&` marker reads back as that kind of module. */
  lemma ParseMarked(c: char, name: string, body: string)
    requires (c == '%' || c == '&') && IsName(name) && |body| > 0 && body[0] == ' '
    ensures ParseHead([c] + name + body) == Some((if c == '%' then FlipFlop else Conjunction, name, body))
  {
    var s := [c] + name + body;
    assert s[0] == c;
    assert !(BROADCASTER <= s) by {
      assert BROADCASTER[0] == 'b';
    }
    assert s[1..] == name + body;
    Alpha1Name(name, body);
  }

  /** Reading back a written declaration gives the declaration. */
  lemma ParseShow(d: Decl)
    requires WellFormed(d)
    ensures ParseDecl(Show(d)) == Some(d)
  {
    var names := ShowNames(d.outputs);
    var body := " -> " + names;
    assert Show(d) == ShowHead(d) + body;
    ParseHeadShow(d, body);
    assert Tag(body, " -> ") == Some(names) by {
      assert body[..4] == " -> " && body[4..] == names;
    }
    Names1Show(d.outputs);
  }

  const ExampleDecl := Decl(FlipFlop, "rf", ["lq", "tj"])

  lemma ShowExample()
    ensures Show(ExampleDecl) == "%rf -> lq, tj"
  {
    var d := ExampleDecl;
    assert ShowMore(["tj"]) == ", tj" by {
      assert ["tj"][1..] == [];
    }
    assert ShowNames(d.outputs) == "lq, tj" by {
      assert d.outputs[1..] == ["tj"];
    }
  }

  /** The example line of the parser's comment. */
  lemma ParseExample()
    ensures ParseDecl("%rf -> lq, tj") == Some(ExampleDecl)
  {
    assert WellFormed(ExampleDecl);
    ParseShow(ExampleDecl);
    ShowExample();
  }

  // ---------------------------------------------------------------------------
  // Building the network.

  /** A module: its kind, the flip-flop state, the conjunction memory keyed by
      sender, and the output module ids in declaration order. */
  datatype Module = Module(kind: Kind, on: bool, inputs: map<nat, Pulse>, outputs: seq<nat>)

  /** The module every id starts as: a broadcaster with no outputs. */
  const Blank: Module := Module(Broadcaster, false, map[], [])

  /** The names in the order the first pass interns them: each line's name, then its
      outputs. */
  function Names(ds: seq<Decl>): seq<string>
  {
    if ds == [] then [] else Names(ds[..|ds| - 1]) + [ds[|ds| - 1].name] + ds[|ds| - 1].outputs
  }

  lemma {:induction false} NamesHold(ds: seq<Decl>)
    ensures forall k :: 0 <= k < |ds| ==> ds[k].name in Names(ds) && forall o :: o in ds[k].outputs ==> o in Names(ds)
  {
    if ds != [] {
      NamesHold(ds[..|ds| - 1]);
      assert forall k :: 0 <= k < |ds| - 1 ==> ds[..|ds| - 1][k] == ds[k];
    }
  }

  /** Module ids are `u8`, so at most 256 distinct names are allowed. */
  const MAX_MODULES: nat := 256

  /** The distinct strings of a list. */
  function Elems(xs: seq<string>): set<string>
  {
    set x | x in xs
  }

  lemma ElemsCons(xs: seq<string>)
    requires xs != []
    ensures Elems(xs) == {xs[0]} + Elems(xs[1..])
  {
    Symbols.SetOfCons(xs);
  }

  /** Interning a list of names in order, as repeated `SymbolTable::get`. */
  function Intern(t: Symbols.SymbolTable, syms: seq<string>): (r: Symbols.SymbolTable)
    requires Symbols.Valid(t) && |t.symbols.Keys + Elems(syms)| <= MAX_MODULES
    ensures Symbols.Valid(r) && r.symbols.Keys == t.symbols.Keys + Elems(syms)
    ensures forall s :: s in t.symbols ==> s in r.symbols && r.symbols[s] == t.symbols[s]
    decreases |syms|
  {
    if syms == [] then t
    else
      InternStep(t, syms);
      Intern(Symbols.Get(t, syms[0]).1, syms[1..])
  }

  lemma InternStep(t: Symbols.SymbolTable, syms: seq<string>)
    requires Symbols.Valid(t) && |t.symbols.Keys + Elems(syms)| <= MAX_MODULES && syms != []
    ensures syms[0] in t.symbols || t.nextId < U16_MAX
    ensures var t1 := Symbols.Get(t, syms[0]).1;
            && Symbols.Valid(t1)
            && t1.symbols.Keys + Elems(syms[1..]) == t.symbols.Keys + Elems(syms)
            && forall s :: s in t.symbols ==> s in t1.symbols && t1.symbols[s] == t.symbols[s]
  {
    var all := t.symbols.Keys + Elems(syms);
    assert syms[0] in all by { ElemsCons(syms); }
    if syms[0] !in t.symbols {
      SubsetSmaller(t.symbols.Keys, all, syms[0]);
    }
    ElemsCons(syms);
  }

  /** The table of the first pass. */
  function TableOf(ds: seq<Decl>): (t: Symbols.SymbolTable)
    requires |Elems(Names(ds))| <= MAX_MODULES
    ensures Symbols.Valid(t) && t.symbols.Keys == Elems(Names(ds))
    ensures Symbols.Len(t) <= MAX_MODULES
  {
    Intern(Symbols.New(), Names(ds))
  }

  /** Every declared name and every output name has an id in `t`. */
  predicate Known(t: Symbols.SymbolTable, ds: seq<Decl>)
  {
    forall k :: 0 <= k < |ds| ==> ds[k].name in t.symbols && forall o :: o in ds[k].outputs ==> o in t.symbols
  }

  /** The ids of a list of known names. */
  function Ids(t: Symbols.SymbolTable, names: seq<string>): (ids: seq<nat>)
    requires forall o :: o in names ==> o in t.symbols
    ensures |ids| == |names| && forall i :: 0 <= i < |names| ==> ids[i] == t.symbols[names[i]]
  {
    seq(|names|, i requires 0 <= i < |names| => t.symbols[names[i]])
  }

  /** Every output of every module is a module id. */
  predicate Wired(ms: seq<Module>)
  {
    forall i, k :: 0 <= i < |ms| && 0 <= k < |ms[i].outputs| ==> ms[i].outputs[k] < |ms|
  }

  /** Each output records the declaring module as a sender with a `Low` memory. */
  function AddInputs(ms: seq<Module>, id: nat, outs: seq<nat>): (r: seq<Module>)
    requires forall k :: 0 <= k < |outs| ==> outs[k] < |ms|
    ensures |r| == |ms|
    ensures forall i :: 0 <= i < |ms| ==> r[i].kind == ms[i].kind && r[i].on == ms[i].on && r[i].outputs == ms[i].outputs
    ensures forall i :: 0 <= i < |ms| ==>
              r[i].inputs == if i in outs then ms[i].inputs[id := Low] else ms[i].inputs
    decreases |outs|
  {
    if outs == [] then ms
    else
      var n := |outs| - 1;
      var r := AddInputs(ms, id, outs[..n]);
      assert forall i :: i in outs <==> i in outs[..n] || i == outs[n] by {
        assert outs == outs[..n] + [outs[n]];
      }
      r[outs[n] := r[outs[n]].(inputs := r[outs[n]].inputs[id := Low])]
  }

  /** The second pass for one line: set the kind, append the outputs, then register
      the module as an input of each output. */
  function Declare(ms: seq<Module>, t: Symbols.SymbolTable, d: Decl): (r: seq<Module>)
    requires d.name in t.symbols && t.symbols[d.name] < |ms|
    requires forall o :: o in d.outputs ==> o in t.symbols && t.symbols[o] < |ms|
  {
    var id := t.symbols[d.name];
    var outs := Ids(t, d.outputs);
    var m := ms[id].(kind := d.kind, outputs := ms[id].outputs + outs);
    AddInputs(ms[id := m], id, outs)
  }

  /** Every name of `ds` has an id below `n`. */
  predicate IdsBelow(t: Symbols.SymbolTable, ds: seq<Decl>, n: nat)
  {
    && Known(t, ds)
    && forall k :: 0 <= k < |ds| ==> t.symbols[ds[k].name] < n && forall o :: o in ds[k].outputs ==> t.symbols[o] < n
  }

  /** The second pass over all lines. */
  function Wire(ms: seq<Module>, t: Symbols.SymbolTable, ds: seq<Decl>): (r: seq<Module>)
    requires IdsBelow(t, ds, |ms|)
    ensures |r| == |ms|
    decreases |ds|
  {
    if ds == [] then ms
    else
      var n := |ds| - 1;
      assert IdsBelow(t, ds[..n], |ms|) by {
        assert forall k :: 0 <= k < n ==> ds[..n][k] == ds[k];
      }
      Declare(Wire(ms, t, ds[..n]), t, ds[n])
  }

  /** The id `build_modules` returns: that of the last broadcaster line, or 0. */
  function BroadcasterId(t: Symbols.SymbolTable, ds: seq<Decl>): (b: nat)
    requires Known(t, ds)
    ensures b == 0 || exists k :: 0 <= k < |ds| && ds[k].kind == Broadcaster && t.symbols[ds[k].name] == b
  {
    if ds == [] then 0
    else
      var n := |ds| - 1;
      assert Known(t, ds[..n]) by {
        assert forall k :: 0 <= k < n ==> ds[..n][k] == ds[k];
      }
      if ds[n].kind == Broadcaster then t.symbols[ds[n].name]
      else
        var b := BroadcasterId(t, ds[..n]);
        assert b != 0 ==> exists k :: 0 <= k < n && ds[k].kind == Broadcaster && t.symbols[ds[k].name] == b by {
          if b != 0 {
            var k :| 0 <= k < n && ds[..n][k].kind == Broadcaster && t.symbols[ds[..n][k].name] == b;
            assert ds[..n][k] == ds[k];
          }
        }
        b
  }

  /** The table's ids cover every name of the lines. */
  lemma TableIds(ds: seq<Decl>)
    requires |Elems(Names(ds))| <= MAX_MODULES
    ensures IdsBelow(TableOf(ds), ds, Symbols.Len(TableOf(ds)))
  {
    var t := TableOf(ds);
    NamesHold(ds);
    forall k | 0 <= k < |ds| ensures ds[k].name in t.symbols && forall o :: o in ds[k].outputs ==> o in t.symbols {
    }
  }

  /** `build_modules` from parsed lines: the modules (one per interned name) and the
      broadcaster's id. */
  function Build(ds: seq<Decl>): (r: (seq<Module>, nat))
    requires |Elems(Names(ds))| <= MAX_MODULES
    ensures |r.0| == |Elems(Names(ds))|
  {
    var t := TableOf(ds);
    TableIds(ds);
    (Wire(seq(Symbols.Len(t), _ => Blank), t, ds), BroadcasterId(t, ds))
  }

  /** The outputs a module collects from all lines that declare it, in line order. */
  function DeclaredOutputs(t: Symbols.SymbolTable, ds: seq<Decl>, id: nat): seq<nat>
    requires Known(t, ds)
  {
    if ds == [] then []
    else
      var n := |ds| - 1;
      assert Known(t, ds[..n]) by {
        assert forall k :: 0 <= k < n ==> ds[..n][k] == ds[k];
      }
      DeclaredOutputs(t, ds[..n], id) + if t.symbols[ds[n].name] == id then Ids(t, ds[n].outputs) else []
  }

  /** Some line declares the module `id`. */
  predicate Declared(t: Symbols.SymbolTable, ds: seq<Decl>, id: nat)
    requires Known(t, ds)
  {
    exists k :: 0 <= k < |ds| && t.symbols[ds[k].name] == id
  }

  /** Some line declares `sender` with `id` among its outputs. */
  predicate FeedsInto(t: Symbols.SymbolTable, ds: seq<Decl>, sender: nat, id: nat)
    requires Known(t, ds)
  {
    exists k :: 0 <= k < |ds| && t.symbols[ds[k].name] == sender && id in Ids(t, ds[k].outputs)
  }

  /** One line of the second pass changes only the declared module's kind and
      outputs, and the memories of its outputs. */
  lemma DeclareSpec(ms: seq<Module>, t: Symbols.SymbolTable, d: Decl)
    requires d.name in t.symbols && t.symbols[d.name] < |ms|
    requires forall o :: o in d.outputs ==> o in t.symbols && t.symbols[o] < |ms|
    ensures var r := Declare(ms, t, d);
            var id := t.symbols[d.name];
            var outs := Ids(t, d.outputs);
            && |r| == |ms|
            && forall i :: 0 <= i < |ms| ==>
                 && r[i].on == ms[i].on
                 && r[i].kind == (if i == id then d.kind else ms[i].kind)
                 && r[i].outputs == ms[i].outputs + (if i == id then outs else [])
                 && r[i].inputs == (if i in outs then ms[i].inputs[id := Low] else ms[i].inputs)
  {
    var id := t.symbols[d.name];
    var outs := Ids(t, d.outputs);
    forall i | 0 <= i < |ms| ensures i != id ==> ms[i].outputs + [] == ms[i].outputs {
    }
  }

  lemma SnocPrefix(ds: seq<Decl>, t: Symbols.SymbolTable, n: nat)
    requires n == |ds| - 1 && Known(t, ds)
    ensures Known(t, ds[..n])
    ensures forall k :: 0 <= k < n ==> ds[..n][k] == ds[k]
  {
    assert forall k :: 0 <= k < n ==> ds[..n][k] == ds[k];
  }

  lemma DeclaredSnoc(t: Symbols.SymbolTable, ds: seq<Decl>, i: nat)
    requires Known(t, ds) && ds != []
    ensures var n := |ds| - 1;
            Known(t, ds[..n]) &&
            (Declared(t, ds, i) <==> Declared(t, ds[..n], i) || t.symbols[ds[n].name] == i)
  {
    var n := |ds| - 1;
    SnocPrefix(ds, t, n);
    if Declared(t, ds, i) {
      var k :| 0 <= k < |ds| && t.symbols[ds[k].name] == i;
      if k < n {
        assert t.symbols[ds[..n][k].name] == i;
      }
    }
    if Declared(t, ds[..n], i) {
      var k :| 0 <= k < n && t.symbols[ds[..n][k].name] == i;
      assert t.symbols[ds[k].name] == i;
    }
  }

  lemma FeedsIntoSnoc(t: Symbols.SymbolTable, ds: seq<Decl>, s: nat, i: nat)
    requires Known(t, ds) && ds != []
    ensures var n := |ds| - 1;
            Known(t, ds[..n]) &&
            (FeedsInto(t, ds, s, i) <==>
               FeedsInto(t, ds[..n], s, i) || (t.symbols[ds[n].name] == s && i in Ids(t, ds[n].outputs)))
  {
    var n := |ds| - 1;
    SnocPrefix(ds, t, n);
    if FeedsInto(t, ds, s, i) {
      var k :| 0 <= k < |ds| && t.symbols[ds[k].name] == s && i in Ids(t, ds[k].outputs);
      if k < n {
        assert ds[..n][k] == ds[k];
      }
    }
    if FeedsInto(t, ds[..n], s, i) {
      var k :| 0 <= k < n && t.symbols[ds[..n][k].name] == s && i in Ids(t, ds[..n][k].outputs);
      assert ds[..n][k] == ds[k];
    }
  }

  /** Each module collects the outputs of the lines that declare it, in line order,
      and stays off. */
  lemma {:induction false} WireOutputs(ms: seq<Module>, t: Symbols.SymbolTable, ds: seq<Decl>)
    requires IdsBelow(t, ds, |ms|)
    requires forall i :: 0 <= i < |ms| ==> ms[i] == Blank
    ensures var r := Wire(ms, t, ds);
            forall i :: 0 <= i < |ms| ==> r[i].outputs == DeclaredOutputs(t, ds, i) && !r[i].on
    decreases |ds|
  {
    if ds != [] {
      var n := |ds| - 1;
      SnocPrefix(ds, t, n);
      assert IdsBelow(t, ds[..n], |ms|);
      var before := Wire(ms, t, ds[..n]);
      WireOutputs(ms, t, ds[..n]);
      DeclareSpec(before, t, ds[n]);
      var r := Wire(ms, t, ds);
      assert r == Declare(before, t, ds[n]);
      var id := t.symbols[ds[n].name];
      forall i | 0 <= i < |ms| ensures r[i].outputs == DeclaredOutputs(t, ds, i) && !r[i].on {
        assert DeclaredOutputs(t, ds, i)
               == DeclaredOutputs(t, ds[..n], i) + if id == i then Ids(t, ds[n].outputs) else [];
      }
    }
  }

  /** A name no line declares stays a blank broadcaster; a declared one takes the
      kind of the last line that declares it. */
  lemma {:induction false} WireKinds(ms: seq<Module>, t: Symbols.SymbolTable, ds: seq<Decl>)
    requires IdsBelow(t, ds, |ms|)
    requires forall i :: 0 <= i < |ms| ==> ms[i] == Blank
    ensures var r := Wire(ms, t, ds);
            forall i :: 0 <= i < |ms| ==>
              && (!Declared(t, ds, i) ==> r[i].kind == Broadcaster)
              && (ds != [] && t.symbols[ds[|ds| - 1].name] == i ==> r[i].kind == ds[|ds| - 1].kind)
    decreases |ds|
  {
    if ds != [] {
      var n := |ds| - 1;
      SnocPrefix(ds, t, n);
      assert IdsBelow(t, ds[..n], |ms|);
      WireKinds(ms, t, ds[..n]);
      DeclareSpec(Wire(ms, t, ds[..n]), t, ds[n]);
      forall i | 0 <= i < |ms| ensures !Declared(t, ds, i) ==> Wire(ms, t, ds)[i].kind == Broadcaster {
        DeclaredSnoc(t, ds, i);
      }
    }
  }

  /** Each module's memory holds, as `Low`, exactly the modules that list it as an
      output. */
  lemma {:induction false} WireInputs(ms: seq<Module>, t: Symbols.SymbolTable, ds: seq<Decl>)
    requires IdsBelow(t, ds, |ms|)
    requires forall i :: 0 <= i < |ms| ==> ms[i] == Blank
    ensures var r := Wire(ms, t, ds);
            forall i, s :: 0 <= i < |ms| ==>
              && (s in r[i].inputs <==> FeedsInto(t, ds, s, i))
              && (s in r[i].inputs ==> r[i].inputs[s] == Low)
    decreases |ds|
  {
    if ds != [] {
      var n := |ds| - 1;
      SnocPrefix(ds, t, n);
      assert IdsBelow(t, ds[..n], |ms|);
      WireInputs(ms, t, ds[..n]);
      DeclareSpec(Wire(ms, t, ds[..n]), t, ds[n]);
      var w := Wire(ms, t, ds[..n]);
      var r := Wire(ms, t, ds);
      assert r == Declare(w, t, ds[n]);
      forall i, s | 0 <= i < |ms|
        ensures s in r[i].inputs <==> FeedsInto(t, ds, s, i)
        ensures s in r[i].inputs ==> r[i].inputs[s] == Low
      {
        FeedsIntoSnoc(t, ds, s, i);
        assert s in w[i].inputs <==> FeedsInto(t, ds[..n], s, i);
      }
    }
  }

  /** A module no line declares has no outputs. */
  lemma {:induction false} UndeclaredSilent(t: Symbols.SymbolTable, ds: seq<Decl>, i: nat)
    requires Known(t, ds) && !Declared(t, ds, i)
    ensures DeclaredOutputs(t, ds, i) == []
  {
    if ds != [] {
      var n := |ds| - 1;
      DeclaredSnoc(t, ds, i);
      UndeclaredSilent(t, ds[..n], i);
    }
  }

  // ---------------------------------------------------------------------------
  // Delivering pulses.

  datatype Message = Message(sender: nat, receiver: nat, pulse: Pulse)

  /** The same pulse from `from` to every output, in order. */
  function SendAll(from: nat, outputs: seq<nat>, p: Pulse): (out: seq<Message>)
    ensures |out| == |outputs|
    ensures forall i :: 0 <= i < |out| ==> out[i] == Message(from, outputs[i], p)
  {
    seq(|outputs|, i requires 0 <= i < |outputs| => Message(from, outputs[i], p))
  }

  /** The conjunction's test: every remembered input is `High`. */
  predicate AllHigh(inputs: map<nat, Pulse>)
  {
    forall s :: s in inputs ==> inputs[s] == High
  }

  /** How the receiving module reacts to one pulse: its new state and the pulses it
      sends. A module sends either nothing or one pulse to each output, in order, all
      of the same type. */
  function Receive(m: Module, msg: Message): (r: (Module, seq<Message>))
    ensures r.0.kind == m.kind && r.0.outputs == m.outputs
    ensures r.1 == [] || |r.1| == |m.outputs|
    ensures forall i :: 0 <= i < |r.1| ==>
              r.1[i].sender == msg.receiver && r.1[i].receiver == m.outputs[i] && r.1[i].pulse == r.1[0].pulse
    ensures m.kind == Broadcaster ==>
              r.0 == m && |r.1| == |m.outputs| && forall i :: 0 <= i < |r.1| ==> r.1[i].pulse == msg.pulse
    ensures m.kind == FlipFlop ==> (msg.pulse == High <==> r.0 == m)
    ensures m.kind == FlipFlop && msg.pulse == High ==> r.1 == []
    ensures m.kind == FlipFlop && msg.pulse == Low ==>
              && r.0.on == !m.on && r.0.inputs == m.inputs && |r.1| == |m.outputs|
              && forall i :: 0 <= i < |r.1| ==> (r.1[i].pulse == High <==> r.0.on)
    ensures m.kind == Conjunction ==>
              && r.0 == m.(inputs := m.inputs[msg.sender := msg.pulse])
              && |r.1| == |m.outputs|
              && forall i :: 0 <= i < |r.1| ==> (r.1[i].pulse == Low <==> AllHigh(r.0.inputs))
  {
    match m.kind
    case Broadcaster => (m, SendAll(msg.receiver, m.outputs, msg.pulse))
    case FlipFlop =>
      if msg.pulse == High then (m, [])
      else
        var m' := m.(on := !m.on);
        (m', SendAll(msg.receiver, m.outputs, if m'.on then High else Low))
    case Conjunction =>
      var m' := m.(inputs := m.inputs[msg.sender := msg.pulse]);
      (m', SendAll(msg.receiver, m.outputs, if AllHigh(m'.inputs) then Low else High))
  }

  /** Two low pulses in a row turn a flip-flop on and off again: it ends as it began,
      and the two replies to its outputs are of opposite types. */
  lemma FlipFlopTwoLows(m: Module, a: Message, b: Message)
    requires m.kind == FlipFlop && a.pulse == Low && b.pulse == Low && |m.outputs| > 0
    ensures Receive(Receive(m, a).0, b).0 == m
    ensures Receive(m, a).1[0].pulse != Receive(Receive(m, a).0, b).1[0].pulse
  {
  }

  /** A low pulse makes a conjunction send high, whatever else it remembers. */
  lemma ConjunctionLowSendsHigh(m: Module, msg: Message)
    requires m.kind == Conjunction && msg.pulse == Low
    ensures forall i :: 0 <= i < |Receive(m, msg).1| ==> Receive(m, msg).1[i].pulse == High
  {
    var r := Receive(m, msg);
    assert msg.sender in r.0.inputs && r.0.inputs[msg.sender] == Low;
  }

  /** A high pulse that completes a conjunction's memory of high inputs makes it send
      low. */
  lemma ConjunctionAllHighSendsLow(m: Module, msg: Message)
    requires m.kind == Conjunction && msg.pulse == High
    requires forall s :: s in m.inputs && s != msg.sender ==> m.inputs[s] == High
    ensures forall i :: 0 <= i < |Receive(m, msg).1| ==> Receive(m, msg).1[i].pulse == Low
  {
  }

  /** Every queued pulse goes to a module. */
  predicate Addressed(ms: seq<Module>, queue: seq<Message>)
  {
    forall k :: 0 <= k < |queue| ==> queue[k].receiver < |ms|
  }

  lemma ReceiveKeeps(ms: seq<Module>, queue: seq<Message>)
    requires Wired(ms) && Addressed(ms, queue) && queue != []
    ensures var msg := queue[0];
            var r := Receive(ms[msg.receiver], msg);
            var ms' := ms[msg.receiver := r.0];
            Wired(ms') && Addressed(ms', queue[1..] + r.1)
  {
    var msg := queue[0];
    var r := Receive(ms[msg.receiver], msg);
    var q := queue[1..] + r.1;
    forall k | 0 <= k < |q| ensures q[k].receiver < |ms| {
      if k < |queue| - 1 {
        assert q[k] == queue[k + 1];
      } else {
        assert q[k] == r.1[k - (|queue| - 1)];
      }
    }
  }

  /** The delivery loop, one pulse per unit of fuel: the final modules and the pulses
      delivered in order, or `None` when the fuel runs out first. */
  function Deliver(ms: seq<Module>, queue: seq<Message>, fuel: nat): (r: Option<(seq<Module>, seq<Message>)>)
    requires Wired(ms) && Addressed(ms, queue)
    ensures r.Some? ==> |r.value.0| == |ms| && |r.value.1| >= |queue|
    ensures r.Some? ==> forall i :: 0 <= i < |ms| ==> r.value.0[i].kind == ms[i].kind && r.value.0[i].outputs == ms[i].outputs
    ensures r.Some? && queue != [] ==> r.value.1[0] == queue[0]
    decreases fuel
  {
    if queue == [] then Some((ms, []))
    else if fuel == 0 then None
    else
      var msg := queue[0];
      var (m', out) := Receive(ms[msg.receiver], msg);
      ReceiveKeeps(ms, queue);
      var rest :- Deliver(ms[msg.receiver := m'], queue[1..] + out, fuel - 1);
      Some((rest.0, [msg] + rest.1))
  }

  /** The number of delivered pulses of type `p`. */
  function CountPulses(trace: seq<Message>, p: Pulse): nat
  {
    if trace == [] then 0
    else CountPulses(trace[..|trace| - 1], p) + if trace[|trace| - 1].pulse == p then 1 else 0
  }

  lemma CountPulsesTotal(trace: seq<Message>)
    ensures CountPulses(trace, Low) + CountPulses(trace, High) == |trace|
  {
  }

  /** A delivery result with `done` delivered before it. */
  function After(done: seq<Message>, d: Option<(seq<Module>, seq<Message>)>): Option<(seq<Module>, seq<Message>)>
  {
    if d.None? then None else Some((d.value.0, done + d.value.1))
  }

  /** Delivering the head of the queue and then the rest is the same as delivering
      everything. */
  lemma DeliverStep(ms: seq<Module>, queue: seq<Message>, left: nat, done: seq<Message>)
    requires Wired(ms) && Addressed(ms, queue) && queue != [] && left > 0
    ensures var msg := queue[0];
            var r := Receive(ms[msg.receiver], msg);
            && Wired(ms[msg.receiver := r.0]) && Addressed(ms[msg.receiver := r.0], queue[1..] + r.1)
            && After(done, Deliver(ms, queue, left))
               == After(done + [msg], Deliver(ms[msg.receiver := r.0], queue[1..] + r.1, left - 1))
  {
    ReceiveKeeps(ms, queue);
    var msg := queue[0];
    var r := Receive(ms[msg.receiver], msg);
    var next := Deliver(ms[msg.receiver := r.0], queue[1..] + r.1, left - 1);
    if next.Some? {
      assert done + [msg] + next.value.1 == done + ([msg] + next.value.1);
    }
  }

  lemma AfterNothing(d: Option<(seq<Module>, seq<Message>)>)
    ensures After([], d) == d
  {
    if d.Some? {
      assert [] + d.value.1 == d.value.1;
    }
  }

  /** With the queue drained, delivery ends at once with the pulses already taken. */
  lemma AfterDrained(ms: seq<Module>, left: nat, done: seq<Message>)
    requires Wired(ms)
    ensures After(done, Deliver(ms, [], left)) == Some((ms, done))
  {
    assert done + [] == done;
  }

  lemma CountStep(done: seq<Message>, msg: Message)
    ensures CountPulses(done + [msg], Low) == CountPulses(done, Low) + if msg.pulse == Low then 1 else 0
    ensures CountPulses(done + [msg], High) == CountPulses(done, High) + if msg.pulse == High then 1 else 0
  {
    assert (done + [msg])[..|done|] == done;
  }

  /** `push_button`: a low pulse to the broadcaster, then the queue is drained,
      counting low and high pulses as they are taken off. At most `fuel` pulses are
      delivered; `None` stands for a press that would deliver more. */
  method PushButton(ms: seq<Module>, bid: nat, fuel: nat) returns (r: Option<(seq<Module>, nat, nat)>)
    requires Wired(ms) && bid < |ms|
    ensures var d := Deliver(ms, [Message(bid, bid, Low)], fuel);
            && (r.None? <==> d.None?)
            && (r.Some? ==> r.value.0 == d.value.0
                            && r.value.1 == CountPulses(d.value.1, Low)
                            && r.value.2 == CountPulses(d.value.1, High))
  {
    var modules := ms;
    var queue := [Message(bid, bid, Low)];
    var low, high := 0, 0;
    var left := fuel;
    ghost var done: seq<Message> := [];
    ghost var whole := Deliver(ms, queue, fuel);
    AfterNothing(whole);
    while queue != []
      invariant Wired(modules) && Addressed(modules, queue)
      invariant low == CountPulses(done, Low) && high == CountPulses(done, High)
      invariant whole == After(done, Deliver(modules, queue, left))
      decreases left
    {
      if left == 0 {
        return None;
      }
      var msg := queue[0];
      if msg.pulse == High { high := high + 1; } else { low := low + 1; }
      var (m', out) := Receive(modules[msg.receiver], msg);
      DeliverStep(modules, queue, left, done);
      CountStep(done, msg);
      done := done + [msg];
      modules := modules[msg.receiver := m'];
      queue := queue[1..] + out;
      left := left - 1;
    }
    AfterDrained(modules, left, done);
    return Some((modules, low, high));
  }

  /** Every delivered pulse is counted exactly once, and each press starts with the
      low pulse to the broadcaster. */
  lemma PressCounts(ms: seq<Module>, bid: nat, fuel: nat)
    requires Wired(ms) && bid < |ms| && Deliver(ms, [Message(bid, bid, Low)], fuel).Some?
    ensures var trace := Deliver(ms, [Message(bid, bid, Low)], fuel).value.1;
            && trace[0] == Message(bid, bid, Low)
            && CountPulses(trace, Low) >= 1
            && CountPulses(trace, Low) + CountPulses(trace, High) == |trace|
  {
    var trace := Deliver(ms, [Message(bid, bid, Low)], fuel).value.1;
    CountPulsesTotal(trace);
    LowCounted(trace);
  }

  lemma {:induction false} LowCounted(trace: seq<Message>)
    requires trace != [] && trace[0].pulse == Low
    ensures CountPulses(trace, Low) >= 1
  {
    if |trace| > 1 {
      LowCounted(trace[..|trace| - 1]);
    }
  }

  /** One press, as the delivery loop: the modules after it and its two counts. */
  function Press(ms: seq<Module>, bid: nat, fuel: nat): (r: Option<(seq<Module>, nat, nat)>)
    requires Wired(ms) && bid < |ms|
    ensures r.Some? ==> Wired(r.value.0) && |r.value.0| == |ms|
  {
    var d :- Deliver(ms, [Message(bid, bid, Low)], fuel);
    Some((d.0, CountPulses(d.1, Low), CountPulses(d.1, High)))
  }

  /** `n` presses in a row: the final modules and the summed counts. */
  function Presses(ms: seq<Module>, bid: nat, n: nat, fuel: nat): (r: Option<(seq<Module>, nat, nat)>)
    requires Wired(ms) && bid < |ms|
    ensures r.Some? ==> Wired(r.value.0) && |r.value.0| == |ms| && r.value.1 >= n
    decreases n
  {
    if n == 0 then Some((ms, 0, 0))
    else
      var first :- Press(ms, bid, fuel);
      PressCounts(ms, bid, fuel);
      var rest :- Presses(first.0, bid, n - 1, fuel);
      Some((rest.0, first.1 + rest.1, first.2 + rest.2))
  }

  /** Part 1 presses the button this many times. */
  const PRESSES: nat := 1000

  /** The module declarations, every line parsed. */
  function Decls(input: string): Option<seq<Decl>>
  {
    CollectAll(Lines(input), ParseDecl)
  }

  /** At most 256 distinct names, so `u8` module ids do not wrap. */
  predicate FewNames(input: string)
  {
    Decls(input).Some? ==> |Elems(Names(Decls(input).value))| <= MAX_MODULES
  }

  /** `run`'s part 1 with at most `fuel` pulses per press: the product of the low and
      high counts of 1000 presses, or `None` for a parse error, a press that needs
      more fuel, or a count or product that overflows `u64`. Empty input leaves no
      module for the first pulse, which the program indexes and panics on. */
  function Run(input: string, fuel: nat): (r: Option<nat>)
    requires |Lines(input)| > 0 && FewNames(input)
    ensures Decls(input).None? ==> r.None?
    ensures r.Some? ==> r.value <= U64_MAX
  {
    var ds :- Decls(input);
    var (ms, bid) := Network(ds);
    var counts :- Presses(ms, bid, PRESSES, fuel);
    var (_, low, high) := counts;
    var product: nat := assert low * high >= 0 by { MulMono(0, 0, low, high); } low * high;
    if low > U64_MAX || high > U64_MAX || product > U64_MAX then None
    else Some(product)
  }

  /** The built network of parsed lines, with its wiring facts. */
  function Network(ds: seq<Decl>): (r: (seq<Module>, nat))
    requires |Elems(Names(ds))| <= MAX_MODULES && ds != []
    ensures r == Build(ds) && Wired(r.0) && r.1 < |r.0|
  {
    BuildWired(ds);
    Build(ds)
  }

  /** The answer is the product of the two totals of 1000 presses, and the low total
      is at least one per press. */
  lemma RunCounts(input: string, fuel: nat)
    requires |Lines(input)| > 0 && FewNames(input) && Run(input, fuel).Some?
    ensures var ds := Decls(input).value;
            var (ms, bid) := Network(ds);
            var p := Presses(ms, bid, PRESSES, fuel);
            && p.Some? && Run(input, fuel).value == p.value.1 * p.value.2 && p.value.1 >= PRESSES
  {
  }

  /** The built network is wired and its broadcaster id names a module. */
  lemma BuildWired(ds: seq<Decl>)
    requires |Elems(Names(ds))| <= MAX_MODULES && ds != []
    ensures Wired(Build(ds).0) && Build(ds).1 < |Build(ds).0|
  {
    var t := TableOf(ds);
    TableIds(ds);
    var ms := seq(Symbols.Len(t), _ => Blank);
    assert Build(ds).0 == Wire(ms, t, ds);
    WireWired(ms, t, ds);
    assert t.symbols[ds[0].name] < |ms|;
  }

  lemma WireWired(ms: seq<Module>, t: Symbols.SymbolTable, ds: seq<Decl>)
    requires IdsBelow(t, ds, |ms|)
    requires forall i :: 0 <= i < |ms| ==> ms[i] == Blank
    ensures Wired(Wire(ms, t, ds))
  {
    var r := Wire(ms, t, ds);
    WireOutputs(ms, t, ds);
    forall i, k | 0 <= i < |r| && 0 <= k < |r[i].outputs| ensures r[i].outputs[k] < |r| {
      assert r[i].outputs == DeclaredOutputs(t, ds, i);
      DeclaredOutputsBelow(t, ds, i, |ms|);
    }
  }

  lemma {:induction false} DeclaredOutputsBelow(t: Symbols.SymbolTable, ds: seq<Decl>, id: nat, n: nat)
    requires IdsBelow(t, ds, n)
    ensures forall k :: 0 <= k < |DeclaredOutputs(t, ds, id)| ==> DeclaredOutputs(t, ds, id)[k] < n
  {
    if ds != [] {
      var m := |ds| - 1;
      assert IdsBelow(t, ds[..m], n) by {
        assert forall k :: 0 <= k < m ==> ds[..m][k] == ds[k];
      }
      DeclaredOutputsBelow(t, ds[..m], id, n);
      var outs := Ids(t, ds[m].outputs);
      assert forall k :: 0 <= k < |outs| ==> outs[k] < n by {
        assert forall k :: 0 <= k < |outs| ==> ds[m].outputs[k] in ds[m].outputs;
      }
    }
  }
}

=== FILE: day21.dfy ===
/** Day 21: a garden of plots `.` and rocks `#`. The program runs a breadth-first search
    from the centre tile, storing each tile's step distance in a grid of `i16` initialised
    to −1, counts the tiles at an even distance of at most 64 (part 1), and feeds
    per-parity tile counts into a closed-form formula for the infinite tiling (part 2).
    `step` advances the set of occupied tiles `O` by one move. */
module Day21 {
  import opened Text
  import opened Grids

  type Cell = (nat, nat)

  /** A queued tile `(x, y)` with its tentative distance. */
  datatype Entry = Entry(x: nat, y: nat, d: nat)

  /** The mapping applied while parsing: the start `S` becomes an occupied tile `O`. */
  function Plant(c: char): (r: char)
    ensures r == (if c == 'S' then 'O' else c)
    ensures r != 'S' && (r == '#' <==> c == '#')
  {
    if c == 'S' then 'O' else c
  }

  /** The garden as `run` parses it, with `Plant` applied to every cell. */
  function Garden(g: Grid<char>): (r: Grid<char>)
    ensures r.dimensions == g.dimensions && (g.Valid() ==> r.Valid())
    ensures forall x: nat, y: nat | g.Has(x, y) :: r.Has(x, y) && At(r, x, y) == Plant(At(g, x, y))
  {
    Grid(g.dimensions, seq(|g.rows|, j requires 0 <= j < |g.rows| =>
      seq(|g.rows[j]|, i requires 0 <= i < |g.rows[j]| => Plant(g.rows[j][i]))))
  }

  predicate InBox(g: Grid<char>, c: Cell)
  {
    c.0 < g.Width() && c.1 < g.Height()
  }

  /** A tile inside the garden that is not a rock. */
  predicate Open(g: Grid<char>, c: Cell)
  {
    g.Valid() && InBox(g, c) && At(g, c.0, c.1) != '#'
  }

  /** The search starts from `(width / 2, height / 2)`. */
  function Centre(g: Grid<char>): Cell
  {
    (g.Width() / 2, g.Height() / 2)
  }

  // ---------------------------------------------------------------------------
  // Neighbours.

  /** `(nx, ny)` if it lies inside a `w` by `h` grid: the program's bounds test on the
      signed coordinates. */
  function Probe(nx: int, ny: int, w: nat, h: nat): (r: seq<Cell>)
    ensures |r| <= 1
  {
    if 0 <= nx < w && 0 <= ny < h then [(nx, ny)] else []
  }

  /** The in-bounds neighbours, in the program's order of offsets: (−1, 0), (0, −1),
      (0, 1), (1, 0). */
  function Neighbours(c: Cell, w: nat, h: nat): seq<Cell>
  {
    Probe(c.0 - 1, c.1, w, h) + Probe(c.0, c.1 - 1, w, h) +
    Probe(c.0, c.1 + 1, w, h) + Probe(c.0 + 1, c.1, w, h)
  }

  /** Two tiles one orthogonal step apart. */
  predicate Adjacent(a: Cell, b: Cell)
  {
    || (a.0 + 1 == b.0 && a.1 == b.1) || (b.0 + 1 == a.0 && a.1 == b.1)
    || (a.1 + 1 == b.1 && a.0 == b.0) || (b.1 + 1 == a.1 && a.0 == b.0)
  }

  /** The neighbours are exactly the adjacent tiles inside the grid. */
  lemma NeighboursSpec(c: Cell, w: nat, h: nat)
    ensures forall u :: u in Neighbours(c, w, h) <==> u.0 < w && u.1 < h && Adjacent(u, c)
  {
  }

  // ---------------------------------------------------------------------------
  // Walks: the reference meaning of the search and of `step`.

  /** Tile `u` is reached from `s` by a walk of exactly `k` moves over open tiles. */
  ghost predicate ReachIn(g: Grid<char>, s: Cell, u: Cell, k: nat)
    decreases k
  {
    if k == 0 then u == s && Open(g, s)
    else exists p: Cell :: ReachIn(g, s, p, k - 1) && Adjacent(p, u) && Open(g, u)
  }

  ghost predicate Reachable(g: Grid<char>, s: Cell, u: Cell)
  {
    exists k: nat :: ReachIn(g, s, u, k)
  }

  /** `d` is the length of a shortest walk from `s` to `u`. */
  ghost predicate Shortest(g: Grid<char>, s: Cell, u: Cell, d: nat)
  {
    ReachIn(g, s, u, d) && forall j: nat | j < d :: !ReachIn(g, s, u, j)
  }

  lemma ReachOpen(g: Grid<char>, s: Cell, u: Cell, k: nat)
    requires ReachIn(g, s, u, k)
    ensures Open(g, u)
  {
  }

  lemma ShortestUnique(g: Grid<char>, s: Cell, u: Cell, d: nat, e: nat)
    requires Shortest(g, s, u, d) && Shortest(g, s, u, e)
    ensures d == e
  {
  }

  /** The tile one move before `u` on a walk of `k` moves. */
  lemma Before(g: Grid<char>, s: Cell, u: Cell, k: nat) returns (p: Cell)
    requires k > 0 && ReachIn(g, s, u, k)
    ensures ReachIn(g, s, p, k - 1) && Adjacent(p, u) && Open(g, u) && Open(g, p)
  {
    p :| ReachIn(g, s, p, k - 1) && Adjacent(p, u) && Open(g, u);
    ReachOpen(g, s, p, k - 1);
  }

  lemma ReachNext(g: Grid<char>, s: Cell, p: Cell, u: Cell, k: nat)
    requires ReachIn(g, s, p, k) && Adjacent(p, u) && Open(g, u)
    ensures ReachIn(g, s, u, k + 1)
  {
  }

  // ---------------------------------------------------------------------------
  // The distance grid.

  /** The tile has been given a distance. */
  predicate IsSet(dist: Grid<int>, c: Cell)
    requires dist.Has(c.0, c.1)
  {
    At(dist, c.0, c.1) != -1
  }

  predicate SameBox(g: Grid<char>, dist: Grid<int>)
  {
    g.Valid() && dist.Valid() && dist.dimensions == g.dimensions && g.Width() > 0 && g.Height() > 0
  }

  ghost function AllCells(w: nat, h: nat): set<Cell>
  {
    set x: nat, y: nat | x < w && y < h :: (x, y)
  }

  ghost function RowCells(w: nat, y: nat): set<Cell>
  {
    set x: nat | x < w :: (x, y)
  }

  lemma {:induction false} RowCellsCard(w: nat, y: nat)
    ensures |RowCells(w, y)| == w
  {
    if w > 0 {
      RowCellsCard(w - 1, y);
      assert RowCells(w, y) == RowCells(w - 1, y) + {(w - 1, y)};
      assert (w - 1, y) !in RowCells(w - 1, y);
    } else {
      assert RowCells(w, y) == {};
    }
  }

  /** A `w` by `h` grid has `w * h` tiles. */
  lemma {:induction false} AllCellsCard(w: nat, h: nat)
    ensures |AllCells(w, h)| == w * h
  {
    if h > 0 {
      AllCellsCard(w, h - 1);
      RowCellsCard(w, h - 1);
      AllCellsSplit(w, h);
      var n, m := |AllCells(w, h - 1)|, |RowCells(w, h - 1)|;
      assert |AllCells(w, h)| == n + m;
      assert w * h == w * (h - 1) + w by {
        assert w * h == w * ((h - 1) + 1);
      }
    } else {
      assert AllCells(w, h) == {};
    }
  }

  /** The tiles of a grid are those of the rows above the last, and those of the last. */
  lemma AllCellsSplit(w: nat, h: nat)
    requires h > 0
    ensures AllCells(w, h) == AllCells(w, h - 1) + RowCells(w, h - 1)
    ensures AllCells(w, h - 1) * RowCells(w, h - 1) == {}
  {
    var lower, row := AllCells(w, h - 1), RowCells(w, h - 1);
    forall c | c in AllCells(w, h)
      ensures c in lower + row
    {
      if c.1 < h - 1 {
        assert c in lower;
      } else {
        assert c in row;
      }
    }
    assert forall c | c in lower :: c.1 < h - 1;
    assert forall c | c in row :: c.1 == h - 1;
  }

  /** The tiles given a distance so far. */
  ghost function Seen(dist: Grid<int>): set<Cell>
  {
    set c | c in AllCells(dist.Width(), dist.Height()) && dist.Has(c.0, c.1) && IsSet(dist, c)
  }

  /** The tiles still without a distance: the search measure. */
  ghost function Unseen(dist: Grid<int>): set<Cell>
  {
    set c | c in AllCells(dist.Width(), dist.Height()) && dist.Has(c.0, c.1) && !IsSet(dist, c)
  }

  // ---------------------------------------------------------------------------
  // The search invariant.

  /** Each tile with a distance holds the length of a shortest walk to it. */
  ghost predicate DistSound(g: Grid<char>, s: Cell, dist: Grid<int>)
    requires SameBox(g, dist)
  {
    forall c: Cell | InBox(g, c) && IsSet(dist, c) :: At(dist, c.0, c.1) >= 0 && Shortest(g, s, c, At(dist, c.0, c.1))
  }

  /** Each queued tile is inside the grid and, unless it is a rock, reachable in its
      queued number of moves. */
  ghost predicate QueueSound(g: Grid<char>, s: Cell, q: seq<Entry>)
  {
    forall i | 0 <= i < |q| :: InBox(g, (q[i].x, q[i].y)) && (Open(g, (q[i].x, q[i].y)) ==> ReachIn(g, s, (q[i].x, q[i].y), q[i].d))
  }

  /** `u` waits in the queue with distance `d`. */
  predicate Queued(q: seq<Entry>, u: Cell, d: int)
  {
    d >= 0 && Entry(u.0, u.1, d) in q
  }

  /** Every open neighbour of a tile with a distance has a distance or waits in the
      queue with one more. */
  ghost predicate Closed(g: Grid<char>, dist: Grid<int>, q: seq<Entry>)
    requires SameBox(g, dist)
  {
    forall c: Cell, u: Cell | Adjacent(c, u) && InBox(g, c) && IsSet(dist, c) && Open(g, u) ::
      IsSet(dist, u) || Queued(q, u, At(dist, c.0, c.1) + 1)
  }

  /** The queue's distances never fall and span at most one. */
  ghost predicate Ordered(q: seq<Entry>)
  {
    && (forall i, j | 0 <= i <= j < |q| :: q[i].d <= q[j].d)
    && (q != [] ==> q[|q| - 1].d <= q[0].d + 1)
  }

  /** Every tile reachable in fewer moves than the head's distance has a distance. */
  ghost predicate Frontier(g: Grid<char>, s: Cell, dist: Grid<int>, q: seq<Entry>)
    requires SameBox(g, dist)
  {
    q != [] ==> forall u: Cell, j: nat | j < q[0].d && ReachIn(g, s, u, j) :: InBox(g, u) && IsSet(dist, u)
  }

  /** No queued distance exceeds the number of tiles given a distance. */
  ghost predicate Counted(dist: Grid<int>, q: seq<Entry>)
  {
    forall i | 0 <= i < |q| :: q[i].d <= |Seen(dist)|
  }

  ghost predicate Inv(g: Grid<char>, dist: Grid<int>, q: seq<Entry>)
  {
    && SameBox(g, dist)
    && DistSound(g, Centre(g), dist) && QueueSound(g, Centre(g), q) && Closed(g, dist, q)
    && (Open(g, Centre(g)) ==> IsSet(dist, Centre(g)) || Entry(Centre(g).0, Centre(g).1, 0) in q)
    && Ordered(q) && Frontier(g, Centre(g), dist, q) && Counted(dist, q)
  }

  // ---------------------------------------------------------------------------
  // The search.

  /** The entries pushed after tile `c` gets distance `d`: each in-bounds neighbour that
      still has no distance and is not a rock, at distance `d + 1`. */
  function Pushes(g: Grid<char>, dist: Grid<int>, us: seq<Cell>, d: nat): (r: seq<Entry>)
    requires SameBox(g, dist) && forall u | u in us :: InBox(g, u)
    ensures forall i | 0 <= i < |r| ::
      r[i].d == d + 1 && (r[i].x, r[i].y) in us && Open(g, (r[i].x, r[i].y)) && !IsSet(dist, (r[i].x, r[i].y))
    ensures forall u | u in us && Open(g, u) && !IsSet(dist, u) :: Entry(u.0, u.1, d + 1) in r
  {
    if us == [] then []
    else
      var u := us[0];
      assert InBox(g, u) && dist.Has(u.0, u.1);
      var rest := Pushes(g, dist, us[1..], d);
      if At(dist, u.0, u.1) == -1 && At(g, u.0, u.1) != '#' then [Entry(u.0, u.1, d + 1)] + rest
      else rest
  }

  /** The search in `run`: the distance of every tile from the centre, −1 for tiles no
      walk reaches (rocks among them). Distances are stored in `i16`, which the bound on
      the number of tiles keeps exact. */
  method MinDistances(g: Grid<char>) returns (dist: Grid<int>)
    requires g.Valid() && g.Width() > 0 && g.Height() > 0 && g.Width() * g.Height() <= 32768
    ensures SameBox(g, dist)
    ensures forall c: Cell | InBox(g, c) :: At(dist, c.0, c.1) == -1 <==> !Reachable(g, Centre(g), c)
    ensures forall c: Cell | InBox(g, c) && At(dist, c.0, c.1) != -1 ::
      At(dist, c.0, c.1) >= 0 && Shortest(g, Centre(g), c, At(dist, c.0, c.1))
    ensures forall c: Cell | InBox(g, c) && !Open(g, c) :: At(dist, c.0, c.1) == -1
  {
    var w, h := g.Width(), g.Height();
    dist := New(-1, w, h);
    var q := [Entry(w / 2, h / 2, 0)];
    Init(g, dist);
    while q != []
      invariant Inv(g, dist, q)
      decreases Unseen(dist), |q|
    {
      dist, q := Visit(g, dist, q);
    }
    Finish(g, dist);
  }

  /** One round of the search loop: pop the head; skip it if its tile already has a
      distance or is a rock; otherwise record the distance and push its open neighbours
      that still have none. */
  method Visit(g: Grid<char>, dist: Grid<int>, q: seq<Entry>) returns (dist': Grid<int>, q': seq<Entry>)
    requires Inv(g, dist, q) && q != [] && g.Width() * g.Height() <= 32768
    ensures Inv(g, dist', q')
    ensures Unseen(dist') < Unseen(dist) || (Unseen(dist') == Unseen(dist) && |q'| < |q|)
  {
    var e := q[0];
    if At(dist, e.x, e.y) != -1 || At(g, e.x, e.y) == '#' {
      dist', q' := dist, q[1..];
      SkipKeeps(g, dist, q, q');
    } else {
      assert e.d <= 32767 by { DistanceFits(g, dist, q); }
      dist' := Set(dist, e.x, e.y, e.d);
      var ns := Neighbours((e.x, e.y), g.Width(), g.Height());
      NeighboursSpec((e.x, e.y), g.Width(), g.Height());
      q' := q[1..] + Pushes(g, dist', ns, e.d);
      assert SetStep(g, dist, q, dist', ns, q');
      SetKeeps(g, dist, q, dist', ns, q');
    }
  }

  /** A distance recorded for a tile without one is below the number of tiles. */
  lemma DistanceFits(g: Grid<char>, dist: Grid<int>, q: seq<Entry>)
    requires Inv(g, dist, q) && q != [] && InBox(g, (q[0].x, q[0].y)) && !IsSet(dist, (q[0].x, q[0].y))
    ensures q[0].d < g.Width() * g.Height()
  {
    var c := (q[0].x, q[0].y);
    assert SameBox(g, dist) && Counted(dist, q);
    var all := AllCells(g.Width(), g.Height());
    assert c in all by {
      assert InBox(g, c);
      assert c == (c.0, c.1);
    }
    assert c !in Seen(dist);
    assert Seen(dist) <= all;
    SubsetSmaller(Seen(dist), all, c);
    AllCellsCard(g.Width(), g.Height());
  }

  lemma Init(g: Grid<char>, dist: Grid<int>)
    requires g.Valid() && g.Width() > 0 && g.Height() > 0 && dist == New(-1, g.Width(), g.Height())
    ensures Inv(g, dist, [Entry(g.Width() / 2, g.Height() / 2, 0)])
  {
    forall c: Cell | InBox(g, c)
      ensures !IsSet(dist, c)
    {
      assert At(dist, c.0, c.1) == -1;
    }
  }

  /** Once the queue is empty, every reachable tile has a distance. */
  lemma {:induction false} Complete(g: Grid<char>, s: Cell, dist: Grid<int>, k: nat)
    requires SameBox(g, dist) && Closed(g, dist, []) && (Open(g, s) ==> IsSet(dist, s))
    ensures forall u: Cell | ReachIn(g, s, u, k) :: InBox(g, u) && IsSet(dist, u)
    decreases k
  {
    if k > 0 {
      Complete(g, s, dist, k - 1);
      forall u: Cell | ReachIn(g, s, u, k)
        ensures InBox(g, u) && IsSet(dist, u)
      {
        var p := Before(g, s, u, k);
        assert !Queued([], u, At(dist, p.0, p.1) + 1);
      }
    }
  }

  lemma Finish(g: Grid<char>, dist: Grid<int>)
    requires Inv(g, dist, [])
    ensures forall c: Cell | InBox(g, c) :: At(dist, c.0, c.1) == -1 <==> !Reachable(g, Centre(g), c)
    ensures forall c: Cell | InBox(g, c) && At(dist, c.0, c.1) != -1 ::
      At(dist, c.0, c.1) >= 0 && Shortest(g, Centre(g), c, At(dist, c.0, c.1))
    ensures forall c: Cell | InBox(g, c) && !Open(g, c) :: At(dist, c.0, c.1) == -1
  {
    var s := Centre(g);
    assert SameBox(g, dist) && DistSound(g, s, dist) && Closed(g, dist, []);
    forall c: Cell | InBox(g, c)
      ensures At(dist, c.0, c.1) == -1 <==> !Reachable(g, s, c)
      ensures At(dist, c.0, c.1) != -1 ==> Open(g, c)
    {
      if Reachable(g, s, c) {
        var k: nat :| ReachIn(g, s, c, k);
        Complete(g, s, dist, k);
      }
      if At(dist, c.0, c.1) != -1 {
        var d: nat := At(dist, c.0, c.1);
        assert Shortest(g, s, c, d);
        ReachOpen(g, s, c, d);
      }
    }
  }

  /** With the queue ordered and its entries sound, tiles reachable in exactly the old
      head's distance have a distance once the head has moved past it. */
  lemma FrontierAdvance(g: Grid<char>, dist: Grid<int>, q: seq<Entry>, dist': Grid<int>, q': seq<Entry>)
    requires Inv(g, dist, q) && q != []
    requires SameBox(g, dist') && DistSound(g, Centre(g), dist') && Closed(g, dist', q') && Ordered(q')
    requires Open(g, Centre(g)) ==> IsSet(dist', Centre(g)) || Entry(Centre(g).0, Centre(g).1, 0) in q'
    requires forall c: Cell | InBox(g, c) && IsSet(dist, c) :: IsSet(dist', c)
    requires q' != [] ==> q[0].d <= q'[0].d <= q[0].d + 1
    ensures Frontier(g, Centre(g), dist', q')
  {
    if q' != [] {
      var m := q[0].d;
      forall u: Cell, j: nat | j < q'[0].d && ReachIn(g, Centre(g), u, j)
        ensures InBox(g, u) && IsSet(dist', u)
      {
        ReachOpen(g, Centre(g), u, j);
        if j < m {
        } else if j == 0 {
          assert u == Centre(g);
        } else {
          var p := Before(g, Centre(g), u, j);
          assert InBox(g, p) && IsSet(dist, p) && IsSet(dist', p);
          var dp := At(dist', p.0, p.1);
          assert dp <= j - 1 by {
            assert Shortest(g, Centre(g), p, dp);
          }
          assert IsSet(dist', u) || Queued(q', u, dp + 1);
        }
      }
    }
  }

  /** Skipping the head keeps the invariant. */
  lemma SkipKeeps(g: Grid<char>, dist: Grid<int>, q: seq<Entry>, q': seq<Entry>)
    requires Inv(g, dist, q) && q != [] && q' == q[1..]
    requires At(dist, q[0].x, q[0].y) != -1 || At(g, q[0].x, q[0].y) == '#'
    ensures Inv(g, dist, q') && |q'| < |q|
  {
    var s := Centre(g);
    assert Closed(g, dist, q) && Ordered(q) && QueueSound(g, s, q) && Counted(dist, q);
    SkipClosed(g, dist, q);
    SkipOrdered(q);
    assert QueueSound(g, s, q') && Counted(dist, q') by {
      forall i | 0 <= i < |q'|
        ensures q'[i] == q[i + 1]
      {
      }
    }
    SkipSource(g, dist, q);
    FrontierAdvance(g, dist, q, dist, q');
  }

  lemma SkipClosed(g: Grid<char>, dist: Grid<int>, q: seq<Entry>)
    requires SameBox(g, dist) && Closed(g, dist, q) && q != [] && InBox(g, (q[0].x, q[0].y))
    requires At(dist, q[0].x, q[0].y) != -1 || At(g, q[0].x, q[0].y) == '#'
    ensures Closed(g, dist, q[1..])
  {
    forall c: Cell, u: Cell | Adjacent(c, u) && InBox(g, c) && IsSet(dist, c) && Open(g, u)
      ensures IsSet(dist, u) || Queued(q[1..], u, At(dist, c.0, c.1) + 1)
    {
      if !IsSet(dist, u) {
        var x := Entry(u.0, u.1, At(dist, c.0, c.1) + 1);
        assert x in q && x != q[0];
        InTail(q, x);
      }
    }
  }

  lemma SkipOrdered(q: seq<Entry>)
    requires Ordered(q) && q != []
    ensures Ordered(q[1..]) && (q[1..] != [] ==> q[0].d <= q[1..][0].d <= q[0].d + 1)
  {
    var q' := q[1..];
    forall i, j | 0 <= i <= j < |q'|
      ensures q'[i].d <= q'[j].d
    {
      assert q'[i] == q[i + 1] && q'[j] == q[j + 1];
    }
    if q' != [] {
      assert q'[0] == q[1] && q'[|q'| - 1] == q[|q| - 1];
    }
  }

  lemma SkipSource(g: Grid<char>, dist: Grid<int>, q: seq<Entry>)
    requires SameBox(g, dist) && q != [] && InBox(g, (q[0].x, q[0].y))
    requires At(dist, q[0].x, q[0].y) != -1 || At(g, q[0].x, q[0].y) == '#'
    requires Open(g, Centre(g)) ==> IsSet(dist, Centre(g)) || Entry(Centre(g).0, Centre(g).1, 0) in q
    ensures Open(g, Centre(g)) ==> IsSet(dist, Centre(g)) || Entry(Centre(g).0, Centre(g).1, 0) in q[1..]
  {
    var s := Centre(g);
    if Open(g, s) && !IsSet(dist, s) {
      InTail(q, Entry(s.0, s.1, 0));
    }
  }

  /** The step `Visit` takes when the head's tile is open and has no distance yet:
      `ns` holds the tile's neighbours, `dist'` records the head's distance and `q'`
      holds the tail of the queue followed by the pushed entries. */
  ghost predicate SetStep(g: Grid<char>, dist: Grid<int>, q: seq<Entry>, dist': Grid<int>, ns: seq<Cell>, q': seq<Entry>)
  {
    && q != [] && SameBox(g, dist) && InBox(g, (q[0].x, q[0].y))
    && At(dist, q[0].x, q[0].y) == -1 && At(g, q[0].x, q[0].y) != '#'
    && dist' == Set(dist, q[0].x, q[0].y, q[0].d)
    && (forall u :: u in ns <==> InBox(g, u) && Adjacent(u, (q[0].x, q[0].y)))
    && q' == q[1..] + Pushes(g, dist', ns, q[0].d)
  }

  /** Recording the head's distance and pushing its neighbours keeps the invariant and
      shrinks the set of tiles without a distance. */
  lemma SetKeeps(g: Grid<char>, dist: Grid<int>, q: seq<Entry>, dist': Grid<int>, ns: seq<Cell>, q': seq<Entry>)
    requires Inv(g, dist, q) && SetStep(g, dist, q, dist', ns, q')
    ensures Inv(g, dist', q') && Unseen(dist') < Unseen(dist)
  {
    var s := Centre(g);
    assert QueueSound(g, s, q) && DistSound(g, s, dist) && Frontier(g, s, dist, q);
    assert Closed(g, dist, q) && Ordered(q) && Counted(dist, q);
    SetChanged(g, dist, q, dist', ns, q');
    SetDistSound(g, dist, q, dist', ns, q');
    SetQueueSound(g, dist, q, dist', ns, q');
    SetClosed(g, dist, q, dist', ns, q');
    SetOrdered(g, dist, q, dist', ns, q');
    SetSeen(g, dist, q, dist', ns, q');
    SetCounted(g, dist, q, dist', ns, q');
    SetSource(g, dist, q, dist', ns, q');
    FrontierAdvance(g, dist, q, dist', q');
  }

  /** Writing the head's distance sets exactly the head's tile in addition. */
  lemma SetChanged(g: Grid<char>, dist: Grid<int>, q: seq<Entry>, dist': Grid<int>, ns: seq<Cell>, q': seq<Entry>)
    requires SetStep(g, dist, q, dist', ns, q')
    ensures SameBox(g, dist') && At(dist', q[0].x, q[0].y) == q[0].d
    ensures forall u: Cell | InBox(g, u) && u != (q[0].x, q[0].y) :: At(dist', u.0, u.1) == At(dist, u.0, u.1)
    ensures forall u: Cell | InBox(g, u) :: IsSet(dist', u) <==> IsSet(dist, u) || u == (q[0].x, q[0].y)
  {
  }

  lemma SetDistSound(g: Grid<char>, dist: Grid<int>, q: seq<Entry>, dist': Grid<int>, ns: seq<Cell>, q': seq<Entry>)
    requires SetStep(g, dist, q, dist', ns, q')
    requires QueueSound(g, Centre(g), q) && DistSound(g, Centre(g), dist) && Frontier(g, Centre(g), dist, q)
    ensures SameBox(g, dist') && DistSound(g, Centre(g), dist')
  {
    var s, c, d := Centre(g), (q[0].x, q[0].y), q[0].d;
    SetChanged(g, dist, q, dist', ns, q');
    assert ReachIn(g, s, c, d);
    assert Shortest(g, s, c, d);
    forall u: Cell | InBox(g, u) && IsSet(dist', u)
      ensures At(dist', u.0, u.1) >= 0 && Shortest(g, s, u, At(dist', u.0, u.1))
    {
      if u != c {
        assert IsSet(dist, u);
      }
    }
  }

  lemma SetQueueSound(g: Grid<char>, dist: Grid<int>, q: seq<Entry>, dist': Grid<int>, ns: seq<Cell>, q': seq<Entry>)
    requires SetStep(g, dist, q, dist', ns, q') && QueueSound(g, Centre(g), q)
    ensures QueueSound(g, Centre(g), q')
  {
    var s, c, d := Centre(g), (q[0].x, q[0].y), q[0].d;
    SetChanged(g, dist, q, dist', ns, q');
    var pushed := Pushes(g, dist', ns, d);
    var rest := q[1..];
    assert ReachIn(g, s, c, d);
    forall i | 0 <= i < |q'|
      ensures InBox(g, (q'[i].x, q'[i].y)) &&
        (Open(g, (q'[i].x, q'[i].y)) ==> ReachIn(g, s, (q'[i].x, q'[i].y), q'[i].d))
    {
      if i >= |rest| {
        assert q'[i] == pushed[i - |rest|];
        assert (q'[i].x, q'[i].y) in ns;
        ReachNext(g, s, c, (q'[i].x, q'[i].y), d);
      } else {
        assert q'[i] == q[i + 1];
      }
    }
  }

  lemma SetClosed(g: Grid<char>, dist: Grid<int>, q: seq<Entry>, dist': Grid<int>, ns: seq<Cell>, q': seq<Entry>)
    requires SetStep(g, dist, q, dist', ns, q') && Closed(g, dist, q)
    ensures SameBox(g, dist') && Closed(g, dist', q')
  {
    var c, d := (q[0].x, q[0].y), q[0].d;
    SetChanged(g, dist, q, dist', ns, q');
    var pushed := Pushes(g, dist', ns, d);
    forall v: Cell, u: Cell | Adjacent(v, u) && InBox(g, v) && IsSet(dist', v) && Open(g, u)
      ensures IsSet(dist', u) || Queued(q', u, At(dist', v.0, v.1) + 1)
    {
      if !IsSet(dist', u) {
        if v == c {
          assert u in ns;
          assert Entry(u.0, u.1, d + 1) in pushed;
        } else {
          assert IsSet(dist, v) && At(dist', v.0, v.1) == At(dist, v.0, v.1);
          assert Queued(q, u, At(dist, v.0, v.1) + 1);
          var x := Entry(u.0, u.1, At(dist, v.0, v.1) + 1);
          assert x != q[0];
          InTail(q, x);
        }
      }
    }
  }

  lemma SetOrdered(g: Grid<char>, dist: Grid<int>, q: seq<Entry>, dist': Grid<int>, ns: seq<Cell>, q': seq<Entry>)
    requires SetStep(g, dist, q, dist', ns, q') && Ordered(q)
    ensures Ordered(q') && (q' != [] ==> q[0].d <= q'[0].d <= q[0].d + 1)
  {
    var d := q[0].d;
    SetChanged(g, dist, q, dist', ns, q');
    var pushed := Pushes(g, dist', ns, d);
    var rest := q[1..];
    forall i, j | 0 <= i <= j < |q'|
      ensures q'[i].d <= q'[j].d
    {
      if j < |rest| {
        assert q'[i] == q[i + 1] && q'[j] == q[j + 1];
      } else if i < |rest| {
        assert q'[i] == q[i + 1] && q'[i].d <= q[|q| - 1].d;
        assert q'[j] == pushed[j - |rest|];
      } else {
        assert q'[i] == pushed[i - |rest|] && q'[j] == pushed[j - |rest|];
      }
    }
    if q' != [] {
      if rest != [] {
        assert q'[0] == q[1];
      } else {
        assert q'[0] == pushed[0];
      }
      if |q'| > |rest| {
        assert q'[|q'| - 1] == pushed[|pushed| - 1];
      } else {
        assert q'[|q'| - 1] == q[|q| - 1];
      }
    }
  }

  /** Setting the head's tile moves it from `Unseen` to `Seen`. */
  lemma SetSeen(g: Grid<char>, dist: Grid<int>, q: seq<Entry>, dist': Grid<int>, ns: seq<Cell>, q': seq<Entry>)
    requires SetStep(g, dist, q, dist', ns, q')
    ensures |Seen(dist')| == |Seen(dist)| + 1 && Unseen(dist') < Unseen(dist)
  {
    var c := (q[0].x, q[0].y);
    SetChanged(g, dist, q, dist', ns, q');
    assert c in AllCells(g.Width(), g.Height()) by {
      assert c == (c.0, c.1);
    }
    assert Seen(dist') == Seen(dist) + {c};
    assert c !in Seen(dist);
    assert c in Unseen(dist) && c !in Unseen(dist');
    assert Unseen(dist') <= Unseen(dist);
  }

  lemma SetCounted(g: Grid<char>, dist: Grid<int>, q: seq<Entry>, dist': Grid<int>, ns: seq<Cell>, q': seq<Entry>)
    requires SetStep(g, dist, q, dist', ns, q') && Counted(dist, q)
    ensures Counted(dist', q')
  {
    var d := q[0].d;
    SetSeen(g, dist, q, dist', ns, q');
    var pushed := Pushes(g, dist', ns, d);
    var rest := q[1..];
    forall i | 0 <= i < |q'|
      ensures q'[i].d <= |Seen(dist')|
    {
      if i < |rest| {
        assert q'[i] == q[i + 1];
      } else {
        assert q'[i] == pushed[i - |rest|];
      }
    }
  }

  lemma SetSource(g: Grid<char>, dist: Grid<int>, q: seq<Entry>, dist': Grid<int>, ns: seq<Cell>, q': seq<Entry>)
    requires SetStep(g, dist, q, dist', ns, q')
    requires Open(g, Centre(g)) ==> IsSet(dist, Centre(g)) || Entry(Centre(g).0, Centre(g).1, 0) in q
    ensures SameBox(g, dist')
    ensures Open(g, Centre(g)) ==> IsSet(dist', Centre(g)) || Entry(Centre(g).0, Centre(g).1, 0) in q'
  {
    var s := Centre(g);
    SetChanged(g, dist, q, dist', ns, q');
    if Open(g, s) && !IsSet(dist', s) {
      assert Entry(s.0, s.1, 0) in q && q[0] != Entry(s.0, s.1, 0);
      InTail(q, Entry(s.0, s.1, 0));
    }
  }

  /** An element of a sequence other than its head lies in its tail. */
  lemma InTail<T>(q: seq<T>, x: T)
    requires q != [] && x in q && x != q[0]
    ensures x in q[1..]
  {
    var i :| 0 <= i < |q| && q[i] == x;
    assert q[1..][i - 1] == x;
  }

  // ---------------------------------------------------------------------------
  // Counting by distance.

  /** What `MinDistances` guarantees about its result. */
  ghost predicate Distances(g: Grid<char>, dist: Grid<int>)
  {
    && SameBox(g, dist)
    && (forall c: Cell | InBox(g, c) :: At(dist, c.0, c.1) == -1 <==> !Reachable(g, Centre(g), c))
    && (forall c: Cell | InBox(g, c) && At(dist, c.0, c.1) != -1 ::
          At(dist, c.0, c.1) >= 0 && Shortest(g, Centre(g), c, At(dist, c.0, c.1)))
  }

  /** The shortest distance from `s` to `c` exists and satisfies `p`. */
  ghost predicate HasShortest(g: Grid<char>, s: Cell, c: Cell, p: int -> bool)
  {
    exists d: nat :: Shortest(g, s, c, d) && p(d)
  }

  /** Counting the distance grid's cells through a filter that rejects −1 counts the
      tiles whose shortest distance from the centre passes the filter. */
  lemma CountByDistance(g: Grid<char>, dist: Grid<int>, p: int -> bool)
    requires Distances(g, dist) && !p(-1)
    ensures CountIf(Iter(dist), p) == CountCells(g.Width(), g.Height(), (x: nat, y: nat) => HasShortest(g, Centre(g), (x, y), p))
  {
    var q := (x: nat, y: nat) => HasShortest(g, Centre(g), (x, y), p);
    assert forall x: nat, y: nat | x < dist.Width() && y < dist.Height() :: p(At(dist, x, y)) == q(x, y) by {
      forall x: nat, y: nat | x < dist.Width() && y < dist.Height()
        ensures p(At(dist, x, y)) == q(x, y)
      {
        DistanceMeans(g, dist, p, (x, y));
      }
    }
    CountIter(dist, p, q);
  }

  /** A tile's entry passes a filter rejecting −1 exactly when its shortest distance
      exists and passes it. */
  lemma DistanceMeans(g: Grid<char>, dist: Grid<int>, p: int -> bool, c: Cell)
    requires Distances(g, dist) && !p(-1) && InBox(g, c)
    ensures p(At(dist, c.0, c.1)) == HasShortest(g, Centre(g), c, p)
  {
    var d := At(dist, c.0, c.1);
    if HasShortest(g, Centre(g), c, p) {
      var e: nat :| Shortest(g, Centre(g), c, e) && p(e);
      assert Reachable(g, Centre(g), c);
      ShortestUnique(g, Centre(g), c, d, e);
    } else if d != -1 {
      assert Shortest(g, Centre(g), c, d);
    }
  }

  // ---------------------------------------------------------------------------
  // The two parts.

  /** The filter of part 1: a distance that is set, even and at most 64. */
  predicate EvenWithin64(d: int)
  {
    d != -1 && d <= 64 && d % 2 == 0
  }

  const Steps: nat := 26501365

  /** Rust's `%` on signed integers: the remainder takes the sign of the dividend. */
  function Rem(a: int, m: nat): (r: int)
    requires m > 0
    ensures a >= 0 ==> r == a % m
    ensures a < 0 ==> r <= 0
    ensures r < m && r + m > 0
  {
    if a >= 0 then a % m else -((-a) % m)
  }

  /** The filters of part 2: set distances of each parity, and distances of each
      parity beyond `extra` (the four corner pieces). */
  predicate FullOdd(d: int) { d != -1 && Rem(d, 2) == 1 }
  predicate FullEven(d: int) { d != -1 && Rem(d, 2) == 0 }
  function CornersOdd(extra: nat): int -> bool { d => Rem(d, 2) == 1 && d > extra }
  function CornersEven(extra: nat): int -> bool { d => Rem(d, 2) == 0 && d > extra }

  /** The part 2 formula in `u64`, evaluated left to right; `None` where an intermediate
      result would leave the `u64` range, which panics. */
  function Formula(wt: nat, fullOdd: nat, fullEven: nat, cornersOdd: nat, cornersEven: nat): (r: Option<nat>)
    ensures r.Some? ==> r.value <= U64_MAX
    ensures r.Some? ==>
      r.value == (wt + 1) * (wt + 1) * fullOdd + wt * wt * fullEven - (wt + 1) * cornersOdd + wt * cornersEven - wt
  {
    var a := (wt + 1) * (wt + 1) * fullOdd;
    var b := wt * wt * fullEven;
    var c := (wt + 1) * cornersOdd;
    var e := wt * cornersEven;
    if (wt + 1) * (wt + 1) > U64_MAX || a > U64_MAX || wt * wt > U64_MAX || b > U64_MAX then None
    else if a + b > U64_MAX || c > U64_MAX || a + b < c then None
    else if e > U64_MAX || a + b - c + e > U64_MAX || a + b - c + e < wt then None
    else Some(a + b - c + e - wt)
  }

  /** The formula cannot underflow when there is at least one odd tile and no more odd
      corner tiles than odd tiles, and at least one even corner tile; it then has a
      value whenever the sum of its positive terms fits in `u64`. */
  lemma FormulaDefined(wt: nat, fullOdd: nat, fullEven: nat, cornersOdd: nat, cornersEven: nat)
    requires 1 <= fullOdd && cornersOdd <= fullOdd && 1 <= cornersEven
    requires (wt + 1) * (wt + 1) * fullOdd + wt * wt * fullEven + wt * cornersEven <= U64_MAX
    ensures Formula(wt, fullOdd, fullEven, cornersOdd, cornersEven).Some?
  {
    var sq: nat, sq': nat := (wt + 1) * (wt + 1), wt * wt;
    var a: nat, b: nat := sq * fullOdd, sq' * fullEven;
    var c: nat, e: nat := (wt + 1) * cornersOdd, wt * cornersEven;
    assert c <= a by {
      MulMono(wt + 1, cornersOdd, sq, fullOdd);
    }
    assert wt <= e by {
      MulMono(wt, 1, wt, cornersEven);
    }
    assert sq' <= sq by {
      MulMono(wt, wt, wt + 1, wt + 1);
    }
    assert sq <= a by {
      MulMono(sq, 1, sq, fullOdd);
    }
    assert sq <= U64_MAX && a <= U64_MAX && sq' <= U64_MAX && b <= U64_MAX;
    assert a + b <= U64_MAX && c <= U64_MAX && c <= a + b;
    assert e <= U64_MAX && a + b - c + e <= U64_MAX && wt <= a + b - c + e;
  }

  /** `run`: part 1 counts the tiles whose shortest distance from the centre is even and
      at most 64; part 2 checks that the garden's width leaves 65 extra steps (the
      program asserts it), and combines the per-parity counts of full tiles and corner
      pieces in the formula for `width_tiles` copies of the garden in each direction. */
  method Run(input: string) returns (p1: nat, p2: Option<nat>)
    requires input != [] && Parse(input).Valid()
    requires Parse(input).Width() > 0 && Parse(input).Height() > 0
    requires Parse(input).Width() * Parse(input).Height() <= 32768
    requires Steps % Parse(input).Width() == 65
    ensures var g := Garden(Parse(input));
      p1 == CountCells(g.Width(), g.Height(), (x: nat, y: nat) => HasShortest(g, Centre(g), (x, y), EvenWithin64))
    ensures var g := Garden(Parse(input)); var wt := (Steps - 65) / g.Width();
      p2 == Formula(wt,
        CountCells(g.Width(), g.Height(), (x: nat, y: nat) => HasShortest(g, Centre(g), (x, y), FullOdd)),
        CountCells(g.Width(), g.Height(), (x: nat, y: nat) => HasShortest(g, Centre(g), (x, y), FullEven)),
        CountCells(g.Width(), g.Height(), (x: nat, y: nat) => HasShortest(g, Centre(g), (x, y), CornersOdd(65))),
        CountCells(g.Width(), g.Height(), (x: nat, y: nat) => HasShortest(g, Centre(g), (x, y), CornersEven(65))))
  {
    var g := Garden(Parse(input));
    var extra := Steps % g.Width();
    assert extra == 65;
    var wt: nat := (Steps - extra) / g.Width();
    var dist := MinDistances(g);
    var cells := Iter(dist);
    p1 := CountIf(cells, EvenWithin64);
    CountByDistance(g, dist, EvenWithin64);
    CountByDistance(g, dist, FullOdd);
    CountByDistance(g, dist, FullEven);
    CountByDistance(g, dist, CornersOdd(extra));
    CountByDistance(g, dist, CornersEven(extra));
    p2 := Formula(wt, CountIf(cells, FullOdd), CountIf(cells, FullEven),
                  CountIf(cells, CornersOdd(extra)), CountIf(cells, CornersEven(extra)));
  }

  // ---------------------------------------------------------------------------
  // `step`.

  /** Some in-bounds neighbour of `c` is occupied. */
  ghost predicate NextToO(from: Grid<char>, c: Cell)
    requires from.Valid()
  {
    exists u: Cell | u.0 < from.Width() && u.1 < from.Height() && Adjacent(u, c) :: At(from, u.0, u.1) == 'O'
  }

  /** `step`: rocks stay; every other tile becomes `O` exactly when a neighbour was `O`
      in `from`, and `.` otherwise. */
  method Step(from: Grid<char>) returns (to: Grid<char>)
    requires from.Valid()
    ensures to.Valid() && to.dimensions == from.dimensions
    ensures forall x: nat, y: nat | x < from.Width() && y < from.Height() ::
      At(to, x, y) == (if At(from, x, y) == '#' then '#' else if NextToO(from, (x, y)) then 'O' else '.')
  {
    var w, h := from.Width(), from.Height();
    to := from;
    var y := 0;
    while y < h
      invariant y <= h && to.Valid() && to.dimensions == from.dimensions
      invariant forall i: nat, j: nat | i < w && j < h ::
        At(to, i, j) == (if j < y then StepCell(from, (i, j)) else At(from, i, j))
    {
      var x := 0;
      while x < w
        invariant x <= w && to.Valid() && to.dimensions == from.dimensions
        invariant forall i: nat, j: nat | i < w && j < h ::
          At(to, i, j) == (if j < y || (j == y && i < x) then StepCell(from, (i, j)) else At(from, i, j))
      {
        if At(to, x, y) != '#' {
          var occupied := Occupied(from, x, y);
          to := Set(to, x, y, if occupied then 'O' else '.');
        }
        x := x + 1;
      }
      y := y + 1;
    }
  }

  /** The inner loop of `step`: scan the neighbours in order and stop at the first `O`. */
  method Occupied(from: Grid<char>, x: nat, y: nat) returns (b: bool)
    requires from.Valid() && x < from.Width() && y < from.Height()
    ensures b == NextToO(from, (x, y))
  {
    var ns := Neighbours((x, y), from.Width(), from.Height());
    NeighboursSpec((x, y), from.Width(), from.Height());
    var k := 0;
    b := false;
    while k < |ns|
      invariant k <= |ns|
      invariant forall m | 0 <= m < k :: At(from, ns[m].0, ns[m].1) != 'O'
    {
      if At(from, ns[k].0, ns[k].1) == 'O' {
        b := true;
        return;
      }
      k := k + 1;
    }
    forall u: Cell | u.0 < from.Width() && u.1 < from.Height() && Adjacent(u, (x, y))
      ensures At(from, u.0, u.1) != 'O'
    {
      assert u in ns;
    }
  }

  /** What `step` writes at tile `c`. */
  ghost function StepCell(from: Grid<char>, c: Cell): char
    requires from.Valid() && c.0 < from.Width() && c.1 < from.Height()
  {
    if At(from, c.0, c.1) == '#' then '#' else if NextToO(from, c) then 'O' else '.'
  }

  /** If the occupied tiles of `from` are exactly those a walk of `n` moves from `s`
      reaches, and `from` has the garden's rocks, then after `step` the occupied tiles
      are exactly those reached by a walk of `n + 1` moves. */
  lemma StepReach(g: Grid<char>, s: Cell, from: Grid<char>, to: Grid<char>, n: nat)
    requires g.Valid() && from.Valid() && from.dimensions == g.dimensions
    requires to.Valid() && to.dimensions == g.dimensions
    requires forall c: Cell | InBox(g, c) :: (At(from, c.0, c.1) == '#') == (At(g, c.0, c.1) == '#')
    requires forall c: Cell | InBox(g, c) :: (At(from, c.0, c.1) == 'O') == ReachIn(g, s, c, n)
    requires forall c: Cell | InBox(g, c) :: At(to, c.0, c.1) == StepCell(from, c)
    ensures forall c: Cell | InBox(g, c) :: (At(to, c.0, c.1) == 'O') == ReachIn(g, s, c, n + 1)
  {
    forall c: Cell | InBox(g, c) && At(to, c.0, c.1) == 'O'
      ensures ReachIn(g, s, c, n + 1)
    {
      var u: Cell :| u.0 < g.Width() && u.1 < g.Height() && Adjacent(u, c) && At(from, u.0, u.1) == 'O';
      ReachNext(g, s, u, c, n);
    }
    StepBack(g, s, from, to, n);
  }

  /** Every tile a walk of `n + 1` moves reaches is occupied after `step`. */
  lemma StepBack(g: Grid<char>, s: Cell, from: Grid<char>, to: Grid<char>, n: nat)
    requires g.Valid() && from.Valid() && from.dimensions == g.dimensions
    requires to.Valid() && to.dimensions == g.dimensions
    requires forall c: Cell | InBox(g, c) :: (At(from, c.0, c.1) == '#') == (At(g, c.0, c.1) == '#')
    requires forall c: Cell | InBox(g, c) :: (At(from, c.0, c.1) == 'O') == ReachIn(g, s, c, n)
    requires forall c: Cell | InBox(g, c) :: At(to, c.0, c.1) == StepCell(from, c)
    ensures forall c: Cell | InBox(g, c) && ReachIn(g, s, c, n + 1) :: At(to, c.0, c.1) == 'O'
  {
    forall c: Cell | InBox(g, c) && ReachIn(g, s, c, n + 1)
      ensures At(to, c.0, c.1) == 'O'
    {
      var p := Before(g, s, c, n + 1);
      assert At(from, c.0, c.1) != '#';
      assert At(from, p.0, p.1) == 'O';
      assert NextToO(from, c);
    }
  }
}

=== FILE: day22.dfy ===
/** Day 22: bricks fall onto a height map, then the support relation between the
    settled bricks decides which bricks can be removed safely (part 1) and how many
    other bricks fall when each one is removed (part 2). */
module Day22 {
  import opened Text
  import opened Grids

  // ---------------------------------------------------------------------------
  // Bricks.

  datatype Point = Point(x: nat, y: nat, z: nat)

  /** A `Tetromino`: the inclusive box between two corners. */
  datatype Brick = Brick(lo: Point, hi: Point)

  /** The order `parse_tet` asserts: the first corner is the low one on every axis. */
  predicate Ordered(t: Brick)
  {
    t.lo.x <= t.hi.x && t.lo.y <= t.hi.y && t.lo.z <= t.hi.z
  }

  /** Every coordinate fits a `u16`. */
  predicate InU16(t: Brick)
  {
    t.hi.x <= U16_MAX && t.hi.y <= U16_MAX && t.hi.z <= U16_MAX
    && t.lo.x <= U16_MAX && t.lo.y <= U16_MAX && t.lo.z <= U16_MAX
  }

  /** `has_block`: the cube at (x, y, z) belongs to the brick. */
  predicate HasBlock(t: Brick, x: nat, y: nat, z: nat)
  {
    t.lo.x <= x <= t.hi.x && t.lo.y <= y <= t.hi.y && t.lo.z <= z <= t.hi.z
  }

  /** The brick's shadow on the floor holds the column (x, y). */
  predicate Covers(t: Brick, x: nat, y: nat)
  {
    t.lo.x <= x <= t.hi.x && t.lo.y <= y <= t.hi.y
  }

  /** A single column of cubes (this includes a single cube). */
  predicate Vertical(t: Brick) { t.lo.x == t.hi.x && t.lo.y == t.hi.y }

  /** A horizontal row of cubes running along the y axis. */
  predicate AlongY(t: Brick) { t.lo.x == t.hi.x && t.lo.z == t.hi.z }

  /** A horizontal row of cubes running along the x axis. */
  predicate AlongX(t: Brick) { t.lo.y == t.hi.y && t.lo.z == t.hi.z }

  /** The three shapes the program knows how to place. */
  predicate Aligned(t: Brick) { Vertical(t) || AlongY(t) || AlongX(t) }

  /** The cubes of an axis-aligned brick, listed from its first corner outwards. */
  function Cubes(t: Brick): (ps: seq<Point>)
    requires Ordered(t) && Aligned(t)
  {
    if Vertical(t) then seq(t.hi.z - t.lo.z + 1, k requires 0 <= k => Point(t.lo.x, t.lo.y, t.lo.z + k))
    else if AlongY(t) then seq(t.hi.y - t.lo.y + 1, k requires 0 <= k => Point(t.lo.x, t.lo.y + k, t.lo.z))
    else seq(t.hi.x - t.lo.x + 1, k requires 0 <= k => Point(t.lo.x + k, t.lo.y, t.lo.z))
  }

  /** `has_block` is exactly membership among the brick's cubes. */
  lemma HasBlockCubes(t: Brick, p: Point)
    requires Ordered(t) && Aligned(t)
    ensures HasBlock(t, p.x, p.y, p.z) <==> p in Cubes(t)
  {
    var cs := Cubes(t);
    if HasBlock(t, p.x, p.y, p.z) {
      if Vertical(t) {
        assert cs[p.z - t.lo.z] == p;
      } else if AlongY(t) {
        assert cs[p.y - t.lo.y] == p;
      } else {
        assert cs[p.x - t.lo.x] == p;
      }
    }
  }

  // ---------------------------------------------------------------------------
  // Parsing.

  /** Three `u16` numbers separated by commas: one corner. */
  function ParseCorner(s: string): (r: Option<(Point, string)>)
    ensures r.Some? ==> r.value.0.x <= U16_MAX && r.value.0.y <= U16_MAX && r.value.0.z <= U16_MAX
  {
    var a :- UInt(s, U16_MAX);
    var s1 :- Tag(a.1, ",");
    var b :- UInt(s1, U16_MAX);
    var s2 :- Tag(b.1, ",");
    var c :- UInt(s2, U16_MAX);
    Some((Point(a.0, b.0, c.0), c.1))
  }

  /** `parse_tet`: `a,b,c~d,e,f` as two `u16` corners; text after the last number is
      left unread. The debug assertion that the first corner is the low one fails the
      parse here. */
  function ParseBrick(line: string): (r: Option<Brick>)
    ensures r.Some? ==> Ordered(r.value) && InU16(r.value)
  {
    var lo :- ParseCorner(line);
    var s :- Tag(lo.1, "~");
    var hi :- ParseCorner(s);
    var t := Brick(lo.0, hi.0);
    if Ordered(t) then Some(t) else None
  }

  /** The text form of a corner and of a brick, as the puzzle writes them. */
  function ShowCorner(p: Point): string
  {
    Decimal(p.x) + "," + Decimal(p.y) + "," + Decimal(p.z)
  }

  function Show(t: Brick): string
  {
    ShowCorner(t.lo) + "~" + ShowCorner(t.hi)
  }

  /** One number followed by a separator reads back as that number and the rest. */
  lemma ReadField(n: nat, sep: string, rest: string)
    requires n <= U16_MAX && |sep| == 1 && !IsDigit(sep[0])
    ensures UInt(Decimal(n) + sep + rest, U16_MAX) == Some((n, sep + rest))
    ensures Tag(sep + rest, sep) == Some(rest)
  {
    assert Decimal(n) + sep + rest == Decimal(n) + (sep + rest);
    UIntDecimal(n, sep + rest, U16_MAX);
    assert (sep + rest)[|sep|..] == rest;
  }

  /** A written corner reads back as itself, whatever non-digit text follows it. */
  lemma ParseShowCorner(p: Point, rest: string)
    requires p.x <= U16_MAX && p.y <= U16_MAX && p.z <= U16_MAX
    requires rest == [] || !IsDigit(rest[0])
    ensures ParseCorner(ShowCorner(p) + rest) == Some((p, rest))
  {
    var r1 := Decimal(p.z) + rest;
    var r0 := Decimal(p.y) + "," + r1;
    assert ShowCorner(p) + rest == Decimal(p.x) + "," + r0;
    ReadField(p.x, ",", r0);
    ReadField(p.y, ",", r1);
    UIntDecimal(p.z, rest, U16_MAX);
  }

  /** Reading back a written brick gives the brick when its corners are in order and
      fails otherwise, whatever non-digit text follows it. */
  lemma ParseShow(t: Brick, rest: string)
    requires InU16(t)
    requires rest == [] || !IsDigit(rest[0])
    ensures ParseBrick(Show(t) + rest) == if Ordered(t) then Some(t) else None
  {
    var r1 := ShowCorner(t.hi) + rest;
    assert Show(t) + rest == ShowCorner(t.lo) + ("~" + r1);
    ParseShowCorner(t.lo, "~" + r1);
    assert ("~" + r1)[1..] == r1;
    ParseShowCorner(t.hi, rest);
  }

  // ---------------------------------------------------------------------------
  // Support.

  /** The short-circuiting `for i in lo..=hi { if p(i) { return true } }`. */
  function AnyIn(lo: nat, hi: nat, p: nat -> bool): (r: bool)
    ensures r <==> exists i: nat :: lo <= i <= hi && p(i)
    decreases hi - lo + 1
  {
    if lo > hi then false else p(lo) || AnyIn(lo + 1, hi, p)
  }

  /** `is_supporting`: `other` holds a cube one level above the top of `t`, over the
      footprint of `t`. The top plus one must fit a `u16`. */
  function IsSupporting(t: Brick, other: Brick): bool
    requires t.hi.z < U16_MAX
  {
    if t.lo.z >= other.lo.z then false
    else if Vertical(t) then HasBlock(other, t.lo.x, t.lo.y, t.hi.z + 1)
    else if AlongY(t) then AnyIn(t.lo.y, t.hi.y, (i: nat) => HasBlock(other, t.lo.x, i, t.hi.z + 1))
    else if AlongX(t) then AnyIn(t.lo.x, t.hi.x, (i: nat) => HasBlock(other, i, t.lo.y, t.hi.z + 1))
    else false
  }

  /** The support relation in plain terms: a brick that starts lower supports another
      exactly when, being axis-aligned, it has a column under a cube of the other
      brick that sits directly on its top. */
  lemma SupportingMeans(t: Brick, other: Brick)
    requires Ordered(t) && t.hi.z < U16_MAX
    ensures IsSupporting(t, other) <==>
            t.lo.z < other.lo.z && Aligned(t) &&
            exists x: nat, y: nat :: Covers(t, x, y) && HasBlock(other, x, y, t.hi.z + 1)
  {
    if t.lo.z < other.lo.z && Aligned(t) {
      if Vertical(t) {
        assert Covers(t, t.lo.x, t.lo.y);
      } else if AlongY(t) {
        var p := (i: nat) => HasBlock(other, t.lo.x, i, t.hi.z + 1);
        if IsSupporting(t, other) {
          var i: nat :| t.lo.y <= i <= t.hi.y && p(i);
          assert Covers(t, t.lo.x, i);
        } else {
          forall x: nat, y: nat | Covers(t, x, y) ensures !HasBlock(other, x, y, t.hi.z + 1) {
            assert !p(y);
          }
        }
      } else {
        var p := (i: nat) => HasBlock(other, i, t.lo.y, t.hi.z + 1);
        if IsSupporting(t, other) {
          var i: nat :| t.lo.x <= i <= t.hi.x && p(i);
          assert Covers(t, i, t.lo.y);
        } else {
          forall x: nat, y: nat | Covers(t, x, y) ensures !HasBlock(other, x, y, t.hi.z + 1) {
            assert !p(x);
          }
        }
      }
    }
  }

  // ---------------------------------------------------------------------------
  // Settling.

  /** The columns under a horizontal brick, in the order the program visits them. */
  function Footprint(t: Brick): (cs: seq<(nat, nat)>)
    requires Ordered(t)
  {
    if AlongY(t) then seq(t.hi.y - t.lo.y + 1, k requires 0 <= k => (t.lo.x, t.lo.y + k))
    else seq(t.hi.x - t.lo.x + 1, k requires 0 <= k => (t.lo.x + k, t.lo.y))
  }

  /** The footprint of a horizontal brick is exactly its shadow. */
  lemma FootprintCovers(t: Brick)
    requires Ordered(t) && !Vertical(t) && (AlongY(t) || AlongX(t))
    ensures forall x: nat, y: nat :: (x, y) in Footprint(t) <==> Covers(t, x, y)
  {
    var cs := Footprint(t);
    forall x: nat, y: nat | Covers(t, x, y) ensures (x, y) in cs {
      if AlongY(t) { assert cs[y - t.lo.y] == (x, y); } else { assert cs[x - t.lo.x] == (x, y); }
    }
  }

  /** The height map holds every listed column. */
  predicate Holds(hm: Grid<nat>, cs: seq<(nat, nat)>)
  {
    forall k :: 0 <= k < |cs| ==> hm.Has(cs[k].0, cs[k].1)
  }

  /** The first footprint loop: the highest stack among the columns, or `None` when
      one of them is above `z`, where the brick would have to be lifted. */
  function Highest(hm: Grid<nat>, cs: seq<(nat, nat)>, z: nat): (r: Option<nat>)
    requires Holds(hm, cs)
    ensures r.Some? <==> forall k :: 0 <= k < |cs| ==> At<nat>(hm, cs[k].0, cs[k].1) <= z
    ensures r.Some? ==> r.value <= z && forall k :: 0 <= k < |cs| ==> At<nat>(hm, cs[k].0, cs[k].1) <= r.value
    ensures r.Some? ==> r.value == 0 || exists k :: 0 <= k < |cs| && At<nat>(hm, cs[k].0, cs[k].1) == r.value
  {
    if cs == [] then Some(0)
    else
      var n := |cs| - 1;
      var best :- Highest(hm, cs[..n], z);
      assert forall k :: 0 <= k < n ==> cs[..n][k] == cs[k];
      var h := At(hm, cs[n].0, cs[n].1);
      if z < h then None else Some(if best < h then h else best)
  }

  /** The second footprint loop: every listed column is set to `v`. */
  function Fill(hm: Grid<nat>, cs: seq<(nat, nat)>, v: nat): (r: Grid<nat>)
    requires hm.Valid() && Holds(hm, cs)
    ensures r.Valid() && r.dimensions == hm.dimensions
    ensures forall x: nat, y: nat | hm.Has(x, y) :: r.Has(x, y) && At(r, x, y) == if (x, y) in cs then v else At(hm, x, y)
  {
    if cs == [] then hm
    else
      var n := |cs| - 1;
      assert forall k :: 0 <= k < n ==> cs[..n][k] == cs[k];
      var g := Fill(hm, cs[..n], v);
      assert cs == cs[..n] + [cs[n]];
      Set(g, cs[n].0, cs[n].1, v)
  }

  /** The brick fits the height map: its shadow lies inside the grid. */
  predicate Fits(hm: Grid<nat>, t: Brick)
  {
    Ordered(t) && t.hi.x < hm.Width() && t.hi.y < hm.Height()
  }

  /** The settled brick is the same brick moved straight up or down. */
  predicate Shifted(t: Brick, t': Brick)
  {
    && t'.lo.x == t.lo.x && t'.lo.y == t.lo.y && t'.hi.x == t.hi.x && t'.hi.y == t.hi.y
    && t'.lo.z <= t'.hi.z && t'.hi.z - t'.lo.z == t.hi.z - t.lo.z
  }

  /** The settled brick lies on top of the highest stack under it, or on the floor. */
  ghost predicate Rests(hm: Grid<nat>, t: Brick)
    requires Fits(hm, t) && hm.Valid()
  {
    && 1 <= t.lo.z
    && (forall x: nat, y: nat | Covers(t, x, y) :: At(hm, x, y) < t.lo.z)
    && (t.lo.z == 1 || exists x: nat, y: nat :: Covers(t, x, y) && At(hm, x, y) + 1 == t.lo.z)
  }

  /** What placing one brick does to it and to the height map, when it succeeds. */
  ghost predicate Placed(hm: Grid<nat>, t: Brick, hm': Grid<nat>, t': Brick)
    requires hm.Valid() && Fits(hm, t)
  {
    && hm'.Valid() && hm'.dimensions == hm.dimensions
    && Shifted(t, t') && t'.hi.z <= t.hi.z + 1
    && Fits(hm, t') && Rests(hm, t')
    && forall x: nat, y: nat | x < hm.Width() && y < hm.Height() ::
         At(hm', x, y) == if Covers(t, x, y) then t'.hi.z else At(hm, x, y)
  }

  /** A stack under the brick rises above its bottom: placing it would lift it. */
  ghost predicate Blocked(hm: Grid<nat>, t: Brick)
    requires hm.Valid() && Fits(hm, t)
  {
    exists x: nat, y: nat :: Covers(t, x, y) && At(hm, x, y) > t.lo.z
  }

  /** The vertical branch: the brick lands on its column's stack, which rises by the
      brick's height. */
  function SettleColumn(hm: Grid<nat>, t: Brick): (r: Option<(Grid<nat>, Brick)>)
    requires hm.Valid() && Fits(hm, t) && t.hi.z < U16_MAX && Vertical(t)
    ensures r.None? <==> Blocked(hm, t)
    ensures r.Some? ==> Placed(hm, t, r.value.0, r.value.1)
  {
    var stack := At(hm, t.lo.x, t.lo.y);
    var height := t.hi.z - t.lo.z + 1;
    if t.lo.z < stack then
      assert Covers(t, t.lo.x, t.lo.y);
      None
    else
      var t' := Brick(t.lo.(z := stack + 1), t.hi.(z := stack + height));
      assert Covers(t', t.lo.x, t.lo.y);
      Some((Set(hm, t.lo.x, t.lo.y, stack + height), t'))
  }

  /** The horizontal branches: the brick lands one above the highest stack under it,
      and every column under it is raised to that level. */
  function SettleRow(hm: Grid<nat>, t: Brick): (r: Option<(Grid<nat>, Brick)>)
    requires hm.Valid() && Fits(hm, t) && t.hi.z < U16_MAX && !Vertical(t) && (AlongY(t) || AlongX(t))
    ensures r.None? <==> Blocked(hm, t)
    ensures r.Some? ==> Placed(hm, t, r.value.0, r.value.1)
  {
    var cs := Footprint(t);
    RowHolds(hm, t);
    var top := Highest(hm, cs, t.lo.z);
    RowBlocked(hm, t);
    if top.None? then None
    else
      var z := top.value + 1;
      var t' := Brick(t.lo.(z := z), t.hi.(z := z));
      RowRests(hm, t, top.value);
      RowFill(hm, t, z);
      Some((Fill(hm, cs, z), t'))
  }

  lemma RowHolds(hm: Grid<nat>, t: Brick)
    requires hm.Valid() && Fits(hm, t) && !Vertical(t) && (AlongY(t) || AlongX(t))
    ensures Holds(hm, Footprint(t))
  {
    var cs := Footprint(t);
    FootprintCovers(t);
    forall k | 0 <= k < |cs| ensures hm.Has(cs[k].0, cs[k].1) {
      assert cs[k] in cs;
    }
  }

  /** The first footprint loop fails exactly when the brick is blocked. */
  lemma RowBlocked(hm: Grid<nat>, t: Brick)
    requires hm.Valid() && Fits(hm, t) && !Vertical(t) && (AlongY(t) || AlongX(t))
    requires Holds(hm, Footprint(t))
    ensures Highest(hm, Footprint(t), t.lo.z).None? <==> Blocked(hm, t)
  {
    var cs := Footprint(t);
    FootprintCovers(t);
    if Highest(hm, cs, t.lo.z).None? {
      var k :| 0 <= k < |cs| && At(hm, cs[k].0, cs[k].1) > t.lo.z;
      assert cs[k] in cs;
    } else {
      forall x: nat, y: nat | Covers(t, x, y) ensures At(hm, x, y) <= t.lo.z {
        assert (x, y) in cs;
        var k :| 0 <= k < |cs| && cs[k] == (x, y);
      }
    }
  }

  /** One above the result of the first footprint loop is where the brick rests. */
  lemma RowRests(hm: Grid<nat>, t: Brick, top: nat)
    requires hm.Valid() && Fits(hm, t) && !Vertical(t) && (AlongY(t) || AlongX(t))
    requires Holds(hm, Footprint(t))
    requires Highest(hm, Footprint(t), t.lo.z) == Some(top)
    ensures Rests(hm, Brick(t.lo.(z := top + 1), t.hi.(z := top + 1)))
  {
    var cs := Footprint(t);
    FootprintCovers(t);
    var z := top + 1;
    var t' := Brick(t.lo.(z := z), t.hi.(z := z));
    forall x: nat, y: nat | Covers(t', x, y) ensures At(hm, x, y) < z {
      assert (x, y) in cs;
      var k :| 0 <= k < |cs| && cs[k] == (x, y);
    }
    if z != 1 {
      var k :| 0 <= k < |cs| && At(hm, cs[k].0, cs[k].1) == top;
      assert cs[k] in cs;
      assert Covers(t', cs[k].0, cs[k].1) && At(hm, cs[k].0, cs[k].1) + 1 == z;
    }
  }

  /** The second footprint loop raises exactly the columns under the brick. */
  lemma RowFill(hm: Grid<nat>, t: Brick, z: nat)
    requires hm.Valid() && Fits(hm, t) && !Vertical(t) && (AlongY(t) || AlongX(t))
    requires Holds(hm, Footprint(t))
    ensures forall x: nat, y: nat | x < hm.Width() && y < hm.Height() ::
              At(Fill(hm, Footprint(t), z), x, y) == if Covers(t, x, y) then z else At(hm, x, y)
  {
    FootprintCovers(t);
    forall x: nat, y: nat | x < hm.Width() && y < hm.Height() ensures hm.Has(x, y) {
    }
  }

  /** One brick of the settling loop. A stack above the brick's bottom, or a brick
      that is not axis-aligned, is an error. The brick's top plus one must fit a
      `u16`. */
  function Settle(hm: Grid<nat>, t: Brick): (r: Option<(Grid<nat>, Brick)>)
    requires hm.Valid() && Fits(hm, t) && t.hi.z < U16_MAX
    ensures r.None? <==> !Aligned(t) || Blocked(hm, t)
    ensures r.Some? ==> Placed(hm, t, r.value.0, r.value.1)
  {
    if Vertical(t) then SettleColumn(hm, t)
    else if AlongY(t) || AlongX(t) then SettleRow(hm, t)
    else None
  }

  // ---------------------------------------------------------------------------
  // Settling every brick.

  /** Every brick fits the height map, and its top plus one fits a `u16`. */
  predicate AllFit(hm: Grid<nat>, ts: seq<Brick>)
  {
    forall k :: 0 <= k < |ts| ==> Fits(hm, ts[k]) && ts[k].hi.z < U16_MAX
  }

  /** The top of the highest of `bs` over column (x, y), or 0 (the floor). */
  function Top(bs: seq<Brick>, x: nat, y: nat): nat
  {
    if bs == [] then 0
    else
      var below := Top(bs[..|bs| - 1], x, y);
      var b := bs[|bs| - 1];
      if Covers(b, x, y) && below < b.hi.z then b.hi.z else below
  }

  /** The height map records, column by column, the top of the highest of `bs`. */
  ghost predicate Records(hm: Grid<nat>, bs: seq<Brick>)
  {
    hm.Valid() && forall x: nat, y: nat | x < hm.Width() && y < hm.Height() :: At(hm, x, y) == Top(bs, x, y)
  }

  /** The settling loop over all bricks, in order: the final height map and the
      settled bricks, or `None` at the first brick that cannot be placed. */
  function SettleAll(hm: Grid<nat>, ts: seq<Brick>): (r: Option<(Grid<nat>, seq<Brick>)>)
    requires hm.Valid() && AllFit(hm, ts)
    ensures r.Some? ==> r.value.0.Valid() && r.value.0.dimensions == hm.dimensions && |r.value.1| == |ts|
    ensures r.Some? ==> forall k :: 0 <= k < |ts| ==> Shifted(ts[k], r.value.1[k]) && r.value.1[k].hi.z <= ts[k].hi.z + 1
    decreases |ts|
  {
    if ts == [] then Some((hm, []))
    else
      var p :- Settle(hm, ts[0]);
      AllFitTail(hm, p.0, ts);
      var q :- SettleAll(p.0, ts[1..]);
      ShiftedCons(ts, p.1, q.1);
      Some((q.0, [p.1] + q.1))
  }

  /** Placing one brick keeps the height map recording the tops of everything placed. */
  lemma PlacedRecords(hm: Grid<nat>, bs: seq<Brick>, t: Brick, hm': Grid<nat>, t': Brick)
    requires hm.Valid() && Fits(hm, t) && Records(hm, bs)
    requires Placed(hm, t, hm', t')
    ensures Records(hm', bs + [t'])
  {
    var bs' := bs + [t'];
    assert bs'[..|bs'| - 1] == bs;
    forall x: nat, y: nat | x < hm'.Width() && y < hm'.Height() ensures At(hm', x, y) == Top(bs', x, y) {
      if Covers(t, x, y) {
        assert Covers(t', x, y);
        assert At(hm, x, y) < t'.lo.z;
      } else {
        assert !Covers(t', x, y);
      }
    }
  }

  /** AllFit survives placing the first brick: the later bricks still fit the map. */
  lemma AllFitTail(hm: Grid<nat>, hm': Grid<nat>, ts: seq<Brick>)
    requires AllFit(hm, ts) && ts != [] && hm'.dimensions == hm.dimensions
    ensures AllFit(hm', ts[1..])
  {
    forall k | 0 <= k < |ts[1..]| ensures Fits(hm', ts[1..][k]) && ts[1..][k].hi.z < U16_MAX {
      assert ts[1..][k] == ts[k + 1];
    }
  }

  lemma ShiftedCons(ts: seq<Brick>, t': Brick, rest: seq<Brick>)
    requires ts != [] && |rest| == |ts| - 1
    requires Shifted(ts[0], t') && t'.hi.z <= ts[0].hi.z + 1
    requires forall k :: 0 <= k < |rest| ==> Shifted(ts[1..][k], rest[k]) && rest[k].hi.z <= ts[1..][k].hi.z + 1
    ensures var settled := [t'] + rest;
            forall k :: 0 <= k < |ts| ==> Shifted(ts[k], settled[k]) && settled[k].hi.z <= ts[k].hi.z + 1
  {
    var settled := [t'] + rest;
    forall k | 0 <= k < |ts| ensures Shifted(ts[k], settled[k]) && settled[k].hi.z <= ts[k].hi.z + 1 {
      if k > 0 {
        assert settled[k] == rest[k - 1] && ts[k] == ts[1..][k - 1];
      }
    }
  }

  /** Kept apart from `SettleAllRecords`: asserting this sequence equality inside that
      proof, next to the `Records` quantifiers, exhausts the solver. */
  lemma ConsAssoc(done: seq<Brick>, b: Brick, rest: seq<Brick>)
    ensures done + ([b] + rest) == done + [b] + rest
  {
  }

  /** One turn of the settling loop: the first brick is placed, then the rest. */
  lemma SettleAllCons(hm: Grid<nat>, ts: seq<Brick>)
    requires hm.Valid() && AllFit(hm, ts) && ts != [] && SettleAll(hm, ts).Some?
    ensures Settle(hm, ts[0]).Some?
    ensures var p := Settle(hm, ts[0]).value;
            && Placed(hm, ts[0], p.0, p.1) && AllFit(p.0, ts[1..]) && SettleAll(p.0, ts[1..]).Some?
            && SettleAll(hm, ts).value == (SettleAll(p.0, ts[1..]).value.0, [p.1] + SettleAll(p.0, ts[1..]).value.1)
  {
    var p := Settle(hm, ts[0]).value;
    AllFitTail(hm, p.0, ts);
  }

  /** The height-map invariant of the settling loop: if the map records the tops of
      the bricks placed so far, then after settling the rest it records the tops of
      all of them. */
  lemma {:induction false} SettleAllRecords(hm: Grid<nat>, done: seq<Brick>, ts: seq<Brick>)
    requires hm.Valid() && AllFit(hm, ts) && Records(hm, done)
    requires SettleAll(hm, ts).Some?
    ensures Records(SettleAll(hm, ts).value.0, done + SettleAll(hm, ts).value.1)
    decreases |ts|
  {
    if ts == [] {
      assert SettleAll(hm, ts).value == (hm, []);
      assert done + [] == done;
    } else {
      SettleAllCons(hm, ts);
      var p := Settle(hm, ts[0]).value;
      var q := SettleAll(p.0, ts[1..]).value;
      assert Records(p.0, done + [p.1]) by { PlacedRecords(hm, done, ts[0], p.0, p.1); }
      SettleAllRecords(p.0, done + [p.1], ts[1..]);
      ConsAssoc(done, p.1, q.1);
    }
  }

  /** Each brick the settling loop places comes to rest on the highest brick placed
      before it under its shadow, or on the floor. */
  lemma {:induction false} SettleAllRests(hm: Grid<nat>, done: seq<Brick>, ts: seq<Brick>)
    requires hm.Valid() && AllFit(hm, ts) && Records(hm, done)
    requires SettleAll(hm, ts).Some?
    ensures forall k :: 0 <= k < |ts| ==> RestsOn(done + SettleAll(hm, ts).value.1[..k], SettleAll(hm, ts).value.1[k])
    decreases |ts|
  {
    if ts != [] {
      SettleAllCons(hm, ts);
      var settled := SettleAll(hm, ts).value.1;
      var p := Settle(hm, ts[0]).value;
      var q := SettleAll(p.0, ts[1..]).value.1;
      assert Records(p.0, done + [p.1]) by { PlacedRecords(hm, done, ts[0], p.0, p.1); }
      assert RestsOn(done, p.1) by { RecordsRestsOn(hm, done, p.1); }
      SettleAllRests(p.0, done + [p.1], ts[1..]);
      forall k | 0 <= k < |ts| ensures RestsOn(done + settled[..k], settled[k]) {
        ConsPrefix(done, p.1, q, k);
      }
    }
  }

  /** Prefixes of `[b] + rest`, appended to `done`. */
  lemma ConsPrefix(done: seq<Brick>, b: Brick, rest: seq<Brick>, k: nat)
    requires k <= |rest|
    ensures k == 0 ==> done + ([b] + rest)[..k] == done && ([b] + rest)[k] == b
    ensures k > 0 ==> done + ([b] + rest)[..k] == done + [b] + rest[..k - 1] && ([b] + rest)[k] == rest[k - 1]
  {
    if k > 0 {
      assert ([b] + rest)[..k] == [b] + rest[..k - 1];
    }
  }

  /** A brick rests on the highest of `bs` under it, or on the floor. */
  ghost predicate RestsOn(bs: seq<Brick>, t: Brick)
  {
    && 1 <= t.lo.z
    && (forall x: nat, y: nat | Covers(t, x, y) :: Top(bs, x, y) < t.lo.z)
    && (t.lo.z == 1 || exists x: nat, y: nat :: Covers(t, x, y) && Top(bs, x, y) + 1 == t.lo.z)
  }

  lemma RecordsRestsOn(hm: Grid<nat>, bs: seq<Brick>, t: Brick)
    requires hm.Valid() && Fits(hm, t) && Records(hm, bs) && Rests(hm, t)
    ensures RestsOn(bs, t)
  {
    if t.lo.z != 1 {
      var x: nat, y: nat :| Covers(t, x, y) && At(hm, x, y) + 1 == t.lo.z;
    }
  }

  // ---------------------------------------------------------------------------
  // Sorting by bottom level.

  /** Bricks in order of their bottom level. */
  predicate SortedByZ(ts: seq<Brick>)
  {
    forall i, j :: 0 <= i < j < |ts| ==> ts[i].lo.z <= ts[j].lo.z
  }

  /** Inserts `t` after every brick whose bottom is not above its own, so bricks with
      equal bottoms keep their input order as the stable `sort_by` keeps them. */
  function InsertByZ(t: Brick, ts: seq<Brick>): (r: seq<Brick>)
    ensures multiset(r) == multiset(ts) + multiset{t}
    ensures |r| == |ts| + 1
  {
    if ts == [] || ts[|ts| - 1].lo.z <= t.lo.z then ts + [t]
    else
      var n := |ts| - 1;
      assert ts == ts[..n] + [ts[n]];
      InsertByZ(t, ts[..n]) + [ts[n]]
  }

  lemma {:induction false} InsertByZSorted(t: Brick, ts: seq<Brick>)
    requires SortedByZ(ts)
    ensures SortedByZ(InsertByZ(t, ts))
    decreases |ts|
  {
    if !(ts == [] || ts[|ts| - 1].lo.z <= t.lo.z) {
      var n := |ts| - 1;
      var r := InsertByZ(t, ts[..n]);
      InsertByZSorted(t, ts[..n]);
      forall k | 0 <= k < |r| ensures r[k].lo.z <= ts[n].lo.z {
        assert r[k] in multiset(ts[..n]) + multiset{t};
        if r[k] != t {
          assert r[k] in ts[..n];
        }
      }
    }
  }

  /** `tets.sort_by(|a, b| a.start.2.cmp(&b.start.2))`, as an insertion sort. */
  function SortByZ(ts: seq<Brick>): (r: seq<Brick>)
    ensures multiset(r) == multiset(ts) && |r| == |ts|
  {
    if ts == [] then []
    else
      var n := |ts| - 1;
      assert ts == ts[..n] + [ts[n]];
      InsertByZ(ts[n], SortByZ(ts[..n]))
  }

  /** The sorted bricks are the input bricks, in order of their bottom level. */
  lemma {:induction false} SortByZSorted(ts: seq<Brick>)
    ensures SortedByZ(SortByZ(ts)) && multiset(SortByZ(ts)) == multiset(ts)
    decreases |ts|
  {
    if ts != [] {
      var n := |ts| - 1;
      SortByZSorted(ts[..n]);
      InsertByZSorted(ts[n], SortByZ(ts[..n]));
    }
  }

  // ---------------------------------------------------------------------------
  // The support analysis.

  /** Every settled top plus one fits a `u16`, as `is_supporting` computes it. */
  predicate TopsFit(bs: seq<Brick>)
  {
    forall k :: 0 <= k < |bs| ==> bs[k].hi.z < U16_MAX
  }

  /** The first `j` entries of `supporters[i]`: the bricks before `j` that support
      brick `i`, in index order. */
  function Supporters(bs: seq<Brick>, i: nat, j: nat): (s: seq<nat>)
    requires i < |bs| && j <= |bs| && TopsFit(bs)
    ensures forall k :: 0 <= k < |s| ==> s[k] < j && IsSupporting(bs[s[k]], bs[i])
    ensures forall k, l :: 0 <= k < l < |s| ==> s[k] < s[l]
    ensures forall m :: 0 <= m < j && IsSupporting(bs[m], bs[i]) ==> m in s
  {
    if j == 0 then []
    else
      var s := Supporters(bs, i, j - 1);
      if IsSupporting(bs[j - 1], bs[i]) then s + [j - 1] else s
  }

  /** `supporters`: for each brick, the earlier bricks that support it. */
  function SupportTable(bs: seq<Brick>): (sup: seq<seq<nat>>)
    requires TopsFit(bs)
    ensures |sup| == |bs| && Earlier(sup) && Ascending(sup)
    ensures forall i, m :: 0 <= i < |bs| && 0 <= m < i ==> (m in sup[i] <==> IsSupporting(bs[m], bs[i]))
  {
    seq(|bs|, i requires 0 <= i < |bs| => Supporters(bs, i, i))
  }

  /** Every supporter of a brick comes before it in the list. */
  predicate Earlier(sup: seq<seq<nat>>)
  {
    forall j, k :: 0 <= j < |sup| && 0 <= k < |sup[j]| ==> sup[j][k] < j
  }

  /** Every entry lists its bricks in increasing order, each once. */
  predicate Ascending(sup: seq<seq<nat>>)
  {
    forall j, k, l :: 0 <= j < |sup| && 0 <= k < l < |sup[j]| ==> sup[j][k] < sup[j][l]
  }

  /** Brick `i` is the only supporter of some brick. */
  predicate SoleSupporter(sup: seq<seq<nat>>, i: nat)
  {
    exists j :: 0 <= j < |sup| && |sup[j]| == 1 && sup[j][0] == i
  }

  /** The labelled `'outer` loop: how many of the first `n` bricks are no brick's
      sole supporter. */
  function CountRemovable(sup: seq<seq<nat>>, n: nat): (c: nat)
    ensures c == |set i: nat | i < n && !SoleSupporter(sup, i)|
  {
    if n == 0 then
      assert (set i: nat | i < n && !SoleSupporter(sup, i)) == {};
      0
    else
      var c := CountRemovable(sup, n - 1);
      var before := set i: nat | i < n - 1 && !SoleSupporter(sup, i);
      var now := set i: nat | i < n && !SoleSupporter(sup, i);
      if SoleSupporter(sup, n - 1) then
        assert now == before;
        c
      else
        assert now == before + {n - 1};
        c + 1
  }

  /** In terms of the table: a brick is no brick's sole supporter exactly when every
      entry that lists it lists another brick too. */
  lemma SoleSupporterMeans(sup: seq<seq<nat>>, i: nat)
    requires Ascending(sup)
    ensures !SoleSupporter(sup, i) <==>
            forall j :: 0 <= j < |sup| && i in sup[j] ==> exists m :: m in sup[j] && m != i
  {
    if SoleSupporter(sup, i) {
      var j :| 0 <= j < |sup| && |sup[j]| == 1 && sup[j][0] == i;
      assert sup[j] == [i];
      assert i in sup[j];
    } else {
      forall j | 0 <= j < |sup| && i in sup[j] ensures exists m :: m in sup[j] && m != i {
        assert |sup[j]| >= 2 && sup[j][0] < sup[j][1];
        if sup[j][0] != i {
          assert sup[j][0] in sup[j];
        } else {
          assert sup[j][1] in sup[j];
        }
      }
    }
  }

  /** A brick can go without any other falling exactly when every brick resting on
      it also rests on some other brick. */
  lemma RemovableMeans(bs: seq<Brick>, i: nat)
    requires TopsFit(bs) && i < |bs|
    ensures !SoleSupporter(SupportTable(bs), i) <==>
            forall j :: i < j < |bs| && IsSupporting(bs[i], bs[j]) ==>
              exists m :: 0 <= m < j && m != i && IsSupporting(bs[m], bs[j])
  {
    var sup := SupportTable(bs);
    SoleSupporterMeans(sup, i);
    if SoleSupporter(sup, i) {
      var j :| 0 <= j < |sup| && i in sup[j] && forall m :: m in sup[j] ==> m == i;
      assert i < j && IsSupporting(bs[i], bs[j]);
      forall m | 0 <= m < j && m != i ensures !IsSupporting(bs[m], bs[j]) {
        assert m !in sup[j];
      }
    } else {
      forall j | i < j < |bs| && IsSupporting(bs[i], bs[j])
        ensures exists m :: 0 <= m < j && m != i && IsSupporting(bs[m], bs[j])
      {
        assert i in sup[j];
        var m :| m in sup[j] && m != i;
        assert m < j;
        assert IsSupporting(bs[m], bs[j]);
      }
    }
  }

  /** The part 2 scan for brick `i` after the first `j` bricks: the set `to_remove`. */
  function Falls(sup: seq<seq<nat>>, i: nat, j: nat): (s: set<nat>)
    requires j <= |sup|
    ensures i in s && forall m :: m in s && m != i ==> m < j
  {
    if j == 0 then {i}
    else
      var s := Falls(sup, i, j - 1);
      var sj := sup[j - 1];
      if |sj| == 1 && sj[0] == i then s + {j - 1}
      else if |sj| > 0 && forall x :: x in sj ==> x in s then s + {j - 1}
      else s
  }

  /** The scan only adds the brick it is looking at. */
  lemma {:induction false} FallsGrow(sup: seq<seq<nat>>, i: nat, j: nat, j': nat)
    requires j <= j' <= |sup|
    ensures Falls(sup, i, j) <= Falls(sup, i, j')
    ensures forall m :: m < j ==> (m in Falls(sup, i, j) <==> m in Falls(sup, i, j'))
    decreases j' - j
  {
    if j < j' {
      FallsGrow(sup, i, j, j' - 1);
    }
  }

  /** What falls when brick `i` goes: brick `i` itself, and every brick that has
      supporters, all of which fall. As supporters come earlier, one pass in index
      order settles every brick's fate. */
  lemma FallsClosed(sup: seq<seq<nat>>, i: nat)
    requires Earlier(sup)
    ensures var f := Falls(sup, i, |sup|);
            forall m :: 0 <= m < |sup| ==> (m in f <==> m == i || (sup[m] != [] && forall x :: x in sup[m] ==> x in f))
  {
    var f := Falls(sup, i, |sup|);
    forall m | 0 <= m < |sup| ensures m in f <==> m == i || (sup[m] != [] && forall x :: x in sup[m] ==> x in f) {
      FallsGrow(sup, i, m, |sup|);
      FallsGrow(sup, i, m + 1, |sup|);
      var s := Falls(sup, i, m);
      assert forall x :: x in sup[m] ==> x < m;
      assert forall x :: x in sup[m] ==> (x in s <==> x in f);
    }
  }

  /** Whether brick `m` topples when brick `i` goes, defined directly: it is brick `i`,
      or it has supporters and every one of them topples. */
  predicate Topples(sup: seq<seq<nat>>, i: nat, m: nat)
    requires Earlier(sup) && m < |sup|
    decreases m
  {
    m == i || (sup[m] != [] && forall k :: 0 <= k < |sup[m]| ==> Topples(sup, i, sup[m][k]))
  }

  /** The other bricks that topple when brick `i` goes. */
  function Toppled(sup: seq<seq<nat>>, i: nat): set<nat>
    requires Earlier(sup)
  {
    set m | 0 <= m < |sup| && m != i && Topples(sup, i, m)
  }

  /** The scan's falling set is brick `i` with exactly the bricks that topple. */
  lemma FallsTopples(sup: seq<seq<nat>>, i: nat)
    requires Earlier(sup) && i < |sup|
    ensures Falls(sup, i, |sup|) == Toppled(sup, i) + {i}
  {
    var f := Falls(sup, i, |sup|);
    FallsClosed(sup, i);
    forall m | 0 <= m < |sup| ensures m in f <==> Topples(sup, i, m) {
      FallsAgree(sup, i, m);
    }
  }

  lemma {:induction false} FallsAgree(sup: seq<seq<nat>>, i: nat, m: nat)
    requires Earlier(sup) && m < |sup|
    requires var f := Falls(sup, i, |sup|);
             forall q :: 0 <= q < |sup| ==> (q in f <==> q == i || (sup[q] != [] && forall x :: x in sup[q] ==> x in f))
    ensures m in Falls(sup, i, |sup|) <==> Topples(sup, i, m)
    decreases m
  {
    var f := Falls(sup, i, |sup|);
    forall k | 0 <= k < |sup[m]| ensures sup[m][k] in f <==> Topples(sup, i, sup[m][k]) {
      FallsAgree(sup, i, sup[m][k]);
    }
  }

  /** The sum, over the first `n` bricks, of the number of other bricks that topple. */
  function ToppledSum(sup: seq<seq<nat>>, n: nat): nat
    requires Earlier(sup)
  {
    if n == 0 then 0 else ToppledSum(sup, n - 1) + |Toppled(sup, n - 1)|
  }

  /** `p2_sum`: over the first `n` bricks, the number of other bricks that fall with
      each. */
  function FallTotal(sup: seq<seq<nat>>, n: nat): (total: nat)
    requires n <= |sup| && Earlier(sup)
    ensures total == ToppledSum(sup, n)
  {
    if n == 0 then 0
    else
      var f := Falls(sup, n - 1, |sup|);
      FallsTopples(sup, n - 1);
      assert n - 1 !in Toppled(sup, n - 1);
      FallTotal(sup, n - 1) + |f| - 1
  }

  // ---------------------------------------------------------------------------
  // The whole run.

  /** The largest x and y among the bricks' far corners: the height map's extent. */
  function Extent(ts: seq<Brick>): (d: (nat, nat))
    ensures forall k :: 0 <= k < |ts| ==> ts[k].hi.x <= d.0 && ts[k].hi.y <= d.1
    ensures d.0 == 0 || exists k :: 0 <= k < |ts| && ts[k].hi.x == d.0
    ensures d.1 == 0 || exists k :: 0 <= k < |ts| && ts[k].hi.y == d.1
  {
    if ts == [] then (0, 0)
    else
      var n := |ts| - 1;
      var d := Extent(ts[..n]);
      assert forall k :: 0 <= k < n ==> ts[..n][k] == ts[k];
      (if d.0 < ts[n].hi.x then ts[n].hi.x else d.0, if d.1 < ts[n].hi.y then ts[n].hi.y else d.1)
  }

  /** No brick's top is within two of the `u16` limit, so neither the settling nor
      `is_supporting` overflows. */
  predicate LowEnough(input: string)
  {
    forall k :: 0 <= k < |Lines(input)| && ParseBrick(Lines(input)[k]).Some? ==>
      ParseBrick(Lines(input)[k]).value.hi.z + 1 < U16_MAX
  }

  /** Bricks inside a `w` by `h` floor, ordered, with room above them. */
  predicate Inside(ts: seq<Brick>, w: nat, h: nat)
  {
    forall k :: 0 <= k < |ts| ==> Ordered(ts[k]) && ts[k].hi.x < w && ts[k].hi.y < h && ts[k].hi.z + 1 < U16_MAX
  }

  /** The parsed bricks lie inside the extent `run` computes. */
  lemma ParsedInside(input: string, ts: seq<Brick>)
    requires LowEnough(input) && CollectAll(Lines(input), ParseBrick) == Some(ts)
    ensures Inside(ts, Extent(ts).0 + 1, Extent(ts).1 + 1)
  {
    forall k | 0 <= k < |ts| ensures ts[k].hi.z + 1 < U16_MAX {
      assert ParseBrick(Lines(input)[k]) == Some(ts[k]);
    }
  }

  /** Sorting keeps the bricks inside. */
  lemma SortedInside(ts: seq<Brick>, w: nat, h: nat)
    requires Inside(ts, w, h)
    ensures Inside(SortByZ(ts), w, h)
  {
    var sorted := SortByZ(ts);
    forall k | 0 <= k < |sorted|
      ensures Ordered(sorted[k]) && sorted[k].hi.x < w && sorted[k].hi.y < h && sorted[k].hi.z + 1 < U16_MAX
    {
      assert sorted[k] in multiset(ts);
      var j :| 0 <= j < |ts| && ts[j] == sorted[k];
    }
  }

  /** `run`: both answers, or `None` when a line does not parse or a brick cannot be
      settled. Brick indices are stored as `u16` in part 2, hence the line bound. */
  function Run(input: string): (r: Option<(nat, nat)>)
    requires LowEnough(input) && |Lines(input)| <= U16_MAX + 1
    ensures r.Some? ==> forall k :: 0 <= k < |Lines(input)| ==> ParseBrick(Lines(input)[k]).Some?
  {
    var ts :- CollectAll(Lines(input), ParseBrick);
    var d := Extent(ts);
    var hm := New(0, d.0 + 1, d.1 + 1);
    var sorted := SortByZ(ts);
    ParsedInside(input, ts);
    SortedInside(ts, d.0 + 1, d.1 + 1);
    assert AllFit(hm, sorted);
    var settled :- SettleAll(hm, sorted);
    assert TopsFit(settled.1);
    var sup := SupportTable(settled.1);
    Some((CountRemovable(sup, |sup|), FallTotal(sup, |sup|)))
  }
}

=== FILE: day23.dfy ===
/** Day 23: the longest hike through a maze of paths `.`, forest `#` and slopes
    `v > ^ <`. The program contracts the maze to a graph whose nodes are the start,
    the end and the junctions (path tiles with more than two open neighbours), with
    one weighted edge per corridor, and then searches depth first for the longest
    simple path from node 0 to node 1, pruning with an upper bound. Part 1 may enter
    a slope only in its arrow's direction; part 2 ignores slopes. */
module Day23 {
  import opened Text
  import opened Grids

  type Pos = (nat, nat)

  // ---------------------------------------------------------------------------
  // Moves.

  /** The four offsets in the program's order: (0, 1), (1, 0), (0, −1), (−1, 0). */
  datatype Dir = South | East | North | West

  const Dirs: seq<Dir> := [South, East, North, West]

  function DX(d: Dir): int
  {
    match d
    case East => 1
    case West => -1
    case _ => 0
  }

  function DY(d: Dir): int
  {
    match d
    case South => 1
    case North => -1
    case _ => 0
  }

  /** The slope that may be entered moving in direction `d`. */
  function Arrow(d: Dir): char
  {
    match d
    case South => 'v'
    case East => '>'
    case North => '^'
    case West => '<'
  }

  predicate IsSlope(c: char)
  {
    c == 'v' || c == '>' || c == '^' || c == '<'
  }

  /** The slope rule: a slope is entered only in its arrow's direction; any other
      tile may be entered from any side. */
  predicate SlopeOk(d: Dir, c: char)
  {
    IsSlope(c) ==> c == Arrow(d)
  }

  /** The slope rule stated on the two tiles of a move. */
  predicate Downhill(a: Pos, b: Pos, c: char)
  {
    && (c == 'v' ==> b.1 == a.1 + 1 && b.0 == a.0)
    && (c == '>' ==> b.0 == a.0 + 1 && b.1 == a.1)
    && (c == '^' ==> b.1 + 1 == a.1 && b.0 == a.0)
    && (c == '<' ==> b.0 + 1 == a.0 && b.1 == a.1)
  }

  /** Two tiles one orthogonal step apart. */
  predicate Adjacent(a: Pos, b: Pos)
  {
    || (a.0 + 1 == b.0 && a.1 == b.1) || (b.0 + 1 == a.0 && a.1 == b.1)
    || (a.1 + 1 == b.1 && a.0 == b.0) || (b.1 + 1 == a.1 && a.0 == b.0)
  }

  predicate InBox(g: Grid<char>, p: Pos)
  {
    p.0 < g.Width() && p.1 < g.Height()
  }

  /** A tile inside the grid that is not forest. */
  predicate Open(g: Grid<char>, p: Pos)
  {
    g.Valid() && InBox(g, p) && At(g, p.0, p.1) != '#'
  }

  /** The tile one step from `p` in direction `d`, when it lies inside the grid: the
      program's bounds test on the signed coordinates. */
  function Step(g: Grid<char>, p: Pos, d: Dir): (r: Option<Pos>)
    ensures r.Some? ==> InBox(g, r.value) && Adjacent(p, r.value)
    ensures r.Some? ==> r.value.0 == p.0 + DX(d) && r.value.1 == p.1 + DY(d)
    ensures r.None? <==> !(0 <= p.0 + DX(d) < g.Width() && 0 <= p.1 + DY(d) < g.Height())
  {
    var nx, ny := p.0 + DX(d), p.1 + DY(d);
    if 0 <= nx < g.Width() && 0 <= ny < g.Height() then Some((nx, ny)) else None
  }

  /** The open tile one step from `p` in direction `d`, if any. */
  function Neighbour(g: Grid<char>, p: Pos, d: Dir): (r: Option<Pos>)
    requires g.Valid()
    ensures r.Some? ==> Open(g, r.value) && Adjacent(p, r.value) && Step(g, p, d) == r
    ensures r.None? <==> Step(g, p, d).None? || !Open(g, Step(g, p, d).value)
  {
    var q :- Step(g, p, d);
    if At(g, q.0, q.1) == '#' then None else Some(q)
  }

  /** On a move, the slope rule by direction is the slope rule by tiles. */
  lemma SlopeOkDownhill(g: Grid<char>, p: Pos, d: Dir, c: char)
    requires Step(g, p, d).Some?
    ensures SlopeOk(d, c) <==> Downhill(p, Step(g, p, d).value, c)
  {
  }

  // ---------------------------------------------------------------------------
  // Nodes.

  /** Row `y` holds `.` in some column from `x` on. */
  predicate DotFrom(g: Grid<char>, y: nat, x: nat)
    requires g.Valid() && y < g.Height()
  {
    exists i :: x <= i < g.Width() && At(g, i, y) == '.'
  }

  /** The first column of row `y` holding `.`, from column `x` on; 0 when there is none. */
  function FirstDot(g: Grid<char>, y: nat, x: nat): (r: nat)
    requires g.Valid() && y < g.Height()
    ensures DotFrom(g, y, x) ==> x <= r < g.Width() && At(g, r, y) == '.'
    ensures DotFrom(g, y, x) ==> forall i :: x <= i < r ==> At(g, i, y) != '.'
    ensures !DotFrom(g, y, x) ==> r == 0
    decreases g.Width() - x
  {
    if x >= g.Width() then 0
    else if At(g, x, y) == '.' then x
    else
      assert DotFrom(g, y, x) ==> DotFrom(g, y, x + 1) by {
        if DotFrom(g, y, x) {
          var i :| x <= i < g.Width() && At(g, i, y) == '.';
          assert i != x;
        }
      }
      FirstDot(g, y, x + 1)
  }

  /** The positions in `ds` of the directions that lead to an open neighbour. */
  function OpenDirs(g: Grid<char>, p: Pos, ds: seq<Dir>): set<nat>
    requires g.Valid()
  {
    set k | 0 <= k < |ds| && Neighbour(g, p, ds[k]).Some?
  }

  /** The number of open neighbours of `p`, over the directions `ds`. */
  function OpenCount(g: Grid<char>, p: Pos, ds: seq<Dir>): (n: nat)
    requires g.Valid()
    ensures n == |OpenDirs(g, p, ds)| && n <= |ds|
  {
    if ds == [] then 0
    else
      var m := |ds| - 1;
      OpenDirsSnoc(g, p, ds);
      OpenCount(g, p, ds[..m]) + if Neighbour(g, p, ds[m]).Some? then 1 else 0
  }

  /** The last direction adds its own position to the open ones, or nothing. */
  lemma OpenDirsSnoc(g: Grid<char>, p: Pos, ds: seq<Dir>)
    requires g.Valid() && ds != []
    ensures var m := |ds| - 1;
            |OpenDirs(g, p, ds)| == |OpenDirs(g, p, ds[..m])| + if Neighbour(g, p, ds[m]).Some? then 1 else 0
  {
    var m := |ds| - 1;
    var here: set<nat> := if Neighbour(g, p, ds[m]).Some? then {m} else {};
    assert forall k :: 0 <= k < m ==> ds[..m][k] == ds[k];
    assert OpenDirs(g, p, ds) == OpenDirs(g, p, ds[..m]) + here;
    assert m !in OpenDirs(g, p, ds[..m]);
  }

  /** A path tile where the maze branches: more than two open neighbours. */
  predicate IsJunction(g: Grid<char>, p: Pos)
    requires g.Valid() && InBox(g, p)
  {
    At(g, p.0, p.1) == '.' && OpenCount(g, p, Dirs) > 2
  }

  /** Row-major order of tiles. */
  predicate Before(a: Pos, b: Pos)
  {
    a.1 < b.1 || (a.1 == b.1 && a.0 < b.0)
  }

  predicate RowMajor(ps: seq<Pos>)
  {
    forall i, j :: 0 <= i < j < |ps| ==> Before(ps[i], ps[j])
  }

  /** The junctions of row `y` among its first `x` columns, left to right. */
  function RowJunctions(g: Grid<char>, y: nat, x: nat): (r: seq<Pos>)
    requires g.Valid() && y < g.Height() && x <= g.Width()
    ensures forall p: Pos :: p in r <==> p.1 == y && p.0 < x && IsJunction(g, p)
    ensures RowMajor(r)
  {
    if x == 0 then []
    else
      var r := RowJunctions(g, y, x - 1);
      if IsJunction(g, (x - 1, y)) then r + [(x - 1, y)] else r
  }

  /** The junctions of the first `y` rows, in row-major order. */
  function JunctionsUpTo(g: Grid<char>, y: nat): (r: seq<Pos>)
    requires g.Valid() && y <= g.Height()
    ensures forall p: Pos :: p in r <==> InBox(g, p) && p.1 < y && IsJunction(g, p)
    ensures RowMajor(r)
  {
    if y == 0 then []
    else
      var r := JunctionsUpTo(g, y - 1);
      var row := RowJunctions(g, y - 1, g.Width());
      assert forall i, j :: 0 <= i < |r| && 0 <= j < |row| ==> Before(r[i], row[j]) by {
        assert forall i :: 0 <= i < |r| ==> r[i] in r;
        assert forall j :: 0 <= j < |row| ==> row[j] in row;
      }
      r + row
  }

  /** `find_nodes`: node 0 is the first `.` of the top row, node 1 the first `.` of
      the bottom row (column 0 when a row has none), then every junction in row-major
      order. An empty grid is ruled out: the program's `dim_y - 1` would underflow. */
  function Nodes(g: Grid<char>): (ns: seq<Pos>)
    requires g.Valid() && g.Height() > 0
    ensures |ns| >= 2
    ensures ns[0] == (FirstDot(g, 0, 0), 0) && ns[1] == (FirstDot(g, g.Height() - 1, 0), g.Height() - 1)
    ensures forall p: Pos :: p in ns[2..] <==> InBox(g, p) && IsJunction(g, p)
    ensures RowMajor(ns[2..])
  {
    var ns := [(FirstDot(g, 0, 0), 0), (FirstDot(g, g.Height() - 1, 0), g.Height() - 1)] + JunctionsUpTo(g, g.Height());
    assert ns[2..] == JunctionsUpTo(g, g.Height());
    ns
  }

  /** The node ids as the program collects them into an ordered map: a tile listed
      twice keeps its later index. */
  function IdsOf(ns: seq<Pos>): (ids: map<Pos, nat>)
    ensures forall p :: p in ids <==> p in ns
    ensures forall p :: p in ids ==> ids[p] < |ns| && ns[ids[p]] == p
    ensures forall p :: p in ids ==> forall k :: ids[p] < k < |ns| ==> ns[k] != p
  {
    if ns == [] then map[]
    else
      var n := |ns| - 1;
      var ids := IdsOf(ns[..n]);
      SnocIn(ns);
      ids[ns[n] := n]
  }

  lemma SnocIn(ns: seq<Pos>)
    requires ns != []
    ensures var n := |ns| - 1;
            (forall k :: 0 <= k < n ==> ns[..n][k] == ns[k]) && forall p :: p in ns <==> p in ns[..n] || p == ns[n]
  {
    var n := |ns| - 1;
    assert ns == ns[..n] + [ns[n]];
  }

  // ---------------------------------------------------------------------------
  // Following a corridor.

  /** The first direction, in the program's order, leading to an open tile other
      than `prev`, with that tile. */
  function FirstExit(g: Grid<char>, pos: Pos, prev: Pos, ds: seq<Dir>): (r: Option<(Dir, Pos)>)
    requires g.Valid()
    ensures r.Some? ==> r.value.0 in ds && Neighbour(g, pos, r.value.0) == Some(r.value.1) && r.value.1 != prev
    ensures r.None? <==> forall k :: 0 <= k < |ds| ==> Neighbour(g, pos, ds[k]).None? || Neighbour(g, pos, ds[k]) == Some(prev)
  {
    if ds == [] then None
    else
      var q := Neighbour(g, pos, ds[0]);
      if q.Some? && q.value != prev then Some((ds[0], q.value))
      else
        var r := FirstExit(g, pos, prev, ds[1..]);
        assert forall k :: 1 <= k < |ds| ==> ds[1..][k - 1] == ds[k];
        r
  }

  /** The exit found is at some position `i` of the directions, and every direction
      before it is closed or leads back to `prev`. */
  lemma {:induction false} FirstExitEarliest(g: Grid<char>, pos: Pos, prev: Pos, ds: seq<Dir>) returns (i: nat)
    requires g.Valid() && FirstExit(g, pos, prev, ds).Some?
    ensures i < |ds| && ds[i] == FirstExit(g, pos, prev, ds).value.0
    ensures forall k :: 0 <= k < i ==> Neighbour(g, pos, ds[k]).None? || Neighbour(g, pos, ds[k]) == Some(prev)
  {
    var q := Neighbour(g, pos, ds[0]);
    if q.Some? && q.value != prev {
      i := 0;
    } else {
      var j := FirstExitEarliest(g, pos, prev, ds[1..]);
      i := j + 1;
      assert forall k :: 1 <= k < i ==> ds[k] == ds[1..][k - 1];
    }
  }

  /** Where a corridor walk ends: at a node with the number of moves after the first,
      blocked by a dead end or a wrong-way slope, or out of fuel. */
  datatype Walked = Reached(node: nat, dist: nat) | Blocked | Exhausted

  /** `walk_path` from `pos`, having come from `prev`: take the first open exit that
      does not lead back; stop with distance 1 when it is a node, give up on a
      wrong-way slope when slopes count, and otherwise continue one tile further.
      Each step uses one unit of fuel. */
  function WalkPath(g: Grid<char>, ids: map<Pos, nat>, pos: Pos, prev: Pos, slopes: bool, fuel: nat): (r: Walked)
    requires g.Valid()
    ensures r.Reached? ==> 1 <= r.dist <= fuel && r.node in ids.Values
    decreases fuel
  {
    if fuel == 0 then Exhausted
    else
      var exit := FirstExit(g, pos, prev, Dirs);
      if exit.None? then Blocked
      else
        var (d, q) := exit.value;
        if q in ids then Reached(ids[q], 1)
        else if slopes && !SlopeOk(d, At(g, q.0, q.1)) then Blocked
        else
          match WalkPath(g, ids, q, pos, slopes, fuel - 1)
          case Reached(n, k) => Reached(n, k + 1)
          case other => other
  }

  /** A corridor walk as a list of tiles: `ps[0]` is where the walk came from, and
      each later move goes to an open adjacent tile other than the one two back; the
      tiles strictly between the second and the last are not nodes, and with slopes
      each of them is entered downhill. */
  ghost predicate Trail(g: Grid<char>, ids: map<Pos, nat>, slopes: bool, ps: seq<Pos>)
  {
    && |ps| >= 3
    && (forall i :: 2 <= i < |ps| ==> Adjacent(ps[i - 1], ps[i]) && Open(g, ps[i]) && ps[i] != ps[i - 2])
    && (forall i :: 2 <= i < |ps| - 1 ==> ps[i] !in ids)
    && (slopes ==> forall i :: 2 <= i < |ps| - 1 ==> Open(g, ps[i]) && Downhill(ps[i - 1], ps[i], At(g, ps[i].0, ps[i].1)))
  }

  lemma TrailCons(g: Grid<char>, ids: map<Pos, nat>, slopes: bool, prev: Pos, ps: seq<Pos>)
    requires Trail(g, ids, slopes, ps)
    requires Adjacent(ps[0], ps[1]) && Open(g, ps[1]) && ps[1] != prev && ps[1] !in ids
    requires slopes ==> Downhill(ps[0], ps[1], At(g, ps[1].0, ps[1].1))
    ensures Trail(g, ids, slopes, [prev] + ps)
  {
    var qs := [prev] + ps;
    assert forall i :: 1 <= i < |qs| ==> qs[i] == ps[i - 1];
  }

  /** One step of a walk that reaches a node. */
  lemma WalkReachedStep(g: Grid<char>, ids: map<Pos, nat>, pos: Pos, prev: Pos, slopes: bool, fuel: nat)
    requires g.Valid() && WalkPath(g, ids, pos, prev, slopes, fuel).Reached?
    ensures fuel > 0 && FirstExit(g, pos, prev, Dirs).Some?
    ensures var r := WalkPath(g, ids, pos, prev, slopes, fuel);
            var exit := FirstExit(g, pos, prev, Dirs).value;
            var q := exit.1;
            && (q in ids ==> r == Reached(ids[q], 1))
            && (q !in ids ==>
                  && (slopes ==> SlopeOk(exit.0, At(g, q.0, q.1)))
                  && var inner := WalkPath(g, ids, q, pos, slopes, fuel - 1);
                     inner.Reached? && r == Reached(inner.node, inner.dist + 1))
  {
  }

  /** A walk that reaches a node followed a trail of `dist + 1` moves from `prev`
      through `pos` to that node's tile. */
  lemma {:induction false} WalkTrail(g: Grid<char>, ids: map<Pos, nat>, pos: Pos, prev: Pos, slopes: bool, fuel: nat)
      returns (ps: seq<Pos>)
    requires g.Valid() && WalkPath(g, ids, pos, prev, slopes, fuel).Reached?
    ensures var r := WalkPath(g, ids, pos, prev, slopes, fuel);
            && Trail(g, ids, slopes, ps) && |ps| == r.dist + 2 && ps[0] == prev && ps[1] == pos
            && ps[|ps| - 1] in ids && ids[ps[|ps| - 1]] == r.node
    decreases fuel
  {
    WalkReachedStep(g, ids, pos, prev, slopes, fuel);
    var exit := FirstExit(g, pos, prev, Dirs).value;
    if exit.1 in ids {
      ps := [prev, pos, exit.1];
    } else {
      var rest := WalkTrail(g, ids, exit.1, pos, slopes, fuel - 1);
      ps := WalkTrailCons(g, ids, pos, prev, slopes, fuel, exit.0, exit.1, rest);
    }
  }

  /** The trail of a walk whose first move, in direction `d` to `q`, is not yet a
      node: the trail from `q` with `prev` in front. */
  lemma WalkTrailCons(g: Grid<char>, ids: map<Pos, nat>, pos: Pos, prev: Pos, slopes: bool, fuel: nat,
                      d: Dir, q: Pos, rest: seq<Pos>) returns (ps: seq<Pos>)
    requires g.Valid() && fuel > 0
    requires FirstExit(g, pos, prev, Dirs) == Some((d, q)) && q !in ids
    requires slopes ==> SlopeOk(d, At(g, q.0, q.1))
    requires var inner := WalkPath(g, ids, q, pos, slopes, fuel - 1);
             && inner.Reached?
             && Trail(g, ids, slopes, rest) && |rest| == inner.dist + 2 && rest[0] == pos && rest[1] == q
             && rest[|rest| - 1] in ids && ids[rest[|rest| - 1]] == inner.node
    ensures var r := WalkPath(g, ids, pos, prev, slopes, fuel);
            && r.Reached?
            && Trail(g, ids, slopes, ps) && |ps| == r.dist + 2 && ps[0] == prev && ps[1] == pos
            && ps[|ps| - 1] in ids && ids[ps[|ps| - 1]] == r.node
  {
    SlopeOkDownhill(g, pos, d, At(g, q.0, q.1));
    TrailCons(g, ids, slopes, prev, rest);
    ps := [prev] + rest;
    assert ps[|ps| - 1] == rest[|rest| - 1];
  }

  // ---------------------------------------------------------------------------
  // The graph.

  /** An edge to node `node` of `dist` moves. */
  type Edge = (nat, nat)

  /** A trail of `w` moves from the tile `from` to the tile of node `j`, whose first
      move enters an open tile (downhill when slopes count). */
  ghost predicate EdgeRoute(g: Grid<char>, ids: map<Pos, nat>, slopes: bool, from: Pos, e: Edge)
  {
    exists ps: seq<Pos> ::
      && Trail(g, ids, slopes, ps) && |ps| == e.1 + 1 && ps[0] == from
      && Adjacent(ps[0], ps[1]) && Open(g, ps[1])
      && (slopes ==> Downhill(ps[0], ps[1], At(g, ps[1].0, ps[1].1)))
      && ps[|ps| - 1] in ids && ids[ps[|ps| - 1]] == e.0
  }

  /** The edges out of the node at `p` over the directions `ds`, in order: for each
      open neighbour (entered downhill when slopes count) whose corridor walk reaches
      a node, that node with the walk's distance plus the first move. */
  function NodeEdges(g: Grid<char>, ids: map<Pos, nat>, p: Pos, slopes: bool, fuel: nat, ds: seq<Dir>): (r: Option<seq<Edge>>)
    requires g.Valid()
    ensures r.Some? ==> |r.value| <= |ds| && forall k :: 0 <= k < |r.value| ==> r.value[k].0 in ids.Values && r.value[k].1 >= 2
  {
    if ds == [] then Some([])
    else
      var n := |ds| - 1;
      var rest :- NodeEdges(g, ids, p, slopes, fuel, ds[..n]);
      var q := Neighbour(g, p, ds[n]);
      if q.None? then Some(rest)
      else if slopes && !SlopeOk(ds[n], At(g, q.value.0, q.value.1)) then Some(rest)
      else
        match WalkPath(g, ids, q.value, p, slopes, fuel)
        case Reached(j, k) => var e: Edge := (j, k + 1); Some(rest + [e])
        case Blocked => Some(rest)
        case Exhausted => None
  }

  /** Every edge follows a trail of its length through the maze. */
  lemma {:induction false} NodeEdgesRoutes(g: Grid<char>, ids: map<Pos, nat>, p: Pos, slopes: bool, fuel: nat, ds: seq<Dir>)
    requires g.Valid() && NodeEdges(g, ids, p, slopes, fuel, ds).Some?
    ensures var es := NodeEdges(g, ids, p, slopes, fuel, ds).value;
            forall k :: 0 <= k < |es| ==> EdgeRoute(g, ids, slopes, p, es[k])
  {
    if ds != [] {
      var n := |ds| - 1;
      NodeEdgesRoutes(g, ids, p, slopes, fuel, ds[..n]);
      var q := Neighbour(g, p, ds[n]);
      if q.Some? && !(slopes && !SlopeOk(ds[n], At(g, q.value.0, q.value.1))) {
        if WalkPath(g, ids, q.value, p, slopes, fuel).Reached? {
          NeighbourRoute(g, ids, p, slopes, fuel, ds[n], q.value);
        }
      }
    }
  }

  /** The edge through one open neighbour follows a trail of its length. */
  lemma NeighbourRoute(g: Grid<char>, ids: map<Pos, nat>, p: Pos, slopes: bool, fuel: nat, d: Dir, q: Pos)
    requires g.Valid() && Neighbour(g, p, d) == Some(q)
    requires slopes ==> SlopeOk(d, At(g, q.0, q.1))
    requires WalkPath(g, ids, q, p, slopes, fuel).Reached?
    ensures var w := WalkPath(g, ids, q, p, slopes, fuel);
            EdgeRoute(g, ids, slopes, p, (w.node, w.dist + 1))
  {
    var w := WalkPath(g, ids, q, p, slopes, fuel);
    var ps := WalkTrail(g, ids, q, p, slopes, fuel);
    SlopeOkDownhill(g, p, d, At(g, q.0, q.1));
    assert Trail(g, ids, slopes, ps) && |ps| == w.dist + 2 && ps[0] == p;
  }

  /** The edge lists of all nodes, in node order; `None` when a walk runs out of fuel. */
  function AllEdges(g: Grid<char>, ids: map<Pos, nat>, ns: seq<Pos>, slopes: bool, fuel: nat): (r: Option<seq<seq<Edge>>>)
    requires g.Valid()
    ensures r.Some? ==> |r.value| == |ns|
    ensures r.Some? ==> forall i :: 0 <= i < |ns| ==> NodeEdges(g, ids, ns[i], slopes, fuel, Dirs) == Some(r.value[i])
  {
    if ns == [] then Some([])
    else
      var n := |ns| - 1;
      var rest :- AllEdges(g, ids, ns[..n], slopes, fuel);
      var es :- NodeEdges(g, ids, ns[n], slopes, fuel, Dirs);
      Some(rest + [es])
  }

  /** The longest edge of a list, 0 for none. */
  function MaxEdge(es: seq<Edge>): (m: nat)
    ensures forall k :: 0 <= k < |es| ==> es[k].1 <= m
    ensures es == [] ==> m == 0
    ensures es != [] ==> exists k :: 0 <= k < |es| && es[k].1 == m
  {
    if es == [] then 0
    else
      var m := MaxEdge(es[..|es| - 1]);
      assert forall k :: 0 <= k < |es| - 1 ==> es[..|es| - 1][k] == es[k];
      if es[|es| - 1].1 > m then es[|es| - 1].1 else m
  }

  /** Edge lists over `n` nodes with targets among them, and `me[i]` bounding the
      edges of node `i`. */
  predicate Graph(es: seq<seq<Edge>>, me: seq<nat>, n: nat)
  {
    && |es| == n && |me| == n
    && forall i, k :: 0 <= i < n && 0 <= k < |es[i]| ==> es[i][k].0 < n && es[i][k].1 <= me[i]
  }

  // ---------------------------------------------------------------------------
  // The search.

  /** The number of nodes not yet visited. */
  function Unvisited(vis: seq<bool>): (n: nat)
    ensures n <= |vis|
  {
    if vis == [] then 0 else Unvisited(vis[..|vis| - 1]) + if vis[|vis| - 1] then 0 else 1
  }

  lemma {:induction false} UnvisitedMark(vis: seq<bool>, i: nat)
    requires i < |vis| && !vis[i]
    ensures Unvisited(vis[i := true]) + 1 == Unvisited(vis)
  {
    var n := |vis| - 1;
    if i < n {
      UnvisitedMark(vis[..n], i);
      assert vis[i := true][..n] == vis[..n][i := true];
    } else {
      assert vis[i := true][..n] == vis[..n];
    }
  }

  /** The sum of the longest edges of the unvisited nodes: what the search may still
      add to a path. */
  function Budget(me: seq<nat>, vis: seq<bool>): nat
    requires |me| == |vis|
  {
    if vis == [] then 0
    else
      var n := |vis| - 1;
      Budget(me[..n], vis[..n]) + if vis[n] then 0 else me[n]
  }

  lemma {:induction false} BudgetMark(me: seq<nat>, vis: seq<bool>, i: nat)
    requires |me| == |vis| && i < |vis| && !vis[i]
    ensures Budget(me, vis[i := true]) + me[i] == Budget(me, vis)
  {
    var n := |vis| - 1;
    if i < n {
      BudgetMark(me[..n], vis[..n], i);
      assert vis[i := true][..n] == vis[..n][i := true];
    } else {
      assert vis[i := true][..n] == vis[..n];
    }
  }

  /** With nothing visited, the budget is the sum of all longest edges. */
  lemma {:induction false} BudgetAll(me: seq<nat>, vis: seq<bool>)
    requires |me| == |vis| && forall i :: 0 <= i < |vis| ==> !vis[i]
    ensures Budget(me, vis) == Sum(me)
  {
    if vis != [] {
      var n := |vis| - 1;
      BudgetAll(me[..n], vis[..n]);
    }
  }

  /** A simple path of total length `d` from `node` to `end` through unvisited nodes
      only; a path stops at `end`. */
  ghost predicate HasPath(es: seq<seq<Edge>>, vis: seq<bool>, node: nat, end: nat, d: nat)
    requires |es| == |vis| && node < |vis|
    requires forall i, k :: 0 <= i < |es| && 0 <= k < |es[i]| ==> es[i][k].0 < |vis|
    decreases Unvisited(vis)
  {
    && !vis[node]
    && if node == end then d == 0
       else
         UnvisitedMark(vis, node);
         exists k :: 0 <= k < |es[node]| && es[node][k].1 <= d
                     && HasPath(es, vis[node := true], es[node][k].0, end, d - es[node][k].1)
  }

  /** `find_max_distance_to_end`: prune when even the remaining budget cannot beat
      the best found so far; `Some(0)` at the end node; otherwise the longest
      extension through an unvisited neighbour, or `None` when there is none. A result
      is the length of a simple path to `end`, never more than the budget, so none of
      the program's `u16` sums overflow. */
  function FindMax(es: seq<seq<Edge>>, me: seq<nat>, node: nat, end: nat, vis: seq<bool>,
                   budget: nat, current: nat, best: nat): (r: Option<nat>)
    requires Graph(es, me, |vis|) && node < |vis| && !vis[node]
    requires Budget(me, vis) <= budget && current + budget <= U16_MAX
    ensures r.Some? ==> r.value <= budget
    ensures r == Some(0) <==> current + budget > best && node == end
    decreases Unvisited(vis), 1, 0
  {
    if current + budget <= best then None
    else if node == end then Some(0)
    else
      var v := vis[node := true];
      UnvisitedMark(vis, node);
      BudgetMark(me, vis, node);
      var r := Extend(es, me, node, end, v, budget, current, best, 0, 0);
      if r.0 > 0 then Some(r.0) else None
  }

  /** The loop of `find_max_distance_to_end` over the edges of `node` from the `k`-th
      on, with `node` marked visited: the longest extension found and the updated
      best. */
  function Extend(es: seq<seq<Edge>>, me: seq<nat>, node: nat, end: nat, vis: seq<bool>,
                  budget: nat, current: nat, best: nat, k: nat, longest: nat): (r: (nat, nat))
    requires Graph(es, me, |vis|) && node < |vis| && vis[node] && k <= |es[node]|
    requires Budget(me, vis) + me[node] <= budget && current + budget <= U16_MAX && longest <= budget
    ensures longest <= r.0 <= budget
    decreases Unvisited(vis) + 1, 0, |es[node]| - k
  {
    if k == |es[node]| then (longest, best)
    else
      var e := es[node][k];
      if vis[e.0] then Extend(es, me, node, end, vis, budget, current, best, k + 1, longest)
      else
        var sub := FindMax(es, me, e.0, end, vis, budget - me[node], current + e.1, best);
        if sub.Some? then
          var l := Longer(sub.value + e.1, longest);
          Extend(es, me, node, end, vis, budget, current, Longer(l, best), k + 1, l)
        else Extend(es, me, node, end, vis, budget, current, best, k + 1, longest)
  }

  /** A result of the search is the length of a simple path to `end` through
      unvisited nodes. */
  lemma {:induction false} FindMaxSound(es: seq<seq<Edge>>, me: seq<nat>, node: nat, end: nat, vis: seq<bool>,
                                        budget: nat, current: nat, best: nat)
    requires Graph(es, me, |vis|) && node < |vis| && !vis[node]
    requires Budget(me, vis) <= budget && current + budget <= U16_MAX
    ensures var r := FindMax(es, me, node, end, vis, budget, current, best);
            r.Some? ==> HasPath(es, vis, node, end, r.value)
    decreases Unvisited(vis), 1, 0
  {
    if current + budget > best && node != end {
      var v := vis[node := true];
      UnvisitedMark(vis, node);
      FindMaxUnfold(es, me, node, end, vis, budget, current, best);
      var r := Extend(es, me, node, end, v, budget, current, best, 0, 0);
      if r.0 > 0 {
        ExtendSound(es, me, node, end, v, budget, current, best, 0, 0);
        var j :| 0 <= j < |es[node]| && !v[es[node][j].0] && es[node][j].1 <= r.0
                 && HasPath(es, v, es[node][j].0, end, r.0 - es[node][j].1);
        assert HasPath(es, vis, node, end, r.0);
      }
    }
  }

  /** The longest extension found by the loop is either the one it started with or
      a path through one of the remaining neighbours. */
  lemma {:induction false} ExtendSound(es: seq<seq<Edge>>, me: seq<nat>, node: nat, end: nat, vis: seq<bool>,
                                       budget: nat, current: nat, best: nat, k: nat, longest: nat)
    requires Graph(es, me, |vis|) && node < |vis| && vis[node] && k <= |es[node]|
    requires Budget(me, vis) + me[node] <= budget && current + budget <= U16_MAX && longest <= budget
    ensures var r := Extend(es, me, node, end, vis, budget, current, best, k, longest);
            r.0 == longest ||
            exists j :: k <= j < |es[node]| && !vis[es[node][j].0] && es[node][j].1 <= r.0
                        && HasPath(es, vis, es[node][j].0, end, r.0 - es[node][j].1)
    decreases Unvisited(vis) + 1, 0, |es[node]| - k
  {
    if k < |es[node]| {
      var e := es[node][k];
      if vis[e.0] {
        ExtendSkip(es, me, node, end, vis, budget, current, best, k, longest);
        ExtendSound(es, me, node, end, vis, budget, current, best, k + 1, longest);
      } else {
        var rest: nat := budget - me[node];
        var further: nat := current + e.1;
        var sub := FindMax(es, me, e.0, end, vis, rest, further, best);
        ExtendStep(es, me, node, end, vis, budget, current, best, k, longest, e.0, rest, further, sub);
        var l := Extended(sub, e.1, longest);
        var b := if sub.Some? then Longer(l, best) else best;
        ExtendSound(es, me, node, end, vis, budget, current, b, k + 1, l);
        if sub.Some? {
          FindMaxSound(es, me, e.0, end, vis, rest, further, best);
        }
      }
    }
  }

  /** The longer of two extensions. */
  function Longer(a: nat, b: nat): nat
  {
    if a > b then a else b
  }

  /** The longest extension after one more neighbour's result. */
  function Extended(sub: Option<nat>, dist: nat, longest: nat): nat
  {
    if sub.Some? then Longer(sub.value + dist, longest) else longest
  }

  /** One turn of the loop of `find_max_distance_to_end` over an unvisited
      neighbour whose search gave `sub`. */
  lemma ExtendStep(es: seq<seq<Edge>>, me: seq<nat>, node: nat, end: nat, vis: seq<bool>,
                   budget: nat, current: nat, best: nat, k: nat, longest: nat,
                   next: nat, rest: nat, further: nat, sub: Option<nat>)
    requires Graph(es, me, |vis|) && node < |vis| && vis[node] && k < |es[node]|
    requires Budget(me, vis) + me[node] <= budget && current + budget <= U16_MAX && longest <= budget
    requires next == es[node][k].0 && !vis[next]
    requires rest == budget - me[node] && further == current + es[node][k].1
    requires Budget(me, vis) <= rest && further + rest <= U16_MAX
    requires sub == FindMax(es, me, next, end, vis, rest, further, best)
    ensures var l := Extended(sub, es[node][k].1, longest);
            && l <= budget
            && Extend(es, me, node, end, vis, budget, current, best, k, longest)
               == Extend(es, me, node, end, vis, budget, current, if sub.Some? then Longer(l, best) else best, k + 1, l)
  {
    var e := es[node][k];
    var l := Extended(sub, e.1, longest);
    assert sub.Some? ==> sub.value <= rest;
    assert l <= budget;
    assert Extend(es, me, node, end, vis, budget, current, best, k, longest)
           == Extend(es, me, node, end, vis, budget, current, if sub.Some? then Longer(l, best) else best, k + 1, l) by {
      assert sub == FindMax(es, me, e.0, end, vis, budget - me[node], current + e.1, best);
    }
  }

  /** The loop skips a neighbour already on the path. */
  lemma ExtendSkip(es: seq<seq<Edge>>, me: seq<nat>, node: nat, end: nat, vis: seq<bool>,
                   budget: nat, current: nat, best: nat, k: nat, longest: nat)
    requires Graph(es, me, |vis|) && node < |vis| && vis[node] && k < |es[node]|
    requires Budget(me, vis) + me[node] <= budget && current + budget <= U16_MAX && longest <= budget
    requires vis[es[node][k].0]
    ensures Extend(es, me, node, end, vis, budget, current, best, k, longest)
            == Extend(es, me, node, end, vis, budget, current, best, k + 1, longest)
  {
  }

  /** `find_max_distance_to_end` past the pruning test and the end test. */
  lemma FindMaxUnfold(es: seq<seq<Edge>>, me: seq<nat>, node: nat, end: nat, vis: seq<bool>,
                      budget: nat, current: nat, best: nat)
    requires Graph(es, me, |vis|) && node < |vis| && !vis[node]
    requires Budget(me, vis) <= budget && current + budget <= U16_MAX
    requires current + budget > best && node != end
    ensures Budget(me, vis[node := true]) + me[node] <= budget
    ensures var r := Extend(es, me, node, end, vis[node := true], budget, current, best, 0, 0);
            FindMax(es, me, node, end, vis, budget, current, best) == if r.0 > 0 then Some(r.0) else None
  {
    BudgetMark(me, vis, node);
  }

  /** `find_max_distance_to_end` as the program runs it, on a mutable `visited`
      vector: it marks `node` while exploring below it, skips neighbours already on
      the current path, and unmarks `node` before returning, so `visited` comes back
      as it went in. */
  method Search(es: seq<seq<Edge>>, me: seq<nat>, node: nat, end: nat, visited: seq<bool>,
                budget: nat, current: nat, best: nat) returns (r: Option<nat>, after: seq<bool>)
    requires Graph(es, me, |visited|) && node < |visited| && !visited[node]
    requires Budget(me, visited) <= budget && current + budget <= U16_MAX
    ensures after == visited
    ensures r == FindMax(es, me, node, end, visited, budget, current, best)
    decreases Unvisited(visited)
  {
    if current + budget <= best {
      return None, visited;
    }
    var vis := visited[node := true];
    if node == end {
      vis := vis[node := false];
      assert vis == visited;
      return Some(0), vis;
    }
    UnvisitedMark(visited, node);
    FindMaxUnfold(es, me, node, end, visited, budget, current, best);
    ghost var marked := vis;
    var longest: nat, b: nat, k: nat := 0, best, 0;
    while k < |es[node]|
      invariant vis == marked && k <= |es[node]| && longest <= budget
      invariant Extend(es, me, node, end, marked, budget, current, best, 0, 0)
                == Extend(es, me, node, end, marked, budget, current, b, k, longest)
      decreases |es[node]| - k
    {
      var e := es[node][k];
      assert vis == marked;
      ghost var goal := Extend(es, me, node, end, marked, budget, current, b, k, longest);
      if vis[e.0] {
        ExtendSkip(es, me, node, end, marked, budget, current, b, k, longest);
      } else {
        var rest: nat := budget - me[node];
        var further: nat := current + e.1;
        var sub, back := Search(es, me, e.0, end, vis, rest, further, b);
        ExtendStep(es, me, node, end, marked, budget, current, b, k, longest, e.0, rest, further, sub);
        vis := back;
        longest := Extended(sub, e.1, longest);
        if sub.Some? {
          b := Longer(longest, b);
        }
      }
      k := k + 1;
      assert goal == Extend(es, me, node, end, marked, budget, current, b, k, longest);
    }
    vis := vis[node := false];
    assert vis == visited;
    if longest > 0 {
      return Some(longest), vis;
    }
    return None, vis;
  }

  // ---------------------------------------------------------------------------
  // Solving.

  /** Node ids are `u8`, and the program also writes each id as the character
      `b'0' + id` into a labelled copy of the grid, which overflows from id 208 on. */
  const MAX_NODES: nat := 208

  /** The edge lists of the nodes `ns` with ids `ids`, and each node's longest edge. */
  function EdgesOf(g: Grid<char>, ids: map<Pos, nat>, ns: seq<Pos>, slopes: bool, fuel: nat): (r: Option<(seq<seq<Edge>>, seq<nat>)>)
    requires g.Valid() && forall p :: p in ids ==> ids[p] < |ns|
    ensures r.Some? ==> Graph(r.value.0, r.value.1, |ns|)
  {
    var es :- AllEdges(g, ids, ns, slopes, fuel);
    var me := seq(|es|, i requires 0 <= i < |es| => MaxEdge(es[i]));
    assert Graph(es, me, |ns|) by {
      forall i, k | 0 <= i < |ns| && 0 <= k < |es[i]| ensures es[i][k].0 < |ns| {
        assert es[i][k].0 in ids.Values;
      }
    }
    Some((es, me))
  }

  /** The graph of the maze: the edge lists and each node's longest edge. */
  function Contract(g: Grid<char>, slopes: bool, fuel: nat): (r: Option<(seq<seq<Edge>>, seq<nat>)>)
    requires g.Valid() && g.Height() > 0
    ensures r.Some? ==> Graph(r.value.0, r.value.1, |Nodes(g)|)
  {
    var ns := Nodes(g);
    EdgesOf(g, IdsOf(ns), ns, slopes, fuel)
  }

  /** Every edge of the contracted maze stands for a trail between the tiles of its
      two nodes. */
  lemma ContractRoutes(g: Grid<char>, slopes: bool, fuel: nat)
    requires g.Valid() && g.Height() > 0 && Contract(g, slopes, fuel).Some?
    ensures var es := Contract(g, slopes, fuel).value.0;
            forall i, k :: 0 <= i < |Nodes(g)| && 0 <= k < |es[i]| ==>
              EdgeRoute(g, IdsOf(Nodes(g)), slopes, Nodes(g)[i], es[i][k])
  {
    var ns := Nodes(g);
    var ids := IdsOf(ns);
    var es := AllEdges(g, ids, ns, slopes, fuel).value;
    assert Contract(g, slopes, fuel).value.0 == es;
    forall i, k | 0 <= i < |ns| && 0 <= k < |es[i]| ensures EdgeRoute(g, ids, slopes, ns[i], es[i][k]) {
      NodeEdgesRoutes(g, ids, ns[i], slopes, fuel, Dirs);
    }
  }

  /** The search of `solve` on a contracted graph: from node 0 to node 1 with
      everything unvisited and the sum of the longest edges as the budget, which must
      fit a `u16`. */
  function Longest(es: seq<seq<Edge>>, me: seq<nat>): (r: Option<nat>)
    requires Graph(es, me, |es|) && |es| >= 2
    ensures r.Some? ==> r.value <= U16_MAX
  {
    var vis := seq(|es|, _ => false);
    if Sum(me) > U16_MAX then None
    else
      BudgetAll(me, vis);
      FindMax(es, me, 0, 1, vis, Sum(me), 0, 0)
  }

  /** An answer of the search is the length of a simple path from node 0 to node 1. */
  lemma LongestSound(es: seq<seq<Edge>>, me: seq<nat>)
    requires Graph(es, me, |es|) && |es| >= 2
    ensures var r := Longest(es, me);
            r.Some? ==> HasPath(es, seq(|es|, _ => false), 0, 1, r.value)
  {
    var vis := seq(|es|, _ => false);
    if Sum(me) <= U16_MAX {
      BudgetAll(me, vis);
      FindMaxSound(es, me, 0, 1, vis, Sum(me), 0, 0);
    }
  }

  /** `solve`: the longest simple path from node 0 to node 1 of the contracted maze.
      `None` stands for the program's panics: a walk that needs more than `fuel`
      steps, a sum of longest edges beyond `u16`, or no path at all (`unwrap`). */
  function Solve(g: Grid<char>, slopes: bool, fuel: nat): (r: Option<nat>)
    requires g.Valid() && g.Height() > 0 && |Nodes(g)| <= MAX_NODES
    ensures r.Some? ==> Contract(g, slopes, fuel).Some? && r.value <= U16_MAX
  {
    var c :- Contract(g, slopes, fuel);
    Longest(c.0, c.1)
  }

  /** An answer of `solve` is the length of a simple path from the start to the end
      of the contracted maze. */
  lemma SolveSound(g: Grid<char>, slopes: bool, fuel: nat)
    requires g.Valid() && g.Height() > 0 && |Nodes(g)| <= MAX_NODES
    ensures var r := Solve(g, slopes, fuel);
            r.Some? ==> var es := Contract(g, slopes, fuel).value.0;
                        HasPath(es, seq(|es|, _ => false), 0, 1, r.value)
  {
    var c := Contract(g, slopes, fuel);
    if c.Some? {
      LongestSound(c.value.0, c.value.1);
    }
  }

  /** `run`: part 1 with slopes, part 2 without. */
  function Run(g: Grid<char>, fuel: nat): (r: Option<(nat, nat)>)
    requires g.Valid() && g.Height() > 0 && |Nodes(g)| <= MAX_NODES
    ensures r.Some? ==> Contract(g, true, fuel).Some? && Contract(g, false, fuel).Some?
    ensures r.Some? ==> var es := Contract(g, true, fuel).value.0;
                        HasPath(es, seq(|es|, _ => false), 0, 1, r.value.0)
    ensures r.Some? ==> var es := Contract(g, false, fuel).value.0;
                        HasPath(es, seq(|es|, _ => false), 0, 1, r.value.1)
  {
    SolveSound(g, true, fuel);
    SolveSound(g, false, fuel);
    var p1 :- Solve(g, true, fuel);
    var p2 :- Solve(g, false, fuel);
    Some((p1, p2))
  }
}

=== FILE: day3.dfy ===
/** Day 3: the schematic is a grid of characters; every maximal run of digits in a row is a
    part number, and it counts when a symbol (anything but a digit or `.`) touches it,
    diagonals included. */
module Day3 {
  import opened Text

  /** `is_special`. */
  predicate IsSpecial(c: char)
  {
    !IsDigit(c) && c != '.'
  }

  /** A number found in a row: its value and its columns `start .. end` (end exclusive). */
  datatype Num = Num(value: nat, start: nat, end: nat)

  // ---------------------------------------------------------------------------
  // Scanning a row.

  /** A maximal run of digits in `l`, with its decimal value. */
  predicate IsRun(l: string, x: Num)
  {
    && x.start < x.end <= |l|
    && (forall k :: x.start <= k < x.end ==> IsDigit(l[k]))
    && (x.start == 0 || !IsDigit(l[x.start - 1]))
    && (x.end == |l| || !IsDigit(l[x.end]))
    && x.value == DecimalValue(l[x.start..x.end])
  }

  /** The scanner's state at column `i`: inside a number, `n` is the value of the digits
      `start .. i` and `start` begins a run; outside one, column `i - 1` is no digit. */
  predicate ScanState(l: string, i: nat, inNum: bool, n: nat, start: nat)
  {
    && i <= |l|
    && (inNum ==> && start < i
                  && (forall k :: start <= k < i ==> IsDigit(l[k]))
                  && (start == 0 || !IsDigit(l[start - 1]))
                  && n == DecimalValue(l[start..i]))
    && (!inNum ==> i == 0 || !IsDigit(l[i - 1]))
  }

  /** The column loop of `part1`: a digit starts or continues a number, a non-digit ends
      it, and a number still open at the end of the row ends there. */
  function Scan(l: string, i: nat, inNum: bool, n: nat, start: nat): seq<Num>
    requires i <= |l|
    decreases |l| - i
  {
    if i == |l| then (if inNum then [Num(n, start, |l|)] else [])
    else if IsDigit(l[i]) then
      if inNum then Scan(l, i + 1, true, n * 10 + DigitValue(l[i]), start)
      else Scan(l, i + 1, true, DigitValue(l[i]), i)
    else if inNum then [Num(n, start, i)] + Scan(l, i + 1, false, n, start)
    else Scan(l, i + 1, false, n, start)
  }

  /** The numbers of a row, in order. */
  function Numbers(l: string): seq<Num>
  {
    Scan(l, 0, false, 0, 0)
  }

  predicate Increasing(xs: seq<Num>)
  {
    forall k :: 0 <= k < |xs| - 1 ==> xs[k].end < xs[k + 1].start
  }

  /** Two maximal runs with the same start are the same run. */
  lemma RunUnique(l: string, x: Num, y: Num)
    requires IsRun(l, x) && IsRun(l, y) && x.start == y.start
    ensures x == y
  {
  }

  lemma DecimalSnoc(l: string, start: nat, i: nat)
    requires start <= i < |l|
    requires forall k :: start <= k <= i ==> IsDigit(l[k])
    ensures AllDigits(l[start..i]) && AllDigits(l[start..i + 1])
    ensures DecimalValue(l[start..i + 1]) == 10 * DecimalValue(l[start..i]) + DigitValue(l[i])
  {
    assert l[start..i + 1][..i - start] == l[start..i];
  }

  /** The runs a scan from a state must produce. */
  ghost predicate Expected(l: string, lo: nat, r: seq<Num>)
  {
    && (forall x :: x in r <==> IsRun(l, x) && x.start >= lo)
    && Increasing(r)
  }

  /** From a scanner state, the scan yields, in increasing order, exactly the maximal runs
      that start at or after the open number (or column `i` when none is open). */
  lemma {:induction false} ScanExact(l: string, i: nat, inNum: bool, n: nat, start: nat)
    requires ScanState(l, i, inNum, n, start)
    ensures Expected(l, if inNum then start else i, Scan(l, i, inNum, n, start))
    decreases |l| - i, 1
  {
    if i == |l| {
      if inNum {
        ScanAtEnd(l, n, start);
      }
    } else if IsDigit(l[i]) {
      if inNum {
        ScanExtend(l, i, n, start);
      } else {
        ScanOpen(l, i, n, start);
      }
    } else {
      ScanOther(l, i, inNum, n, start);
    }
  }

  /** `ScanExact` at a digit that continues the open number. */
  lemma {:induction false} ScanExtend(l: string, i: nat, n: nat, start: nat)
    requires ScanState(l, i, true, n, start) && i < |l| && IsDigit(l[i])
    ensures Expected(l, start, Scan(l, i, true, n, start))
    decreases |l| - i, 0
  {
    assert ScanState(l, i + 1, true, n * 10 + DigitValue(l[i]), start) by {
      DecimalSnoc(l, start, i);
    }
    ScanExact(l, i + 1, true, n * 10 + DigitValue(l[i]), start);
    ScanSteps(l, i, true, n, start, n * 10 + DigitValue(l[i]), start);
  }

  /** `ScanExact` at a digit that opens a number. */
  lemma {:induction false} ScanOpen(l: string, i: nat, n: nat, start: nat)
    requires ScanState(l, i, false, n, start) && i < |l| && IsDigit(l[i])
    ensures Expected(l, i, Scan(l, i, false, n, start))
    decreases |l| - i, 0
  {
    assert ScanState(l, i + 1, true, DigitValue(l[i]), i) by {
      assert l[i..i + 1] == [l[i]];
      assert l[i..i + 1][..0] == [];
    }
    ScanExact(l, i + 1, true, DigitValue(l[i]), i);
    ScanSteps(l, i, false, n, start, DigitValue(l[i]), i);
  }

  /** `ScanExact` at a non-digit. */
  lemma {:induction false} ScanOther(l: string, i: nat, inNum: bool, n: nat, start: nat)
    requires ScanState(l, i, inNum, n, start) && i < |l| && !IsDigit(l[i])
    ensures Expected(l, if inNum then start else i, Scan(l, i, inNum, n, start))
    decreases |l| - i, 0
  {
    ScanExact(l, i + 1, false, n, start);
    if inNum {
      ScanCloses(l, i, n, start);
    } else {
      ScanSkips(l, i, n, start);
    }
  }

  /** A digit starts or extends the open number without closing anything. */
  lemma ScanSteps(l: string, i: nat, inNum: bool, n: nat, start: nat, n': nat, start': nat)
    requires i < |l| && IsDigit(l[i])
    requires n' == (if inNum then n * 10 + DigitValue(l[i]) else DigitValue(l[i]))
    requires start' == (if inNum then start else i)
    requires Expected(l, start', Scan(l, i + 1, true, n', start'))
    ensures Expected(l, start', Scan(l, i, inNum, n, start))
  {
  }

  /** A number open at the end of the row is its last run. */
  lemma ScanAtEnd(l: string, n: nat, start: nat)
    requires ScanState(l, |l|, true, n, start)
    ensures Expected(l, start, Scan(l, |l|, true, n, start))
  {
    var head := Num(n, start, |l|);
    assert IsRun(l, head);
    forall x | IsRun(l, x) && x.start >= start ensures x == head {
      RunUnique(l, x, head);
    }
  }

  /** Outside a number, a non-digit starts no run. */
  lemma ScanSkips(l: string, i: nat, n: nat, start: nat)
    requires i < |l| && !IsDigit(l[i])
    requires Expected(l, i + 1, Scan(l, i + 1, false, n, start))
    ensures Expected(l, i, Scan(l, i, false, n, start))
  {
  }

  /** A non-digit closes the open number, which precedes every later run. */
  lemma ScanCloses(l: string, i: nat, n: nat, start: nat)
    requires ScanState(l, i, true, n, start) && i < |l| && !IsDigit(l[i])
    requires Expected(l, i + 1, Scan(l, i + 1, false, n, start))
    ensures Expected(l, start, Scan(l, i, true, n, start))
  {
    var head := Num(n, start, i);
    var rest := Scan(l, i + 1, false, n, start);
    assert Scan(l, i, true, n, start) == [head] + rest;
    assert IsRun(l, head);
    RunsCons(l, head, rest);
    IncreasingCons(head, rest);
  }

  /** The run closed at a non-digit, then the runs after that non-digit, are the runs
      from the closed run's start on. */
  lemma RunsCons(l: string, head: Num, rest: seq<Num>)
    requires IsRun(l, head) && head.end < |l|
    requires forall x :: x in rest <==> IsRun(l, x) && x.start >= head.end + 1
    ensures forall x :: x in [head] + rest <==> IsRun(l, x) && x.start >= head.start
  {
    forall x ensures x in [head] + rest <==> IsRun(l, x) && x.start >= head.start {
      if IsRun(l, x) && head.start <= x.start <= head.end {
        RunUnique(l, x, head);
      }
    }
  }

  /** A run ending before every later run's start can be put in front of them. */
  lemma IncreasingCons(head: Num, rest: seq<Num>)
    requires Increasing(rest)
    requires forall x :: x in rest ==> x.start > head.end
    ensures Increasing([head] + rest)
  {
    if |rest| > 0 {
      assert rest[0] in rest;
    }
    var r := [head] + rest;
    assert forall k :: 1 <= k < |r| ==> r[k] == rest[k - 1];
  }

  /** The numbers of a row are its maximal digit runs, each once, left to right. */
  lemma NumbersExact(l: string)
    ensures forall x :: x in Numbers(l) <==> IsRun(l, x)
    ensures Increasing(Numbers(l))
    ensures forall k :: 0 <= k < |Numbers(l)| ==> IsRun(l, Numbers(l)[k])
  {
    ScanExact(l, 0, false, 0, 0);
    assert forall k :: 0 <= k < |Numbers(l)| ==> Numbers(l)[k] in Numbers(l);
  }

  // ---------------------------------------------------------------------------
  // Adjacency.

  predicate Rectangular(g: seq<string>)
  {
    forall r :: 0 <= r < |g| ==> |g[r]| == |g[0]|
  }

  /** The reference: some cell in the rows `line - 1 .. line + 1` and the columns
      `start - 1 .. end` holds a symbol. */
  predicate SymbolAt(g: seq<string>, r: int, c: int)
  {
    0 <= r < |g| && 0 <= c < |g[r]| && IsSpecial(g[r][c])
  }

  predicate Touches(g: seq<string>, line: nat, start: nat, end: nat)
  {
    exists r: int, c: int :: line - 1 <= r <= line + 1 && start - 1 <= c <= end && SymbolAt(g, r, c)
  }

  predicate AnySpecial(s: string)
  {
    exists k :: 0 <= k < |s| && IsSpecial(s[k])
  }

  /** Whether `x` lies within the schematic as a run in row `line`. */
  predicate InRow(g: seq<string>, line: nat, start: nat, end: nat)
  {
    Rectangular(g) && line < |g| && start < end <= |g[line]|
  }

  /** `has_adjacent_special_chars` as written: the right-hand cell of the same row is
      examined only when `end < len - 1`, and the rows above and below stop at column
      `end - 1` unless `end < len - 1`. */
  predicate HasAdjacentAsWritten(g: seq<string>, line: nat, start: nat, end: nat)
    requires InRow(g, line, start, end)
  {
    var w := |g[0]|;
    if start > 0 && IsSpecial(g[line][start - 1]) then true
    else if end < |g[line]| - 1 && IsSpecial(g[line][end]) then true
    else
      var st := if start > 0 then start - 1 else start;
      var ed := if end < w - 1 then end + 1 else end;
      (line > 0 && AnySpecial(g[line - 1][st..ed]))
      || (line < |g| - 1 && AnySpecial(g[line + 1][st..ed]))
  }

  /** The same check with the bound `end < len`, so the column right after the number is
      examined whenever it exists. */
  predicate HasAdjacent(g: seq<string>, line: nat, start: nat, end: nat)
    requires InRow(g, line, start, end)
  {
    var w := |g[0]|;
    if start > 0 && IsSpecial(g[line][start - 1]) then true
    else if end < |g[line]| && IsSpecial(g[line][end]) then true
    else
      var st := if start > 0 then start - 1 else start;
      var ed := if end < w then end + 1 else end;
      (line > 0 && AnySpecial(g[line - 1][st..ed]))
      || (line < |g| - 1 && AnySpecial(g[line + 1][st..ed]))
  }

  /** A symbol in an adjacent row within the number's column window. */
  lemma RowWindow(g: seq<string>, line: nat, start: nat, end: nat, r: int)
    requires InRow(g, line, start, end) && 0 <= r < |g|
    ensures var st := if start > 0 then start - 1 else start;
            var ed := if end < |g[0]| then end + 1 else end;
            AnySpecial(g[r][st..ed]) <==> exists c: int :: start - 1 <= c <= end && SymbolAt(g, r, c)
  {
    var st := if start > 0 then start - 1 else start;
    var ed := if end < |g[0]| then end + 1 else end;
    if AnySpecial(g[r][st..ed]) {
      var k :| 0 <= k < |g[r][st..ed]| && IsSpecial(g[r][st..ed][k]);
      assert SymbolAt(g, r, st + k);
    }
    if exists c: int :: start - 1 <= c <= end && SymbolAt(g, r, c) {
      var c: int :| start - 1 <= c <= end && SymbolAt(g, r, c);
      assert g[r][st..ed][c - st] == g[r][c];
    }
  }

  /** The corrected check agrees with the reference in both directions. */
  lemma HasAdjacentTouches(g: seq<string>, line: nat, start: nat, end: nat)
    requires InRow(g, line, start, end)
    requires forall k :: start <= k < end ==> IsDigit(g[line][k])
    ensures HasAdjacent(g, line, start, end) <==> Touches(g, line, start, end)
  {
    if HasAdjacent(g, line, start, end) {
      AdjacentTouches(g, line, start, end);
    }
    if Touches(g, line, start, end) {
      TouchesAdjacent(g, line, start, end);
    }
  }

  lemma AdjacentTouches(g: seq<string>, line: nat, start: nat, end: nat)
    requires InRow(g, line, start, end) && HasAdjacent(g, line, start, end)
    ensures Touches(g, line, start, end)
  {
    var st := if start > 0 then start - 1 else start;
    var ed := if end < |g[0]| then end + 1 else end;
    if start > 0 && IsSpecial(g[line][start - 1]) {
      assert SymbolAt(g, line, start - 1);
    } else if end < |g[line]| && IsSpecial(g[line][end]) {
      assert SymbolAt(g, line, end);
    } else if line > 0 && AnySpecial(g[line - 1][st..ed]) {
      RowWindow(g, line, start, end, line - 1);
      var c: int :| start - 1 <= c <= end && SymbolAt(g, line - 1, c);
      assert line - 1 <= line - 1 <= line + 1;
    } else {
      assert line < |g| - 1 && AnySpecial(g[line + 1][st..ed]);
      RowWindow(g, line, start, end, line + 1);
      var c: int :| start - 1 <= c <= end && SymbolAt(g, line + 1, c);
      assert line - 1 <= line + 1 <= line + 1;
    }
  }

  lemma TouchesAdjacent(g: seq<string>, line: nat, start: nat, end: nat)
    requires InRow(g, line, start, end) && Touches(g, line, start, end)
    requires forall k :: start <= k < end ==> IsDigit(g[line][k])
    ensures HasAdjacent(g, line, start, end)
  {
    var r: int, c: int :| line - 1 <= r <= line + 1 && start - 1 <= c <= end && SymbolAt(g, r, c);
    if r == line {
      if c == start - 1 {
        assert start > 0 && IsSpecial(g[line][start - 1]);
      } else if c == end {
        assert end < |g[line]| && IsSpecial(g[line][end]);
      } else {
        assert false;
      }
    } else {
      RowWindow(g, line, start, end, r);
    }
  }

  // ---------------------------------------------------------------------------
  // The sum.

  function RowSum(g: seq<string>, line: nat, nums: seq<Num>, corrected: bool): nat
    requires Rectangular(g) && line < |g|
    requires forall k :: 0 <= k < |nums| ==> nums[k].start < nums[k].end <= |g[line]|
  {
    if nums == [] then 0
    else
      var x := nums[|nums| - 1];
      var hit := if corrected then HasAdjacent(g, line, x.start, x.end) else HasAdjacentAsWritten(g, line, x.start, x.end);
      RowSum(g, line, nums[..|nums| - 1], corrected) + if hit then x.value else 0
  }

  function GridSum(g: seq<string>, rows: nat, corrected: bool): nat
    requires Rectangular(g) && rows <= |g|
  {
    if rows == 0 then 0
    else
      var line := rows - 1;
      NumbersExact(g[line]);
      GridSum(g, rows - 1, corrected) + RowSum(g, line, Numbers(g[line]), corrected)
  }

  /** `part1` on the rows of the input; the rows must all have one length. */
  function Part1(input: string, corrected: bool): nat
    requires Rectangular(Lines(input))
  {
    GridSum(Lines(input), |Lines(input)|, corrected)
  }

  /** The total counts the touched numbers of the rows; the reference sum, with `Touches`
      deciding which numbers count. */
  function TouchedSum(g: seq<string>, line: nat, nums: seq<Num>): nat
    requires line < |g|
  {
    if nums == [] then 0
    else
      var x := nums[|nums| - 1];
      TouchedSum(g, line, nums[..|nums| - 1]) + if Touches(g, line, x.start, x.end) then x.value else 0
  }

  /** With the corrected check, each row contributes exactly its touched numbers. */
  lemma {:induction false} RowSumTouched(g: seq<string>, line: nat, nums: seq<Num>)
    requires Rectangular(g) && line < |g|
    requires forall k :: 0 <= k < |nums| ==> nums[k].start < nums[k].end <= |g[line]| && IsRun(g[line], nums[k])
    ensures RowSum(g, line, nums, true) == TouchedSum(g, line, nums)
  {
    if nums != [] {
      var x := nums[|nums| - 1];
      HasAdjacentTouches(g, line, x.start, x.end);
      RowSumTouched(g, line, nums[..|nums| - 1]);
    }
  }

  /** The reference total: over every row, the maximal digit runs that a symbol
      touches. */
  function TouchedTotal(g: seq<string>, rows: nat): nat
    requires rows <= |g|
  {
    if rows == 0 then 0 else TouchedTotal(g, rows - 1) + TouchedSum(g, rows - 1, Numbers(g[rows - 1]))
  }

  /** With the corrected check, `part1` is the reference total. */
  lemma {:induction false} Part1Touched(g: seq<string>, rows: nat)
    requires Rectangular(g) && rows <= |g|
    ensures GridSum(g, rows, true) == TouchedTotal(g, rows)
  {
    if rows > 0 {
      NumbersExact(g[rows - 1]);
      RowSumTouched(g, rows - 1, Numbers(g[rows - 1]));
      Part1Touched(g, rows - 1);
    }
  }

  // ---------------------------------------------------------------------------
  // Examples.

  /** `test_diagonal_input`: `*...` above `.123`; the symbol is diagonal to the 1. */
  lemma DiagonalExample()
    ensures Rectangular(Lines("*...\n.123"))
    ensures Part1("*...\n.123", false) == 123 && Part1("*...\n.123", true) == 123
  {
    DiagonalLines();
    DiagonalGrid(["*...", ".123"], false);
    DiagonalGrid(["*...", ".123"], true);
  }

  lemma DiagonalLines()
    ensures Lines("*...\n.123") == ["*...", ".123"]
  {
    LinesCons("*...", ".123");
    LinesSingle(".123");
    assert "*..." + "\n" + ".123" == "*...\n.123";
  }

  lemma DiagonalGrid(g: seq<string>, corrected: bool)
    requires g == ["*...", ".123"]
    ensures Rectangular(g) && GridSum(g, 2, corrected) == 123
  {
    DigitRow(g[1]);
    NoDigitRow(g[0]);
    assert AnySpecial(g[0][0..4]) by {
      assert IsSpecial(g[0][0..4][0]);
    }
    assert HasAdjacentAsWritten(g, 1, 1, 4);
    assert HasAdjacent(g, 1, 1, 4);
    assert [Num(123, 1, 4)][..0] == [];
    assert RowSum(g, 1, [Num(123, 1, 4)], corrected) == 123;
    assert GridSum(g, 1, corrected) == 0;
  }

  /** The row `*...` holds no number. */
  lemma NoDigitRow(l: string)
    requires l == "*..."
    ensures Numbers(l) == []
  {
    assert !IsDigit('*') && !IsDigit('.');
    assert Scan(l, 4, false, 0, 0) == [];
    assert Scan(l, 3, false, 0, 0) == [];
    assert Scan(l, 2, false, 0, 0) == [];
    assert Scan(l, 1, false, 0, 0) == [];
  }

  /** The row `.123` holds one number, 123 in columns 1 .. 4. */
  lemma DigitRow(l: string)
    requires l == ".123"
    ensures Numbers(l) == [Num(123, 1, 4)]
  {
    assert IsDigit('1') && IsDigit('2') && IsDigit('3') && !IsDigit('.');
    assert l[1..2] == "1" && l[1..3] == "12" && l[1..4] == "123";
    assert DecimalValue("1") == 1;
    assert DecimalValue("12") == 12 by { assert "12"[..1] == "1"; }
    assert DecimalValue("123") == 123 by { assert "123"[..2] == "12"; }
    assert Scan(l, 4, true, 123, 1) == [Num(123, 1, 4)];
    assert Scan(l, 3, true, 12, 1) == [Num(123, 1, 4)];
    assert Scan(l, 2, true, 1, 1) == [Num(123, 1, 4)];
    assert Scan(l, 1, false, 0, 0) == [Num(123, 1, 4)];
  }

  /** In `12*` the symbol directly after the number is missed as written. */
  lemma SameRowMissed()
    ensures InRow(["12*"], 0, 0, 2)
    ensures !HasAdjacentAsWritten(["12*"], 0, 0, 2)
    ensures HasAdjacent(["12*"], 0, 0, 2) && Touches(["12*"], 0, 0, 2)
  {
    var g := ["12*"];
    assert IsSpecial(g[0][2]);
    assert SymbolAt(g, 0, 2);
  }

  /** In `...*` above `123.` the symbol diagonally after the number is missed as
      written. */
  lemma DiagonalMissed()
    ensures InRow(["...*", "123."], 1, 0, 3)
    ensures !HasAdjacentAsWritten(["...*", "123."], 1, 0, 3)
    ensures HasAdjacent(["...*", "123."], 1, 0, 3) && Touches(["...*", "123."], 1, 0, 3)
  {
    var g := ["...*", "123."];
    assert !IsSpecial('.');
    assert g[0][0..3] == "...";
    assert !AnySpecial(g[0][0..3]);
    assert !IsSpecial(g[1][3]);
    assert g[0][0..4][3] == '*';
    assert AnySpecial(g[0][0..4]);
    assert SymbolAt(g, 0, 3);
  }
}

=== FILE: day5.dfy ===
/** Day 5: seeds pass through a chain of range mappings; the answer is the smallest
    location reached. */
module Day5 {
  import opened Text

  /** One line `dst src len` of a mapping. */
  datatype Range = Range(dst: nat, src: nat, len: nat)

  datatype Mapping = Mapping(ranges: seq<Range>)

  /** Values are `u32`; the shifted value is cast back to `u32` from `i64`. */
  const WORD: nat := 0x1_0000_0000

  // ---------------------------------------------------------------------------
  // Applying a mapping.

  predicate Covers(r: Range, n: nat)
  {
    r.src <= n < r.src + r.len
  }

  /** `src + len` is a `u32` addition, which overflows past `u32::MAX`. */
  predicate Overflows(r: Range)
  {
    r.src + r.len > U32_MAX
  }

  /** A covered value moves by `dst - src`, truncated to 32 bits. */
  function Shift(r: Range, n: nat): (v: nat)
    requires Covers(r, n)
    ensures v < WORD
    ensures r.dst + r.len <= WORD ==> r.dst <= v < r.dst + r.len && v - r.dst == n - r.src
  {
    (n - r.src + r.dst) % WORD
  }

  /** `Mapping::apply`: the first range that covers `n` decides; an uncovered value is
      returned as it is. The test `n >= src && n < src + len` short-circuits, so the
      `u32` addition `src + len` is evaluated only for a range with `src <= n`, and
      `None` is its overflow in a range tried before the match. */
  function Apply(rs: seq<Range>, n: nat): (res: Option<nat>)
    ensures res.Some? && (forall i :: 0 <= i < |rs| ==> !Covers(rs[i], n)) ==> res.value == n
    ensures res.Some? ==> forall i :: 0 <= i < |rs| && Covers(rs[i], n) && (forall j :: 0 <= j < i ==> !Covers(rs[j], n)) ==>
                            res.value == Shift(rs[i], n)
    ensures (forall i :: 0 <= i < |rs| ==> n < rs[i].src || !Overflows(rs[i])) ==> res.Some?
    ensures res.None? ==> exists i :: 0 <= i < |rs| && rs[i].src <= n && Overflows(rs[i]) && forall j :: 0 <= j < i ==> !Covers(rs[j], n)
  {
    if rs == [] then Some(n)
    else if n >= rs[0].src && Overflows(rs[0]) then None
    else if Covers(rs[0], n) then Some(Shift(rs[0], n))
    else
      var res := Apply(rs[1..], n);
      assert forall i :: 0 < i < |rs| ==> rs[i] == rs[1..][i - 1];
      res
  }

  /** A range whose `src + len` would overflow is harmless to values below its `src`:
      the short-circuit skips the addition and the value passes through. */
  lemma ApplyBelowOverflow()
    ensures Overflows(Range(0, U32_MAX, 2))
    ensures Apply([Range(0, U32_MAX, 2)], 5) == Some(5)
  {
  }

  /** A matched value lands inside the matching range's destination, at the same offset,
      when that destination fits in 32 bits. */
  lemma ApplyMatched(rs: seq<Range>, n: nat, i: nat)
    requires i < |rs| && Covers(rs[i], n) && forall j :: 0 <= j < i ==> !Covers(rs[j], n)
    requires rs[i].dst + rs[i].len <= WORD
    requires forall j :: 0 <= j <= i ==> !Overflows(rs[j])
    ensures Apply(rs, n).Some?
    ensures var v := Apply(rs, n).value;
            rs[i].dst <= v < rs[i].dst + rs[i].len && v - rs[i].dst == n - rs[i].src
  {
  }

  /** The mappings in order, applied to one value. */
  function Location(ms: seq<Mapping>, n: nat): (res: Option<nat>)
    ensures ms == [] ==> res == Some(n)
  {
    if ms == [] then Some(n)
    else
      var v :- Apply(ms[0].ranges, n);
      Location(ms[1..], v)
  }

  /** No range of any mapping overflows: every value has a location. */
  predicate NoOverflow(ms: seq<Mapping>)
  {
    forall k, i :: 0 <= k < |ms| && 0 <= i < |ms[k].ranges| ==> !Overflows(ms[k].ranges[i])
  }

  /** Without an overflowing range the chain of mappings is defined on every value. */
  lemma {:induction false} LocationDefined(ms: seq<Mapping>, n: nat)
    requires NoOverflow(ms)
    ensures Location(ms, n).Some?
  {
    if ms != [] {
      assert forall i :: 0 <= i < |ms[0].ranges| ==> !Overflows(ms[0].ranges[i]);
      var v := Apply(ms[0].ranges, n).value;
      assert NoOverflow(ms[1..]) by {
        assert forall k :: 0 <= k < |ms| - 1 ==> ms[1..][k] == ms[k + 1];
      }
      LocationDefined(ms[1..], v);
    }
  }

  /** Appending a mapping applies it last. */
  lemma {:induction false} LocationSnoc(ms: seq<Mapping>, m: Mapping, n: nat)
    ensures Location(ms + [m], n) == match Location(ms, n) case None => None case Some(v) => Apply(m.ranges, v)
  {
    if ms == [] {
      assert [m][1..] == [];
    } else {
      assert (ms + [m])[1..] == ms[1..] + [m];
      match Apply(ms[0].ranges, n)
      case None =>
      case Some(v) => LocationSnoc(ms[1..], m, v);
    }
  }

  /** Every seed's location, or `None` as soon as one of them has none. */
  function Locations(seeds: seq<nat>, ms: seq<Mapping>): (res: Option<seq<nat>>)
    ensures res.Some? ==> |res.value| == |seeds|
  {
    if seeds == [] then Some([])
    else
      var v :- Location(ms, seeds[0]);
      var rest :- Locations(seeds[1..], ms);
      Some([v] + rest)
  }

  /** The locations are the seeds' locations in order, and they are missing exactly when
      some seed has none. */
  lemma {:induction false} LocationsSpec(seeds: seq<nat>, ms: seq<Mapping>)
    ensures var res := Locations(seeds, ms);
            res.Some? ==> forall k :: 0 <= k < |seeds| ==> Location(ms, seeds[k]) == Some(res.value[k])
    ensures Locations(seeds, ms).None? <==> exists k :: 0 <= k < |seeds| && Location(ms, seeds[k]).None?
  {
    if seeds != [] {
      var tail := seeds[1..];
      LocationsSpec(tail, ms);
      assert forall k :: 1 <= k < |seeds| ==> seeds[k] == tail[k - 1];
      if Location(ms, seeds[0]).Some? && Locations(tail, ms).None? {
        var j :| 0 <= j < |tail| && Location(ms, tail[j]).None?;
        assert Location(ms, seeds[j + 1]).None?;
      }
    }
  }

  function Min(xs: seq<nat>): (m: nat)
    requires |xs| > 0
    ensures m in xs
    ensures forall k :: 0 <= k < |xs| ==> m <= xs[k]
  {
    if |xs| == 1 then xs[0]
    else
      var rest := Min(xs[1..]);
      assert forall k :: 1 <= k < |xs| ==> xs[k] == xs[1..][k - 1];
      if xs[0] <= rest then xs[0] else rest
  }

  /** The smallest location over the seeds. */
  function Lowest(seeds: seq<nat>, ms: seq<Mapping>): (res: Option<nat>)
    requires |seeds| > 0
    ensures res.Some? <==> forall k :: 0 <= k < |seeds| ==> Location(ms, seeds[k]).Some?
    ensures res.Some? ==> exists k :: 0 <= k < |seeds| && Location(ms, seeds[k]) == res
    ensures res.Some? ==> forall k :: 0 <= k < |seeds| ==> res.value <= Location(ms, seeds[k]).value
  {
    LocationsSpec(seeds, ms);
    var ls :- Locations(seeds, ms);
    var m := Min(ls);
    var k :| 0 <= k < |ls| && ls[k] == m;
    Some(m)
  }

  // ---------------------------------------------------------------------------
  // Parsing.

  /** The rest of `separated_list1(tag(" "), u32)` after its first number. */
  function SeedTail(s: string): (r: (seq<nat>, string))
    ensures |r.1| <= |s|
    ensures forall k :: 0 <= k < |r.0| ==> r.0[k] <= U32_MAX
    decreases |s|
  {
    if |s| > 0 && s[0] == ' ' then
      match UInt(s[1..], U32_MAX)
      case None => ([], s)
      case Some(p) =>
        var rest := SeedTail(p.1);
        ([p.0] + rest.0, rest.1)
    else ([], s)
  }

  /** `preceded(tag("seeds: "), separated_list1(tag(" "), u32))`. */
  function Seeds(s: string): (r: Option<(seq<nat>, string)>)
    ensures r.Some? ==> |r.value.0| > 0
  {
    var body :- Tag(s, "seeds: ");
    var first :- UInt(body, U32_MAX);
    var rest := SeedTail(first.1);
    Some(([first.0] + rest.0, rest.1))
  }

  /** `tuple((u32, tag(" "), u32, tag(" "), u32))`. */
  function Triple(s: string): (r: Option<(Range, string)>)
    ensures r.Some? ==> |r.value.1| < |s|
  {
    var a :- UInt(s, U32_MAX);
    var s1 :- Tag(a.1, " ");
    var b :- UInt(s1, U32_MAX);
    var s2 :- Tag(b.1, " ");
    var c :- UInt(s2, U32_MAX);
    Some((Range(a.0, b.0, c.0), c.1))
  }

  /** The rest of `separated_list1(newline, triple)` after its first triple. */
  function TripleTail(s: string): (r: (seq<Range>, string))
    ensures |r.1| <= |s|
    decreases |s|
  {
    if |s| > 0 && s[0] == '\n' then
      match Triple(s[1..])
      case None => ([], s)
      case Some(p) =>
        var rest := TripleTail(p.1);
        ([p.0] + rest.0, rest.1)
    else ([], s)
  }

  /** `many0(alt((alpha1, tag("-"), tag(" "))))` consumes exactly this run. */
  predicate IsHeaderChar(c: char)
  {
    IsAlpha(c) || c == '-' || c == ' '
  }

  /** `parse_one_mapping`: a header, `":\n"`, then one or more triples on their own
      lines. */
  function ParseMapping(s: string): (r: Option<(Mapping, string)>)
    ensures r.Some? ==> |r.value.1| < |s| && |r.value.0.ranges| > 0
  {
    var afterHeader := s[RunLength(s, IsHeaderChar)..];
    var body :- Tag(afterHeader, ":\n");
    var first :- Triple(body);
    var rest := TripleTail(first.1);
    Some((Mapping([first.0] + rest.0), rest.1))
  }

  predicate IsNewline(c: char)
  {
    c == '\n'
  }

  predicate IsSpace(c: char)
  {
    c == ' ' || c == '\t' || c == '\r' || c == '\n'
  }

  /** The rest of `separated_list0(multispace1, parse_one_mapping)` after its first
      mapping: a separator is consumed only when a mapping follows it. */
  function MappingTail(s: string): (r: (seq<Mapping>, string))
    decreases |s|
  {
    var k := RunLength(s, IsSpace);
    if k > 0 then
      match ParseMapping(s[k..])
      case None => ([], s)
      case Some(p) =>
        var rest := MappingTail(p.1);
        ([p.0] + rest.0, rest.1)
    else ([], s)
  }

  /** `parse`: the seeds, any newlines, then the mappings; only the seeds line can
      fail. */
  function Parse(s: string): (r: Option<(seq<nat>, seq<Mapping>)>)
    ensures r.Some? ==> |r.value.0| > 0
  {
    var seeds :- Seeds(s);
    var afterSeeds := seeds.1[RunLength(seeds.1, IsNewline)..];
    match ParseMapping(afterSeeds)
    case None => Some((seeds.0, []))
    case Some(p) => Some((seeds.0, [p.0] + MappingTail(p.1).0))
  }

  /** `part1`: parse, map every seed through the mappings, take the minimum. */
  function Part1(input: string): (res: Option<nat>)
    ensures res.Some? ==> Parse(input).Some?
    ensures res.Some? ==> var p := Parse(input).value;
              exists k :: 0 <= k < |p.0| && Location(p.1, p.0[k]) == res
    ensures res.Some? ==> var p := Parse(input).value;
              forall k :: 0 <= k < |p.0| ==> Location(p.1, p.0[k]).Some? && res.value <= Location(p.1, p.0[k]).value
  {
    var p :- Parse(input);
    Lowest(p.0, p.1)
  }

  // ---------------------------------------------------------------------------
  // Writing an almanac, and reading it back.

  function Spaced(vs: seq<nat>, sep: string): string
  {
    if vs == [] then [] else sep + Decimal(vs[0]) + Spaced(vs[1..], sep)
  }

  function FormatRange(r: Range): string
  {
    Decimal(r.dst) + " " + Decimal(r.src) + " " + Decimal(r.len)
  }

  function FormatRanges(rs: seq<Range>): string
  {
    if rs == [] then [] else "\n" + FormatRange(rs[0]) + FormatRanges(rs[1..])
  }

  /** A header such as `seed-to-soil map`: header characters, not starting with a
      space. */
  predicate HeaderOk(h: string)
  {
    (forall i :: 0 <= i < |h| ==> IsHeaderChar(h[i])) && (h == [] || h[0] != ' ')
  }

  function FormatMapping(h: string, m: Mapping): string
    requires RangesOk(m.ranges)
  {
    h + ":\n" + FormatRange(m.ranges[0]) + FormatRanges(m.ranges[1..])
  }

  predicate AlmanacOk(seeds: seq<nat>, ms: seq<Mapping>, hs: seq<string>)
  {
    && |seeds| > 0 && |hs| == |ms|
    && (forall k :: 0 <= k < |seeds| ==> seeds[k] <= U32_MAX)
    && (forall k :: 0 <= k < |ms| ==> HeaderOk(hs[k]) && RangesOk(ms[k].ranges))
  }

  predicate RangesOk(rs: seq<Range>)
  {
    |rs| > 0 && forall i :: 0 <= i < |rs| ==> RangeOk(rs[i])
  }

  function FormatMappings(ms: seq<Mapping>, hs: seq<string>): string
    requires |hs| == |ms| && forall k :: 0 <= k < |ms| ==> RangesOk(ms[k].ranges)
  {
    if ms == [] then [] else "\n\n" + FormatMapping(hs[0], ms[0]) + FormatMappings(ms[1..], hs[1..])
  }

  /** The almanac text: the seeds line, then the mappings separated by blank lines. */
  function Format(seeds: seq<nat>, ms: seq<Mapping>, hs: seq<string>): string
    requires AlmanacOk(seeds, ms, hs)
  {
    "seeds: " + Decimal(seeds[0]) + Spaced(seeds[1..], " ") + FormatMappings(ms, hs)
  }

  /** A number written in decimal, then a non-digit, reads back. */
  lemma NumberAt(v: nat, x: string, tail: string)
    requires v <= U32_MAX && x == Decimal(v) + tail && (tail == [] || !IsDigit(tail[0]))
    ensures UInt(x, U32_MAX) == Some((v, tail))
  {
    UIntDecimal(v, tail, U32_MAX);
  }

  lemma SeedTailStep(s: string, v: nat, tail: string)
    requires |s| > 0 && s[0] == ' ' && UInt(s[1..], U32_MAX) == Some((v, tail))
    ensures SeedTail(s) == ([v] + SeedTail(tail).0, SeedTail(tail).1)
  {
  }

  lemma SpacedCons(v: nat, vs: seq<nat>, rest: string)
    ensures var s := Spaced([v] + vs, " ") + rest;
            |s| > 0 && s[0] == ' ' && s[1..] == Decimal(v) + (Spaced(vs, " ") + rest)
  {
    assert ([v] + vs)[1..] == vs;
    assert Spaced([v] + vs, " ") == " " + Decimal(v) + Spaced(vs, " ");
    AfterFirst(' ', Decimal(v), Spaced(vs, " "), rest);
  }

  /** One more number in front of a list that reads back. */
  lemma SeedTailCons(v: nat, vs: seq<nat>, rest: string)
    requires v <= U32_MAX
    requires SeedTail(Spaced(vs, " ") + rest) == (vs, rest)
    requires var t := Spaced(vs, " ") + rest; t == [] || !IsDigit(t[0])
    ensures SeedTail(Spaced([v] + vs, " ") + rest) == ([v] + vs, rest)
  {
    var tail := Spaced(vs, " ") + rest;
    var s := Spaced([v] + vs, " ") + rest;
    SpacedCons(v, vs, rest);
    NumberAt(v, s[1..], tail);
    SeedTailStep(s, v, tail);
  }

  lemma {:induction false} SeedTailFormat(vs: seq<nat>, rest: string)
    requires forall k :: 0 <= k < |vs| ==> vs[k] <= U32_MAX
    requires rest == [] || rest[0] == '\n'
    ensures SeedTail(Spaced(vs, " ") + rest) == (vs, rest)
    ensures var t := Spaced(vs, " ") + rest; t == [] || !IsDigit(t[0])
  {
    if vs == [] {
      assert Spaced(vs, " ") + rest == rest;
    } else {
      SeedTailFormat(vs[1..], rest);
      SeedTailCons(vs[0], vs[1..], rest);
      assert [vs[0]] + vs[1..] == vs;
      SpacedCons(vs[0], vs[1..], rest);
    }
  }

  lemma TripleFormat(r: Range, rest: string)
    requires r.dst <= U32_MAX && r.src <= U32_MAX && r.len <= U32_MAX
    requires rest == [] || !IsDigit(rest[0])
    ensures Triple(FormatRange(r) + rest) == Some((r, rest))
  {
    var c := Decimal(r.len) + rest;
    var b := Decimal(r.src) + (" " + c);
    var a := Decimal(r.dst) + (" " + b);
    assert FormatRange(r) + rest == a;
    NumberAt(r.dst, a, " " + b);
    NumberAt(r.src, b, " " + c);
    NumberAt(r.len, c, rest);
    TripleOf(a, b, c, r, rest);
  }

  lemma TripleOf(a: string, b: string, c: string, r: Range, rest: string)
    requires UInt(a, U32_MAX) == Some((r.dst, " " + b))
    requires UInt(b, U32_MAX) == Some((r.src, " " + c))
    requires UInt(c, U32_MAX) == Some((r.len, rest))
    ensures Triple(a) == Some((r, rest))
  {
    assert Tag(" " + b, " ") == Some(b);
    assert Tag(" " + c, " ") == Some(c);
  }

  lemma TripleTailStep(s: string, r: Range, tail: string)
    requires |s| > 0 && s[0] == '\n' && Triple(s[1..]) == Some((r, tail))
    ensures TripleTail(s) == ([r] + TripleTail(tail).0, TripleTail(tail).1)
  {
  }

  /** A blank line or the end of the text ends a mapping's list of triples. */
  lemma TripleTailStop(s: string)
    requires s == [] || (s[0] == '\n' && (|s| == 1 || s[1] == '\n'))
    ensures TripleTail(s) == ([], s)
  {
    if s != [] {
      assert UInt(s[1..], U32_MAX).None? by {
        assert RunLength(s[1..], IsDigit) == 0;
      }
    }
  }

  lemma RangesCons(r: Range, rs: seq<Range>, rest: string)
    ensures var s := FormatRanges([r] + rs) + rest;
            |s| > 0 && s[0] == '\n' && s[1..] == FormatRange(r) + (FormatRanges(rs) + rest)
  {
    assert ([r] + rs)[1..] == rs;
    assert FormatRanges([r] + rs) == "\n" + FormatRange(r) + FormatRanges(rs);
    AfterFirst('\n', FormatRange(r), FormatRanges(rs), rest);
  }

  /** Dropping the first character of `[c] + a + b + rest`. */
  lemma AfterFirst(c: char, a: string, b: string, rest: string)
    ensures var s := [c] + a + b + rest; |s| > 0 && s[0] == c && s[1..] == a + (b + rest)
  {
    var s := [c] + a + b + rest;
    assert s == [c] + (a + (b + rest));
  }

  predicate RangeOk(r: Range)
  {
    r.dst <= U32_MAX && r.src <= U32_MAX && r.len <= U32_MAX
  }

  lemma TripleTailCons(r: Range, rs: seq<Range>, rest: string)
    requires RangeOk(r)
    requires TripleTail(FormatRanges(rs) + rest) == (rs, rest)
    requires var t := FormatRanges(rs) + rest; t == [] || t[0] == '\n'
    ensures TripleTail(FormatRanges([r] + rs) + rest) == ([r] + rs, rest)
  {
    var tail := FormatRanges(rs) + rest;
    var s := FormatRanges([r] + rs) + rest;
    RangesCons(r, rs, rest);
    TripleFormat(r, tail);
    TripleTailStep(s, r, tail);
  }

  lemma {:induction false} TripleTailFormat(rs: seq<Range>, rest: string)
    requires forall i :: 0 <= i < |rs| ==> RangeOk(rs[i])
    requires rest == [] || (rest[0] == '\n' && (|rest| == 1 || rest[1] == '\n'))
    ensures TripleTail(FormatRanges(rs) + rest) == (rs, rest)
    ensures var t := FormatRanges(rs) + rest; t == [] || t[0] == '\n'
  {
    if rs == [] {
      assert FormatRanges(rs) + rest == rest;
      TripleTailStop(rest);
    } else {
      TripleTailFormat(rs[1..], rest);
      TripleTailCons(rs[0], rs[1..], rest);
      assert [rs[0]] + rs[1..] == rs;
      RangesCons(rs[0], rs[1..], rest);
    }
  }

  lemma HeaderRun(s: string, h: string, rest: string)
    requires s == h + rest && HeaderOk(h) && rest != [] && rest[0] == ':'
    ensures s[RunLength(s, IsHeaderChar)..] == rest
  {
    RunLengthPrefix(h, rest, IsHeaderChar);
  }

  lemma MappingOf(s: string, h: string, body: string, r: Range, tail: string)
    requires s == h + (":\n" + body) && HeaderOk(h)
    requires Triple(body) == Some((r, tail))
    ensures ParseMapping(s) == Some((Mapping([r] + TripleTail(tail).0), TripleTail(tail).1))
  {
    HeaderRun(s, h, ":\n" + body);
    assert Tag(":\n" + body, ":\n") == Some(body);
  }

  lemma MappingText(h: string, m: Mapping, rest: string)
    requires RangesOk(m.ranges)
    ensures var tail := FormatRanges(m.ranges[1..]) + rest;
            FormatMapping(h, m) + rest == h + (":\n" + (FormatRange(m.ranges[0]) + tail))
  {
  }

  lemma MappingFormat(h: string, m: Mapping, rest: string)
    requires HeaderOk(h) && RangesOk(m.ranges)
    requires rest == [] || (rest[0] == '\n' && |rest| > 1 && rest[1] == '\n')
    ensures ParseMapping(FormatMapping(h, m) + rest) == Some((m, rest))
  {
    var rs := m.ranges;
    var tail := FormatRanges(rs[1..]) + rest;
    var body := FormatRange(rs[0]) + tail;
    MappingText(h, m, rest);
    assert forall i :: 0 <= i < |rs[1..]| ==> RangeOk(rs[1..][i]) by {
      forall i | 0 <= i < |rs[1..]| ensures RangeOk(rs[1..][i]) {
        assert rs[1..][i] == rs[i + 1];
      }
    }
    TripleTailFormat(rs[1..], rest);
    TripleFormat(rs[0], tail);
    MappingOf(FormatMapping(h, m) + rest, h, body, rs[0], tail);
    MappingFinish(FormatMapping(h, m) + rest, m, rest, tail);
  }

  lemma MappingFinish(x: string, m: Mapping, rest: string, tail: string)
    requires |m.ranges| > 0
    requires ParseMapping(x) == Some((Mapping([m.ranges[0]] + TripleTail(tail).0), TripleTail(tail).1))
    requires TripleTail(tail) == (m.ranges[1..], rest)
    ensures ParseMapping(x) == Some((m, rest))
  {
    assert [m.ranges[0]] + m.ranges[1..] == m.ranges;
  }

  /** A written mapping does not start with white space, so the separator before it is
      exactly the blank line. */
  lemma MappingStart(h: string, m: Mapping, rest: string)
    requires HeaderOk(h) && RangesOk(m.ranges)
    ensures var t := FormatMapping(h, m) + rest; |t| > 0 && !IsSpace(t[0])
  {
    var t := FormatMapping(h, m) + rest;
    if h == [] {
      assert t[0] == ':';
    } else {
      assert t[0] == h[0];
    }
  }

  lemma MappingsCons(h: string, m: Mapping, hs: seq<string>, ms: seq<Mapping>)
    requires RangesOk(m.ranges) && |hs| == |ms| && forall k :: 0 <= k < |ms| ==> RangesOk(ms[k].ranges)
    ensures var s := FormatMappings([m] + ms, [h] + hs);
            s == "\n\n" + (FormatMapping(h, m) + FormatMappings(ms, hs))
  {
    assert ([m] + ms)[1..] == ms && ([h] + hs)[1..] == hs;
  }

  /** A blank line, then a mapping, then more mappings. */
  lemma MappingTailCons(s: string, t: string, m: Mapping, tail: string, ms: seq<Mapping>)
    requires s == "\n\n" + t && |t| > 0 && !IsSpace(t[0])
    requires ParseMapping(t) == Some((m, tail))
    requires MappingTail(tail) == (ms, [])
    ensures MappingTail(s) == ([m] + ms, [])
  {
    RunLengthPrefix("\n\n", t, IsSpace);
    assert s[2..] == t;
  }

  lemma MappingTailFinish(x: string, ms: seq<Mapping>)
    requires |ms| > 0 && MappingTail(x) == ([ms[0]] + ms[1..], [])
    ensures MappingTail(x) == (ms, [])
  {
    assert [ms[0]] + ms[1..] == ms;
  }

  lemma TailsOk(ms: seq<Mapping>, hs: seq<string>)
    requires |hs| == |ms| > 0 && forall k :: 0 <= k < |ms| ==> HeaderOk(hs[k]) && RangesOk(ms[k].ranges)
    ensures forall k :: 0 <= k < |ms| - 1 ==> HeaderOk(hs[1..][k]) && RangesOk(ms[1..][k].ranges)
  {
    forall k | 0 <= k < |ms| - 1 ensures HeaderOk(hs[1..][k]) && RangesOk(ms[1..][k].ranges) {
      assert hs[1..][k] == hs[k + 1] && ms[1..][k] == ms[k + 1];
    }
  }

  /** The first mapping of a non-empty list, and what follows it. */
  lemma MappingsSplit(ms: seq<Mapping>, hs: seq<string>)
    requires |hs| == |ms| > 0 && forall k :: 0 <= k < |ms| ==> HeaderOk(hs[k]) && RangesOk(ms[k].ranges)
    ensures var tail := FormatMappings(ms[1..], hs[1..]);
            var t := FormatMapping(hs[0], ms[0]) + tail;
            && FormatMappings(ms, hs) == "\n\n" + t
            && |t| > 0 && !IsSpace(t[0])
            && ParseMapping(t) == Some((ms[0], tail))
  {
    TailsOk(ms, hs);
    var tail := FormatMappings(ms[1..], hs[1..]);
    MappingsCons(hs[0], ms[0], hs[1..], ms[1..]);
    assert [ms[0]] + ms[1..] == ms && [hs[0]] + hs[1..] == hs;
    MappingStart(hs[0], ms[0], tail);
    MappingTailShape(ms[1..], hs[1..]);
    MappingFormat(hs[0], ms[0], tail);
  }

  lemma MappingTailShape(ms: seq<Mapping>, hs: seq<string>)
    requires |hs| == |ms| && forall k :: 0 <= k < |ms| ==> RangesOk(ms[k].ranges)
    ensures var t := FormatMappings(ms, hs); t == [] || (t[0] == '\n' && |t| > 1 && t[1] == '\n')
  {
  }

  lemma {:induction false} MappingTailFormat(ms: seq<Mapping>, hs: seq<string>)
    requires |hs| == |ms| && forall k :: 0 <= k < |ms| ==> HeaderOk(hs[k]) && RangesOk(ms[k].ranges)
    ensures MappingTail(FormatMappings(ms, hs)) == (ms, [])
  {
    if ms != [] {
      TailsOk(ms, hs);
      MappingTailFormat(ms[1..], hs[1..]);
      MappingsSplit(ms, hs);
      var tail := FormatMappings(ms[1..], hs[1..]);
      MappingTailCons(FormatMappings(ms, hs), FormatMapping(hs[0], ms[0]) + tail, ms[0], tail, ms[1..]);
      MappingTailFinish(FormatMappings(ms, hs), ms);
    } else {
      assert RunLength([], IsSpace) == 0;
    }
  }

  lemma SeedsOf(s: string, v: nat, afterFirst: string)
    requires s == "seeds: " + (Decimal(v) + afterFirst) && v <= U32_MAX
    requires afterFirst == [] || !IsDigit(afterFirst[0])
    ensures Seeds(s) == Some(([v] + SeedTail(afterFirst).0, SeedTail(afterFirst).1))
  {
    assert s[7..] == Decimal(v) + afterFirst;
    NumberAt(v, s[7..], afterFirst);
  }

  lemma SeedsFinish(s: string, seeds: seq<nat>, afterFirst: string, maps: string)
    requires |seeds| > 0 && Seeds(s) == Some(([seeds[0]] + SeedTail(afterFirst).0, SeedTail(afterFirst).1))
    requires SeedTail(afterFirst) == (seeds[1..], maps)
    ensures Seeds(s) == Some((seeds, maps))
  {
    assert [seeds[0]] + seeds[1..] == seeds;
  }

  lemma ParseOfNone(s: string, seeds: seq<nat>)
    requires Seeds(s) == Some((seeds, []))
    ensures Parse(s) == Some((seeds, []))
  {
    assert RunLength([], IsNewline) == 0;
  }

  /** The seeds followed by written mappings read back as those mappings. */
  lemma ParseOfSome(s: string, seeds: seq<nat>, ms: seq<Mapping>, hs: seq<string>)
    requires |hs| == |ms| > 0 && forall k :: 0 <= k < |ms| ==> HeaderOk(hs[k]) && RangesOk(ms[k].ranges)
    requires Seeds(s) == Some((seeds, FormatMappings(ms, hs)))
    ensures Parse(s) == Some((seeds, ms))
  {
    var maps := FormatMappings(ms, hs);
    var tail := FormatMappings(ms[1..], hs[1..]);
    var t := FormatMapping(hs[0], ms[0]) + tail;
    MappingsSplit(ms, hs);
    assert MappingTail(tail).0 == ms[1..] by {
      TailsOk(ms, hs);
      MappingTailFormat(ms[1..], hs[1..]);
    }
    assert maps[RunLength(maps, IsNewline)..] == t by {
      BlankLine(maps, t);
    }
    assert [ms[0]] + ms[1..] == ms;
    ParseAfterSeeds(s, seeds, maps, t, ms[0], tail, ms);
  }

  lemma BlankLine(maps: string, t: string)
    requires maps == "\n\n" + t && |t| > 0 && !IsSpace(t[0])
    ensures maps[RunLength(maps, IsNewline)..] == t
  {
    RunLengthPrefix("\n\n", t, IsNewline);
    assert maps[2..] == t;
  }

  lemma ParseAfterSeeds(s: string, seeds: seq<nat>, maps: string, t: string, m: Mapping, tail: string, ms: seq<Mapping>)
    requires Seeds(s) == Some((seeds, maps))
    requires maps[RunLength(maps, IsNewline)..] == t
    requires ParseMapping(t) == Some((m, tail))
    requires [m] + MappingTail(tail).0 == ms
    ensures Parse(s) == Some((seeds, ms))
  {
  }

  lemma FormatText(seeds: seq<nat>, ms: seq<Mapping>, hs: seq<string>)
    requires AlmanacOk(seeds, ms, hs)
    ensures Format(seeds, ms, hs) == "seeds: " + (Decimal(seeds[0]) + (Spaced(seeds[1..], " ") + FormatMappings(ms, hs)))
  {
  }

  /** Reading back a written almanac gives its seeds and mappings; the headers are
      dropped. */
  lemma ParseFormat(seeds: seq<nat>, ms: seq<Mapping>, hs: seq<string>)
    requires AlmanacOk(seeds, ms, hs)
    ensures Parse(Format(seeds, ms, hs)) == Some((seeds, ms))
  {
    var maps := FormatMappings(ms, hs);
    var afterFirst := Spaced(seeds[1..], " ") + maps;
    var s := Format(seeds, ms, hs);
    FormatText(seeds, ms, hs);
    MappingTailShape(ms, hs);
    SeedTailFormat(seeds[1..], maps);
    SeedsOf(s, seeds[0], afterFirst);
    SeedsFinish(s, seeds, afterFirst, maps);
    if ms != [] {
      ParseOfSome(s, seeds, ms, hs);
    } else {
      ParseOfNone(s, seeds);
    }
  }
}

=== FILE: day7.dfy ===
/** Day 7: Camel Cards. A hand of five cards is classified by its groups of equal
    values, hands are ordered by type and then card by card, and each bid is paid its
    1-based rank. In part 2 `J` is a joker of value 0 that counts towards the largest
    group. */
module Day7 {
  import opened Text

  // ---------------------------------------------------------------------------
  // Cards.

  /** `parse_hand`'s value of one card character: a digit is its own value, the
      pictures are 10 .. 14, a wild `J` is 0, and anything else is 0 too. */
  function CardValue(c: char, jokersWild: bool): (v: nat)
    ensures v <= 14
    ensures v == 0 <==> c == '0' || (c == 'J' && jokersWild) || (!IsDigit(c) && !(c in "TJQKA"))
  {
    if IsDigit(c) then DigitValue(c)
    else if c == 'T' then 10
    else if c == 'J' then (if jokersWild then 0 else 11)
    else if c == 'Q' then 12
    else if c == 'K' then 13
    else if c == 'A' then 14
    else 0
  }

  /** The card characters from weakest to strongest. */
  const RANKS: string := "23456789TJQKA"

  /** Each card character is worth two more than its position in `RANKS`, so the values
      follow the ranking and no two cards share a value. */
  lemma CardsRanked(i: nat)
    requires i < |RANKS|
    ensures CardValue(RANKS[i], false) == i + 2
  {
    if i < 8 {
      assert IsDigit(RANKS[i]);
    }
  }

  /** With jokers wild, `J` is below every other card and the other values are
      unchanged. */
  lemma JokerLowest(i: nat)
    requires i < |RANKS| && RANKS[i] != 'J'
    ensures CardValue('J', true) == 0 < CardValue(RANKS[i], true) == CardValue(RANKS[i], false)
  {
    CardsRanked(i);
  }

  /** The first five characters of the line as card values; a short line leaves the
      rest 0. */
  function Cards(line: string, jokersWild: bool): (cs: seq<nat>)
    ensures |cs| == 5
    ensures forall i :: 0 <= i < 5 ==> cs[i] <= 14
    ensures forall i :: 0 <= i < 5 && i < |line| ==> cs[i] == CardValue(line[i], jokersWild)
    ensures forall i :: |line| <= i < 5 ==> cs[i] == 0
  {
    seq(5, i requires 0 <= i < 5 => if i < |line| then CardValue(line[i], jokersWild) else 0)
  }

  /** Reading five cards with jokers wild and then letting every joker be worth 11
      gives part 1's cards. */
  lemma WildThenEleven(line: string)
    requires |line| >= 5 && forall i :: 0 <= i < 5 ==> line[i] in RANKS
    ensures Replace(Cards(line, true), 11) == Cards(line, false)
  {
    var w, p := Cards(line, true), Cards(line, false);
    forall i | 0 <= i < 5 ensures Replace(w, 11)[i] == p[i] {
      var k :| 0 <= k < |RANKS| && RANKS[k] == line[i];
      CardsRanked(k);
      if line[i] != 'J' {
        JokerLowest(k);
      }
    }
  }

  // ---------------------------------------------------------------------------
  // Hand types.

  /** Declared weakest first, so the derived order is the declaration order. */
  datatype HandType = HighCard | OnePair | TwoPair | ThreeOfAKind | FullHouse | FourOfAKind | FiveOfAKind

  function Rank(t: HandType): (r: nat)
    ensures r < 7
    ensures t == HighCard <==> r == 0
    ensures t == FiveOfAKind <==> r == 6
  {
    match t
    case HighCard => 0
    case OnePair => 1
    case TwoPair => 2
    case ThreeOfAKind => 3
    case FullHouse => 4
    case FourOfAKind => 5
    case FiveOfAKind => 6
  }

  lemma RankInjective(s: HandType, t: HandType)
    requires Rank(s) == Rank(t)
    ensures s == t
  {
  }

  /** A card is a `u8`. */
  predicate IsHand(cards: seq<nat>)
  {
    |cards| == 5 && forall i :: 0 <= i < 5 ==> cards[i] <= 255
  }

  /** How often each non-joker value occurs, indexed by value: the `counts` hash map as a
      total function, with jokers left out. */
  function Tally(cards: seq<nat>): (t: seq<nat>)
    ensures |t| == 256 && t[0] == 0
    ensures forall k :: 0 < k < 256 ==> t[k] == Count(cards, k as nat)
  {
    seq(256, k requires 0 <= k < 256 => if k == 0 then 0 else Count(cards, k as nat))
  }

  /** The positive entries, in order. */
  function NonZero(xs: seq<nat>): (ys: seq<nat>)
    ensures forall i :: 0 <= i < |ys| ==> ys[i] > 0
    ensures |ys| <= |xs|
  {
    if xs == [] then []
    else if xs[0] == 0 then NonZero(xs[1..])
    else [xs[0]] + NonZero(xs[1..])
  }

  /** The values of the `counts` map: one entry per distinct non-joker value. */
  function Counts(cards: seq<nat>): seq<nat>
  {
    NonZero(Tally(cards))
  }

  /** `t[i]` is a largest entry and `t[j]` a largest among the others: the last two
      places of `t` sorted. */
  predicate TopAt(t: seq<nat>, i: nat, j: nat)
  {
    i < |t| && j < |t| && i != j
    && (forall k :: 0 <= k < |t| ==> t[k] <= t[i])
    && (forall k :: 0 <= k < |t| && k != i ==> t[k] <= t[j])
  }

  /** The largest and second-largest of `xs`, counted with multiplicity. */
  function Top2(xs: seq<nat>): (r: (nat, nat))
    requires |xs| >= 2
    ensures r.1 <= r.0
  {
    if |xs| == 2 then
      if xs[0] >= xs[1] then (xs[0], xs[1]) else (xs[1], xs[0])
    else
      var x := xs[|xs| - 1];
      var p := Top2(xs[..|xs| - 1]);
      if x > p.0 then (x, p.0) else if x > p.1 then (p.0, x) else p
  }

  /** Where `Top2` finds its pair. */
  lemma {:induction false} Top2Spec(xs: seq<nat>) returns (i: nat, j: nat)
    requires |xs| >= 2
    ensures TopAt(xs, i, j) && Top2(xs) == (xs[i], xs[j])
  {
    if |xs| == 2 {
      if xs[0] >= xs[1] {
        i, j := 0, 1;
      } else {
        i, j := 1, 0;
      }
    } else {
      var n := |xs| - 1;
      var init, x := xs[..n], xs[n];
      var i0, j0 := Top2Spec(init);
      assert forall k :: 0 <= k < n ==> xs[k] == init[k];
      if x > init[i0] {
        i, j := n, i0;
      } else if x > init[j0] {
        i, j := i0, n;
      } else {
        i, j := i0, j0;
      }
    }
  }

  lemma TopAtUnique(t: seq<nat>, i: nat, j: nat, i': nat, j': nat)
    requires TopAt(t, i, j) && TopAt(t, i', j')
    ensures t[i] == t[i'] && t[j] == t[j']
  {
    assert t[i] <= t[i'] && t[i'] <= t[i];
    if i != i' {
      assert t[i'] <= t[j] && t[i] <= t[j'];
    }
  }

  /** What is left of `s` once `s[i]` is set aside: the entries before and after. */
  lemma SetAside(s: seq<nat>, i: nat)
    requires i < |s|
    ensures multiset(s) - multiset{s[i]} == multiset(s[..i]) + multiset(s[i + 1..])
  {
    assert s == s[..i] + [s[i]] + s[i + 1..];
  }

  /** Once `s[i]` is set aside, every other entry is still there. */
  lemma OtherPlace(s: seq<nat>, i: nat, k: nat)
    requires i < |s| && k < |s| && i != k
    ensures s[k] in multiset(s) - multiset{s[i]}
  {
    SetAside(s, i);
    if k < i {
      assert s[..i][k] == s[k];
      assert s[k] in multiset(s[..i]);
    } else {
      assert s[i + 1..][k - i - 1] == s[k];
      assert s[k] in multiset(s[i + 1..]);
    }
  }

  /** And conversely: what remains once `s[i]` is set aside sits at another index. */
  lemma OtherIndex(s: seq<nat>, i: nat, x: nat) returns (l: nat)
    requires i < |s| && x in multiset(s) - multiset{s[i]}
    ensures l < |s| && l != i && s[l] == x
  {
    SetAside(s, i);
    if x in multiset(s[..i]) {
      var k :| 0 <= k < i && s[..i][k] == x;
      l := k;
    } else {
      assert x in multiset(s[i + 1..]);
      var k :| 0 <= k < |s| - i - 1 && s[i + 1..][k] == x;
      l := k + i + 1;
    }
  }

  predicate SortedNats(s: seq<nat>)
  {
    forall i, j :: 0 <= i < j < |s| ==> s[i] <= s[j]
  }

  /** The top two of two arrangements of the same entries agree. */
  lemma TopAtPermutation(a: seq<nat>, b: seq<nat>, i: nat, j: nat, i': nat, j': nat)
    requires multiset(a) == multiset(b) && TopAt(a, i, j) && TopAt(b, i', j')
    ensures a[i] == b[i'] && a[j] == b[j']
  {
    assert a[i] in multiset(b) && b[i'] in multiset(a);
    var k :| 0 <= k < |b| && b[k] == a[i];
    var k' :| 0 <= k' < |a| && a[k'] == b[i'];
    assert a[i] == b[i'];
    OtherPlace(a, i, j);
    OtherPlace(b, i', j');
    var l := OtherIndex(b, i', a[j]);
    var l' := OtherIndex(a, i, b[j']);
  }

  /** `counts.sort()` and then the last two entries: the same pair as `Top2`. */
  lemma SortedTop2(counts: seq<nat>, sorted: seq<nat>)
    requires |counts| >= 2 && |sorted| == |counts|
    requires SortedNats(sorted) && multiset(sorted) == multiset(counts)
    ensures Top2(counts) == (sorted[|sorted| - 1], sorted[|sorted| - 2])
  {
    var n := |sorted|;
    assert TopAt(sorted, n - 1, n - 2);
    var i, j := Top2Spec(counts);
    TopAtPermutation(counts, sorted, i, j, n - 1, n - 2);
  }

  /** The match table of `HandType::from` on (largest count + jokers, next count). */
  function Classify(top: nat, next: nat): HandType
  {
    if top == 4 then FourOfAKind
    else if top == 3 && next == 2 then FullHouse
    else if top == 3 then ThreeOfAKind
    else if top == 2 && next == 2 then TwoPair
    else if top == 2 && next == 1 then OnePair
    else HighCard
  }

  /** `HandType::from`: jokers are value 0 and stay out of the counts; fewer than two
      distinct other values is five of a kind. */
  function HandTypeOf(cards: seq<nat>): (t: HandType)
    requires IsHand(cards)
    ensures |Counts(cards)| < 2 ==> t == FiveOfAKind
  {
    var counts := Counts(cards);
    if |counts| < 2 then FiveOfAKind
    else
      var p := Top2(counts);
      Classify(p.0 + Count(cards, 0), p.1)
  }

  lemma TypeOfSpread(cards: seq<nat>)
    requires IsHand(cards) && |Counts(cards)| >= 2
    ensures var p := Top2(Counts(cards));
            HandTypeOf(cards) == Classify(p.0 + Count(cards, 0), p.1)
  {
  }

  lemma TypeOfSpreadNoJokers(cards: seq<nat>)
    requires IsHand(cards) && |Counts(cards)| >= 2 && Count(cards, 0) == 0
    ensures var p := Top2(Counts(cards));
            HandTypeOf(cards) == Classify(p.0, p.1)
  {
  }

  // ---------------------------------------------------------------------------
  // Jokers as the best card.

  /** Every joker becomes `v`. */
  function Replace(cards: seq<nat>, v: nat): (r: seq<nat>)
    ensures |r| == |cards|
    ensures forall i :: 0 <= i < |r| ==> r[i] == (if cards[i] == 0 then v else cards[i])
  {
    seq(|cards|, i requires 0 <= i < |cards| => if cards[i] == 0 then v else cards[i])
  }

  lemma {:induction false} CountReplace(cards: seq<nat>, v: nat, k: nat)
    requires v > 0
    ensures Count(Replace(cards, v), k)
            == if k == 0 then 0
               else if k == v then Count(cards, v) + Count(cards, 0)
               else Count(cards, k)
    decreases |cards|
  {
    if cards != [] {
      assert Replace(cards, v)[1..] == Replace(cards[1..], v);
      CountReplace(cards[1..], v, k);
    }
  }

  lemma TallyReplace(cards: seq<nat>, v: nat)
    requires 0 < v < 256
    ensures Tally(Replace(cards, v)) == Tally(cards)[v := Tally(cards)[v] + Count(cards, 0)]
  {
    var t, u := Tally(cards), Tally(Replace(cards, v));
    forall k | 0 <= k < 256 ensures u[k] == t[v := t[v] + Count(cards, 0)][k] {
      CountReplace(cards, v, k);
    }
  }

  lemma {:induction false} NoJokersUnchanged(cards: seq<nat>, v: nat)
    requires Count(cards, 0) == 0
    ensures Replace(cards, v) == cards
    decreases |cards|
  {
    if cards != [] {
      NoJokersUnchanged(cards[1..], v);
      assert Replace(cards, v)[1..] == Replace(cards[1..], v);
    }
  }

  lemma {:induction false} NonZeroMultiset(s: seq<nat>)
    ensures multiset(NonZero(s)) == multiset(s)[0 := 0]
  {
    if s != [] {
      NonZeroMultiset(s[1..]);
      assert s == [s[0]] + s[1..];
      assert multiset(s) == multiset{s[0]} + multiset(s[1..]);
      if s[0] != 0 {
        assert NonZero(s) == [s[0]] + NonZero(s[1..]);
      }
    }
  }

  /** Making one entry positive adds one positive entry if it was 0, else none. */
  lemma {:induction false} NonZeroUpdate(s: seq<nat>, i: nat, x: nat)
    requires i < |s| && x > 0
    ensures |NonZero(s[i := x])| == |NonZero(s)| + (if s[i] == 0 then 1 else 0)
  {
    if i > 0 {
      assert s[i := x][1..] == s[1..][i - 1 := x];
      NonZeroUpdate(s[1..], i - 1, x);
    } else {
      assert s[i := x][1..] == s[1..];
    }
  }

  /** Zeros below the top two do not change them: the top of the positive entries is
      the top of the tally. */
  lemma TopWithZeros(t: seq<nat>, i: nat, j: nat) returns (i': nat, j': nat)
    requires TopAt(NonZero(t), i, j)
    ensures TopAt(t, i', j') && t[i'] == NonZero(t)[i] && t[j'] == NonZero(t)[j]
  {
    var c := NonZero(t);
    NonZeroMultiset(t);
    assert c[i] in multiset(c);
    assert c[i] in multiset(t);
    i' :| 0 <= i' < |t| && t[i'] == c[i];
    OtherPlace(c, i, j);
    assert c[j] in multiset(t) - multiset{t[i']};
    j' := OtherIndex(t, i', c[j]);
    forall k | 0 <= k < |t| ensures t[k] <= t[i'] {
      if t[k] != 0 {
        assert t[k] in multiset(c);
      }
    }
    forall k | 0 <= k < |t| && k != i' ensures t[k] <= t[j'] {
      if t[k] != 0 {
        OtherPlace(t, i', k);
        assert t[k] in multiset(c) - multiset{c[i]};
        var l := OtherIndex(c, i, t[k]);
      }
    }
  }

  /** Where the top two positive entries sit in `t`. */
  lemma TopOfNonZero(t: seq<nat>) returns (i: nat, j: nat)
    requires |NonZero(t)| >= 2
    ensures TopAt(t, i, j) && Top2(NonZero(t)) == (t[i], t[j])
  {
    var i0, j0 := Top2Spec(NonZero(t));
    i, j := TopWithZeros(t, i0, j0);
  }

  lemma {:induction false} CountTriple(cards: seq<nat>, x: nat, y: nat)
    requires x != y && x != 0 && y != 0
    ensures Count(cards, x) + Count(cards, y) + Count(cards, 0) <= |cards|
    decreases |cards|
  {
    if cards != [] {
      CountTriple(cards[1..], x, y);
    }
  }

  /** Where the top two counts of a hand with at least two distinct non-joker values
      sit in its tally: at two non-joker values, and with the jokers they hold at most
      the five cards. */
  lemma TopCounts(cards: seq<nat>) returns (i: nat, j: nat)
    requires IsHand(cards) && |Counts(cards)| >= 2
    ensures TopAt(Tally(cards), i, j) && Tally(cards)[j] > 0
    ensures Top2(Counts(cards)) == (Tally(cards)[i], Tally(cards)[j])
    ensures Tally(cards)[i] + Tally(cards)[j] + Count(cards, 0) <= 5
  {
    i, j := TopOfNonZero(Tally(cards));
    CountTriple(cards, i, j);
  }

  /** Raising one count by the jokers never gives a better (largest, next) pair than
      adding the jokers to the largest count. */
  lemma RaiseBound(t: seq<nat>, v: nat, jokers: nat, i: nat, j: nat, i': nat, j': nat)
    requires v < |t| && TopAt(t, i, j) && TopAt(t[v := t[v] + jokers], i', j')
    ensures var t' := t[v := t[v] + jokers];
            t'[i'] <= t[i] + jokers && (t'[i'] == t[i] + jokers ==> t'[j'] <= t[j])
  {
    var t' := t[v := t[v] + jokers];
    assert t[i'] <= t[i] && t[v] <= t[i];
    if jokers == 0 {
      assert t' == t;
      TopAtUnique(t, i, j, i', j');
    } else if t'[i'] == t[i] + jokers {
      assert i' == v;
      if j' == i {
        assert t[v] <= t[j];
      } else {
        assert t[j'] <= t[j];
      }
    }
  }

  /** Raising a largest count by the jokers makes it the new largest and keeps the
      next. */
  lemma RaiseTop(t: seq<nat>, v: nat, jokers: nat, i: nat, j: nat)
    requires v < |t| && TopAt(t, i, j) && t[v] == t[i]
    ensures var jj := if v == i then j else i;
            TopAt(t[v := t[v] + jokers], v, jj) && t[v := t[v] + jokers][jj] == t[j]
  {
    if v != i {
      assert t[v] <= t[j];
    }
  }

  /** The match table respects the lexicographic order of its inputs, for the pairs a
      five-card hand can have. */
  lemma ClassifyMonotone(a: nat, b: nat, a': nat, b': nat)
    requires 0 < b <= a && a + b <= 5 && 0 < b' <= a' && a' + b' <= 5
    requires a' < a || (a' == a && b' <= b)
    ensures Rank(Classify(a', b')) <= Rank(Classify(a, b))
  {
  }

  /** Turning every joker into a card of value `v` never improves the hand: a wild
      joker is at least as good as any card. */
  lemma JokersNoWorse(cards: seq<nat>, v: nat)
    requires IsHand(cards) && 0 < v < 256
    ensures IsHand(Replace(cards, v))
    ensures Rank(HandTypeOf(Replace(cards, v))) <= Rank(HandTypeOf(cards))
  {
    if Count(cards, 0) == 0 {
      NoJokersUnchanged(cards, v);
    } else if |Counts(cards)| >= 2 {
      SpreadNoWorse(cards, v);
    } else {
      assert HandTypeOf(cards) == FiveOfAKind;
    }
  }

  /** The jokers' new value raises one count of the tally by the number of jokers. */
  lemma ReplacedTally(cards: seq<nat>, v: nat)
    requires IsHand(cards) && 0 < v < 256
    ensures var t := Tally(cards);
            IsHand(Replace(cards, v)) && Count(Replace(cards, v), 0) == 0
            && Tally(Replace(cards, v)) == t[v := t[v] + Count(cards, 0)]
  {
    TallyReplace(cards, v);
    CountReplace(cards, v, 0);
  }

  lemma SpreadNoWorse(cards: seq<nat>, v: nat)
    requires IsHand(cards) && 0 < v < 256
    requires Count(cards, 0) > 0 && |Counts(cards)| >= 2
    ensures IsHand(Replace(cards, v))
    ensures Rank(HandTypeOf(Replace(cards, v))) <= Rank(HandTypeOf(cards))
  {
    var r := Replace(cards, v);
    var jokers := Count(cards, 0);
    var t := Tally(cards);
    var t' := t[v := t[v] + jokers];
    assert IsHand(r) && Count(r, 0) == 0 && Tally(r) == t' by { ReplacedTally(cards, v); }
    assert |Counts(r)| >= 2 by { NonZeroUpdate(t, v, t[v] + jokers); }
    var i, j := TopCounts(cards);
    var i', j' := TopCounts(r);
    RaiseBound(t, v, jokers, i, j, i', j');
    assert HandTypeOf(cards) == Classify(t[i] + jokers, t[j]) by { TypeOfSpread(cards); }
    assert HandTypeOf(r) == Classify(t'[i'], t'[j']) by { TypeOfSpreadNoJokers(r); }
    ClassifyMonotone(t[i] + jokers, t[j], t'[i'], t'[j']);
  }

  /** Some value for the jokers achieves the hand's type: the jokers join the largest
      group. Together with `JokersNoWorse`, the type is the best over all
      replacements. */
  lemma JokersBest(cards: seq<nat>) returns (v: nat)
    requires IsHand(cards)
    ensures 0 < v < 256 && IsHand(Replace(cards, v))
    ensures HandTypeOf(Replace(cards, v)) == HandTypeOf(cards)
  {
    var t := Tally(cards);
    var counts := Counts(cards);
    assert multiset(counts) == multiset(t)[0 := 0] by { NonZeroMultiset(t); }
    if Count(cards, 0) == 0 {
      v := 1;
      NoJokersUnchanged(cards, v);
    } else if |counts| == 0 {
      v := 1;
      assert t[1] !in multiset(t)[0 := 0];
      FewJoined(cards, v);
    } else if |counts| == 1 {
      assert counts[0] in multiset(t)[0 := 0];
      v :| 0 <= v < 256 && t[v] == counts[0];
      FewJoined(cards, v);
    } else {
      var i, j := TopCounts(cards);
      v := i;
      LargestJoined(cards, v, i, j);
    }
  }

  /** With at most one distinct non-joker value, the jokers joining it (or any value,
      when there is none) keep five of a kind. */
  lemma FewJoined(cards: seq<nat>, v: nat)
    requires IsHand(cards) && 0 < v < 256 && Count(cards, 0) > 0
    requires |Counts(cards)| == 0 || (|Counts(cards)| == 1 && Tally(cards)[v] > 0)
    ensures IsHand(Replace(cards, v))
    ensures HandTypeOf(Replace(cards, v)) == HandTypeOf(cards) == FiveOfAKind
  {
    var t := Tally(cards);
    ReplacedTally(cards, v);
    NonZeroUpdate(t, v, t[v] + Count(cards, 0));
  }

  /** The jokers joining a largest group keep the (largest + jokers, next) pair. */
  lemma LargestJoined(cards: seq<nat>, v: nat, i: nat, j: nat)
    requires IsHand(cards) && 0 < v < 256 && Count(cards, 0) > 0 && |Counts(cards)| >= 2
    requires TopAt(Tally(cards), i, j) && Tally(cards)[v] == Tally(cards)[i]
    ensures IsHand(Replace(cards, v))
    ensures HandTypeOf(Replace(cards, v)) == HandTypeOf(cards)
  {
    var r := Replace(cards, v);
    var t := Tally(cards);
    assert Top2(Counts(cards)) == (t[i], t[j]) && t[v] > 0 by {
      var i0, j0 := TopCounts(cards);
      TopAtUnique(t, i, j, i0, j0);
    }
    JoinedTop(cards, v, i, j);
    TypeOfSpread(cards);
    TypeOfSpreadNoJokers(r);
  }

  /** The jokers joined to a largest group: the hand's new top pair of counts. */
  lemma JoinedTop(cards: seq<nat>, v: nat, i: nat, j: nat)
    requires IsHand(cards) && 0 < v < 256 && |Counts(cards)| >= 2
    requires TopAt(Tally(cards), i, j) && Tally(cards)[v] == Tally(cards)[i] > 0
    ensures IsHand(Replace(cards, v)) && Count(Replace(cards, v), 0) == 0
    ensures |Counts(Replace(cards, v))| >= 2
    ensures Top2(Counts(Replace(cards, v))) == (Tally(cards)[i] + Count(cards, 0), Tally(cards)[j])
  {
    var t := Tally(cards);
    var t' := t[v := t[v] + Count(cards, 0)];
    assert IsHand(Replace(cards, v)) && Count(Replace(cards, v), 0) == 0
           && Counts(Replace(cards, v)) == NonZero(t') by {
      ReplacedTally(cards, v);
    }
    RaisedPair(t, v, Count(cards, 0), i, j);
  }

  /** Raising a largest positive entry by the jokers: the new top pair of the positive
      entries. */
  lemma RaisedPair(t: seq<nat>, v: nat, jokers: nat, i: nat, j: nat)
    requires v < |t| && TopAt(t, i, j) && t[v] == t[i] > 0 && |NonZero(t)| >= 2
    ensures var t' := t[v := t[v] + jokers];
            |NonZero(t')| >= 2 && Top2(NonZero(t')) == (t[i] + jokers, t[j])
  {
    var t' := t[v := t[v] + jokers];
    NonZeroUpdate(t, v, t[v] + jokers);
    RaiseTop(t, v, jokers, i, j);
    var i', j' := TopOfNonZero(t');
    TopAtUnique(t', v, if v == i then j else i, i', j');
  }

  /** A hand with jokers wild is at least as strong as the same line read without
      them. */
  lemma WildNoWeaker(line: string)
    requires |line| >= 5 && forall i :: 0 <= i < 5 ==> line[i] in RANKS
    ensures Rank(HandTypeOf(Cards(line, false))) <= Rank(HandTypeOf(Cards(line, true)))
  {
    WildThenEleven(line);
    JokersNoWorse(Cards(line, true), 11);
  }

  // ---------------------------------------------------------------------------
  // The order on hands.

  datatype Ordering = Less | Equal | Greater

  function Flip(o: Ordering): Ordering
  {
    match o
    case Less => Greater
    case Equal => Equal
    case Greater => Less
  }

  function CompareNat(x: nat, y: nat): (o: Ordering)
    ensures o == Less <==> x < y
    ensures o == Equal <==> x == y
  {
    if x < y then Less else if x == y then Equal else Greater
  }

  /** The loop over the zipped cards: the first differing card decides. */
  function CompareCards(a: seq<nat>, b: seq<nat>): Ordering
  {
    if a == [] || b == [] then Equal
    else if a[0] > b[0] then Greater
    else if b[0] > a[0] then Less
    else CompareCards(a[1..], b[1..])
  }

  /** `jokers_wild` is left out: the order never reads it. */
  datatype Hand = Hand(cards: seq<nat>, typ: HandType)

  /** `Hand::cmp`: by type, then by the cards. */
  function Cmp(h: Hand, k: Hand): Ordering
  {
    var o := CompareNat(Rank(h.typ), Rank(k.typ));
    if o != Equal then o else CompareCards(h.cards, k.cards)
  }

  lemma {:induction false} CompareCardsFlip(a: seq<nat>, b: seq<nat>)
    ensures CompareCards(b, a) == Flip(CompareCards(a, b))
    decreases |a|
  {
    if a != [] && b != [] && a[0] == b[0] {
      CompareCardsFlip(a[1..], b[1..]);
    }
  }

  lemma {:induction false} CompareCardsEqual(a: seq<nat>, b: seq<nat>)
    requires |a| == |b|
    ensures CompareCards(a, b) == Equal <==> a == b
    decreases |a|
  {
    if a != [] {
      CompareCardsEqual(a[1..], b[1..]);
      if a[0] == b[0] && a[1..] == b[1..] {
        assert a == [a[0]] + a[1..] && b == [b[0]] + b[1..];
      }
    }
  }

  lemma {:induction false} CompareCardsTrans(a: seq<nat>, b: seq<nat>, c: seq<nat>)
    requires |a| == |b| == |c|
    requires CompareCards(a, b) != Greater && CompareCards(b, c) != Greater
    ensures CompareCards(a, c) != Greater
    decreases |a|
  {
    if a != [] && a[0] == b[0] == c[0] {
      CompareCardsTrans(a[1..], b[1..], c[1..]);
    }
  }

  /** Swapping the arguments flips the result. */
  lemma CmpFlip(h: Hand, k: Hand)
    ensures Cmp(k, h) == Flip(Cmp(h, k))
  {
    CompareCardsFlip(h.cards, k.cards);
  }

  /** `Equal` exactly when type and all cards agree. */
  lemma CmpEqual(h: Hand, k: Hand)
    requires |h.cards| == |k.cards|
    ensures Cmp(h, k) == Equal <==> h == k
  {
    CompareCardsEqual(h.cards, k.cards);
    if Cmp(h, k) == Equal {
      RankInjective(h.typ, k.typ);
    }
  }

  lemma CmpTrans(h: Hand, k: Hand, l: Hand)
    requires |h.cards| == |k.cards| == |l.cards|
    requires Cmp(h, k) != Greater && Cmp(k, l) != Greater
    ensures Cmp(h, l) != Greater
  {
    if Rank(h.typ) == Rank(k.typ) == Rank(l.typ) {
      CompareCardsTrans(h.cards, k.cards, l.cards);
    }
  }

  // ---------------------------------------------------------------------------
  // Sorting (hand, bid) pairs and the winnings.

  type Entry = (Hand, nat)

  /** The derived order on `(Hand, Bid)` tuples: the hand, then the bid. */
  function CmpEntry(x: Entry, y: Entry): Ordering
  {
    var o := Cmp(x.0, y.0);
    if o != Equal then o else CompareNat(x.1, y.1)
  }

  predicate Leq(x: Entry, y: Entry)
  {
    CmpEntry(x, y) != Greater
  }

  predicate FiveCards(xs: seq<Entry>)
  {
    forall i :: 0 <= i < |xs| ==> |xs[i].0.cards| == 5
  }

  lemma LeqReflexive(x: Entry)
    ensures Leq(x, x)
  {
    CompareCardsEqual(x.0.cards, x.0.cards);
  }

  lemma LeqTotal(x: Entry, y: Entry)
    ensures Leq(x, y) || Leq(y, x)
  {
    CmpFlip(x.0, y.0);
  }

  lemma LeqAntisymmetric(x: Entry, y: Entry)
    requires |x.0.cards| == |y.0.cards|
    requires Leq(x, y) && Leq(y, x)
    ensures x == y
  {
    CmpFlip(x.0, y.0);
    CmpEqual(x.0, y.0);
  }

  lemma LeqTransitive(x: Entry, y: Entry, z: Entry)
    requires |x.0.cards| == |y.0.cards| == |z.0.cards|
    requires Leq(x, y) && Leq(y, z)
    ensures Leq(x, z)
  {
    CmpTrans(x.0, y.0, z.0);
    if Cmp(x.0, z.0) == Equal {
      CmpEqual(x.0, z.0);
      CmpFlip(x.0, y.0);
      CmpEqual(x.0, y.0);
    }
  }

  predicate Sorted(xs: seq<Entry>)
  {
    forall i, j :: 0 <= i < j < |xs| ==> Leq(xs[i], xs[j])
  }

  /** `x` placed before the first entry it does not exceed. */
  function Insert(x: Entry, xs: seq<Entry>): (r: seq<Entry>)
    ensures multiset(r) == multiset(xs) + multiset{x}
  {
    if xs == [] then [x]
    else if Leq(x, xs[0]) then [x] + xs
    else
      assert xs == [xs[0]] + xs[1..];
      [xs[0]] + Insert(x, xs[1..])
  }

  /** Inserting into a sorted sequence keeps it sorted. */
  lemma {:induction false} InsertSorted(x: Entry, xs: seq<Entry>)
    requires |x.0.cards| == 5 && FiveCards(xs) && Sorted(xs)
    ensures FiveCards(Insert(x, xs)) && Sorted(Insert(x, xs))
  {
    if xs == [] {
    } else if Leq(x, xs[0]) {
      forall j | 0 <= j < |xs| ensures Leq(x, xs[j]) {
        if j > 0 {
          LeqTransitive(x, xs[0], xs[j]);
        }
      }
      assert Insert(x, xs) == [x] + xs;
    } else {
      LeqTotal(x, xs[0]);
      SortedTail(xs);
      InsertSorted(x, xs[1..]);
      var rest := Insert(x, xs[1..]);
      assert multiset(rest) == multiset(xs[1..]) + multiset{x};
      forall j | 0 <= j < |rest| ensures Leq(xs[0], rest[j]) {
        assert rest[j] in multiset(xs[1..]) + multiset{x};
        if rest[j] != x {
          var k :| 0 <= k < |xs[1..]| && xs[1..][k] == rest[j];
          assert xs[k + 1] == rest[j];
        }
      }
      assert Insert(x, xs) == [xs[0]] + rest;
    }
  }

  /** `v.sort()`: the entries in ascending order. */
  function Sort(xs: seq<Entry>): (r: seq<Entry>)
    ensures multiset(r) == multiset(xs)
  {
    if xs == [] then []
    else
      assert xs == [xs[0]] + xs[1..];
      Insert(xs[0], Sort(xs[1..]))
  }

  /** The result of `Sort` is in ascending order. */
  lemma {:induction false} SortSorted(xs: seq<Entry>)
    requires FiveCards(xs)
    ensures FiveCards(Sort(xs)) && Sorted(Sort(xs))
  {
    if xs != [] {
      assert FiveCards(xs[1..]);
      SortSorted(xs[1..]);
      InsertSorted(xs[0], Sort(xs[1..]));
    }
  }

  lemma SortedTail(a: seq<Entry>)
    requires a != [] && FiveCards(a) && Sorted(a)
    ensures FiveCards(a[1..]) && Sorted(a[1..])
  {
  }

  /** The order is total and `Equal` means identical, so there is one sorted
      arrangement of any collection of entries. */
  lemma {:induction false} SortedUnique(a: seq<Entry>, b: seq<Entry>)
    requires FiveCards(a) && FiveCards(b) && Sorted(a) && Sorted(b)
    requires multiset(a) == multiset(b)
    ensures a == b
    decreases |a|
  {
    assert |b| == |a| by {
      assert |multiset(a)| == |multiset(b)|;
    }
    if a != [] {
      SortedHeads(a, b);
      SameTails(a, b);
      SortedTail(a);
      SortedTail(b);
      SortedUnique(a[1..], b[1..]);
      assert a == [a[0]] + a[1..] && b == [b[0]] + b[1..];
    }
  }

  lemma SortedHeads(a: seq<Entry>, b: seq<Entry>)
    requires a != [] && |b| == |a| && FiveCards(a) && FiveCards(b) && Sorted(a) && Sorted(b)
    requires multiset(a) == multiset(b)
    ensures a[0] == b[0]
  {
    assert a[0] in multiset(b) && b[0] in multiset(a);
    SortedFirstLeast(a, b[0]);
    SortedFirstLeast(b, a[0]);
    LeqAntisymmetric(a[0], b[0]);
  }

  /** Equal collections with equal first entries have equal rests. */
  lemma SameTails<T>(a: seq<T>, b: seq<T>)
    requires a != [] && b != [] && a[0] == b[0] && multiset(a) == multiset(b)
    ensures multiset(a[1..]) == multiset(b[1..])
  {
    assert a == [a[0]] + a[1..] && b == [b[0]] + b[1..];
    assert multiset(a[1..]) == multiset(a) - multiset{a[0]};
    assert multiset(b[1..]) == multiset(b) - multiset{b[0]};
  }

  /** The first entry of a sorted sequence is at most each of its entries. */
  lemma SortedFirstLeast(a: seq<Entry>, x: Entry)
    requires Sorted(a) && x in multiset(a)
    ensures Leq(a[0], x)
  {
    var i :| 0 <= i < |a| && a[i] == x;
    if i == 0 {
      LeqReflexive(x);
    }
  }

  /** Each bid times its 1-based rank, summed. */
  function Winnings(xs: seq<Entry>): nat
  {
    if xs == [] then 0 else Winnings(xs[..|xs| - 1]) + xs[|xs| - 1].1 * |xs|
  }

  /** The total does not depend on the order of the input lines. */
  lemma WinningsOrderFree(xs: seq<Entry>, ys: seq<Entry>)
    requires FiveCards(xs) && FiveCards(ys) && multiset(xs) == multiset(ys)
    ensures Winnings(Sort(xs)) == Winnings(Sort(ys))
  {
    SortSorted(xs);
    SortSorted(ys);
    SortedUnique(Sort(xs), Sort(ys));
  }

  /** Appending the strongest entry pays it the new top rank. */
  lemma WinningsLast(xs: seq<Entry>, x: Entry)
    ensures Winnings(xs + [x]) == Winnings(xs) + x.1 * (|xs| + 1)
  {
    assert (xs + [x])[..|xs|] == xs;
  }

  // ---------------------------------------------------------------------------
  // Parsing and the parts.

  /** `line.chars().skip(n)`. */
  function Skip(s: string, n: nat): (r: string)
    ensures |s| >= n ==> s == s[..n] + r
    ensures |s| <= n ==> r == []
  {
    if |s| >= n then s[n..] else []
  }

  /** `parse_hand`: five cards, one separator character that is not read, and the bid as
      a `u32` taking up the rest of the line. */
  function ParseHand(line: string, jokersWild: bool): (r: Option<Entry>)
    ensures |line| <= 6 ==> r.None?
    ensures r.Some? ==> r.value.0.cards == Cards(line, jokersWild)
                        && r.value.0.typ == HandTypeOf(Cards(line, jokersWild))
                        && r.value.1 <= U32_MAX
  {
    var cards := Cards(line, jokersWild);
    match ParseUIntStr(Skip(line, 6), U32_MAX)
    case None => None
    case Some(bid) => Some((Hand(cards, HandTypeOf(cards)), bid))
  }

  /** A hand followed by a space and its bid in decimal reads back as those. */
  lemma ParseFormatHand(hand: string, bid: nat, jokersWild: bool)
    requires |hand| == 5 && bid <= U32_MAX
    ensures var cards := Cards(hand, jokersWild);
            ParseHand(hand + " " + Decimal(bid), jokersWild) == Some((Hand(cards, HandTypeOf(cards)), bid))
  {
    var line := hand + " " + Decimal(bid);
    assert Skip(line, 6) == Decimal(bid);
    ParseUIntDecimal(bid, U32_MAX);
    assert Cards(line, jokersWild) == Cards(hand, jokersWild);
  }

  /** Every line's hand, or `None` when some line fails. */
  function ParseAll(ls: seq<string>, jokersWild: bool): (r: Option<seq<Entry>>)
    ensures r.Some? ==> |r.value| == |ls| && FiveCards(r.value)
    ensures r.Some? ==> forall i :: 0 <= i < |ls| ==> ParseHand(ls[i], jokersWild) == Some(r.value[i])
    ensures r.None? <==> exists i :: 0 <= i < |ls| && ParseHand(ls[i], jokersWild).None?
  {
    CollectAll(ls, l => ParseHand(l, jokersWild))
  }

  /** `part1` (jokers tame) and `part2` (jokers wild): the winnings of the sorted
      hands. */
  function Solve(input: string, jokersWild: bool): (r: Option<nat>)
    ensures r.None? <==> exists i :: 0 <= i < |Lines(input)| && ParseHand(Lines(input)[i], jokersWild).None?
  {
    var es := ParseAll(Lines(input), jokersWild);
    if es.None? then
      assert exists i :: 0 <= i < |Lines(input)| && ParseHand(Lines(input)[i], jokersWild).None?;
      None
    else Some(Winnings(Sort(es.value)))
  }

  /** Reordering the input lines does not change either part's answer. */
  lemma SolveOrderFree(a: string, b: string, jokersWild: bool)
    requires multiset(Lines(a)) == multiset(Lines(b))
    requires ParseAll(Lines(a), jokersWild).Some? && ParseAll(Lines(b), jokersWild).Some?
    ensures Solve(a, jokersWild) == Solve(b, jokersWild)
  {
    var la, lb := Lines(a), Lines(b);
    var ea, eb := ParseAll(la, jokersWild).value, ParseAll(lb, jokersWild).value;
    MapPermutation(la, lb, ea, eb, l => ParseHand(l, jokersWild));
    WinningsOrderFree(ea, eb);
  }

  /** Mapping permuted inputs gives permuted outputs. */
  lemma {:induction false} MapPermutation<A, B>(la: seq<A>, lb: seq<A>, ea: seq<B>, eb: seq<B>, f: A -> Option<B>)
    requires multiset(la) == multiset(lb) && |ea| == |la| && |eb| == |lb|
    requires forall i :: 0 <= i < |la| ==> f(la[i]) == Some(ea[i])
    requires forall i :: 0 <= i < |lb| ==> f(lb[i]) == Some(eb[i])
    ensures multiset(ea) == multiset(eb)
    decreases |la|
  {
    if la != [] {
      assert la[0] in multiset(lb);
      var k :| 0 <= k < |lb| && lb[k] == la[0];
      var la', ea' := DropAt(la, ea, 0, f);
      var lb', eb' := DropAt(lb, eb, k, f);
      MapPermutation(la', lb', ea', eb', f);
    }
  }

  /** Taking out the `k`-th input and output keeps the rest paired. */
  lemma DropAt<A, B>(l: seq<A>, e: seq<B>, k: nat, f: A -> Option<B>) returns (l': seq<A>, e': seq<B>)
    requires k < |l| && |e| == |l|
    requires forall i :: 0 <= i < |l| ==> f(l[i]) == Some(e[i])
    ensures |e'| == |l'| && forall i :: 0 <= i < |l'| ==> f(l'[i]) == Some(e'[i])
    ensures multiset(l') == multiset(l) - multiset{l[k]}
    ensures multiset(e) == multiset(e') + multiset{e[k]}
    ensures f(l[k]) == Some(e[k])
  {
    l', e' := l[..k] + l[k + 1..], e[..k] + e[k + 1..];
    assert l == l[..k] + [l[k]] + l[k + 1..];
    assert e == e[..k] + [e[k]] + e[k + 1..];
    forall i | 0 <= i < |l'| ensures f(l'[i]) == Some(e'[i]) {
      if i < k {
        assert l'[i] == l[i] && e'[i] == e[i];
      } else {
        assert l'[i] == l[i + 1] && e'[i] == e[i + 1];
      }
    }
  }
}

=== FILE: grid.dfy ===
/** The shared two-dimensional grid: a sequence of rows together with the recorded
    dimensions (width, height). Coordinates are (x, y) = (column, row). Indexing
    outside the stored rows panics in the program, so it is a precondition here. */
module Grids {
  import opened Text

  datatype Grid<T> = Grid(dimensions: (nat, nat), rows: seq<seq<T>>) {
    function Width(): nat { dimensions.0 }
    function Height(): nat { dimensions.1 }

    /** The rectangularity invariant: `Height()` rows of `Width()` cells each. */
    predicate Valid()
    {
      && |rows| == dimensions.1
      && forall y :: 0 <= y < |rows| ==> |rows[y]| == dimensions.0
    }

    /** `(x, y)` names a stored cell, so indexing it does not panic. */
    predicate Has(x: nat, y: nat)
    {
      y < |rows| && x < |rows[y]|
    }
  }

  /** `Grid::new`: every cell holds `d`. */
  function New<T>(d: T, w: nat, h: nat): (g: Grid<T>)
    ensures g.Valid() && g.dimensions == (w, h)
    ensures forall x: nat, y: nat | x < w && y < h :: g.Has(x, y) && At(g, x, y) == d
  {
    Grid((w, h), seq(h, _ => seq(w, _ => d)))
  }

  /** `Grid::at`: the cell in row `y`, column `x`. */
  function At<T>(g: Grid<T>, x: nat, y: nat): T
    requires g.Has(x, y)
  {
    g.rows[y][x]
  }

  /** Writing `v` through `Grid::at_mut`. */
  function Set<T>(g: Grid<T>, x: nat, y: nat, v: T): (g': Grid<T>)
    requires g.Has(x, y)
    ensures g'.dimensions == g.dimensions && |g'.rows| == |g.rows|
    ensures forall j :: 0 <= j < |g.rows| ==> |g'.rows[j]| == |g.rows[j]|
    ensures g.Valid() ==> g'.Valid()
    ensures At(g', x, y) == v
    ensures forall i: nat, j: nat | g.Has(i, j) && (i, j) != (x, y) :: At(g', i, j) == At(g, i, j)
  {
    g.(rows := g.rows[y := g.rows[y][x := v]])
  }

  /** `Grid::parse` for characters: one row per line, width taken from the first line.
      Indexing the first line of empty input panics. */
  function Parse(input: string): (g: Grid<char>)
    requires input != []
    ensures g.rows == Lines(input)
    ensures g.Height() == |Lines(input)| && g.Width() == |Lines(input)[0]|
  {
    var ls := Lines(input);
    Grid((|ls[0]|, |ls|), ls)
  }

  /** A parsed grid satisfies the rectangularity invariant exactly when all lines have
      the first line's length. */
  lemma ParseValid(input: string)
    requires input != []
    ensures Parse(input).Valid() <==>
            forall y :: 0 <= y < |Lines(input)| ==> |Lines(input)[y]| == |Lines(input)[0]|
  {
    var g := Parse(input);
    assert g.rows == Lines(input) && g.dimensions == (|Lines(input)[0]|, |Lines(input)|);
  }

  /** `Grid::iter`: the cells row by row, each row left to right. */
  function Iter<T>(g: Grid<T>): seq<T>
  {
    Flatten(g.rows)
  }

  function Flatten<T>(rows: seq<seq<T>>): seq<T>
  {
    if rows == [] then [] else rows[0] + Flatten(rows[1..])
  }

  lemma {:induction false} FlattenLength<T>(rows: seq<seq<T>>, w: nat)
    requires forall y :: 0 <= y < |rows| ==> |rows[y]| == w
    ensures |Flatten(rows)| == |rows| * w
  {
    if rows != [] {
      FlattenLength(rows[1..], w);
      assert |rows| * w == w + (|rows| - 1) * w;
    }
  }

  lemma RowMajorBound(x: nat, y: nat, w: nat, h: nat)
    requires x < w && y < h
    ensures w <= y * w + w <= h * w
    ensures y * w + x < h * w
  {
    assert y * w + w == (y + 1) * w;
    assert (y + 1) * w <= h * w;
  }

  lemma {:induction false} FlattenAt<T>(rows: seq<seq<T>>, w: nat, x: nat, y: nat)
    requires forall j :: 0 <= j < |rows| ==> |rows[j]| == w
    requires x < w && y < |rows|
    ensures y * w + x < |Flatten(rows)|
    ensures Flatten(rows)[y * w + x] == rows[y][x]
  {
    FlattenLength(rows, w);
    RowMajorBound(x, y, w, |rows|);
    if y > 0 {
      FlattenAt(rows[1..], w, x, y - 1);
      assert y * w + x - w == (y - 1) * w + x;
    }
  }

  /** Iteration of a rectangular grid yields exactly `w * h` cells, and the cell at
      `(x, y)` comes at position `y * w + x`. */
  lemma IterRowMajor<T>(g: Grid<T>)
    requires g.Valid()
    ensures |Iter(g)| == g.Width() * g.Height()
    ensures forall x: nat, y: nat | x < g.Width() && y < g.Height() ::
              y * g.Width() + x < |Iter(g)| && Iter(g)[y * g.Width() + x] == At(g, x, y)
  {
    var w := g.Width();
    var f := Iter(g);
    assert f == Flatten(g.rows);
    FlattenLength(g.rows, w);
    forall x: nat, y: nat | x < w && y < g.Height()
      ensures y * w + x < |f| && f[y * w + x] == At(g, x, y)
    {
      FlattenAt(g.rows, w, x, y);
    }
  }

  /** The i-th cell of the iteration is the one at `(i % w, i / w)`. */
  lemma IterIndex<T>(g: Grid<T>, i: nat)
    requires g.Valid() && i < |Iter(g)|
    ensures g.Width() > 0 && i / g.Width() < g.Height()
    ensures Iter(g)[i] == At(g, i % g.Width(), i / g.Width())
  {
    var w, h := g.Width(), g.Height();
    FlattenLength(g.rows, w);
    assert w > 0;
    var x, y := i % w, i / w;
    assert i == y * w + x;
    assert y < h by {
      assert y * w <= i < h * w;
      DivBound(i, w, h);
    }
    FlattenAt(g.rows, w, x, y);
  }

  lemma DivBound(i: nat, w: nat, h: nat)
    requires w > 0 && i < h * w
    ensures i / w < h
  {
  }

  /** The number of items of `s` satisfying `p` (a `filter(..).count()`). */
  function CountIf<T>(s: seq<T>, p: T -> bool): (n: nat)
    ensures n <= |s|
  {
    if s == [] then 0 else (if p(s[0]) then 1 else 0) + CountIf(s[1..], p)
  }

  lemma {:induction false} CountIfAppend<T>(a: seq<T>, b: seq<T>, p: T -> bool)
    ensures CountIf(a + b, p) == CountIf(a, p) + CountIf(b, p)
  {
    if a != [] {
      CountIfAppend(a[1..], b, p);
      assert (a + b)[1..] == a[1..] + b;
    } else {
      assert a + b == b;
    }
  }

  /** The number of coordinates `(x', y)` with `x <= x' < w` satisfying `q`. */
  ghost function CountRow(w: nat, x: nat, y: nat, q: (nat, nat) -> bool): nat
    decreases w - x
  {
    if x >= w then 0 else (if q(x, y) then 1 else 0) + CountRow(w, x + 1, y, q)
  }

  /** The number of coordinates `(x, y')` with `x < w` and `y <= y' < h` satisfying
      `q`. */
  ghost function CountRows(w: nat, h: nat, y: nat, q: (nat, nat) -> bool): nat
    decreases h - y
  {
    if y >= h then 0 else CountRow(w, 0, y, q) + CountRows(w, h, y + 1, q)
  }

  /** The number of cells of a `w` by `h` grid whose coordinates satisfy `q`. */
  ghost function CountCells(w: nat, h: nat, q: (nat, nat) -> bool): nat
  {
    CountRows(w, h, 0, q)
  }

  lemma {:induction false} CountIfRow<T>(g: Grid<T>, p: T -> bool, q: (nat, nat) -> bool, x: nat, y: nat)
    requires g.Valid() && x <= g.Width() && y < g.Height()
    requires forall i: nat | x <= i < g.Width() :: p(At(g, i, y)) == q(i, y)
    ensures CountIf(g.rows[y][x..], p) == CountRow(g.Width(), x, y, q)
    decreases g.Width() - x
  {
    var row := g.rows[y];
    if x < g.Width() {
      CountIfRow(g, p, q, x + 1, y);
      assert row[x..][1..] == row[x + 1..];
    } else {
      assert row[x..] == [];
    }
  }

  lemma {:induction false} CountIfRows<T>(g: Grid<T>, p: T -> bool, q: (nat, nat) -> bool, y: nat)
    requires g.Valid() && y <= g.Height()
    requires forall i: nat, j: nat | i < g.Width() && j < g.Height() :: p(At(g, i, j)) == q(i, j)
    ensures CountIf(Flatten(g.rows[y..]), p) == CountRows(g.Width(), g.Height(), y, q)
    decreases g.Height() - y
  {
    if y < g.Height() {
      var rows := g.rows[y..];
      assert rows[1..] == g.rows[y + 1..];
      assert Flatten(rows) == g.rows[y] + Flatten(g.rows[y + 1..]);
      CountIfAppend(g.rows[y], Flatten(g.rows[y + 1..]), p);
      CountIfRows(g, p, q, y + 1);
      CountIfRow(g, p, q, 0, y);
      assert g.rows[y][0..] == g.rows[y];
    } else {
      assert g.rows[y..] == [];
    }
  }

  /** Counting the iterated cells that satisfy `p` counts the coordinates whose cell
      satisfies it. */
  lemma CountIter<T>(g: Grid<T>, p: T -> bool, q: (nat, nat) -> bool)
    requires g.Valid()
    requires forall x: nat, y: nat | x < g.Width() && y < g.Height() :: p(At(g, x, y)) == q(x, y)
    ensures CountIf(Iter(g), p) == CountCells(g.Width(), g.Height(), q)
  {
    CountIfRows(g, p, q, 0);
    assert g.rows[0..] == g.rows;
  }

  /** Rendering through a per-cell formatter (the `Debug` impl, whose cell formatter
      is the element type's own): each row's cells, then a `'\n'`. */
  function Render<T>(g: Grid<T>, cell: T -> string): string
  {
    RenderRows(g.rows, cell)
  }

  function RenderRows<T>(rows: seq<seq<T>>, cell: T -> string): string
  {
    if rows == [] then "" else RenderRow(rows[0], cell) + "\n" + RenderRows(rows[1..], cell)
  }

  function RenderRow<T>(row: seq<T>, cell: T -> string): string
  {
    if row == [] then "" else cell(row[0]) + RenderRow(row[1..], cell)
  }

  /** `Display` for a character grid: each row's characters followed by `'\n'`. */
  function Display(g: Grid<char>): (s: string)
    ensures s == Unlines(g.rows)
  {
    RenderRowsChars(g.rows);
    RenderRows(g.rows, c => [c])
  }

  lemma {:induction false} RenderRowChars(row: string)
    ensures RenderRow(row, c => [c]) == row
  {
    if row != [] {
      RenderRowChars(row[1..]);
      assert [row[0]] + row[1..] == row;
    }
  }

  lemma {:induction false} RenderRowsChars(rows: seq<string>)
    ensures RenderRows(rows, c => [c]) == Unlines(rows)
  {
    if rows != [] {
      RenderRowChars(rows[0]);
      RenderRowsChars(rows[1..]);
    }
  }

  /** A character grid with at least one row, no `'\n'` cell and no row ending in
      `'\r'` parses back from its own rendering. */
  lemma ParseDisplay(g: Grid<char>)
    requires g.Valid() && g.Height() > 0
    requires forall y :: 0 <= y < |g.rows| ==> '\n' !in g.rows[y] && !EndsWithCR(g.rows[y])
    ensures Display(g) != [] && Parse(Display(g)) == g
  {
    LinesUnlines(g.rows);
    assert Display(g) != [] by {
      assert Lines(Display(g)) != [];
    }
  }
}

=== FILE: symbol_table.dfy ===
/** The dense interning table: every new string receives the next unused id. Ids are
    `u16` in the program, so interning a new string at id 65535 would overflow. */
module Symbols {
  import opened Text

  datatype SymbolTable = SymbolTable(symbols: map<string, nat>, nextId: nat)

  /** The ids in use are exactly `0 .. nextId - 1`, one per symbol. */
  predicate Valid(t: SymbolTable)
  {
    && (forall s :: s in t.symbols ==> t.symbols[s] < t.nextId)
    && (forall i :: 0 <= i < t.nextId ==> i in t.symbols.Values)
    && (forall a, b :: a in t.symbols && b in t.symbols && t.symbols[a] == t.symbols[b] ==> a == b)
    && |t.symbols| == t.nextId
  }

  /** `SymbolTable::new`. */
  function New(): (t: SymbolTable)
    ensures Valid(t) && Len(t) == 0 && t.symbols == map[]
  {
    SymbolTable(map[], 0)
  }

  /** `SymbolTable::len`: the number of ids handed out. */
  function Len(t: SymbolTable): nat
  {
    t.nextId
  }

  /** `SymbolTable::get`: the id of `symbol`, interning it first when it is new. */
  function Get(t: SymbolTable, symbol: string): (r: (nat, SymbolTable))
    requires symbol in t.symbols || t.nextId < U16_MAX
    ensures symbol in t.symbols ==> r == (t.symbols[symbol], t)
    ensures symbol !in t.symbols ==>
              && r.0 == t.nextId
              && r.1 == SymbolTable(t.symbols[symbol := t.nextId], t.nextId + 1)
    ensures symbol in r.1.symbols && r.1.symbols[symbol] == r.0
    ensures Valid(t) ==> Valid(r.1)
  {
    if symbol in t.symbols then (t.symbols[symbol], t)
    else
      var t' := SymbolTable(t.symbols[symbol := t.nextId], t.nextId + 1);
      assert Valid(t) ==> Valid(t') by {
        if Valid(t) {
          forall i | 0 <= i < t'.nextId
            ensures i in t'.symbols.Values
          {
            if i == t.nextId {
              assert t'.symbols[symbol] == i;
            } else {
              assert i in t.symbols.Values;
              var s :| s in t.symbols && t.symbols[s] == i;
              assert t'.symbols[s] == i;
            }
          }
        }
      }
      (t.nextId, t')
  }

  /** Interning is idempotent: asking again returns the same id and changes nothing. */
  lemma GetIdempotent(t: SymbolTable, symbol: string)
    requires symbol in t.symbols || t.nextId < U16_MAX
    ensures Get(Get(t, symbol).1, symbol) == (Get(t, symbol).0, Get(t, symbol).1)
    ensures Len(Get(Get(t, symbol).1, symbol).1) == Len(Get(t, symbol).1)
  {
  }

  /** Interning the symbols of `syms` in order into `t`. */
  function GetAll(t: SymbolTable, syms: seq<string>): (r: SymbolTable)
    requires t.nextId + |syms| < U16_MAX
    ensures t.nextId <= r.nextId <= t.nextId + |syms|
    decreases |syms|
  {
    if syms == [] then t else GetAll(Get(t, syms[0]).1, syms[1..])
  }

  /** Interning a sequence of symbols into a fresh table gives exactly those symbols
      distinct ids `0 .. n - 1`, where `n` is the number of distinct symbols. */
  lemma GetAllFromNew(syms: seq<string>)
    requires |syms| < U16_MAX
    ensures Valid(GetAll(New(), syms))
    ensures GetAll(New(), syms).symbols.Keys == set x | x in syms
    ensures Len(GetAll(New(), syms)) == |set x | x in syms|
  {
    GetAllValid(New(), syms);
    GetAllKeys(New(), syms);
  }

  /** Interning keeps the table valid. */
  lemma {:induction false} GetAllValid(t: SymbolTable, syms: seq<string>)
    requires t.nextId + |syms| < U16_MAX
    requires Valid(t)
    ensures Valid(GetAll(t, syms))
    decreases |syms|
  {
    if syms != [] {
      GetAllValid(Get(t, syms[0]).1, syms[1..]);
    }
  }

  lemma SetOfCons(syms: seq<string>)
    requires syms != []
    ensures (set x | x in syms) == {syms[0]} + set x | x in syms[1..]
  {
    assert syms == [syms[0]] + syms[1..];
  }

  /** Interning adds exactly the given symbols to the table's keys. */
  lemma {:induction false} GetAllKeys(t: SymbolTable, syms: seq<string>)
    requires t.nextId + |syms| < U16_MAX
    ensures GetAll(t, syms).symbols.Keys == t.symbols.Keys + set x | x in syms
    decreases |syms|
  {
    if syms != [] {
      var t1 := Get(t, syms[0]).1;
      assert GetAll(t, syms) == GetAll(t1, syms[1..]);
      GetAllKeys(t1, syms[1..]);
      assert t1.symbols.Keys == t.symbols.Keys + {syms[0]};
      SetOfCons(syms);
    }
  }
}

=== FILE: text.dfy ===
/** Shared text helpers: the failure-compatible Option type, splitting and joining,
    line iteration as the standard library's `str::lines` performs it, and the small
    number/tag recognisers the puzzle parsers are built from. */
module Text {

  datatype Option<+T> = None | Some(value: T) {
    predicate IsFailure() { None? }

    function PropagateFailure<U>(): Option<U>
      requires None?
    {
      None
    }

    function Extract(): T
      requires Some?
    {
      value
    }
  }

  /** Sum of a sequence of naturals, folded from the left. */
  function Sum(xs: seq<nat>): nat
  {
    if xs == [] then 0 else Sum(xs[..|xs| - 1]) + xs[|xs| - 1]
  }

  lemma {:induction false} SumAppend(xs: seq<nat>, ys: seq<nat>)
    ensures Sum(xs + ys) == Sum(xs) + Sum(ys)
    decreases |ys|
  {
    if ys == [] {
      assert xs + ys == xs;
    } else {
      assert (xs + ys)[..|xs + ys| - 1] == xs + ys[..|ys| - 1];
      SumAppend(xs, ys[..|ys| - 1]);
    }
  }

  /** Number of elements of `xs` that equal `x`. */
  function Count<T(==)>(xs: seq<T>, x: T): nat
  {
    if xs == [] then 0 else Count(xs[1..], x) + (if xs[0] == x then 1 else 0)
  }

  // ---------------------------------------------------------------------------
  // Splitting at a separator, and its inverse.

  /** The pieces of `s` between occurrences of `sep`, as `str::split(sep)` yields
      them: always at least one piece, and `k` separators give `k + 1` pieces. */
  function Split(s: string, sep: char): (r: seq<string>)
    ensures |r| > 0
    ensures forall i :: 0 <= i < |r| ==> sep !in r[i]
  {
    if s == [] then [""]
    else
      var rest := Split(s[1..], sep);
      if s[0] == sep then [""] + rest
      else [[s[0]] + rest[0]] + rest[1..]
  }

  /** The pieces joined back together with `sep` between consecutive pieces. */
  function Join(parts: seq<string>, sep: char): string
  {
    if parts == [] then ""
    else if |parts| == 1 then parts[0]
    else parts[0] + [sep] + Join(parts[1..], sep)
  }

  lemma {:induction false} JoinSplit(s: string, sep: char)
    ensures Join(Split(s, sep), sep) == s
  {
    if s != [] {
      var rest := Split(s[1..], sep);
      JoinSplit(s[1..], sep);
      if s[0] == sep {
        assert Split(s, sep)[1..] == rest;
      } else {
        var r := Split(s, sep);
        if |rest| == 1 {
          assert r == [[s[0]] + rest[0]];
        } else {
          assert r[1..] == rest[1..];
          assert Join(rest, sep) == rest[0] + [sep] + Join(rest[1..], sep);
        }
      }
    }
  }

  lemma {:induction false} SplitJoin(parts: seq<string>, sep: char)
    requires |parts| > 0
    requires forall i :: 0 <= i < |parts| ==> sep !in parts[i]
    ensures Split(Join(parts, sep), sep) == parts
    decreases |parts|, |parts[0]|
  {
    if |parts| == 1 {
      SplitNoSep(parts[0], sep);
    } else if parts[0] == [] {
      var tail := Join(parts[1..], sep);
      assert Join(parts, sep) == [sep] + tail;
      assert ([sep] + tail)[1..] == tail;
      SplitJoin(parts[1..], sep);
      assert [parts[0]] + parts[1..] == parts;
    } else {
      var s := Join(parts, sep);
      var shorter := [parts[0][1..]] + parts[1..];
      assert s == [parts[0][0]] + Join(shorter, sep) by {
        if |parts| == 1 {
        } else {
          assert parts[0] == [parts[0][0]] + parts[0][1..];
          assert shorter[1..] == parts[1..];
        }
      }
      assert s[1..] == Join(shorter, sep);
      assert forall i :: 0 <= i < |shorter| ==> sep !in shorter[i] by {
        forall i | 0 <= i < |shorter| ensures sep !in shorter[i] {
          if i == 0 {
            assert forall c :: c in parts[0][1..] ==> c in parts[0];
          } else {
            assert shorter[i] == parts[i];
          }
        }
      }
      SplitJoin(shorter, sep);
      assert s[0] == parts[0][0] && parts[0][0] != sep;
      assert [parts[0][0]] + parts[0][1..] == parts[0];
      assert Split(s, sep) == [parts[0]] + shorter[1..];
      assert shorter[1..] == parts[1..];
      assert [parts[0]] + parts[1..] == parts;
    }
  }

  /** Splitting two texts joined by the separator gives the pieces of each in turn. */
  lemma {:induction false} SplitConcat(a: string, b: string, sep: char)
    ensures Split(a + [sep] + b, sep) == Split(a, sep) + Split(b, sep)
  {
    var s := a + [sep] + b;
    if a == [] {
      assert s[1..] == b;
    } else {
      assert s[1..] == a[1..] + [sep] + b;
      SplitConcat(a[1..], b, sep);
    }
  }

  lemma {:induction false} SplitNoSep(s: string, sep: char)
    requires sep !in s
    ensures Split(s, sep) == [s]
  {
    if s != [] {
      assert sep !in s[1..] by {
        assert forall c :: c in s[1..] ==> c in s;
      }
      SplitNoSep(s[1..], sep);
      assert [s[0]] + s[1..] == s;
    }
  }

  // ---------------------------------------------------------------------------
  // Lines.

  /** Index of the first `c` in `s`, or `|s|` when there is none. */
  function IndexOf(s: string, c: char): (i: nat)
    ensures i <= |s|
    ensures i < |s| ==> s[i] == c
    ensures forall k :: 0 <= k < i ==> s[k] != c
  {
    if s == [] then 0
    else if s[0] == c then 0
    else 1 + IndexOf(s[1..], c)
  }

  /** A line with one `'\r'` removed from its end, as `str::lines` does before a `'\n'`. */
  function StripCR(line: string): string
  {
    if |line| > 0 && line[|line| - 1] == '\r' then line[..|line| - 1] else line
  }

  /** The lines of `s`: split at each `'\n'`, a `'\r'` directly before the `'\n'` is
      dropped, and a final `'\n'` does not start an extra empty line. */
  function Lines(s: string): (r: seq<string>)
    ensures s == [] <==> r == []
    ensures forall i :: 0 <= i < |r| ==> '\n' !in r[i]
    decreases |s|
  {
    if s == [] then []
    else
      var i := IndexOf(s, '\n');
      if i == |s| then [s]
      else
        assert forall c :: c in StripCR(s[..i]) ==> c in s[..i];
        [StripCR(s[..i])] + Lines(s[i + 1..])
  }

  /** Each line followed by a `'\n'`: the text `writeln!` produces row by row. */
  function Unlines(ls: seq<string>): string
  {
    if ls == [] then "" else ls[0] + "\n" + Unlines(ls[1..])
  }

  predicate EndsWithCR(line: string)
  {
    |line| > 0 && line[|line| - 1] == '\r'
  }

  /** Text without `'\n'` is a single line. */
  lemma LinesSingle(l: string)
    requires l != [] && '\n' !in l
    ensures Lines(l) == [l]
  {
    assert IndexOf(l, '\n') == |l|;
  }

  /** A line without `'\n'` and not ending in `'\r'`, followed by `'\n'`, reads back as
      that line and then the lines of the rest. */
  lemma LinesCons(l: string, rest: string)
    requires '\n' !in l && !EndsWithCR(l)
    ensures Lines(l + "\n" + rest) == [l] + Lines(rest)
  {
    var s := l + "\n" + rest;
    assert IndexOf(s, '\n') == |l| by {
      assert s[|l|] == '\n';
      assert forall k :: 0 <= k < |l| ==> s[k] == l[k];
      IndexOfFirst(s, '\n', |l|);
    }
    assert s[..|l|] == l;
    assert s[|l| + 1..] == rest;
  }

  /** The first occurrence is where `IndexOf` stops. */
  lemma {:induction false} IndexOfFirst(s: string, c: char, i: nat)
    requires i < |s| && s[i] == c && forall k :: 0 <= k < i ==> s[k] != c
    ensures IndexOf(s, c) == i
  {
    if i > 0 {
      assert forall k :: 0 <= k < i - 1 ==> s[1..][k] == s[k + 1];
      IndexOfFirst(s[1..], c, i - 1);
    }
  }

  /** Reading back lines that were written one per line gives the same lines, provided
      no line holds a `'\n'` or ends in a `'\r'` that reading would strip. */
  lemma {:induction false} LinesUnlines(ls: seq<string>)
    requires forall i :: 0 <= i < |ls| ==> '\n' !in ls[i] && !EndsWithCR(ls[i])
    ensures Lines(Unlines(ls)) == ls
  {
    if ls != [] {
      LinesCons(ls[0], Unlines(ls[1..]));
      LinesUnlines(ls[1..]);
      assert [ls[0]] + ls[1..] == ls;
    }
  }

  lemma SumCons(x: nat, xs: seq<nat>)
    ensures Sum([x] + xs) == x + Sum(xs)
  {
    SumAppend([x], xs);
    assert Sum([x]) == Sum([x][..0]) + x;
  }

  // ---------------------------------------------------------------------------
  // Arithmetic.

  /** A subset missing an element of the superset is strictly smaller. */
  lemma SubsetSmaller<T>(s: set<T>, t: set<T>, c: T)
    requires s <= t && c in t && c !in s
    ensures |s| < |t|
  {
    assert t == s + (t - s);
    assert c in t - s;
    assert s * (t - s) == {};
  }

  lemma MulAtLeast(k: int, m: int)
    requires m > 0 && k >= 1
    ensures k * m >= m
  {
  }

  lemma MulMono(a: nat, b: nat, c: nat, d: nat)
    requires a <= c && b <= d
    ensures a * b <= c * d
  {
    assert a * b <= c * b by {
      assert (c - a) * b >= 0;
    }
    assert c * b <= c * d by {
      assert c * (d - b) >= 0;
    }
  }

  /** Euclidean division is determined by its quotient and remainder. */
  lemma DivModUnique(x: int, m: int, q: int, r: int)
    requires m > 0 && 0 <= r < m && x == q * m + r
    ensures x / m == q && x % m == r
  {
    var q', r' := x / m, x % m;
    assert (q - q') * m == r' - r;
    if q - q' >= 1 {
      MulAtLeast(q - q', m);
    } else if q' - q >= 1 {
      MulAtLeast(q' - q, m);
    }
  }

  // ---------------------------------------------------------------------------
  // Characters and numbers.

  predicate IsDigit(c: char) { '0' <= c <= '9' }

  function DigitValue(c: char): nat
    requires IsDigit(c)
  {
    c as nat - '0' as nat
  }

  predicate IsAlpha(c: char) { ('a' <= c <= 'z') || ('A' <= c <= 'Z') }

  predicate AllDigits(s: string)
  {
    forall i :: 0 <= i < |s| ==> IsDigit(s[i])
  }

  /** Value of a decimal digit string, accumulated most significant digit first. */
  function DecimalValue(ds: string): nat
    requires AllDigits(ds)
  {
    if ds == [] then 0 else 10 * DecimalValue(ds[..|ds| - 1]) + DigitValue(ds[|ds| - 1])
  }

  /** Length of the leading run of characters satisfying `p`. */
  function RunLength(s: string, p: char -> bool): (n: nat)
    ensures n <= |s|
    ensures forall i :: 0 <= i < n ==> p(s[i])
    ensures n < |s| ==> !p(s[n])
  {
    if s == [] || !p(s[0]) then 0 else 1 + RunLength(s[1..], p)
  }

  /** `tag(t)`: consumes `t` when the input starts with it. */
  function Tag(s: string, t: string): (r: Option<string>)
    ensures r.Some? <==> t <= s
    ensures r.Some? ==> s == t + r.value
  {
    if t <= s then Some(s[|t|..]) else None
  }

  /** The decimal digits of `n`, most significant first, with no leading zero. */
  function Decimal(n: nat): (ds: string)
    ensures |ds| > 0 && AllDigits(ds) && DecimalValue(ds) == n
    ensures |ds| > 1 ==> ds[0] != '0'
  {
    var d := ['0' + (n % 10) as char];
    if n < 10 then d
    else
      var hi := Decimal(n / 10);
      var ds := hi + d;
      assert ds[..|ds| - 1] == hi;
      ds
  }

  /** A leading run of characters satisfying `p`, followed by one that does not, is
      exactly what `RunLength` measures. */
  lemma {:induction false} RunLengthPrefix(run: string, rest: string, p: char -> bool)
    requires forall i :: 0 <= i < |run| ==> p(run[i])
    requires rest == [] || !p(rest[0])
    ensures RunLength(run + rest, p) == |run|
  {
    if run != [] {
      assert (run + rest)[1..] == run[1..] + rest;
      RunLengthPrefix(run[1..], rest, p);
    } else {
      assert run + rest == rest;
    }
  }

  /** A number written in decimal and followed by a non-digit reads back as itself. */
  lemma UIntDecimal(n: nat, rest: string, max: nat)
    requires n <= max
    requires rest == [] || !IsDigit(rest[0])
    ensures UInt(Decimal(n) + rest, max) == Some((n, rest))
  {
    var ds := Decimal(n);
    RunLengthPrefix(ds, rest, IsDigit);
    assert (ds + rest)[..|ds|] == ds;
    assert (ds + rest)[|ds|..] == rest;
  }

  /** The complete-input unsigned-integer recogniser: at least one digit, the maximal
      digit run is consumed, and a value above `max` (the type's largest) fails. */
  function UInt(s: string, max: nat): (r: Option<(nat, string)>)
    ensures r.Some? ==> r.value.0 <= max && |r.value.1| < |s|
  {
    var k := RunLength(s, IsDigit);
    if k == 0 then None
    else
      var v := DecimalValue(s[..k]);
      if v > max then None else Some((v, s[k..]))
  }

  /** The complete-input `alpha1` recogniser: the maximal run of ASCII letters, at
      least one. */
  function Alpha1(s: string): (r: Option<(string, string)>)
    ensures r.Some? ==> |r.value.0| > 0 && s == r.value.0 + r.value.1
    ensures r.Some? ==> forall i :: 0 <= i < |r.value.0| ==> IsAlpha(r.value.0[i])
    ensures r.Some? ==> r.value.1 == [] || !IsAlpha(r.value.1[0])
    ensures r.None? <==> (s == [] || !IsAlpha(s[0]))
  {
    var k := RunLength(s, IsAlpha);
    if k == 0 then None else Some((s[..k], s[k..]))
  }

  /** What `UInt` reads: the maximal leading digit run, at least one digit, as its
      decimal value. */
  lemma UIntReads(s: string, max: nat)
    requires UInt(s, max).Some?
    ensures var r := UInt(s, max).value;
            exists k :: 0 < k <= |s| && s[k..] == r.1 && AllDigits(s[..k])
                        && DecimalValue(s[..k]) == r.0
                        && (k == |s| || !IsDigit(s[k]))
  {
    var k := RunLength(s, IsDigit);
    assert s[k..] == UInt(s, max).value.1;
  }

  /** `str::parse` of an unsigned integer type: the whole string, an optional `'+'`,
      then at least one digit, with a value at most `max`. */
  function ParseUIntStr(s: string, max: nat): (r: Option<nat>)
    ensures r.Some? ==> r.value <= max
  {
    var ds := if |s| > 0 && s[0] == '+' then s[1..] else s;
    if ds == [] || !AllDigits(ds) then None
    else
      var v := DecimalValue(ds);
      if v > max then None else Some(v)
  }

  /** `map(f).collect::<Result<Vec<_>>>()`: every item's value, or `None` when some
      item fails. */
  function CollectAll<A, B>(xs: seq<A>, f: A -> Option<B>): (r: Option<seq<B>>)
    ensures r.Some? ==> |r.value| == |xs| && forall i :: 0 <= i < |xs| ==> f(xs[i]) == Some(r.value[i])
    ensures r.None? <==> exists i :: 0 <= i < |xs| && f(xs[i]).None?
  {
    if xs == [] then Some([])
    else
      var rest := CollectAll(xs[1..], f);
      assert forall i :: 1 <= i < |xs| ==> xs[1..][i - 1] == xs[i];
      match f(xs[0])
      case None => None
      case Some(y) =>
        if rest.None? then
          var i :| 0 <= i < |xs[1..]| && f(xs[1..][i]).None?;
          assert xs[i + 1] == xs[1..][i];
          None
        else Some([y] + rest.value)
  }

  /** A number written in decimal parses back as itself. */
  lemma ParseUIntDecimal(n: nat, max: nat)
    requires n <= max
    ensures ParseUIntStr(Decimal(n), max) == Some(n)
  {
    var ds := Decimal(n);
    assert IsDigit(ds[0]);
  }

  const U8_MAX: nat := 0xFF
  const U16_MAX: nat := 0xFFFF
  const U32_MAX: nat := 0xFFFF_FFFF
  const U64_MAX: nat := 0xFFFF_FFFF_FFFF_FFFF
}
